=== FILE: README.md ===
# PIF front end, modelled in Dafny

PIF is a toy compiled language. Its front end reads `.pif` source files, lexes and parses them into
abstract syntax trees, type-checks the definitions of each package, and resolves imports between
packages before handing the checked package to an LLVM code generator. This project models that
front end — everything before code generation — as pure functions over immutable values, and
proves what each stage promises.

Two generations of the front end are modelled side by side:

- the current one (`src/`): lexer with maximal-munch operators, precedence-climbing parser with
  prefix operators, a type store with interning tables, the semantic analyser in its two variants
  (`src/typecheck/types.cpp`, comparing types by object identity and throwing errors, and
  `src/types.cpp`, comparing structurally and returning null), the package resolver with its
  registry of complete and incomplete packages, the pretty-printer, error chains and the
  command-line argument parser;
- the older one (`src-v1/`): a lexer with a different operator rule, a parser without prefix
  operators, trivial typing rules, a single-file package loader and its printer.

## Layout

| file | module | what it holds |
|---|---|---|
| wrappers.dfy | Wrappers | `Option` and `Result` |
| text.dfy | Text | decimal rendering, digit prefixes, `.`-separated names |
| errors.dfy | Errors | `FTag`, the three error classes and `disp` |
| args.dfy | Args | `ArgParser` |
| scanner.dfy | Scanner | a reading position over the input text and the blank/comment skippers |
| lexer.dfy | Lexer | `gettok` of the current lexer, tokens, token streams |
| types.dfy | Types | type objects as ids into a store, the interning `Get` tables, `eq`, `typeDescStr`, the conversion choice of `castCodegen` |
| ast.dfy | Ast | expression and statement nodes with their memo state |
| scope.dfy | Scope | `Symbol`, frames, `Context`, name lookup |
| parser.dfy | Parser | precedence table and every `Parse*` function of the current parser |
| parser_facts.dfy | ParserFacts | properties of the parser |
| analyser.dfy | Analyser | `type()`, `asType`, every `getType`, definition checks |
| analyser_facts.dfy | AnalyserFacts | the typing rules, one lemma per rule |
| coercion_facts.dfy | CoercionFacts | what each rule does with a value that must be coerced, and how coercion, casts and arithmetic follow chains of dereferences |
| package.dfy | Packages | the package registry, `inputFile`, `import`, `typeCheck`, `importAndRunMain` |
| package_facts.dfy | PackageFacts | check order, file filtering, name handling |
| printer.dfy | Printer | `prettyprint` of the current front end |
| v1_lexer.dfy, v1_ast.dfy, v1_parser.dfy, v1_parser_facts.dfy, v1_package.dfy, v1_printer.dfy | V1Lexer, V1Ast, V1Parser, V1ParserFacts, V1Package, V1Printer | the older pipeline |

## How the model is built

- **Streams.** Source text is a `string`; the lexer is a state (`LexState`) holding a reading
  position (`Cursor`), the current token kind and text, and the line counter. The initial
  lookahead character of the C++ lexer is a blank put in front of the text. The parser reads a
  `seq<Token>`, each token being the snapshot (`kind`, `tokStr`, numeric text, `tag()`) the
  parser would see after one `gettok`; reading past the end yields EOF.
- **Type objects.** Types are ids into a `Store`: the list of type objects plus the four interning
  tables of `src/codegen-type.cpp`. Ids 0–4 are the five global singletons of `src/types.cpp`.
  Object identity is id equality, `eq` is a structural relation over the store, and a
  non-interned type (a sized integer from the parser, a prototype) is simply a new id.
- **Analyser state.** The memo of each expression node (not visited, in progress, cached,
  context) lives in the nodes themselves, which the analyser returns rebuilt; scopes are a stack
  of frames. The analyser takes a `Mode`: `ByIdentity` for `src/typecheck/types.cpp`, `ByStructure`
  for `src/types.cpp`. An outcome is a type, no type (with a diagnostic), a thrown error, or a
  crash (a null dereference in the C++ or an error thrown by value that no handler catches).
- **Recursion bounds.** The analyser and the package resolvers take a `fuel` argument; running out
  is a distinct outcome (`Exhausted`, `OutOfFuel`) rather than a result of the C++.
- **Environment.** File contents, directory listings, the back end's `build` result and its
  `init` effect are parameters (`Env`, `Gen`), never computed.

Where the code and its informal description disagree, the model follows the code:

- the constructor of the current lexer scans the first token before installing the two-character
  operators, so an operator at the very start of a file is one character long;
- `src-v1/Parser.h` hands `||` and `&&` to a `setBiopPrec` that no file of the older front end
  declares; the model assumes it does not reach `setBinopPrec`, so in the older parser those
  operators have no precedence (see `V1Parser.Prec` under "Left out");
- `ParseBlock` in the older parser does not check that the block starts with `{`;
- the older parser leaves a null operand behind when a call's argument list fails;
- the older printer prints `t_??` for `bool` and has no guard for null arguments or operands.

## Model

| member | source | states |
|---|---|---|
| Text.NatToStrRoundTrip | src/Lexer.h:48-52 | a line number is written in decimal, and reading the digits back gives the number: the rendering loses nothing |
| Text.IntToStr | src/Lexer.h:50 | a written integer starts with '-' exactly when it is negative, and a non-negative one is its plain digit string (so the default tag's line -1 is written "-1") |
| Text.DigitRun | src/Lexer.cpp:63-64 | the prefix `atol` reads is the longest run of decimal digits: everything before the cut is a digit and the character at the cut is not |
| Text.Split | src/Package.cpp:177-183 | splitting a name on '.' gives at least one segment and no segment contains '.' |
| Text.JoinSplit | src/Package.cpp:174-183 | re-joining the segments of a name with '.' gives the name back, empty segments included |
| Text.SplitJoin | src/Package.cpp:75-81 | joining '.'-free segments with '.' and splitting the result gives the segments back, so the canonical package name determines its path |
| Errors.FTag.Str | src/Lexer.h:48-52 | a tag is written "[" + file + ":" + line, and ends with " near '" + token text + "']" |
| Errors.FTag.StrShowsLine | src/Lexer.h:48-52 | between "[file:" and " near '" the tag shows exactly the decimal rendering of its line, so the line can be read back |
| Errors.Error.OwnLine | src/error.h:16-42 | each error's own line is a heading then " \t" then its message; the heading is "[error]" for a PIFError, "[internal error]" for an InternalError and the tag's rendering for a LangError |
| Errors.Chain | src/error.h:12-15 | the chain of causes starts at the error and has length one exactly when no cause was given |
| Errors.Disp | src/error.h:16-19 | the last line displayed is the error's own line |
| Errors.DispInnermostFirst | src/error.h:16-42 | display prints one line per error of the chain, the i-th line being the i-th error counted from the innermost cause: causes come first, the outermost wrapper last |
| Args.Find | src/util.cpp:36 | `find` stops at the first occurrence, or at the end when there is none |
| Args.New | src/util.cpp:29-33 | the binary name followed by the parameters is exactly argv, and no option is recorded |
| Args.NewHasNoOptions | src/util.cpp:61-67 | before any registration every flag reads as absent and every string option as "" |
| Args.AddBool | src/util.cpp:35-41 | an absent flag changes nothing; a present one is recorded and exactly one parameter is removed; string options are untouched |
| Args.AddBoolRemovesFirst | src/util.cpp:35-41 | only the first occurrence of the flag leaves the parameters, the ones before and after stay in order, and the flag then reads as set |
| Args.AddBoolGet | src/util.cpp:35-41 | after `addBool` the flag reads as set exactly when it was a parameter or already set; other flags read as before |
| Args.AddBoolMultiset | src/util.cpp:35-41 | the parameters lose one copy of the flag when it is present and nothing else |
| Args.AddStr | src/util.cpp:43-55 | the option is registered and no other option changes; the parameters are either unchanged or two shorter |
| Args.AddStrTakesValue | src/util.cpp:43-55 | a flag followed by a parameter takes that parameter as its value, and both leave the parameter list |
| Args.AddStrLastKeeps | src/util.cpp:48-54 | a flag that is the last parameter stays in the list and the option keeps its default |
| Args.AddStrAbsent | src/util.cpp:43-46 | an absent flag leaves the parameters alone and the option reads as its default |
| Args.AddStrMultiset | src/util.cpp:43-55 | the parameters lose exactly the flag and its value when a value follows, and nothing otherwise |
| Args.GetBool | src/util.cpp:60-62 | a flag reads as set exactly when it was recorded |
| Args.GetStr | src/util.cpp:64-66 | a registered option reads as its recorded value, and any other name as "" |
| Scanner.Start | src/Lexer.cpp:8-10 | reading starts on line 1 with a blank lookahead in front of the text |
| Scanner.Read | src/Lexer.cpp:25 | reading advances by one character, and at end of input stays put |
| Scanner.SkipSpace | src/Lexer.cpp:23-26 | the skipped text is all whitespace, reading stops at a non-blank, and the line counter grows by exactly the number of '\n' skipped |
| Scanner.ReadWhile | src/Lexer.cpp:29-31 | a word is the first character and every following character that satisfies the class, up to the first that does not; the line is unchanged |
| Scanner.SkipComment | src/Lexer.cpp:66-69 | a comment discards characters up to, not including, the next '\n', '\r' or end of input, and leaves the line counter alone |
| Scanner.SpaceLines | src/Lexer.cpp:23-26 | skipping blanks keeps the line counter plus the newlines still ahead constant: each skipped '\n' is counted once |
| Scanner.CommentLines | src/Lexer.cpp:66-69 | skipping a comment keeps the line counter plus the newlines still ahead constant |
| Lexer.WordKind | src/Lexer.cpp:33-54 | a word is a keyword kind exactly when its text is one of the 19 reserved words, and an identifier otherwise; it is never EOF, a number or an operator |
| Lexer.ScanWord | src/Lexer.cpp:28-54 | a word is the maximal run of letters, digits and '_' from a letter or '_', its kind is given by the keyword table, and the line does not change |
| Lexer.ScanNumber | src/Lexer.cpp:55-65 | a number is the maximal run of digits and '.', it is a float token exactly when the run contains '.', and the run is the text `atof`/`atol` read |
| Lexer.ExtendOp | src/Lexer.cpp:77-86 | an operator grows one character at a time while the grown text is a known operator, and the next character would not extend it (it stays as lookahead) |
| Lexer.ScanOperator | src/Lexer.cpp:74-87 | any other character starts an operator token whose text is consumed exactly, each longer prefix being a known operator, and whose lookahead would not extend it |
| Lexer.ScanToken | src/Lexer.cpp:28-87 | after the blanks, a token consumes its text exactly (a comment aside), makes progress unless it is EOF, and has empty text only at end of input |
| Lexer.GetTok | src/Lexer.cpp:20-89 | `gettok` resets the token text, and what it consumes is the skipped blanks followed by the token text (unless a comment intervened); it advances unless the token is EOF |
| Lexer.EndIsEof | src/Lexer.cpp:72-73 | at end of input the token is EOF, with empty text |
| Lexer.GetTokLines | src/Lexer.cpp:20-89 | the line counter plus the newlines still ahead is the same before and after `gettok`: every newline passed is counted exactly once |
| Lexer.CommentAtEnd | src/Lexer.cpp:66-71 | a comment that runs to end of input leaves the previous token kind and number, with empty token text |
| Lexer.GetTokOperator | src/Lexer.cpp:74-87 | a character that is not blank, word, number or '#' always starts an operator token |
| Lexer.FirstOperatorIsOneChar | src/Lexer.cpp:8-18 | the constructor scans the first token with no multi-character operator installed, so an operator at the very start of a file is one character long |
| Lexer.TwoCharOperator | src/Lexer.cpp:74-87 | once constructed, the lexer reads each of "==", "!=", ">=", "<=", "->" as a single operator token |
| Lexer.GetTokProgress | src/Lexer.cpp:20-89 | every token other than EOF shortens the input still to read |
| Lexer.Tokens | src/Lexer.cpp:20-89 | the token stream of a lexer starts with its current token and ends with EOF, with no EOF before the end |
| Lexer.NewLexer | src/Lexer.cpp:8-18 | the new lexer keeps its file name and the table of multi-character operators, its cursor has moved forward from the start of the text, and an empty first token means the input is used up |
| V1Lexer.WordKind | src-v1/Lexer.cpp:27-41 | a word is a keyword kind exactly when its text is one of the 12 reserved words of this lexer, and an identifier otherwise |
| V1Lexer.NewerKeywordsAreNames | src-v1/Lexer.cpp:27-41 | var, then, else, do, until and break are plain identifiers here |
| V1Lexer.FTag.Str | src-v1/Lexer.h:39-43 | a tag is written "[" + file + ":", then exactly the decimal rendering of the line, then "]" |
| V1Lexer.ScanWord | src-v1/Lexer.cpp:22-41 | a word is the maximal run of letters, digits and '_' from a letter or '_', classified by the keyword table |
| V1Lexer.ScanNumber | src-v1/Lexer.cpp:42-52 | a number is the maximal run of digits and '.', a float exactly when the run contains '.' |
| V1Lexer.ScanOperator | src-v1/Lexer.cpp:61-73 | an operator is its first character followed by every following character from {+,-,:,*,/,>,<}, up to the first that is not |
| V1Lexer.OperatorRun | src-v1/Lexer.cpp:61-73 | the operator token is exactly the maximal absorbing run, and reading resumes right after it |
| V1Lexer.RunUnique | src-v1/Lexer.cpp:64-72 | the maximal absorbing run is unique, so the operator rule is deterministic |
| V1Lexer.ArrowOneToken | src-v1/Lexer.cpp:64-72 | "->" is one token |
| V1Lexer.EqualsEqualsTwoTokens | src-v1/Lexer.cpp:64-72 | "==" is two "=" tokens |
| V1Lexer.ParenMinusOneToken | src-v1/Lexer.cpp:64-72 | "(-" is one token |
| V1Lexer.ScanToken | src-v1/Lexer.cpp:22-73 | after the blanks, a token consumes its text exactly (a comment aside), makes progress unless it is EOF, and has empty text only at end of input |
| V1Lexer.GetTok | src-v1/Lexer.cpp:14-75 | what `gettok` consumes is the skipped blanks followed by the token text, unless a comment intervened |
| V1Lexer.EndIsEof | src-v1/Lexer.cpp:59-60 | at end of input the token is EOF, with empty text |
| V1Lexer.CommentAtEnd | src-v1/Lexer.cpp:53-58 | a comment running to end of input leaves the previous token kind, with empty text |
| V1Lexer.GetTokLines | src-v1/Lexer.cpp:17-20 | the line counter plus the newlines still ahead is kept by `gettok` |
| V1Lexer.FirstTokenLine | src-v1/Lexer.cpp:8-12 | lines count from 1: after the constructor, the line counter plus the newlines ahead is one more than the newlines of the text |
| V1Lexer.NewLexer | src-v1/Lexer.cpp:8-12 | the new lexer keeps its file name, its cursor has moved forward from the start of the text, and an empty first token means the input is used up |
| V1Lexer.GetTokProgress | src-v1/Lexer.cpp:14-75 | every token other than EOF shortens the input still to read |
| V1Lexer.Tokens | src-v1/Lexer.cpp:14-75 | the token stream starts with the current token and ends with its only EOF |
| Types.InitialStoreWF | src/types.cpp:10-12 | the five global type objects form a well-formed store with empty interning tables |
| Types.Alloc | src/AST-type.h:79-114 | a new type object gets the next id and leaves every existing object unchanged |
| Types.RefGet | src/codegen-type.cpp:14-20 | `RefTypeAST::Get` yields a reference to the pointee, recorded in the table; a second request returns the same object and changes nothing; no other table changes |
| Types.BaseGet | src/codegen-type.cpp:22-28 | one object per base kind: the first request creates it, later ones return it unchanged |
| Types.IntGet | src/codegen-type.cpp:30-37 | integer types are interned under size*2 + signedness: a hit returns the stored object, a miss creates an integer object with exactly that size and sign |
| Types.IntKeyInjective | src/codegen-type.cpp:32 | two (size, signed) pairs with the same key are equal, so distinct pairs never collide |
| Types.IntGetIdempotent | src/codegen-type.cpp:30-37 | asking twice for the same integer type returns the same object and store |
| Types.IntGetDistinct | src/codegen-type.cpp:30-37 | different (size, signed) pairs get different objects |
| Types.IntDesc | src/types.cpp:48-52 | an integer type is described as 's' (signed) or 'i' (unsigned), its size in decimal, then 'i' |
| Types.IntDescInjective | src/types.cpp:48-52 | different integer types have different descriptions |
| Types.U8IDesc | src/types.cpp:48-52 | the global unsigned 8-bit type is described "i8i", not "u8i" |
| Types.DescStr | src/types.cpp:37-69 | a description is never empty, and its first character tells references (`&`), packages (`{`) and function types (`(`) apart from every other kind |
| Types.FuncGet | src/codegen-type.cpp:39-56 | function types are interned under a key built from the argument names and descriptions and the return description: a hit returns the stored object and leaves the store alone (the caller's arguments are dropped), a miss creates the function object; only that key's table entry changes |
| Types.FuncKeyNamesMatter | src/codegen-type.cpp:41-46 | signatures that differ only in an argument name have different keys |
| Types.FuncNamesIgnoredByEq | src/codegen-type.cpp:39-56 | interning two signatures that differ only in an argument name gives two distinct objects that `eq` nevertheless relates |
| Types.DescStable | src/types.cpp:37-66 | creating further type objects never changes the description of an existing one |
| Types.FuncKeyStable | src/codegen-type.cpp:41-46 | creating further type objects never changes the interning key of an existing signature |
| Types.EqRefl | src/types.cpp:70-105 | every type is `eq` to itself |
| Types.Eq | src/types.cpp:70-108 | `eq` relates only existing objects of the same kind: base and integer types only to equal ones, a package only to itself, a function type only to one of the same arity, a reference only to a reference |
| Types.EqSym | src/types.cpp:70-105 | `eq` is symmetric |
| Types.CastChoiceSound | src/codegen-type.cpp:91-124 | the conversion chosen always fits the two types, and any conversion that fits is the one chosen: a float target takes only integers (sign of the source), an integer target takes integers (its own sign) and floats (its own sign), any other target only an `eq` type |
| Types.FloatToFloatRefused | src/codegen-type.cpp:98-102 | a float-to-float cast is refused |
| Types.CanDeref | src/typecheck/types.cpp:61-69 | `canDeref` holds only of a reference whose pointee exists |
| Types.CastChoice | src/codegen-type.cpp:91-124 | a conversion is chosen only between existing types, and the identity only between `eq` types |
| Scope.Fail | src/types.cpp:16-19 | a type error is thrown as a LangError with the node's tag and message by the identity-comparing analyser, and becomes "no type" with that message in the structural one |
| Scope.Lookup | src/typecheck/types.cpp:147-161 | frames are searched from the innermost out: the frame found binds the name and no inner frame does, and nothing is found exactly when no frame binds it |
| Scope.PushFrame | src/typecheck/types.cpp:421-425 | a new frame goes on top of the stack and nothing else changes |
| Scope.Insert | src/typecheck/types.cpp:442 | inserting into a frame never overwrites: a name already bound keeps its first symbol, a new one gets the new symbol, and the other frames are untouched |
| Scope.NewSym | src/Package.h:22-25 | a new symbol is appended and every existing symbol keeps its id |
| Scope.ArgSyms | src/Package.h:26-30 | a parameter's symbol has no definition and the parameter's type |
| Scope.ArgFrameSpec | src/typecheck/types.cpp:485-491 | the parameter frame binds every parameter name, and a repeated name keeps its first parameter |
| Scope.TypeAtDef | src/typecheck/types.cpp:548-560 | the usage type of a definition: none for an untyped let/var, the declared type for a typed let, and a reference to exactly the declared type for a var, to the signature for a function and to the declared type for an extern (none for a function whose value is not a literal); it exists exactly when the store is well formed and that type exists; the store only grows |
| Scope.SetSigned | src/typecheck/types.cpp:265-269 | making an integer type signed in place changes that one object, keeps its size, and leaves every other object alone |
| Analyser.TypeOf | src/typecheck/types.cpp:14-24 | a node keeps the first context it is given; its type is computed at most once and cached in the node; asking again returns the cached type unchanged, or the dependency-loop error when the first computation is in progress or gave no type |
| Analyser.AsType | src/typecheck/types.cpp:83-131 | a successful conversion of an ordinary node has the target type; an integer literal converts only to an integer type (by retargeting its own type) or to float (by becoming a float literal) |
| Analyser.AsDeref | src/typecheck/types.cpp:90-95 | a conversion reached through dereferencing has the target type |
| Analyser.AsExtern | src/typecheck/types.cpp:116-131 | an extern converts only to a reference type, and an untyped extern becomes one of exactly the target type |
| Analyser.AsTypeOrError | src/typecheck/types.cpp:71-82 | the identity-comparing analyser never returns a null conversion, raising instead; whenever it does not raise, and in the structure-comparing analyser always, the result is that of `asType`; a stopped conversion is a raised error or an abort |
| Analyser.GetType | src/typecheck/types.cpp:135-498 | a loop, a block, a return and break/continue have type void; a cast has its target type; a comparison has type bool; a dereference stays a dereference |
| Analyser.VarRule | src/typecheck/types.cpp:147-169 | resolution changes neither the analysis state nor the name; a name bound in scope resolves to the innermost binding's symbol and takes that symbol's type |
| Analyser.DerefRule | src/typecheck/types.cpp:170-182 | the node stays a dereference, null exactly when its operand was, and its type is never a function type |
| Analyser.UnaryRule | src/typecheck/types.cpp:183-202 | the node keeps its operator and is null-operand exactly when it was, and only `!` and `-` yield a type |
| Analyser.AssignRule | src/typecheck/types.cpp:203-224 | the node stays an assignment, and a typed assignment has a right side |
| Analyser.ArithRule | src/typecheck/types.cpp:225-284 | the node keeps its operator, and a comparison has type bool |
| Analyser.ArithTyped | src/typecheck/types.cpp:244-279 | a comparison has type bool; any other operator has the type of one of its operands |
| Analyser.DotRule | src/typecheck/types.cpp:285-299 | the node stays a member access, and a typed one has its member name cleared |
| Analyser.CastRule | src/typecheck/types.cpp:300-349 | the node stays a cast to the same type, and a typed cast has exactly that type |
| Analyser.CastLoop | src/typecheck/types.cpp:317-347 | the explicit-cast loop yields no type other than the cast's target type |
| Analyser.CallRule | src/typecheck/types.cpp:350-380 | the node stays a call with as many arguments as it had |
| Analyser.CallArgs | src/typecheck/types.cpp:364-373 | checking the arguments keeps their number |
| Analyser.IfRule | src/typecheck/types.cpp:381-404 | the node stays a conditional, and a typed one has an else-branch exactly when it had one |
| Analyser.WhileRule | src/typecheck/types.cpp:405-415 | the node stays a loop of the same kind (while or until), and its type is void |
| Analyser.ReturnRule | src/typecheck/types.cpp:449-473 | the node stays a return, its type is void, and outside a function it aborts |
| Analyser.BlockRule | src/typecheck/types.cpp:421-448 | the block keeps its statement count; on its first computation its context gains exactly one frame; a typed block is void and owns its context |
| Analyser.BlockStmts | src/typecheck/types.cpp:426-445 | checking the statements keeps their number, and a block that passes is void |
| Analyser.FuncRule | src/typecheck/types.cpp:479-498 | the node keeps its signature, and a typed function literal owns its context and has the reference type to its signature |
| Analyser.StmtCheck | src/typecheck/types.cpp:542-544 | an expression statement stays one with its tag, a definition keeps its name and whether it is a let/var; the identity-comparing analyser never reports a plain failure; a raised outcome is an error or an abort |
| Analyser.DefCheck | src/typecheck/types.cpp:500-541 | a definition keeps its kind, tag and name; the identity-comparing analyser never reports a plain failure; a raised outcome is an error or an abort |
| AnalyserFacts.TypeComputedOnce | src/typecheck/types.cpp:14-24 | computing a node's type a second time, in any context and state, returns the first result when it was a type, and the dependency-loop error otherwise |
| AnalyserFacts.FirstContextKept | src/typecheck/types.cpp:17 | once a node has a context, the context passed later makes no difference |
| AnalyserFacts.BreakContAlwaysVoid | src/typecheck/types.cpp:416-419 | break and continue are void and nothing is checked about them |
| AnalyserFacts.VarResolvesInnermost | src/typecheck/types.cpp:147-161 | a name resolves to its innermost binding and takes that symbol's type; the reference is a global constant exactly when the binding is a let in frame 0 |
| AnalyserFacts.VarNotYetTyped | src/typecheck/types.cpp:151-153 | a bound symbol that has no type yet is "cannot be used here" |
| AnalyserFacts.VarUnbound | src/typecheck/types.cpp:162-167 | a name no frame binds is the imported package of that alias when there is one, and "not found" otherwise |
| AnalyserFacts.AsTypeKeepsMatchingNode | src/typecheck/types.cpp:87-88 | a node whose type already matches converts to itself |
| AnalyserFacts.AsTypeInsertsDeref | src/typecheck/types.cpp:90-92 | a reference to a non-function converts to its pointee type by one inserted Deref node |
| AnalyserFacts.AsTypeRefusesUnrelated | src/typecheck/types.cpp:71-98 | a node whose type neither matches nor dereferences does not convert, and `asTypeOrError` then throws "cannot use value of type ... as type ..." |
| AnalyserFacts.IntLitCoercionKeepsStaleType | src/typecheck/types.cpp:100-108 | an integer literal converts to any integer type by retargeting its own type, with no width check, yet its already-cached type is what `type()` goes on returning |
| AnalyserFacts.IntLitToFloat | src/typecheck/types.cpp:109-112 | an integer literal converts to float by becoming a float literal of the same value, typed float |
| AnalyserFacts.ExternNeedsReference | src/typecheck/types.cpp:119-120 | an extern does not convert to a non-reference type; the identity-comparing analyser throws "Extern values must be of reference type." |
| AnalyserFacts.TypedExternCoercion | src/typecheck/types.cpp:126-130 | a typed extern converts to a reference type, as itself, exactly when its type is the pointee, and is refused otherwise |
| AnalyserFacts.UntypedExternGetsPointee | src/typecheck/types.cpp:122-125 | an untyped extern converts to a reference type by becoming a new extern typed with the pointee |
| AnalyserFacts.DerefRuleSpec | src/typecheck/types.cpp:170-181 | a Deref is typed exactly when its operand is a reference to a non-function, and its type is the pointee |
| AnalyserFacts.DerefRefusals | src/typecheck/types.cpp:173-179 | dereferencing a non-reference and dereferencing a function reference fail with their two messages |
| AnalyserFacts.UnaryRuleSpec | src/typecheck/types.cpp:183-201 | '!' accepts exactly bool and '-' exactly ints and float, each yielding the operand type; any other operator is "Unknown unary operator" |
| AnalyserFacts.AssignRuleSpec | src/typecheck/types.cpp:204-215 | assignment needs a reference on the left, and a right side of the pointee type is accepted as is and gives the pointee type |
| AnalyserFacts.AssignIntLiteralStaleType | src/typecheck/types.cpp:213-218 | assigning an integer literal to a reference to a different integer type fails with "Internal error 234666", because the literal's cached type is stale after retargeting |
| AnalyserFacts.ArithWidensRight | src/typecheck/types.cpp:262-267 | for two different integer types with the left one at least as wide, the right side is cast to the left type, the left type is made signed in place if the right one is signed, and the result is the left type (bool for comparisons) |
| AnalyserFacts.ArithWidensLeft | src/typecheck/types.cpp:268-272 | for two different integer types with the right one wider, the left side is cast to the right type, made signed in place if the left one is signed, and the result is the right type (bool for comparisons) |
| AnalyserFacts.ArithFloatWithInt | src/typecheck/types.cpp:251-261 | a float mixed with an integer converts the integer side to float, which succeeds only for an integer literal; the result is float (bool for comparisons) |
| AnalyserFacts.LogicalOperatorsRefused | src/typecheck/types.cpp:280-282 | every binary operator other than '=', the arithmetic ones and the comparisons (the logical and and or included) is "Unknown or unimplemented operator" |
| AnalyserFacts.DotNeedsPackage | src/types.cpp:331-333 | '.' on anything but a package is refused |
| AnalyserFacts.DotMemberSpec | src/types.cpp:321-330 | '.' on a package looks the member up in that package's own frame, takes its type, and clears the member name |
| AnalyserFacts.CastToSameType | src/typecheck/types.cpp:304-308 | a cast to the operand's own type needs no conversion (NeedCast false) and has the target type |
| AnalyserFacts.CastBetweenKinds | src/typecheck/types.cpp:317-347 | for a typed operand that is neither an integer literal nor an extern, whose type is not the target and does not dereference: a cast between integer and float kinds is accepted with the target type, node and state unchanged; any other such cast gives no type with "impossible cast from ... to ..." (an operand that dereferences is covered by `CoercionFacts.CastAcceptedThroughDerefs`) |
| AnalyserFacts.CallArgsMatching | src/typecheck/types.cpp:364-373 | arguments whose types already match the parameters are left as they are |
| AnalyserFacts.CallTyped | src/typecheck/types.cpp:350-374 | a call of a function reference with matching argument count and types has the function's return type |
| AnalyserFacts.CallRefused | src/typecheck/types.cpp:358-378 | calling a non-function, or with the wrong number of arguments, fails with the corresponding message |
| AnalyserFacts.IfNeedsBool | src/types.cpp:417-420 | an `if` whose condition is not bool fails |
| AnalyserFacts.IfWithoutElse | src/types.cpp:422-427 | without else, the `if` is typed (with the then-type) exactly when the then-branch is void |
| AnalyserFacts.IfWithElse | src/types.cpp:429-438 | with branches of the same type, the `if` has the then-branch's type |
| AnalyserFacts.WhileRuleSpec | src/types.cpp:441-450 | a loop is void when its condition is bool and fails otherwise |
| AnalyserFacts.ReturnRuleSpec | src/types.cpp:484-507 | a bare return is void exactly when the function returns void; a value of the return type is void; outside any function the null function context crashes |
| AnalyserFacts.ReturnIntLiteralStaleType | src/typecheck/types.cpp:456-463 | returning an integer literal from a function of a different integer type fails with "Internal error #4525426" |
| AnalyserFacts.BlockFrame | src/types.cpp:457-461 | a block pushes a frame only on its first computation; an empty block is void |
| AnalyserFacts.BlockBindsAfterCheck | src/types.cpp:462-479 | each definition is bound in the block's frame right after its own check, so only later statements see it, and a repeated name keeps the first symbol |
| AnalyserFacts.FuncLitBindsParameters | src/types.cpp:514-530 | a function literal binds its parameters in one new frame, records its return type as the function context, and has a reference-to-function type |
| AnalyserFacts.UntypedDefTakesInitType | src/types.cpp:535-573 | an untyped let or var takes the type of its initializer, and an untyped let's usage type is then that type |
| AnalyserFacts.TypedDefMatching | src/types.cpp:543-549 | a typed definition whose initializer already has the declared type passes unchanged |
| AnalyserFacts.DefInitializerRaised | src/typecheck/types.cpp:503-508 | an error raised by the initializer is wrapped in "Cannot determine type of value for ..." with the original as its cause |
| Analyser.DerefAll | src/typecheck/types.cpp:231-240 | the dereferencing loop of an arithmetic operand stops only at a type that no longer dereferences |
| CoercionFacts.AssignCoercesRight | src/typecheck/types.cpp:211-222 | a right side whose type is not the pointee of the left side's is coerced to the pointee: a stopped coercion stops the assignment with the coercion's own outcome; a refusal (structure-comparing analyser only) leaves a null right side and fails with "Cannot affect 'rt' to 'lt'."; a conversion is in place and a typed assignment has the pointee type; a conversion of anything but an integer literal or a typed extern always gives a typed assignment with the coercion's state |
| CoercionFacts.IfElseCoerces | src/typecheck/types.cpp:397-403 | an else-branch whose type is not the then-branch's is coerced to it: a conversion gives exactly the then-type, the converted branch in place and the coercion's state; a refusal (structure-comparing analyser only, src/types.cpp:432-437) leaves a null else-branch and fails with "must be of same type"; a stopped coercion stops the `if` |
| CoercionFacts.ReturnCoerces | src/typecheck/types.cpp:455-466 | a returned value whose type is not the function's return type is coerced with `asType`: a refusal leaves a value-less return and fails with "does not return correct type value."; a stopped coercion stops the return; a conversion keeps a value, and one of anything but an integer literal or a typed extern makes the return void-typed with the coercion's state |
| CoercionFacts.TypedDefCoerces | src/typecheck/types.cpp:512-520 | a typed let/var whose initializer has another type coerces it to the declared type: a conversion passes with exactly the converted initializer in place and the coercion's state; a refusal fails (structure-comparing analyser, src/types.cpp:543-546); a stopped coercion is raised, wrapped with the definition's name by the identity-comparing analyser |
| CoercionFacts.CallArgCoerces | src/typecheck/types.cpp:364-372 | an argument whose type is not its parameter's is coerced: a conversion is put in its place and checking goes on with the next argument in the coercion's state; a refusal (structure-comparing analyser only) stops with "Wrong type for argument NAME."; a stopped coercion stops the call |
| CoercionFacts.CallArgsCoerced | src/typecheck/types.cpp:364-373 | when every argument from a position on has its parameter's type or converts to it without changing the state, checking passes, keeps the state and the earlier arguments, and leaves each later argument replaced by exactly its coercion |
| CoercionFacts.CallTypedWithCoercion | src/typecheck/types.cpp:350-375 | a call to a function reference whose arguments each match or convert has the function's return type, the state unchanged, the callee kept and every argument replaced by its coercion |
| CoercionFacts.DerefChain | src/typecheck/types.cpp:90-91 | the type reached by n dereferences: the type itself for none, and each step dereferences a type that `canDeref`, ending at a type that exists |
| CoercionFacts.AsTypeThroughDerefs | src/typecheck/types.cpp:83-98 | `asType` of a typed node that is neither an integer literal nor an extern succeeds, leaving the state alone, whenever some number of dereferences of its type reaches the target type |
| CoercionFacts.AsTypeNoConvKeeps | src/typecheck/types.cpp:83-98 | a refused `asType` of a typed node that is neither an integer literal nor an extern hands back the node itself and leaves the state alone, however many dereferences it tried |
| CoercionFacts.CastLoopReachesNumeric | src/typecheck/types.cpp:317-340 | the explicit-cast loop accepts, with the target type and the state unchanged, a cast to a numeric type of a node some number of dereferences of whose type reach a numeric type |
| CoercionFacts.CastAcceptedThroughDerefs | src/typecheck/types.cpp:300-340 | a cast to a numeric type of a typed node some number of dereferences of whose type reach a numeric type is accepted with the target type, whether `asType` converts it or the loop dereferences it; only a stopped coercion stops it, with that coercion's outcome |
| CoercionFacts.DerefAllChain | src/typecheck/types.cpp:231-240 | the operand loop wraps a node of type t in exactly n more dereferences and gives the type n dereferences of t reach, when that is the first type that does not dereference, leaving the state alone |
| CoercionFacts.ArithDerefsOperands | src/typecheck/types.cpp:225-240 | both operands of an arithmetic or comparison operator are dereferenced as far as their types allow, and the operator's rule is then applied to the two dereferenced nodes and the types their chains reach |
| Parser.SetBinopPrec | src/Parser.h:65-67 | setting an operator's precedence binds that operator and leaves every other entry of the table as it was |
| Parser.BinopPrec | src/Parser.h:68-73 | a lookup yields either -1 or a positive level; it is positive exactly when the operator starts with an ASCII character and has a positive entry, and then it is that entry |
| Parser.Prec | src/Parser.h:39-59 | the fixed table gives a positive level only to non-empty operators registered by the parser's constructor |
| Parser.NamedType | src/Parser-type.cpp:20-30 | only a non-empty word names a type, and a base-type name denotes one of the shared global type objects |
| Parser.ParseType | src/Parser-type.cpp:9-36 | a type is parsed forward, its result is a node of the type store, and a word that is neither `(`, `&` nor a type name fails with "Invalid type definiton, starting by '...'." |
| Parser.ParseFuncArg | src/Parser-type.cpp:43-52 | an argument is a name followed by a type; its name is the current token, and a non-identifier fails with "Expected identifier for argument name." |
| Parser.ProtoArgs | src/Parser-type.cpp:60-70 | a non-empty argument list stops on `)` and every argument's type is in the store |
| Parser.ParsePrototype | src/Parser-type.cpp:57-81 | a prototype yields a function type that is the newest node in the store (prototypes are never shared) |
| Parser.ParseExtern | src/parser/expr.cpp:186-197 | `extern` must be followed by an identifier, else the named error; the extern node carries no type and allocates nothing |
| Parser.ParseDotMember | src/parser/expr.cpp:154-161 | `.` must be followed by an identifier, and the result is a member access on the given object with that name |
| Parser.ParsePrimary | src/parser/expr.cpp:54-70 | a primary expression moves forward through the tokens and never fails with the "Bad LHS." error |
| Parser.ParseExpression | src/parser/expr.cpp:77-92 | an expression moves forward through the tokens and never fails with the "Bad LHS." error |
| Parser.ParseBinOpLHS | src/parser/expr.cpp:97-103 | the left operand is absent exactly when the current token is one of the prefix operators `-`, `@`, `!`, and then nothing is consumed |
| Parser.ParseBinOpRHS | src/parser/expr.cpp:108-150 | the operator loop stops on the first token whose precedence is below the current level, always consumes a prefix operator it is given, and raises "Bad LHS." only when stopped before a missing operand |
| Parser.ParseCall | src/parser/expr.cpp:165-181 | a call node keeps its callee, and `()` yields no arguments |
| Parser.CallArgs | src/parser/expr.cpp:169-178 | a non-empty argument list ends on `)` |
| Parser.ParseIfThenElse | src/parser/expr.cpp:202-219 | a conditional carries the tag of its `if`, and it has no else-branch only when no `else` follows the then-branch |
| Parser.ParseWhile | src/parser/expr.cpp:224-236 | a loop carries the tag of its keyword and is an until-loop exactly when the keyword was `until` |
| Parser.ParseBlock | src/parser/expr.cpp:240-258 | a block consumes up to and including its closing `}` and does not open a context of its own |
| Parser.BlockStmts | src/parser/expr.cpp:243-255 | the statement list stops on `}`, and an immediately closed block has no statements |
| Parser.ParseVarDefinition | src/Parser-stmt.cpp:35-62 | a definition records `var` versus `let`, the name after the keyword, and a declared type exactly when a `:` follows the name; a missing name fails with the named error |
| Parser.ParseFuncDefinition | src/Parser-stmt.cpp:64-84 | a function definition is named by the word after `func` and is either an external function or a function literal whose code is a block; a missing name fails with the named error |
| Parser.ImportPath | src/Parser-stmt.cpp:11-17 | the dotted path is empty exactly when no identifier follows `import`, and otherwise starts with that identifier |
| Parser.ParseImport | src/Parser-stmt.cpp:7-29 | an import's alias is the last path component unless `as name` follows, in which case it is that name; an empty path fails with "Expected package identifier after 'import'." |
| ParserFacts.PrecedenceLevels | src/Parser.h:39-59 | the precedence of every operator the parser registers, from `=` at 2 up to `@` at 130 |
| ParserFacts.Terminators | src/Parser.h:68-73 | end of input, closing brackets, separators, `&`, `->` and the keywords `then`, `else`, `do` have no precedence and so end an expression |
| ParserFacts.SetThenGet | src/Parser.h:65-73 | reading back a set precedence gives it (or -1 when it is not positive or the operator is not ASCII), and other operators are unaffected |
| ParserFacts.LookupInsertionHarmless | src/Parser.h:70 | the zero entry that a lookup of an unknown operator inserts into the table changes no later lookup |
| ParserFacts.NonAsciiNeverOperator | src/Parser.h:69 | a token starting with a non-ASCII character is never an operator, whatever the table holds |
| ParserFacts.NameOperand | src/parser/expr.cpp:40-45 | a name as operand becomes a variable reference tagged with the position after it |
| ParserFacts.SameLevelGroupsLeft | src/parser/expr.cpp:108-150 | `x o1 y o2 z` with equal precedences groups as `(x o1 y) o2 z` |
| ParserFacts.TighterGroupsRight | src/parser/expr.cpp:133-137 | `x o1 y o2 z` with `o2` binding tighter groups as `x o1 (y o2 z)` |
| ParserFacts.PrefixOperators | src/parser/expr.cpp:139-144 | `-x` and `!x` are unary operations and `@x` is a dereference |
| ParserFacts.PrefixAfterBinary | src/parser/expr.cpp:128-147 | in `x + - y` the `+` gets no right operand and the `-` becomes a binary operator over it, as the loop reads it |
| ParserFacts.NoBadLhs | src/parser/expr.cpp:113 | parsing a whole expression never ends in the "Bad LHS." error |
| ParserFacts.BareReturn | src/parser/expr.cpp:80-83 | `return` directly before `}` or `;` is a return with no value that consumes only the keyword |
| ParserFacts.BaseNamesAreGlobals | src/Parser-type.cpp:20-24 | base type names parse to the shared global type objects, with `int` and `s64i` alike and `byte` and `u8i` alike, allocating nothing |
| ParserFacts.SizedIntsNotShared | src/Parser-type.cpp:25-30 | each occurrence of a sized integer name such as `u16i` creates a new type object |
| ParserFacts.RefTypesShared | src/Parser-type.cpp:13-18 | `&int` parsed twice yields the same reference type object and allocates nothing the second time |
| ParserFacts.PrototypeVoidReturn | src/Parser-type.cpp:75-77 | a prototype whose `->` is directly followed by `{` returns void and leaves the `{` unconsumed |
| ParserFacts.PrototypesNotShared | src/Parser-type.cpp:80 | the same prototype parsed twice gives two distinct function type objects |
| ParserFacts.ImportDefaultAlias | src/Parser-stmt.cpp:20 | `import a.b` is aliased `b` |
| ParserFacts.ImportExplicitAlias | src/Parser-stmt.cpp:21-27 | `import a.b as c` is aliased `c` |
| ParserFacts.ImportTrailingDot | src/Parser-stmt.cpp:12-17 | in `import a. as c` the trailing dot is dropped and the path is just `a` |
| V1Parser.Prec | src-v1/Parser.h:37-53 | a positive precedence comes only from the table the constructor fills with `setBinopPrec`, which has no entry for `=`, `:`, `@` or `!`, nor (taking the undeclared `setBiopPrec` to leave it alone) for the logical operators |
| V1Parser.ParseType | src-v1/Parser.cpp:233-254 | `(` starts a prototype, and any word other than `void`, `bool`, `int`, `float` fails with "Invalid type definiton, starting by '...'." without consuming it |
| V1Parser.ParseFuncArg | src-v1/Parser.cpp:259-268 | an argument is named by the identifier it starts with; any other token fails with "Expected identifier for argument name." |
| V1Parser.ProtoArgs | src-v1/Parser.cpp:276-286 | a non-empty argument list ends on `)` |
| V1Parser.ParsePrototype | src-v1/Parser.cpp:273-297 | a prototype yields a function type and consumes at least its `(` |
| V1Parser.ParseExtern | src-v1/Parser.cpp:199-210 | `extern` followed by an identifier always yields an extern of that symbol; otherwise it fails with "Expected identifier after 'extern', not '...'." |
| V1Parser.ParsePrimary | src-v1/Parser.cpp:114-124 | a primary consumes at least one token, and succeeds only on an extern, a name, a literal or a parenthesised expression |
| V1Parser.ParseExpression | src-v1/Parser.cpp:130-144 | a successful expression is never a null node and consumes at least one token; `{` starts a block |
| V1Parser.ParseBinOpRHS | src-v1/Parser.cpp:149-173 | the loop ends on the first token below the current precedence, returning the operand it holds (a failure when a failed call left none), and otherwise builds a binary or call node |
| V1Parser.ParseCall | src-v1/Parser.cpp:177-194 | a call keeps its callee, `()` yields no arguments, and the `(` is always consumed |
| V1Parser.CallArgs | src-v1/Parser.cpp:181-191 | a non-empty argument list ends on `)` and holds no null argument |
| V1Parser.ParseBlock | src-v1/Parser.cpp:214-226 | a block holds no null expression and consumes at least its opening token |
| V1Parser.BlockItems | src-v1/Parser.cpp:217-223 | the expression list stops on `}`, and an immediately closed block is empty |
| V1Parser.ImportPath | src-v1/Parser.cpp:45-51 | the dotted path is empty exactly when no identifier follows `import`, and otherwise starts with that identifier |
| V1Parser.ParseImport | src-v1/Parser.cpp:41-63 | the alias is the last path component unless `as name` follows; an empty path or a missing name after `as` fails with the matching message |
| V1Parser.ParseDefinition | src-v1/Parser.cpp:303-346 | a definition carries the tag of its `let` and the name after it, never holds a null value, and a typed extern takes the declared type |
| V1Parser.TypedDefinition | src-v1/Parser.cpp:310-322 | a `let x : type = value` definition keeps its declared type, and an extern value takes that type |
| V1Parser.FunctionDefinition | src-v1/Parser.cpp:325-337 | `let f = prototype block` defines a function literal whose type is the prototype and whose code is a block |
| V1ParserFacts.PrecedenceLevels | src-v1/Parser.h:40-52 | the precedence of every operator this generation registers |
| V1ParserFacts.Terminators | src-v1/Parser.h:37-53 | `=`, `:`, `@`, `!`, brackets and separators have no precedence, and neither have `||` and `&&` under the assumption that `setBiopPrec` leaves the table alone |
| V1ParserFacts.ExpressionStopsAtTerminator | src-v1/Parser.cpp:153 | an operator with no precedence ends the expression after its left operand |
| V1ParserFacts.EndHasNoPrec | src-v1/Parser.h:62-67 | the end of input never continues an expression |
| V1ParserFacts.ReturnStep | src-v1/Parser.cpp:133-137 | `return` wraps whatever expression follows it and fails when that fails |
| V1ParserFacts.CallStep | src-v1/Parser.cpp:155-156 | a call in the operator loop replaces the left operand by the call, or by a null operand when the call fails |
| V1ParserFacts.SameLevelGroupsLeft | src-v1/Parser.cpp:149-173 | `x o1 y o2 z` with equal precedences groups as `(x o1 y) o2 z` |
| V1ParserFacts.TighterGroupsRight | src-v1/Parser.cpp:164-168 | `x o1 y o2 z` with `o2` binding tighter groups as `x o1 (y o2 z)` |
| V1ParserFacts.CallThenOperator | src-v1/Parser.cpp:155-170 | `f(x) op y` applies the operator to the call's result |
| V1ParserFacts.UnknownPrimaryConsumed | src-v1/Parser.cpp:121-123 | an unexpected token is reported and skipped |
| V1ParserFacts.BareReturnRejected | src-v1/Parser.cpp:133-136 | `return` needs a value: `return;` fails |
| V1ParserFacts.FailedCallLeavesNullOperand | src-v1/Parser.cpp:155-170 | after a call whose argument fails, the loop continues with a null left operand, so `f({} + 1)` parses as `<null> + 1` |
| V1ParserFacts.FailedCallAtEndFails | src-v1/Parser.cpp:153-156 | a failed call with nothing after it makes the whole expression fail |
| V1ParserFacts.ArrowRequired | src-v1/Parser.cpp:289 | a prototype without `->` fails, quoting the token found |
| V1ParserFacts.VoidBeforeBrace | src-v1/Parser.cpp:291-293 | `() -> {` is a void prototype that leaves the `{` unconsumed |
| V1ParserFacts.PrototypeWithArgument | src-v1/Parser.cpp:259-297 | `(x : int) -> float` has one argument of type int and returns float |
| V1ParserFacts.OnlyBaseTypesAndPrototypes | src-v1/Parser.cpp:233-252 | a parsed type starts with a base-type name or `(`, and a base type is the one its name denotes |
| V1ParserFacts.ExternBadTypeSwallowed | src-v1/Parser.cpp:205-209 | an invalid type after `extern s :` is dropped and the extern is left untyped |
| V1ParserFacts.TypedValue | src-v1/Parser.cpp:316-322 | in a typed definition an untyped extern value takes the declared type and an already typed one is rejected |
| V1ParserFacts.ExternTakesDeclaredType | src-v1/Parser.cpp:317-320 | `let x : int = extern s` gives the extern the type int |
| V1ParserFacts.RedundantExternTypeRejected | src-v1/Parser.cpp:318 | `let x : int = extern s : int` fails with "Redundant definition of extern type" |
| V1ParserFacts.ParenthesisedValueRejected | src-v1/Parser.cpp:325-327 | `let x = (1)` is read as a prototype and fails on the missing argument name |
| V1ParserFacts.BlockOpenerNotChecked | src-v1/Parser.cpp:216 | a function body's opening token is skipped without checking that it is `{` |
| V1ParserFacts.FunctionBody | src-v1/Parser.cpp:326-331 | a prototype followed by a block defines a function literal with the prototype's arguments and return type |
| V1ParserFacts.FunctionDefinitionTyped | src-v1/Parser.cpp:331 | a function definition's type is its literal's prototype and its code is a block |
| V1ParserFacts.ImportDefaultAlias | src-v1/Parser.cpp:54 | `import a.b` is aliased `b` |
| V1ParserFacts.ImportExplicitAlias | src-v1/Parser.cpp:55-61 | `import a as c` is aliased `c` |
| V1ParserFacts.ImportErrors | src-v1/Parser.cpp:52-58 | `import` with no name, and `as` with no name, fail with their messages |
| V1Ast.TypeOf | src-v1/AST.cpp:34-80 | typing succeeds exactly when no null node is reached; it only adds the unknown names it looked up (as undefined) and keeps every existing entry, and only calls, operators and returns report errors |
| V1Ast.Spine | src-v1/AST.cpp:52-55 | following right operands and return values ends at a node that is neither |
| V1Ast.TypeIsSpineType | src-v1/AST.cpp:52-55 | an operator expression and a return have the type of their right-most operand |
| V1Ast.TypeOfIdempotent | src-v1/AST.cpp:46-50 | typing an expression a second time, with the table the first pass left, gives the same type, table and errors |
| V1Ast.TypeOfKeepsFullTable | src-v1/AST.cpp:47 | when every name looked up is already in the table, typing leaves it unchanged |
| V1Ast.VarType | src-v1/AST.cpp:46-50 | a defined name has its definition's type; an unknown name is untyped and is entered in the table as undefined, after which it stays untyped |
| V1Ast.CallType | src-v1/AST.cpp:57-64 | a call has its callee's return type, or no type plus "Calling something that is not a function." when the callee is not a function |
| V1Ast.CallOfDefinedFunction | src-v1/AST.cpp:57-60 | calling a name defined with a function type yields that function's return type without errors |
| Packages.PackageDir | src/Package.cpp:75-81 | a package's directory lies under the root directory |
| Packages.NewPackage | src/Package.cpp:15-22 | a new package is registered incomplete, with symbol prefix `PIF_<name>.`, no definitions or imports, its own fresh symbol frame and a fresh package type; nothing else changes |
| Packages.Register | src/Package.cpp:91-94 | an imported name is entered in the registry before its files are read, as an incomplete package |
| Packages.Bind | src/Package.cpp:86 | an import binds its alias in the importer's import table and changes nothing else |
| Packages.Define | src/Package.cpp:51-60 | a top-level definition of an unbound name is appended to the definition order as a new symbol and bound in the package frame; a name already bound is a redefinition that fails and changes nothing |
| Packages.WithInit | src/Package.cpp:112-128 | a package without `_init` gets one appended, a void function of no arguments returning nothing; a package that has one is unchanged |
| Packages.CheckEntry | src/Package.cpp:153-161 | checking one definition keeps every other package, and keeps the kinds of the definitions when the checker does |
| Packages.AfterCheck | src/Package.cpp:153-161 | a failed check stops the pass; otherwise the checked definition replaces the entry in place and its symbol's usage type is refreshed, with every other entry unchanged |
| Packages.Refresh | src/Package.cpp:161 | refreshing a symbol's usage type leaves its definition and the frames as they were |
| Packages.CheckPass | src/Package.cpp:148-162 | one pass over the definition order keeps its length and the kinds of its entries and touches no other package |
| Packages.TypeCheck | src/Package.cpp:145-170 | checking a package keeps the kinds of its definitions and touches no other package |
| Packages.InputFile | src/Package.cpp:24-72 | a file that cannot be opened fails without effect |
| Packages.InputLoop | src/Package.cpp:32-66 | reading a file succeeds at end of input and fails on any top-level token other than `import`, `let`, `var`, `func` |
| Packages.TopDefinition | src/Package.cpp:39-61 | a top-level definition consumes at least one token, or halts with a failure |
| Packages.LoadFiles | src/Package.cpp:103-111 | reading the package's files only grows the model, and stops at the first failing file |
| Packages.Prepare | src/Package.cpp:130-133 | a package is ready only when its check passes and its build does not fail |
| Packages.Completed | src/Package.cpp:134-135 | finishing a package marks it complete and appends it to the initialisation order |
| Packages.CompleteBindEvolves | src/Package.cpp:134-139 | after completion and binding, the package is registered, complete, bound under its alias and last in the initialisation order |
| Packages.LoadNew | src/Package.cpp:91-140 | loading a new package registers it; the import succeeds exactly when the package ends complete, and then it is bound under the alias, did not fail to build and was initialised last; a missing directory fails the import |
| Packages.Conclude | src/Package.cpp:130-139 | the end of a new import succeeds only with a complete, bound, built package initialised last |
| Packages.ImportPackage | src/Package.cpp:74-142 | an import of a complete package just binds its alias; of an incomplete registered one (a cycle or an earlier failure) fails without effect; of a new one loads it, and success means complete and bound |
| Packages.FreshAlias | src/Package.cpp:184-187 | the alias is the last path component with `2` appended until it is not already an import, and is unchanged when it is free |
| Packages.ImportAndRunMain | src/Package.cpp:174-194 | the main function is run exactly when the import of the dotted name succeeded, and then on that complete package |
| PackageFacts.Select | src/Package.cpp:148-149 | one pass visits, in order, exactly the definitions of the wanted kind |
| PackageFacts.VarFirst | src/Package.cpp:146-169 | the two passes visit every definition once, variables before functions, each kind in definition order |
| PackageFacts.CheckListAppend | src/Package.cpp:147-169 | checking a concatenated list is checking the first part and, unless it stopped, then the second |
| PackageFacts.PassChecksSelection | src/Package.cpp:148-162 | a pass checks exactly the selected definitions |
| PackageFacts.TypeCheckOrder | src/Package.cpp:145-170 | checking a package is checking all its variables in order and then all its functions in order |
| PackageFacts.Sources | src/Package.cpp:103-105 | the source list keeps exactly the file names ending in `.pif` |
| PackageFacts.LoadFilesAgree | src/Package.cpp:103-111 | two listings with the same source files from the given positions load the same way |
| PackageFacts.OnlySourcesRead | src/Package.cpp:103-111 | loading a directory listing is loading just its `.pif` files in listing order |
| PackageFacts.DirectoryOfPath | src/Package.cpp:75-78 | a package's directory is the root followed by its path joined with `/` |
| PackageFacts.NameDeterminesPath | src/Package.cpp:76-81 | two paths with the same dotted name are the same path, so the registry key identifies the directory |
| PackageFacts.ImportedOnce | src/Package.cpp:83-86 | importing a package a second time, after a successful import, only binds the new alias |
| PackageFacts.MissingStaysBroken | src/Package.cpp:87-101 | after an import that failed, any later import of the same name fails without effect |
| V1Package.NewPackage | src-v1/Package.cpp:15-18 | a new package is incomplete, with no prefix, symbols, imports or initialisation code |
| V1Package.Start | src-v1/Package.cpp:13 | the model starts with an empty package registry and the main package loading |
| V1Package.Put | src-v1/Package.cpp:91 | storing a package makes it visible under its key and changes no other package |
| V1Package.PrefixIsJoin | src-v1/Package.cpp:85-89 | a package's symbol prefix is `PIF__` then its path joined with `_`, then `__` |
| V1Package.FileIsJoin | src-v1/Package.cpp:66-72 | a package is read from the single file at the root followed by its path joined with `/` and `.pif` |
| V1Package.Define | src-v1/Package.cpp:39-47 | a definition of a new name is added to the symbols, and a value other than a function or extern is also queued as an assignment in the initialisation code; a known name is a redefinition that fails |
| V1Package.Bind | src-v1/Package.cpp:77 | an import binds its alias in the importer and changes nothing else |
| V1Package.InputFile | src-v1/Package.cpp:20-63 | a file that cannot be opened fails without effect |
| V1Package.InputLoop | src-v1/Package.cpp:27-57 | reading a file changes only the package being read and packages it imports |
| V1Package.Import | src-v1/Package.cpp:65-111 | importing a complete package binds the alias; an incomplete registered one fails without effect; a new one is loaded |
| V1Package.Load | src-v1/Package.cpp:82-109 | a loaded package is registered with its prefix, is complete exactly when the import succeeds, never when its build fails, and is bound in the importer only on success |
| V1Package.Registered | src-v1/Package.cpp:83-91 | a new package is registered with its prefix before its file is read |
| V1Package.Finish | src-v1/Package.cpp:105-108 | finishing marks the package complete and binds it under the alias |
| V1Package.RedefinitionKeepsFirst | src-v1/Package.cpp:39-46 | a second definition of a name is refused and the first stays |
| V1Package.AssignmentsInOrder | src-v1/Package.cpp:41-43 | initialisation assignments are queued in the order of their definitions |
| V1Package.Assignment | src-v1/Package.cpp:41-43 | the start-up code of a definition assigns its value to a variable reference of its own name, at its own tag |
| V1Package.ImportedOnce | src-v1/Package.cpp:74-77 | a second import of a package that was imported successfully only binds the alias |
| V1Package.FailedBuildRefusedLater | src-v1/Package.cpp:78-81 | after a failed build the package stays incomplete and later imports of it fail |
| V1Package.MissingFileFailsImport | src-v1/Package.cpp:94-99 | an import whose file is missing fails and leaves the package registered but incomplete |
| Printer.Show | src/prettyprint.cpp:3-127 | an expression prints exactly when the printer never reaches a null child: the operand of a dereference or unary operator, or the right operand of a binary operator |
| Printer.ArgTexts | src/prettyprint.cpp:51-58 | a call's arguments print exactly when each of them does, one text per argument |
| Printer.LineText | src/prettyprint.cpp:87-100 | a block line prints unless it is an expression or a variable definition whose value reaches a null child; a function definition's value is not printed |
| Printer.DefLine | src/prettyprint.cpp:90-96 | a definition line prints exactly when its value does; it starts with "* def:", the name and " : ", and ends with " = " and the value |
| Printer.LineTexts | src/prettyprint.cpp:84-103 | a block's lines print exactly when each of its statements does |
| Printer.UnclosedConditions | src/prettyprint.cpp:62-78 | the printed text has exactly one unclosed parenthesis per conditional or loop it shows, since " if (" and " while (" are never closed; everything else is balanced |
| Printer.DescBal | src/types.cpp:37-66 | a type description has balanced parentheses |
| Printer.IntToStrPlain | src/prettyprint.cpp:7-9 | a printed integer contains no parentheses |
| Printer.BinaryBal | src/prettyprint.cpp:30-36 | an operator node adds balanced parentheses around its operands |
| Printer.CallBal | src/prettyprint.cpp:47-60 | a call adds no parentheses of its own |
| Printer.IfBal | src/prettyprint.cpp:62-71 | a conditional adds one unclosed parenthesis |
| Printer.WhileBal | src/prettyprint.cpp:73-78 | a loop adds one unclosed parenthesis |
| Printer.BlockBal | src/prettyprint.cpp:84-103 | a block's parenthesis balance is the sum of its lines' |
| Printer.LineBal | src/prettyprint.cpp:88-100 | a block line's balance counts the conditions of the expression or variable value it prints |
| V1Printer.Show | src-v1/prettyprint.cpp:26-91 | an expression prints exactly when it has no null node anywhere the printer visits, which in this generation is every child |
| V1Printer.ArgTexts | src-v1/prettyprint.cpp:10-20 | each argument of a prototype prints as `[name as type] ` |
| V1Printer.TyText | src-v1/prettyprint.cpp:3-24 | a base type prints as "t_..."; a function type starts with "func(" and ends with ")" |
| V1Printer.Shown | src-v1/prettyprint.cpp:54-66 | a call's arguments or a block's items print exactly when each of them does, one text per item |
| V1Printer.Lines | src-v1/prettyprint.cpp:63-66 | each block item goes on a new line indented by four spaces |
| V1Printer.DefText | src-v1/prettyprint.cpp:93-102 | a definition prints exactly when its value does |
| V1Printer.TyTextBal | src-v1/prettyprint.cpp:3-24 | a printed type has balanced parentheses |
| V1Printer.ShowBal | src-v1/prettyprint.cpp:26-91 | every printed expression has balanced parentheses |
| V1Printer.DefTextBal | src-v1/prettyprint.cpp:93-102 | every printed definition has balanced parentheses |
| V1Printer.BoolPrintsUnknown | src-v1/prettyprint.cpp:3-8 | the bool base type is the one that prints as `t_??` |
| V1Printer.NullArgumentNotPrinted | src-v1/prettyprint.cpp:54-57 | a call with a null argument cannot be printed, since there is no guard |
| V1Printer.NullOperandNotPrinted | src-v1/prettyprint.cpp:42-48 | an operator with a null left operand, as a failed call leaves it, cannot be printed |

## Left out

- LLVM code generation (`src/codegen-*.cpp`, `src/codegen-llvm/`, `src/Generator.cpp`, `src-v1/AST-codegen.cpp`, `src-v1/Generator.cpp`) is not part of this model: `Gen->build` is a set of package names whose build fails, and `Gen->init` appends the package to an initialisation list. The check that `break`/`continue` sit inside a loop happens only there.
- `src/main.cpp` and `src-v1/main.cpp` are not part of this model; `importAndRunMain` stops at naming the package whose `main` would run.
- File and directory access (`ifstream`, `getdir`) are parameters: a map from file names to contents and a map from directories to listings. The order of a listing is whatever the parameter gives.
- Console output is not modelled: debug traces, the `cerr` lines of the package loader and the older parser, the "unnecessary cast" notice of the analyser, and the printing of `src/types.cpp`'s `typeError`. The diagnostics that decide an outcome are kept as values.
- Floating point is not modelled: a float literal keeps its text, and `atof` is never evaluated.
- Printer.Show and V1Printer.Show: a float literal prints as `float:` followed by its source text, whereas `FloatExprAST::prettyprint` (`src/prettyprint.cpp:11-13`, `src-v1/prettyprint.cpp:34-36`) streams the parsed `double` at the default precision of six significant digits, so `1.50` prints there as `float:1.5` and `1234567.0` as `float:1.23457e+06`.
- Lexer.ScanNumber: an integer literal's value is the unbounded value of its digits, without the overflow of `atol` into a C++ `long`.
- Types.IntGet: the size of an integer type is an unbounded integer, not the C++ `short`, so the key `size*2 + signed` cannot wrap.
- Memory management is not modelled: no `delete` of the argument objects that `FuncTypeAST::Get` discards on a table hit, and no leaks.
- The definition of `FTag::Throw` is not part of this model; it is taken to raise a `LangError` carrying the tag and the message.
- The parser's `error` helper (declared `void* error(...)` at `src/Parser.h:14`, its body not part of this model) is taken to report the message and return a null node. Every caller that tests that null makes the parse fail, and so does the model; the two callers below do not test it.
- Parser.ParseBinOpRHS: a cast whose type fails to parse fails the whole parse, while `src/parser/expr.cpp:120-123` builds the cast with a null type and reads on, so `x : 5` is accepted there. The model has no null type in a cast node.
- Parser.BlockStmts: a statement that fails to parse fails the block, while `src/parser/expr.cpp:247-253` pushes the null definition, or an expression statement around the null expression, and reads on. The model has no null statement or expression in a block.
- Analyser, Packages and V1Package: recursion takes a `fuel` bound. Running out is a separate outcome (`Exhausted`, `OutOfFuel`) that the C++ never produces; every property is stated for the runs that do not exhaust it.
- Printer.ArgTexts: the `(invalid arg)` branch is not modelled. The parser never builds a null argument, but the structure-comparing analyser does (see `Analyser.CallArgs`), and the model does not represent one.
- Analyser.ArithTyped: when the structure-comparing analyser fails to convert the left operand to float, `src/types.cpp:289-290` writes the null result into `LHS` before reporting; the model keeps the old left operand. The right operand is nulled as at `src/types.cpp:294-295`.
- Analyser.CallArgs: a failed argument conversion nulls `Args[i]` at `src/types.cpp:404-405`; the model keeps the old argument, because call arguments are not optional in the model.
- Analyser.DefCheck: a failed conversion nulls a definition's `Val` (`src/types.cpp:545-546`) or an extern definition's `Val` (`src/types.cpp:558-560`); the model keeps the old value, because a definition's value is not optional in the model.
- CoercionFacts.AssignCoercesRight and CoercionFacts.ReturnCoerces: when the converted node is an integer literal or a typed extern, they state only that the converted node is kept in place and, for an assignment, that a typed result has the pointee type. Such a node keeps a stale cached type after conversion, so the re-typing may fail with an internal error; `AnalyserFacts.AssignIntLiteralStaleType` and `AnalyserFacts.ReturnIntLiteralStaleType` give the literal case.
- CoercionFacts.CallArgsCoerced and CoercionFacts.CallTypedWithCoercion: they cover the arguments whose conversion leaves the analysis state alone. An untyped extern argument allocates its reference type when it converts; `CoercionFacts.CallArgCoerces` covers that argument one step at a time.
- Analyser.AsType: its own ensures does not say when a conversion through several dereferences succeeds; `CoercionFacts.AsTypeThroughDerefs` and `CoercionFacts.AsTypeNoConvKeeps` state that, over all inputs.
- Analyser.AssignRule: its own ensures does not say what the rule does with a value that must be coerced; `CoercionFacts.AssignCoercesRight` states that, over all inputs.
- Analyser.ArithRule: its own ensures does not say how far the operands are dereferenced; `CoercionFacts.ArithDerefsOperands` states that, over all inputs.
- Analyser.CastRule: its own ensures does not say which casts through dereferences are accepted; `CoercionFacts.CastAcceptedThroughDerefs` states that, over all inputs.
- Analyser.CastLoop: its own ensures does not say which dereference chains the loop accepts; `CoercionFacts.CastLoopReachesNumeric` states that, over all inputs.
- Analyser.CallRule: its own ensures does not say what the rule does with a value that must be coerced; `CoercionFacts.CallTypedWithCoercion` states that, over all inputs.
- Analyser.IfRule: its own ensures does not say what the rule does with a value that must be coerced; `CoercionFacts.IfElseCoerces` states that, over all inputs.
- Analyser.ReturnRule: its own ensures does not say what the rule does with a value that must be coerced; `CoercionFacts.ReturnCoerces` states that, over all inputs.
- Analyser.DefCheck: its own ensures does not say what the rule does with a value that must be coerced; `CoercionFacts.TypedDefCoerces` states that, over all inputs.
- Analyser.CallArgs: its own ensures does not state the coercion of each argument; `CoercionFacts.CallArgCoerces` and `CoercionFacts.CallArgsCoerced` state it.
- Packages.AfterCheck: the printing of a function that failed its check (`src/Package.cpp:154-155`) is not modelled, nor the null dereferences a tree nulled as above would meet in `src/prettyprint.cpp:32` and `:94`; the model reports the failure as a plain `false`.
- Lexer.NewLexer and V1Lexer.NewLexer: the text is a sequence of characters, each standing for one byte read by `In.get()`. A character above 255 has no counterpart in the C++ program, where a multi-byte UTF-8 character is several one-byte tokens; the model lexes it as one character.
- Packages.ImportPackage: an import whose name is a registered object's key but not a package (the interpreter package `__pif_main` of `src/main.cpp:32`) is refused, while `src/Package.cpp:83-94` would create, register and load a new package of that name; objects are keyed by name in the model.
- V1Parser.Prec: `setBiopPrec`, called at `src-v1/Parser.h:38-39`, is declared in no file of the older front end, so those lines do not compile as given. The model assumes the call leaves the table alone, so `||` and `&&` have no precedence; `V1ParserFacts.Terminators` rests on the same assumption.
- V1Parser.FunctionDefinition: the branch that wraps a non-block body into a block is not modelled, because `ParseBlock` only ever returns a block.
- Args.GetStr: `getStr` on an unregistered name inserts an empty entry into the map as a side effect; the model returns the empty string without inserting, which no getter can tell apart.
- The initial state of AST nodes (no context, no cached type, `NeedCast` set, `OwnContext` clear, no symbol) is built into the node constructors `Fresh` and `FreshMemo` rather than stated by a separate lemma.
- Scope.Fail: the structural variant of the analyser reports with the wording of `src/typecheck/types.cpp`, except for the dependency-loop message, which keeps both wordings.
- The LLVM `Value` of a symbol and the back-end fields of a package (`InitFunction`, the `Generator` pointer) are not modelled.

=== FILE: analyser.dfy ===
/** The semantic analyser: the memoised `type()` of every node, the per-node typing
    rules, implicit coercion (`asType`) and the checks of definitions.

    Every function threads the analysis state and returns the rewritten tree, because
    the analyser rewrites nodes in place (memo fields, inserted dereferences and casts,
    retargeted literals). Recursion is bounded by `fuel`; running out of it yields
    `Exhausted`, which the source has no counterpart of. */
module Analyser {
  import opened Wrappers
  import opened Text
  import opened Errors
  import opened Types
  import opened Ast
  import opened Scope

  // ---------------------------------------------------------------------------
  // Results

  /** A node after `type()`. */
  datatype Typing = Typing(e: Expr, st: TcState, out: Outcome)

  /** A node's own fields and context after `getType()`. */
  datatype Step = Step(ctx: Ctx, node: Node, st: TcState, out: Outcome)

  /** The result of `asType`: the converted node, null, or an abrupt outcome. */
  datatype ConvRes = Conv(e: Expr) | NoConv | ConvStop(out: Outcome)

  /** `asType` also returns the node it was asked about, as typing left it. */
  datatype AsResult = AsResult(self: Expr, st: TcState, res: ConvRes)

  /** The result of `typeCheck` on a statement or definition: success, the `false` of
      the reporting revision, or an outcome that escapes (raised, aborted). */
  datatype Checked = Passed | Failed(diag: string) | Raised(out: Outcome)

  datatype DefStep = DefStep(d: Def, st: TcState, res: Checked)
  datatype StmtStep = StmtStep(s: Stmt, st: TcState, res: Checked)

  /** Arguments of a call after checking: `stop` is None when every argument fits. */
  datatype ArgsStep = ArgsStep(args: seq<Expr>, st: TcState, stop: Option<Outcome>)

  /** Statements of a block after checking. */
  datatype StmtsStep = StmtsStep(stmts: seq<Stmt>, st: TcState, out: Outcome)

  const Exhausted := Crashed("analysis fuel exhausted")
  const NullOperand := Crashed("null operand")
  const DanglingType := Crashed("dangling type object")

  function DepLoopMsg(m: Mode): string {
    if m.ByIdentity? then "Type error: expression dependency loop. That's bad, you know."
    else " Expression dependency loop. That's bad, you know."
  }

  const Comparisons: set<string> := {"<", ">", "==", "!=", "<=", ">="}
  const Arithmetic: set<string> := {"*", "+", "-", "/", "%"}

  // ---------------------------------------------------------------------------
  // The memoised type() and the dispatch on node kinds

  /** `ExprAST::type`: the first context given is kept; a cached type is returned as is;
      a node already in progress (or that yielded no type before) is a dependency
      loop; otherwise the node is marked in progress and its type computed and cached. */
  function TypeOf(m: Mode, fuel: nat, e: Expr, ctx: Ctx, st: TcState): (r: Typing)
    ensures r.e.tag == e.tag
    ensures r.out.Typed? ==> r.e.memo.etype == Some(r.out.t)
    ensures e.node.Deref? ==> r.e.node.Deref?
    ensures fuel > 0 ==> r.e.memo.ctx.Some? && (r.e.memo.etype.Some? <==> r.out.Typed?)
    ensures fuel > 0 && !r.out.Typed? ==> r.e.memo.depLoop
    ensures fuel > 0 && e.memo.ctx.Some? && (e.memo.etype.Some? || e.memo.depLoop) ==> r.e == e
    ensures fuel > 0 && e.memo.etype.Some? ==> r.out == Typed(e.memo.etype.value) && r.st == st
    ensures fuel > 0 && e.memo.etype.None? && e.memo.depLoop ==> r.out == Fail(m, e.tag, DepLoopMsg(m)) && r.st == st
    decreases fuel, 0, 0
  {
    if fuel == 0 then Typing(e, st, Exhausted)
    else
      var e1 := if e.memo.ctx.None? then e.(memo := e.memo.(ctx := Some(ctx))) else e;
      if e1.memo.etype.Some? then Typing(e1, st, Typed(e1.memo.etype.value))
      else if e1.memo.depLoop then Typing(e1, st, Fail(m, e1.tag, DepLoopMsg(m)))
      else
        var s := GetType(m, fuel - 1, e1.tag, e1.memo.ctx.value, e1.node, st);
        var memo := Memo(true, Some(s.ctx), if s.out.Typed? then Some(s.out.t) else None);
        Typing(Expr(e1.tag, memo, s.node), s.st, s.out)
  }

  /** `getType`, dispatched on the node kind. */
  function GetType(m: Mode, fuel: nat, tag: FTag, ctx: Ctx, n: Node, st: TcState): (r: Step)
    ensures n.Deref? ==> r.node.Deref?
    ensures r.out.Typed? && (n.While? || n.Block? || n.Return? || n.BreakCont?) ==> r.out.t == VOID
    ensures r.out.Typed? && n.Cast? ==> r.out.t == n.ftype
    ensures r.out.Typed? && n.Binary? && n.op in Comparisons ==> r.out.t == BOOL
    decreases fuel, 6, 0
  {
    match n
    case BoolLit(_) => Step(ctx, n, st, Typed(BOOL))
    case IntLit(_, it) => Step(ctx, n, st, Typed(it))
    case FloatLit(_) => Step(ctx, n, st, Typed(FLOAT))
    case VarRef(name, _, g) => VarRule(m, tag, ctx, n, st)
    case Deref(p) => DerefRule(m, fuel, tag, ctx, p, st)
    case Unary(op, x) => UnaryRule(m, fuel, tag, ctx, op, x, st)
    case Binary(op, l, r) =>
      if op == "=" then AssignRule(m, fuel, tag, ctx, l, r, st)
      else if op in Arithmetic || op in Comparisons then ArithRule(m, fuel, tag, ctx, op, l, r, st)
      else Step(ctx, n, st, Fail(m, tag, "Unknown or unimplemented operator '" + op + "'."))
    case DotMember(obj, member) => DotRule(m, fuel, tag, ctx, obj, member, st)
    case Cast(x, ft, nc) => CastRule(m, fuel, tag, ctx, x, ft, nc, st)
    case Call(callee, args) => CallRule(m, fuel, tag, ctx, callee, args, st)
    case If(c, t, el) => IfRule(m, fuel, tag, ctx, c, t, el, st)
    case While(c, b, u) => WhileRule(m, fuel, tag, ctx, c, b, u, st)
    case BreakCont(_) => Step(ctx, n, st, Typed(VOID))
    case Block(stmts, own) => BlockRule(m, fuel, tag, ctx, stmts, own, st)
    case Return(v) => ReturnRule(m, fuel, tag, ctx, v, st)
    case FuncLit(ft, code, own) => FuncRule(m, fuel, tag, ctx, ft, code, own, st)
    case Extern(stype, _) =>
      if stype.None? then Step(ctx, n, st, Typed(VOID))
      else match RefOf(st.store, stype.value)
        case Some((s1, t)) => Step(ctx, n, st.(store := s1), Typed(t))
        case None => Step(ctx, n, st, DanglingType)
  }

  // ---------------------------------------------------------------------------
  // Names

  /** The type of the package an import alias of package `pkg` names. */
  function ImportOf(st: TcState, pkg: string, alias: string): Option<TypeId> {
    if pkg in st.pkgs && alias in st.pkgs[pkg].imports && st.pkgs[pkg].imports[alias] in st.pkgs
    then Some(st.pkgs[st.pkgs[pkg].imports[alias]].pkgType)
    else None
  }

  /** `VarExprAST::getType`. */
  function VarRule(m: Mode, tag: FTag, ctx: Ctx, n: Node, st: TcState): (r: Step)
    requires n.VarRef?
    ensures r.ctx == ctx && r.st == st && r.node.VarRef? && r.node.name == n.name
    ensures r.out.Typed? && Lookup(st, ctx.frames, n.name).Some? ==>
      var s := Lookup(st, ctx.frames, n.name).value.1;
      r.node.sym == Some(s) && s < |st.syms| && st.syms[s].stype == Some(r.out.t)
  {
    match Lookup(st, ctx.frames, n.name)
    case Some((i, s)) =>
      if s >= |st.syms| then Step(ctx, n.(sym := Some(s)), st, Crashed("dangling symbol"))
      else if st.syms[s].stype.None? then
        Step(ctx, n.(sym := Some(s)), st,
             Fail(m, tag, "Scope error: variable '" + n.name + "' cannot be used here."))
      else
        var global := n.isGlobalConst || (i == 0 && st.syms[s].def == VarSym(false));
        Step(ctx, n.(sym := Some(s), isGlobalConst := global), st, Typed(st.syms[s].stype.value))
    case None =>
      match ImportOf(st, ctx.pkg, n.name)
      case Some(t) => Step(ctx, n, st, Typed(t))
      case None => Step(ctx, n, st, Fail(m, tag, "Scope error: variable '" + n.name + "' not found."))
  }

  // ---------------------------------------------------------------------------
  // Operators

  /** The pointee of a reference type, when it is one. */
  function Pointee(s: Store, t: TypeId): Option<TypeId> {
    if IsRef(s, t) then Some(s.nodes[t].pointee) else None
  }

  predicate IsFuncT(s: Store, t: TypeId) {
    t < |s.nodes| && s.nodes[t].FuncT?
  }

  function DerefRule(m: Mode, fuel: nat, tag: FTag, ctx: Ctx, p: Option<Expr>, st: TcState): (r: Step)
    ensures r.ctx == ctx && r.node.Deref? && (r.node.ptr.None? <==> p.None?)
    ensures r.out.Typed? ==> !IsFuncT(r.st.store, r.out.t)
    decreases fuel, 5, 0
  {
    if p.None? then Step(ctx, Deref(p), st, NullOperand)
    else
      var r := TypeOf(m, fuel, p.value, ctx, st);
      var n := Deref(Some(r.e));
      if !r.out.Typed? then Step(ctx, n, r.st, r.out)
      else
        var s := r.st.store;
        match Pointee(s, r.out.t)
        case None => Step(ctx, n, r.st, Fail(m, tag, "Dereferencing something that was not a reference..."))
        case Some(pt) =>
          if IsFuncT(s, pt) then Step(ctx, n, r.st, Fail(m, tag, "Cannot dereference a function pointer. You call it as-is."))
          else Step(ctx, n, r.st, Typed(pt))
  }

  function UnaryRule(m: Mode, fuel: nat, tag: FTag, ctx: Ctx, op: string, x: Option<Expr>, st: TcState): (r: Step)
    ensures r.ctx == ctx && r.node.Unary? && r.node.op == op && (r.node.operand.None? <==> x.None?)
    ensures r.out.Typed? ==> op == "!" || op == "-"
    decreases fuel, 5, 0
  {
    if x.None? then Step(ctx, Unary(op, x), st, NullOperand)
    else
      var r := TypeOf(m, fuel, x.value, ctx, st);
      var n := Unary(op, Some(r.e));
      if !r.out.Typed? then Step(ctx, n, r.st, r.out)
      else
        var s := r.st.store;
        var t := r.out.t;
        if op == "!" then
          if Same(m, s, t, BOOL) then Step(ctx, n, r.st, Typed(t))
          else Step(ctx, n, r.st, Fail(m, tag, "Unary negation '!' only works with bools."))
        else if op == "-" then
          if Same(m, s, t, FLOAT) || IsInt(s, t) then Step(ctx, n, r.st, Typed(t))
          else Step(ctx, n, r.st, Fail(m, tag, "Unary negation '-' only works with ints or floats."))
        else Step(ctx, n, r.st, Fail(m, tag, "Unknown unary operator '" + op + "'."))
  }

  /** Assignment: both sides are typed, the left one must be a reference, and the
      right one is coerced to its pointee. */
  function AssignRule(m: Mode, fuel: nat, tag: FTag, ctx: Ctx, lhs: Expr, rhs: Option<Expr>, st: TcState): (r: Step)
    ensures r.ctx == ctx && r.node.Binary? && r.node.op == "="
    ensures r.out.Typed? ==> r.node.rhs.Some?
    decreases fuel, 5, 0
  {
    var l := TypeOf(m, fuel, lhs, ctx, st);
    if !l.out.Typed? then Step(ctx, Binary("=", l.e, rhs), l.st, l.out)
    else if rhs.None? then Step(ctx, Binary("=", l.e, rhs), l.st, NullOperand)
    else
      var r := TypeOf(m, fuel, rhs.value, ctx, l.st);
      if !r.out.Typed? then Step(ctx, Binary("=", l.e, Some(r.e)), r.st, r.out)
      else
        var s := r.st.store;
        match Pointee(s, l.out.t)
        case None => Step(ctx, Binary("=", l.e, Some(r.e)), r.st, Fail(m, tag, "Cannot affect to non-reference value."))
        case Some(p) =>
          if Same(m, s, r.out.t, p) then Step(ctx, Binary("=", l.e, Some(r.e)), r.st, Typed(r.out.t))
          else
            var c := AsTypeOrError(m, fuel, r.e, p, r.st);
            match c.res
            case ConvStop(o) => Step(ctx, Binary("=", l.e, Some(c.self)), c.st, o)
            case NoConv =>
              Step(ctx, Binary("=", l.e, None), c.st,
                   Fail(m, tag, "Cannot affect '" + DescStr(s, r.out.t) + "' to '" + DescStr(s, l.out.t) + "'."))
            case Conv(e2) =>
              var t2 := TypeOf(m, fuel, e2, ctx, c.st);
              var n := Binary("=", l.e, Some(t2.e));
              if t2.out.Abrupt() then Step(ctx, n, t2.st, t2.out)
              else if t2.out.Typed? && Same(m, t2.st.store, p, t2.out.t) then Step(ctx, n, t2.st, t2.out)
              else Step(ctx, n, t2.st, Fail(m, tag, "Internal error 234666"))
  }

  /** Types a node and wraps it in dereferences while its type allows. */
  function DerefAll(m: Mode, fuel: nat, tag: FTag, e: Expr, ctx: Ctx, st: TcState): (r: Typing)
    ensures r.out.Typed? ==> !Derefs(m, r.st.store, r.out.t)
    decreases fuel, 2, 0
  {
    var r := TypeOf(m, fuel, e, ctx, st);
    if r.out.Typed? && Derefs(m, r.st.store, r.out.t) then
      if fuel == 0 then Typing(r.e, r.st, Exhausted)
      else DerefAll(m, fuel - 1, tag, Fresh(tag, Deref(Some(r.e))), ctx, r.st)
    else r
  }

  /** Arithmetic and comparison operators. */
  function ArithRule(m: Mode, fuel: nat, tag: FTag, ctx: Ctx, op: string, lhs: Expr, rhs: Option<Expr>, st: TcState): (r: Step)
    ensures r.ctx == ctx && r.node.Binary? && r.node.op == op
    ensures r.out.Typed? && op in Comparisons ==> r.out.t == BOOL
    decreases fuel, 5, 0
  {
    var l := DerefAll(m, fuel, tag, lhs, ctx, st);
    if l.out.Abrupt() then Step(ctx, Binary(op, l.e, rhs), l.st, l.out)
    else if rhs.None? then Step(ctx, Binary(op, l.e, rhs), l.st, NullOperand)
    else
      var r := DerefAll(m, fuel, tag, rhs.value, ctx, l.st);
      if r.out.Abrupt() then Step(ctx, Binary(op, l.e, Some(r.e)), r.st, r.out)
      else if !l.out.Typed? then Step(ctx, Binary(op, l.e, Some(r.e)), r.st, l.out)
      else if !r.out.Typed? then Step(ctx, Binary(op, l.e, Some(r.e)), r.st, r.out)
      else ArithTyped(m, fuel, tag, ctx, op, l.e, l.out.t, r.e, r.out.t, r.st)
  }

  /** Arithmetic once both operand types are known (and not dereferenceable). */
  function ArithTyped(m: Mode, fuel: nat, tag: FTag, ctx: Ctx, op: string,
                      le: Expr, lt: TypeId, re: Expr, rt: TypeId, st: TcState): (r: Step)
    ensures r.ctx == ctx && r.node.Binary? && r.node.op == op
    ensures r.out.Typed? && op in Comparisons ==> r.out.t == BOOL
    ensures r.out.Typed? && op !in Comparisons ==> r.out.t == lt || r.out.t == rt
    decreases fuel, 3, 0
  {
    var s := st.store;
    var retBool := op in Comparisons;
    var li := IsInt(s, lt);
    var ri := IsInt(s, rt);
    var lf := IsFloat(s, lt);
    var rf := IsFloat(s, rt);
    if (lf && rf) || (lf && ri) || (li && rf) then
      if !lf then
        var c := AsTypeOrError(m, fuel, le, rt, st);
        match c.res
        case ConvStop(o) => Step(ctx, Binary(op, c.self, Some(re)), c.st, o)
        case NoConv => Step(ctx, Binary(op, c.self, Some(re)), c.st,
                            Fail(m, tag, "cannot compute '" + op + "' operation (LHS to float fail)."))
        case Conv(e2) => Step(ctx, Binary(op, e2, Some(re)), c.st, Typed(if retBool then BOOL else rt))
      else if !rf then
        var c := AsTypeOrError(m, fuel, re, lt, st);
        match c.res
        case ConvStop(o) => Step(ctx, Binary(op, le, Some(c.self)), c.st, o)
        case NoConv => Step(ctx, Binary(op, le, None), c.st,
                            Fail(m, tag, "cannot compute '" + op + "' operation (RHS to float fail)."))
        case Conv(e2) => Step(ctx, Binary(op, le, Some(e2)), c.st, Typed(if retBool then BOOL else lt))
      else Step(ctx, Binary(op, le, Some(re)), st, Typed(if retBool then BOOL else lt))
    else if li && ri then
      if Same(m, s, lt, rt) then Step(ctx, Binary(op, le, Some(re)), st, Typed(if retBool then BOOL else lt))
      else if s.nodes[lt].size >= s.nodes[rt].size then
        var s2 := if s.nodes[rt].signed then SetSigned(s, lt) else s;
        Step(ctx, Binary(op, le, Some(Fresh(tag, Cast(re, lt, true)))), st.(store := s2),
             Typed(if retBool then BOOL else lt))
      else
        var s2 := if s.nodes[lt].signed then SetSigned(s, rt) else s;
        Step(ctx, Binary(op, Fresh(tag, Cast(le, rt, true)), Some(re)), st.(store := s2),
             Typed(if retBool then BOOL else rt))
    else Step(ctx, Binary(op, le, Some(re)), st, Fail(m, tag, "Operator '" + op + "' only defined on integers and floats."))
  }

  /** '.' on a package value: the member is looked up in the package's own context. */
  function DotRule(m: Mode, fuel: nat, tag: FTag, ctx: Ctx, obj: Expr, member: string, st: TcState): (r: Step)
    ensures r.ctx == ctx && r.node.DotMember?
    ensures r.out.Typed? ==> r.node.member == ""
    decreases fuel, 5, 0
  {
    var r := TypeOf(m, fuel, obj, ctx, st);
    if !r.out.Typed? then Step(ctx, DotMember(r.e, member), r.st, r.out)
    else
      var s := r.st.store;
      var t := r.out.t;
      if t < |s.nodes| && s.nodes[t].PkgT? then
        var p := s.nodes[t].pkg;
        if p !in r.st.pkgs then Step(ctx, DotMember(r.e, member), r.st, Crashed("unknown package"))
        else
          var pctx := Ctx(p, None, [r.st.pkgs[p].frame]);
          var v := TypeOf(m, fuel, Fresh(tag, VarRef(member, None, false)), pctx, r.st);
          if v.out.Abrupt() then Step(ctx, DotMember(v.e, member), v.st, v.out)
          else if v.out.NoType? then
            Step(ctx, DotMember(v.e, member), v.st,
                 Fail(m, tag, "no such member '" + member + "' in package '" + p + "'."))
          else Step(ctx, DotMember(v.e, ""), v.st, v.out)
      else
        Step(ctx, DotMember(r.e, member), r.st,
             Fail(m, tag, "accessing a member using '.' is only possible with packages."))
  }

  // ---------------------------------------------------------------------------
  // Casts and calls

  predicate Numeric(s: Store, t: TypeId) {
    IsInt(s, t) || IsFloat(s, t)
  }

  function CastRule(m: Mode, fuel: nat, tag: FTag, ctx: Ctx, x: Expr, ft: TypeId, nc: bool, st: TcState): (r: Step)
    ensures r.ctx == ctx && r.node.Cast? && r.node.ftype == ft
    ensures r.out.Typed? ==> r.out.t == ft
    decreases fuel, 5, 0
  {
    var r := TypeOf(m, fuel, x, ctx, st);
    if !r.out.Typed? then Step(ctx, Cast(r.e, ft, nc), r.st, r.out)
    else if Same(m, r.st.store, r.out.t, ft) then Step(ctx, Cast(r.e, ft, false), r.st, Typed(ft))
    else
      var c := AsType(m, fuel, r.e, ft, r.st);
      match c.res
      case ConvStop(o) => Step(ctx, Cast(c.self, ft, nc), c.st, o)
      case Conv(e2) => Step(ctx, Cast(e2, ft, false), c.st, Typed(ft))
      case NoConv =>
        var l := CastLoop(m, fuel, tag, ctx, c.self, r.out.t, ft, c.st);
        Step(ctx, Cast(l.e, ft, nc), l.st, l.out)
  }

  /** The explicit-cast loop: accepted once both sides are numeric, otherwise the
      operand is dereferenced while its type allows. */
  function CastLoop(m: Mode, fuel: nat, tag: FTag, ctx: Ctx, x: Expr, fromT: TypeId, ft: TypeId, st: TcState): (r: Typing)
    ensures r.out.Typed? ==> r.out.t == ft
    decreases fuel, 2, 0
  {
    var s := st.store;
    if Numeric(s, fromT) && Numeric(s, ft) then Typing(x, st, Typed(ft))
    else if Derefs(m, s, fromT) then
      var r := TypeOf(m, fuel, Fresh(tag, Deref(Some(x))), ctx, st);
      if r.out.Abrupt() then r
      else if r.out.NoType? then
        Typing(r.e, r.st, if m.ByIdentity? then Thrown(InternalError("Dereferencing fail.", None))
                          else Crashed("null type in diagnostic"))
      else if fuel == 0 then Typing(r.e, r.st, Exhausted)
      else CastLoop(m, fuel - 1, tag, ctx, r.e, r.out.t, ft, r.st)
    else
      Typing(x, st, NoType("impossible cast from '" + DescStr(s, fromT) + "' to '" + DescStr(s, ft) + "'."))
  }

  /** The function type a callee's type refers to, when it is a reference to one. */
  function CalleeFunc(s: Store, t: TypeId): Option<TypeId> {
    match Pointee(s, t)
    case Some(p) => if IsFuncT(s, p) then Some(p) else None
    case None => None
  }

  function CallRule(m: Mode, fuel: nat, tag: FTag, ctx: Ctx, callee: Expr, args: seq<Expr>, st: TcState): (r: Step)
    ensures r.ctx == ctx && r.node.Call? && |r.node.args| == |args|
    decreases fuel, 5, 0
  {
    var r := TypeOf(m, fuel, callee, ctx, st);
    if r.out.Abrupt() then Step(ctx, Call(r.e, args), r.st, r.out)
    else if r.out.NoType? then Step(ctx, Call(r.e, args), r.st, Crashed("null callee type"))
    else
      var s := r.st.store;
      match CalleeFunc(s, r.out.t)
      case None => Step(ctx, Call(r.e, args), r.st, Fail(m, tag, "Calling something that is not a function."))
      case Some(f) =>
        var fargs := s.nodes[f].args;
        if |args| != |fargs| then
          Step(ctx, Call(r.e, args), r.st,
               Fail(m, tag, "Wrong number of arguments for call to function of type " + DescStr(s, f) + "."))
        else
          var a := CallArgs(m, fuel, tag, ctx, args, fargs, 0, r.st);
          Step(ctx, Call(r.e, a.args), a.st, if a.stop.Some? then a.stop.value else Typed(s.nodes[f].ret))
  }

  /** Arguments from position `i` on: each is typed, and coerced when its type differs
      from the parameter's. */
  function CallArgs(m: Mode, fuel: nat, tag: FTag, ctx: Ctx, args: seq<Expr>, fargs: seq<Arg>, i: nat, st: TcState): (r: ArgsStep)
    requires |args| == |fargs| && i <= |args|
    ensures |r.args| == |args|
    decreases fuel, 2, |args| - i
  {
    if i == |args| then ArgsStep(args, st, None)
    else
      var r := TypeOf(m, fuel, args[i], ctx, st);
      if !r.out.Typed? then ArgsStep(args[i := r.e], r.st, Some(r.out))
      else if Same(m, r.st.store, r.out.t, fargs[i].ty) then
        CallArgs(m, fuel, tag, ctx, args[i := r.e], fargs, i + 1, r.st)
      else
        var c := AsTypeOrError(m, fuel, r.e, fargs[i].ty, r.st);
        match c.res
        case ConvStop(o) => ArgsStep(args[i := c.self], c.st, Some(o))
        case NoConv => ArgsStep(args[i := c.self], c.st, Some(Fail(m, tag, "Wrong type for argument " + fargs[i].name + ".")))
        case Conv(e2) => CallArgs(m, fuel, tag, ctx, args[i := e2], fargs, i + 1, c.st)
  }

  // ---------------------------------------------------------------------------
  // Control flow

  function IfRule(m: Mode, fuel: nat, tag: FTag, ctx: Ctx, c: Expr, t: Expr, el: Option<Expr>, st: TcState): (r: Step)
    ensures r.ctx == ctx && r.node.If?
    ensures r.out.Typed? ==> (r.node.elseBr.None? <==> el.None?)
    decreases fuel, 5, 0
  {
    var rc := TypeOf(m, fuel, c, ctx, st);
    if !rc.out.Typed? then Step(ctx, If(rc.e, t, el), rc.st, rc.out)
    else if !Same(m, rc.st.store, rc.out.t, BOOL) then
      Step(ctx, If(rc.e, t, el), rc.st, Fail(m, tag, "Condition in 'if' must be boolean."))
    else
      var rt := TypeOf(m, fuel, t, ctx, rc.st);
      if !rt.out.Typed? then Step(ctx, If(rc.e, rt.e, el), rt.st, rt.out)
      else if el.None? then
        if Same(m, rt.st.store, rt.out.t, VOID) then Step(ctx, If(rc.e, rt.e, el), rt.st, rt.out)
        else Step(ctx, If(rc.e, rt.e, el), rt.st, Fail(m, tag, "Expression in 'then' must be void when no 'else'."))
      else
        var re := TypeOf(m, fuel, el.value, ctx, rt.st);
        if !re.out.Typed? then Step(ctx, If(rc.e, rt.e, Some(re.e)), re.st, re.out)
        else if Same(m, re.st.store, rt.out.t, re.out.t) then Step(ctx, If(rc.e, rt.e, Some(re.e)), re.st, rt.out)
        else
          var cv := AsTypeOrError(m, fuel, re.e, rt.out.t, re.st);
          match cv.res
          case ConvStop(o) => Step(ctx, If(rc.e, rt.e, Some(cv.self)), cv.st, o)
          case NoConv => Step(ctx, If(rc.e, rt.e, None), cv.st,
                              Fail(m, tag, "Expression in 'then' and 'else' must be of same type."))
          case Conv(e2) => Step(ctx, If(rc.e, rt.e, Some(e2)), cv.st, rt.out)
  }

  function WhileRule(m: Mode, fuel: nat, tag: FTag, ctx: Ctx, c: Expr, b: Expr, u: bool, st: TcState): (r: Step)
    ensures r.ctx == ctx && r.node.While? && r.node.isUntil == u
    ensures r.out.Typed? ==> r.out.t == VOID
    decreases fuel, 5, 0
  {
    var rc := TypeOf(m, fuel, c, ctx, st);
    if !rc.out.Typed? then Step(ctx, While(rc.e, b, u), rc.st, rc.out)
    else if !Same(m, rc.st.store, rc.out.t, BOOL) then
      Step(ctx, While(rc.e, b, u), rc.st, Fail(m, tag, "Condition in while/until must be of type bool."))
    else
      var rb := TypeOf(m, fuel, b, ctx, rc.st);
      if !rb.out.Typed? then Step(ctx, While(rc.e, rb.e, u), rb.st, rb.out)
      else Step(ctx, While(rc.e, rb.e, u), rb.st, Typed(VOID))
  }

  function ReturnRule(m: Mode, fuel: nat, tag: FTag, ctx: Ctx, v: Option<Expr>, st: TcState): (r: Step)
    ensures r.ctx == ctx && r.node.Return?
    ensures r.out.Typed? ==> r.out.t == VOID
    ensures ctx.more.None? ==> r.out.Crashed?
    decreases fuel, 5, 0
  {
    var bad := "Return statement does not return correct type value.";
    if ctx.more.None? then Step(ctx, Return(v), st, Crashed("return outside a function"))
    else
      var retT := ctx.more.value.retType;
      if v.None? then
        if Same(m, st.store, retT, VOID) then Step(ctx, Return(v), st, Typed(VOID))
        else Step(ctx, Return(v), st, Fail(m, tag, bad))
      else
        var r := TypeOf(m, fuel, v.value, ctx, st);
        if !r.out.Typed? then Step(ctx, Return(Some(r.e)), r.st, r.out)
        else if Same(m, r.st.store, r.out.t, retT) then Step(ctx, Return(Some(r.e)), r.st, Typed(VOID))
        else
          var c := AsType(m, fuel, r.e, retT, r.st);
          match c.res
          case ConvStop(o) => Step(ctx, Return(Some(c.self)), c.st, o)
          case NoConv => Step(ctx, Return(None), c.st, Fail(m, tag, bad))
          case Conv(e2) =>
            var t2 := TypeOf(m, fuel, e2, ctx, c.st);
            var n := Return(Some(t2.e));
            if t2.out.Abrupt() then Step(ctx, n, t2.st, t2.out)
            else if t2.out.NoType? && m.ByStructure? then Step(ctx, n, t2.st, Crashed("null type compared"))
            else if t2.out.Typed? && Same(m, t2.st.store, t2.out.t, retT) then Step(ctx, n, t2.st, Typed(VOID))
            else Step(ctx, n, t2.st, Fail(m, tag, "Internal error #4525426"))
  }

  // ---------------------------------------------------------------------------
  // Blocks and function literals

  /** A block: on its first computation it gets a copy of its context with one new,
      empty frame; then its statements are checked in order. */
  function BlockRule(m: Mode, fuel: nat, tag: FTag, ctx: Ctx, stmts: seq<Stmt>, own: bool, st: TcState): (r: Step)
    ensures r.node.Block? && |r.node.stmts| == |stmts|
    ensures own ==> r.ctx == ctx
    ensures !own ==> r.ctx.pkg == ctx.pkg && |r.ctx.frames| == |ctx.frames| + 1 && r.ctx.frames[..|ctx.frames|] == ctx.frames
    ensures r.out.Typed? ==> r.out.t == VOID && r.node.ownContext
    decreases fuel, 5, 0
  {
    var (ctx1, st1) :=
      if own then (ctx, st)
      else
        var (s1, f) := PushFrame(st, map[]);
        (ctx.(frames := ctx.frames + [f]), s1);
    var b := BlockStmts(m, fuel, tag, ctx1, stmts, 0, st1);
    Step(ctx1, Block(b.stmts, own || b.out.Typed?), b.st, b.out)
  }

  /** The message of the error that wraps a statement's failure. */
  function BlockErrorMsg(s: Stmt): string {
    if s.DefStmt? then "Type checking error in definition of '" + s.d.name + "'."
    else "Type checking error somewhere in this block."
  }

  /** Statements from position `i` on. Each definition is added to the block's frame
      right after its own check, under its usage type; a name already bound there
      keeps its first symbol. */
  function BlockStmts(m: Mode, fuel: nat, tag: FTag, ctx: Ctx, stmts: seq<Stmt>, i: nat, st: TcState): (r: StmtsStep)
    requires i <= |stmts|
    ensures |r.stmts| == |stmts|
    ensures r.out.Typed? ==> r.out.t == VOID
    decreases fuel, 4, |stmts| - i
  {
    if i == |stmts| then StmtsStep(stmts, st, Typed(VOID))
    else
      var c := StmtCheck(m, fuel, stmts[i], ctx, st);
      var stmts1 := stmts[i := c.s];
      match c.res
      case Raised(o) =>
        if m.ByIdentity? && o.Thrown? then
          StmtsStep(stmts1, c.st, Thrown(LangError(tag, BlockErrorMsg(stmts[i]), Some(o.err))))
        else StmtsStep(stmts1, c.st, o)
      case Failed(_) => StmtsStep(stmts1, c.st, NoType(BlockErrorMsg(stmts[i])))
      case Passed =>
        if c.s.ExprStmt? then BlockStmts(m, fuel, tag, ctx, stmts1, i + 1, c.st)
        else
          match TypeAtDef(c.st.store, c.s.d)
          case None => StmtsStep(stmts1, c.st, DanglingType)
          case Some((s2, t)) =>
            if t.None? then
              StmtsStep(stmts1, c.st.(store := s2),
                        if m.ByIdentity? then Crashed("probably a bug (BlockAST::getType())")
                        else NoType("probably a bug (BlockAST::getType())"))
            else if |ctx.frames| == 0 then StmtsStep(stmts1, c.st, Crashed("no frame"))
            else
              var (st2, sid) := NewSym(c.st.(store := s2), Symbol(KindOf(c.s.d), t));
              var st3 := Insert(st2, ctx.frames[|ctx.frames| - 1], c.s.d.name, sid);
              BlockStmts(m, fuel, tag, ctx, stmts1, i + 1, st3)
  }

  /** A function literal: on its first computation its context gets the return type
      and one new frame binding the parameters; its type is a reference to its
      function type. */
  function FuncRule(m: Mode, fuel: nat, tag: FTag, ctx: Ctx, ft: TypeId, code: Expr, own: bool, st: TcState): (r: Step)
    ensures r.node.FuncLit? && r.node.ftype == ft
    ensures r.out.Typed? ==> r.node.ownContext && r.out.t < |r.st.store.nodes| && r.st.store.nodes[r.out.t] == RefT(ft)
    decreases fuel, 5, 0
  {
    if !own && !IsFuncT(st.store, ft) then Step(ctx, FuncLit(ft, code, own), st, DanglingType)
    else
      var (ctx1, st1) :=
        if own then (ctx, st)
        else
          var f := st.store.nodes[ft];
          var st0 := st.(syms := st.syms + ArgSyms(f.args));
          var (s2, fid) := PushFrame(st0, ArgFrame(f.args, |st.syms|));
          (Ctx(ctx.pkg, Some(More(f.ret)), ctx.frames + [fid]), s2);
      var r := TypeOf(m, fuel, code, ctx1, st1);
      var n := FuncLit(ft, r.e, true);
      if !r.out.Typed? then Step(ctx1, n, r.st, r.out)
      else match RefOf(r.st.store, ft)
        case Some((s3, t)) => Step(ctx1, n, r.st.(store := s3), Typed(t))
        case None => Step(ctx1, n, r.st, DanglingType)
  }

  // ---------------------------------------------------------------------------
  // Implicit coercion

  /** `asType`: integer literals and externs have their own rule; any other node is
      returned when its type matches, else dereferenced one layer at a time. */
  function AsType(m: Mode, fuel: nat, e: Expr, ty: TypeId, st: TcState): (r: AsResult)
    ensures r.res.Conv? && !e.node.IntLit? && !(e.node.Extern? && e.node.stype.Some?) ==>
      r.res.e.memo.etype.Some? && Same(m, r.st.store, r.res.e.memo.etype.value, ty)
    ensures r.res.ConvStop? ==> r.res.out.Abrupt()
    ensures r.res.Conv? && e.node.IntLit? ==>
      (IsInt(st.store, ty) && r.res.e == e.(node := IntLit(e.node.val, ty)))
      || (IsFloat(st.store, ty) && r.res.e.node == FloatLit(IntToStr(e.node.val)))
    decreases fuel, 0, 2
  {
    if fuel == 0 then AsResult(e, st, ConvStop(Exhausted))
    else if e.memo.ctx.None? then
      var cls := match e.node case IntLit(_, _) => "IntExprAST" case Extern(_, _) => "ExternAST" case _ => "ExprAST";
      AsResult(e, st, if m.ByIdentity? then ConvStop(Thrown(InternalError("Context not defined in " + cls + "::asType.", None))) else NoConv)
    else
      match e.node
      case IntLit(v, _) =>
        if IsInt(st.store, ty) then AsResult(e, st, Conv(e.(node := IntLit(v, ty))))
        else if IsFloat(st.store, ty) then AsResult(e, st, Conv(Fresh(e.tag, FloatLit(IntToStr(v)))))
        else AsResult(e, st, NoConv)
      case Extern(_, _) => AsExtern(m, fuel, e, ty, st)
      case _ => AsDeref(m, fuel, e, ty, st)
  }

  /** `ExternAST::asType`: only a reference type is acceptable; an untyped extern
      becomes a new extern typed with the pointee, a typed one is kept when its type
      is that pointee. */
  function AsExtern(m: Mode, fuel: nat, e: Expr, ty: TypeId, st: TcState): (r: AsResult)
    requires e.node.Extern? && e.memo.ctx.Some?
    ensures r.res.ConvStop? ==> r.res.out.Abrupt()
    ensures r.res.Conv? && e.node.stype.None? ==>
      r.res.e.memo.etype.Some? && Same(m, r.st.store, r.res.e.memo.etype.value, ty)
    ensures r.res.Conv? ==> Pointee(st.store, ty).Some?
    decreases fuel, 0, 1
  {
    match Pointee(st.store, ty)
    case None =>
      AsResult(e, st, if m.ByIdentity? then ConvStop(Thrown(InternalError("Extern values must be of reference type.", None)))
                      else NoConv)
    case Some(p) =>
      if e.node.stype.None? then
        var r := TypeOf(m, fuel, Fresh(e.tag, Extern(Some(p), e.node.symbol)), e.memo.ctx.value, st);
        if r.out.Abrupt() then AsResult(e, r.st, ConvStop(r.out))
        else if r.out.Typed? && Same(m, r.st.store, r.out.t, ty) then AsResult(e, r.st, Conv(r.e))
        else if m.ByIdentity? then
          AsResult(e, r.st, ConvStop(Thrown(InternalError("Internal error type.cpp#15523425", None))))
        else if r.out.NoType? then AsResult(e, r.st, ConvStop(Crashed("null type compared")))
        else AsResult(e, r.st, NoConv)
      else if Same(m, st.store, e.node.stype.value, p) then AsResult(e, st, Conv(e))
      else AsResult(e, st, NoConv)
  }

  /** `ExprAST::asType`: the node itself when its type matches, otherwise one more
      dereference while the type allows it. */
  function AsDeref(m: Mode, fuel: nat, e: Expr, ty: TypeId, st: TcState): (r: AsResult)
    requires e.memo.ctx.Some?
    ensures r.res.Conv? ==> r.res.e.memo.etype.Some? && Same(m, r.st.store, r.res.e.memo.etype.value, ty)
    ensures r.res.ConvStop? ==> r.res.out.Abrupt()
    decreases fuel, 0, 1
  {
    var c := e.memo.ctx.value;
    var r := TypeOf(m, fuel, e, c, st);
    if r.out.Abrupt() then AsResult(r.e, r.st, ConvStop(r.out))
    else if r.out.NoType? then AsResult(r.e, r.st, ConvStop(Crashed("null type compared")))
    else if Same(m, r.st.store, r.out.t, ty) then AsResult(r.e, r.st, Conv(r.e))
    else if !Derefs(m, r.st.store, r.out.t) then AsResult(r.e, r.st, NoConv)
    else
      var a := TypeOf(m, fuel, Fresh(e.tag, Deref(Some(r.e))), c, r.st);
      if a.out.Abrupt() then AsResult(r.e, a.st, ConvStop(a.out))
      else if a.out.Typed? && Same(m, a.st.store, a.out.t, ty) then AsResult(r.e, a.st, Conv(a.e))
      else if a.out.NoType? && m.ByStructure? then AsResult(r.e, a.st, ConvStop(Crashed("null type compared")))
      else if fuel == 0 then AsResult(r.e, a.st, ConvStop(Exhausted))
      else
        var b := AsType(m, fuel - 1, a.e, ty, a.st);
        AsResult(r.e, b.st, b.res)
  }

  /** `asTypeOrError`: a failed coercion is raised (or reported). */
  function AsTypeOrError(m: Mode, fuel: nat, e: Expr, ty: TypeId, st: TcState): (r: AsResult)
    ensures m.ByIdentity? ==> !r.res.NoConv?
    ensures r.res.ConvStop? ==> r.res.out.Abrupt()
    ensures m.ByStructure? || !r.res.ConvStop? || !AsType(m, fuel, e, ty, st).res.NoConv? ==>
      r == AsType(m, fuel, e, ty, st)
    decreases fuel, 1, 0
  {
    var a := AsType(m, fuel, e, ty, st);
    if a.res.NoConv? && m.ByIdentity? then
      var s := a.st.store;
      var have := if a.self.memo.etype.Some? then DescStr(s, a.self.memo.etype.value) else "???";
      AsResult(a.self, a.st, ConvStop(Thrown(LangError(e.tag,
        "Type error: cannot use value of type '" + have + "' as type '" + DescStr(s, ty), None))))
    else a
  }

  // ---------------------------------------------------------------------------
  // Statements and definitions

  function StmtCheck(m: Mode, fuel: nat, s: Stmt, ctx: Ctx, st: TcState): (r: StmtStep)
    ensures r.s.ExprStmt? == s.ExprStmt? && (s.ExprStmt? ==> r.s.tag == s.tag)
    ensures s.DefStmt? ==> r.s.d.name == s.d.name && r.s.d.VarDef? == s.d.VarDef?
    ensures m.ByIdentity? ==> !r.res.Failed?
    ensures r.res.Raised? ==> r.res.out.Abrupt()
    decreases fuel, 3, 0
  {
    match s
    case ExprStmt(tag, e) =>
      var r := TypeOf(m, fuel, e, ctx, st);
      var s1 := ExprStmt(tag, r.e);
      if r.out.Typed? then StmtStep(s1, r.st, Passed)
      else if r.out.NoType? then
        StmtStep(s1, r.st, if m.ByIdentity? then Raised(Thrown(LangError(tag, "Type check error.", None)))
                           else Failed(r.out.diag))
      else StmtStep(s1, r.st, Raised(r.out))
    case DefStmt(d) =>
      var c := DefCheck(m, fuel, d, ctx, st);
      StmtStep(DefStmt(c.d), c.st, c.res)
  }

  /** A definition's failure, wrapped with "Type check error for 'name'." as the
      raising revision does. */
  function WrapDef(tag: FTag, name: string, o: Outcome): Checked {
    if o.Thrown? then Raised(Thrown(LangError(tag, "Type check error for '" + name + "'.", Some(o.err))))
    else Raised(o)
  }

  /** `typeCheck` of the three definition kinds. */
  function DefCheck(m: Mode, fuel: nat, d: Def, ctx: Ctx, st: TcState): (r: DefStep)
    ensures r.d.tag == d.tag && r.d.name == d.name
    ensures r.d.VarDef? == d.VarDef? && r.d.FuncDef? == d.FuncDef? && r.d.ExternFuncDef? == d.ExternFuncDef?
    ensures m.ByIdentity? ==> !r.res.Failed?
    ensures r.res.Raised? ==> r.res.out.Abrupt()
    decreases fuel, 2, 0
  {
    match d
    case VarDef(tag, name, vt, val, isVar) =>
      var r := TypeOf(m, fuel, val, ctx, st);
      if r.out.Thrown? then
        DefStep(d.(val := r.e), r.st,
                Raised(Thrown(LangError(tag, "Cannot determine type of value for '" + name + "'.", Some(r.out.err)))))
      else if r.out.Crashed? then DefStep(d.(val := r.e), r.st, Raised(r.out))
      else if r.out.NoType? && m.ByStructure? then
        DefStep(d.(val := r.e), r.st, Failed("Cannot determine type of value for '" + name + "'."))
      else
        var t2 := if r.out.Typed? then Some(r.out.t) else None;
        if vt.None? then DefStep(VarDef(tag, name, t2, r.e, isVar), r.st, Passed)
        else if t2.Some? && Same(m, r.st.store, vt.value, t2.value) then DefStep(d.(val := r.e), r.st, Passed)
        else
          var c := AsTypeOrError(m, fuel, r.e, vt.value, r.st);
          (match c.res
           case ConvStop(o) => DefStep(d.(val := c.self), c.st, if m.ByIdentity? then WrapDef(tag, name, o) else Raised(o))
           case NoConv =>
             DefStep(d.(val := c.self), c.st,
                     if m.ByIdentity? then WrapDef(tag, name, Thrown(LangError(tag, "Type check error for '" + name + "'.", None)))
                     else Failed("cannot use value"))
           case Conv(e2) => DefStep(d.(val := e2), c.st, Passed))
    case FuncDef(tag, name, fn) =>
      var r := TypeOf(m, fuel, fn, ctx, st);
      var d1 := d.(fn := r.e);
      if r.out.Typed? then DefStep(d1, r.st, Passed)
      else if r.out.NoType? then
        DefStep(d1, r.st, if m.ByIdentity? then Raised(Thrown(LangError(tag, "Type check error for '" + name + "'.", None)))
                          else Failed(r.out.diag))
      else DefStep(d1, r.st, Raised(r.out))
    case ExternFuncDef(tag, name, ext, etype) =>
      var r := TypeOf(m, fuel, ext, ctx, st);
      var d1 := d.(ext := r.e);
      if r.out.Abrupt() then DefStep(d1, r.st, if m.ByIdentity? then WrapDef(tag, name, r.out) else Raised(r.out))
      else if r.out.NoType? then
        DefStep(d1, r.st,
                if m.ByIdentity? then WrapDef(tag, name, Thrown(LangError(tag, "Cannot evaluate type of :'" + name + "'.", None)))
                else Failed(r.out.diag))
      else match RefOf(r.st.store, etype)
        case None => DefStep(d1, r.st, Raised(DanglingType))
        case Some((s1, rt)) =>
          var c := AsTypeOrError(m, fuel, r.e, rt, r.st.(store := s1));
          match c.res
          case ConvStop(o) => DefStep(d.(ext := c.self), c.st, if m.ByIdentity? then WrapDef(tag, name, o) else Raised(o))
          case NoConv =>
            DefStep(d.(ext := c.self), c.st,
                    if m.ByIdentity? then WrapDef(tag, name, Thrown(LangError(tag, "Type check error for '" + name + "'.", None)))
                    else Failed("cannot use value"))
          case Conv(e2) =>
            if e2.node.Extern? then DefStep(d.(ext := e2), c.st, Passed)
            else
              DefStep(d.(ext := c.self), c.st,
                      if m.ByIdentity? then WrapDef(tag, name, Thrown(LangError(tag, "Type check error for '" + name + "'.", None)))
                      else Failed("not an extern"))
  }
}

=== FILE: analyser_facts.dfy ===
/** Properties of the analyser: the memoised `type()` state machine, name resolution,
    implicit coercion and the typing rules, each stated for operands whose types
    have already been computed. */
module AnalyserFacts {
  import opened Wrappers
  import opened Text
  import opened Errors
  import opened Types
  import opened Ast
  import opened Scope
  import opened Analyser

  /** A node that has been typed before: it has a context and a cached type. */
  predicate Cached(e: Expr, t: TypeId) {
    e.memo.ctx.Some? && e.memo.etype == Some(t)
  }

  // ---------------------------------------------------------------------------
  // The memoised type()

  /** A node's type is computed at most once: asking again returns the cached type
      and leaves node and state alone, and asking again after a computation that
      gave no type is a dependency loop. */
  lemma TypeComputedOnce(m: Mode, fuel: nat, e: Expr, ctx: Ctx, st: TcState, fuel2: nat, ctx2: Ctx, st2: TcState)
    requires fuel > 0 && fuel2 > 0
    ensures var r := TypeOf(m, fuel, e, ctx, st);
      var r2 := TypeOf(m, fuel2, r.e, ctx2, st2);
      (r.out.Typed? ==> r2 == Typing(r.e, st2, r.out))
      && (!r.out.Typed? ==> r2 == Typing(r.e, st2, Fail(m, e.tag, DepLoopMsg(m))))
  {
  }

  /** The first context a node is given is the one it keeps: once it has one, the
      context passed in no longer matters. */
  lemma FirstContextKept(m: Mode, fuel: nat, e: Expr, ctx1: Ctx, ctx2: Ctx, st: TcState)
    requires e.memo.ctx.Some?
    ensures TypeOf(m, fuel, e, ctx1, st) == TypeOf(m, fuel, e, ctx2, st)
  {
  }

  /** break and continue are not checked at all: their type is void in any context. */
  lemma BreakContAlwaysVoid(m: Mode, fuel: nat, tag: FTag, isBreak: bool, ctx: Ctx, st: TcState)
    requires fuel > 0
    ensures var r := TypeOf(m, fuel, Fresh(tag, BreakCont(isBreak)), ctx, st);
      r.out == Typed(VOID) && r.st == st
  {
  }

  // ---------------------------------------------------------------------------
  // Names

  /** A name bound in several frames resolves to the innermost binding; a
      top-level `let` marks the reference as a global constant. */
  lemma VarResolvesInnermost(m: Mode, tag: FTag, ctx: Ctx, name: string, st: TcState, i: nat, t: TypeId)
    requires i < |ctx.frames| && Binds(st, ctx.frames[i], name)
    requires forall j :: i < j < |ctx.frames| ==> !Binds(st, ctx.frames[j], name)
    requires FrameAt(st, ctx.frames[i])[name] < |st.syms|
    requires st.syms[FrameAt(st, ctx.frames[i])[name]].stype == Some(t)
    ensures var s := FrameAt(st, ctx.frames[i])[name];
      VarRule(m, tag, ctx, VarRef(name, None, false), st)
        == Step(ctx, VarRef(name, Some(s), i == 0 && st.syms[s].def == VarSym(false)), st, Typed(t))
  {
    var r := Lookup(st, ctx.frames, name);
    assert r.Some?;
    assert r.value.0 == i;
  }

  /** A name bound to a symbol whose type is not known yet cannot be used. */
  lemma VarNotYetTyped(m: Mode, tag: FTag, ctx: Ctx, name: string, st: TcState)
    requires var r := Lookup(st, ctx.frames, name);
      r.Some? && r.value.1 < |st.syms| && st.syms[r.value.1].stype.None?
    ensures VarRule(m, tag, ctx, VarRef(name, None, false), st).out
      == Fail(m, tag, "Scope error: variable '" + name + "' cannot be used here.")
  {
  }

  /** A name no frame binds is an import alias of the current package, typed as that
      package, or else is not found. */
  lemma VarUnbound(m: Mode, tag: FTag, ctx: Ctx, name: string, st: TcState)
    requires forall j :: 0 <= j < |ctx.frames| ==> !Binds(st, ctx.frames[j], name)
    ensures var r := VarRule(m, tag, ctx, VarRef(name, None, false), st);
      (ImportOf(st, ctx.pkg, name).Some? ==> r.out == Typed(ImportOf(st, ctx.pkg, name).value))
      && (ImportOf(st, ctx.pkg, name).None? ==>
            r.out == Fail(m, tag, "Scope error: variable '" + name + "' not found."))
  {
  }

  // ---------------------------------------------------------------------------
  // Implicit coercion

  /** A node whose type already is the target is returned itself. */
  lemma AsTypeKeepsMatchingNode(m: Mode, fuel: nat, e: Expr, t: TypeId, ty: TypeId, st: TcState)
    requires fuel > 0 && Cached(e, t) && !e.node.IntLit? && !e.node.Extern?
    requires Same(m, st.store, t, ty)
    ensures AsType(m, fuel, e, ty, st) == AsResult(e, st, Conv(e))
  {
  }

  /** A reference to the target type is coerced by one dereference node. */
  lemma AsTypeInsertsDeref(fuel: nat, e: Expr, t: TypeId, st: TcState)
    requires fuel > 1 && Cached(e, t) && !e.node.IntLit? && !e.node.Extern?
    requires CanDeref(st.store, t) && st.store.nodes[t].pointee != t
    ensures var p := st.store.nodes[t].pointee;
      AsType(ByIdentity, fuel, e, p, st).res
        == Conv(Expr(e.tag, Memo(true, e.memo.ctx, Some(p)), Deref(Some(e))))
  {
    var p := st.store.nodes[t].pointee;
    var c := e.memo.ctx.value;
    assert TypeOf(ByIdentity, fuel, e, c, st) == Typing(e, st, Typed(t));
    assert TypeOf(ByIdentity, fuel - 1, e, c, st) == Typing(e, st, Typed(t));
    assert DerefRule(ByIdentity, fuel - 1, e.tag, c, Some(e), st) == Step(c, Deref(Some(e)), st, Typed(p));
    assert GetType(ByIdentity, fuel - 1, e.tag, c, Deref(Some(e)), st) == Step(c, Deref(Some(e)), st, Typed(p));
    assert TypeOf(ByIdentity, fuel, Fresh(e.tag, Deref(Some(e))), c, st)
      == Typing(Expr(e.tag, Memo(true, e.memo.ctx, Some(p)), Deref(Some(e))), st, Typed(p));
    assert AsDeref(ByIdentity, fuel, e, p, st).res
      == Conv(Expr(e.tag, Memo(true, e.memo.ctx, Some(p)), Deref(Some(e))));
  }

  /** A type that neither matches nor dereferences is refused; `asTypeOrError`
      raises the refusal naming both types. */
  lemma AsTypeRefusesUnrelated(m: Mode, fuel: nat, e: Expr, t: TypeId, ty: TypeId, st: TcState)
    requires fuel > 0 && Cached(e, t) && !e.node.IntLit? && !e.node.Extern?
    requires !Same(m, st.store, t, ty) && !Derefs(m, st.store, t)
    ensures AsType(m, fuel, e, ty, st) == AsResult(e, st, NoConv)
    ensures m.ByIdentity? ==>
      AsTypeOrError(m, fuel, e, ty, st).res
        == ConvStop(Thrown(LangError(e.tag, "Type error: cannot use value of type '" + DescStr(st.store, t)
                                     + "' as type '" + DescStr(st.store, ty), None)))
  {
  }

  /** An integer literal coerces to any integer type by changing its own integer
      type, with no width check; its cached type is not updated, so the node keeps
      reporting the type it had before. */
  lemma IntLitCoercionKeepsStaleType(m: Mode, fuel: nat, e: Expr, ty: TypeId, st: TcState, ctx: Ctx)
    requires fuel > 0 && e.node.IntLit? && e.memo.ctx.Some? && e.memo.etype.Some?
    requires IsInt(st.store, ty)
    ensures var a := AsType(m, fuel, e, ty, st);
      a.res.Conv? && a.res.e.node == IntLit(e.node.val, ty) && a.st == st
      && TypeOf(m, fuel, a.res.e, ctx, a.st).out == Typed(e.memo.etype.value)
  {
  }

  /** An integer literal coerces to float by becoming a new float literal. */
  lemma IntLitToFloat(m: Mode, fuel: nat, e: Expr, ty: TypeId, st: TcState, ctx: Ctx)
    requires fuel > 0 && e.node.IntLit? && e.memo.ctx.Some? && IsFloat(st.store, ty)
    ensures var a := AsType(m, fuel, e, ty, st);
      a.res == Conv(Fresh(e.tag, FloatLit(IntToStr(e.node.val))))
      && TypeOf(m, fuel, a.res.e, ctx, a.st).out == Typed(FLOAT)
  {
  }

  /** An extern coerces only to a reference type. */
  lemma ExternNeedsReference(m: Mode, fuel: nat, e: Expr, ty: TypeId, st: TcState)
    requires fuel > 0 && e.node.Extern? && e.memo.ctx.Some? && !IsRef(st.store, ty)
    ensures AsType(m, fuel, e, ty, st).res ==
      (if m.ByIdentity? then ConvStop(Thrown(InternalError("Extern values must be of reference type.", None)))
       else NoConv)
  {
  }

  /** A typed extern coerces to a reference exactly when its type is the reference's
      pointee, and then stays as it is. */
  lemma TypedExternCoercion(m: Mode, fuel: nat, e: Expr, ty: TypeId, st: TcState)
    requires fuel > 0 && e.node.Extern? && e.memo.ctx.Some? && IsRef(st.store, ty) && e.node.stype.Some?
    ensures var a := AsType(m, fuel, e, ty, st);
      a.st == st
      && (a.res == Conv(e) <==> Same(m, st.store, e.node.stype.value, st.store.nodes[ty].pointee))
      && (a.res.Conv? || a.res.NoConv?)
  {
  }

  /** An untyped extern coerced to the interned reference to `p` becomes a new extern
      typed with `p`. */
  lemma UntypedExternGetsPointee(m: Mode, fuel: nat, e: Expr, p: TypeId, st: TcState)
    requires fuel > 1 && e.node.Extern? && e.node.stype.None? && e.memo.ctx.Some?
    requires WF(st.store) && p in st.store.refTypes
    ensures var ty := st.store.refTypes[p];
      var a := AsType(m, fuel, e, ty, st);
      a.res.Conv? && a.res.e.node == Extern(Some(p), e.node.symbol) && a.res.e.memo.etype == Some(ty)
  {
    var ty := st.store.refTypes[p];
    var c := e.memo.ctx.value;
    var x := Fresh(e.tag, Extern(Some(p), e.node.symbol));
    assert Valid(st.store, p) by {
      assert ChildrenBelow(st.store.nodes[ty], ty);
    }
    assert RefOf(st.store, p) == Some((st.store, ty));
    assert GetType(m, fuel - 1, e.tag, c, x.node, st) == Step(c, x.node, st, Typed(ty));
    var r := TypeOf(m, fuel, x, c, st);
    assert r == Typing(Expr(e.tag, Memo(true, Some(c), Some(ty)), x.node), st, Typed(ty));
    if m.ByStructure? {
      EqRefl(st.store, ty);
    }
    assert AsExtern(m, fuel, e, ty, st).res == Conv(r.e);
  }

  // ---------------------------------------------------------------------------
  // Operators

  /** Dereferencing needs a reference to something other than a function and
      yields the pointee. */
  lemma DerefRuleSpec(m: Mode, fuel: nat, tag: FTag, ctx: Ctx, x: Expr, t: TypeId, st: TcState)
    requires fuel > 0 && Cached(x, t) && WF(st.store)
    ensures var r := DerefRule(m, fuel, tag, ctx, Some(x), st);
      r.st == st
      && (r.out.Typed? <==> CanDeref(st.store, t))
      && (CanDeref(st.store, t) ==> r.out == Typed(st.store.nodes[t].pointee))
  {
    if IsRef(st.store, t) {
      assert ChildrenBelow(st.store.nodes[t], t);
    }
  }

  /** The two refusals of a dereference. */
  lemma DerefRefusals(m: Mode, fuel: nat, tag: FTag, ctx: Ctx, x: Expr, t: TypeId, st: TcState)
    requires fuel > 0 && Cached(x, t) && WF(st.store)
    ensures var r := DerefRule(m, fuel, tag, ctx, Some(x), st);
      (!IsRef(st.store, t) ==> r.out == Fail(m, tag, "Dereferencing something that was not a reference..."))
      && (IsRef(st.store, t) && !CanDeref(st.store, t) ==>
            r.out == Fail(m, tag, "Cannot dereference a function pointer. You call it as-is."))
  {
    if IsRef(st.store, t) {
      assert ChildrenBelow(st.store.nodes[t], t);
    }
  }

  /** '!' needs a bool and '-' an int or a float; the result has the operand's type. */
  lemma UnaryRuleSpec(m: Mode, fuel: nat, tag: FTag, ctx: Ctx, op: string, x: Expr, t: TypeId, st: TcState)
    requires fuel > 0 && Cached(x, t)
    ensures var r := UnaryRule(m, fuel, tag, ctx, op, Some(x), st);
      r.st == st
      && (r.out.Typed? <==> (op == "!" && Same(m, st.store, t, BOOL))
                            || (op == "-" && (Same(m, st.store, t, FLOAT) || IsInt(st.store, t))))
      && (r.out.Typed? ==> r.out.t == t)
      && (op != "!" && op != "-" ==> r.out == Fail(m, tag, "Unknown unary operator '" + op + "'."))
  {
  }

  /** Assignment needs a reference on the left; a right side of the pointee type is
      accepted as is. */
  lemma AssignRuleSpec(m: Mode, fuel: nat, tag: FTag, ctx: Ctx, l: Expr, lt: TypeId, v: Expr, vt: TypeId, st: TcState)
    requires fuel > 0 && Cached(l, lt) && Cached(v, vt)
    ensures var r := AssignRule(m, fuel, tag, ctx, l, Some(v), st);
      (!IsRef(st.store, lt) ==> r.out == Fail(m, tag, "Cannot affect to non-reference value.") && r.st == st)
      && (IsRef(st.store, lt) && Same(m, st.store, vt, st.store.nodes[lt].pointee) ==>
            r.out == Typed(vt) && r.st == st && r.node == Binary("=", l, Some(v)))
  {
  }

  /** Assigning an integer literal already typed as another integer type fails:
      the coercion retargets the literal but its cached type is the old one, so the
      re-check after the coercion reports "Internal error 234666". */
  lemma AssignIntLiteralStaleType(m: Mode, fuel: nat, tag: FTag, ctx: Ctx, l: Expr, lt: TypeId, v: Expr, vt: TypeId, st: TcState)
    requires fuel > 0 && Cached(l, lt) && Cached(v, vt) && v.node.IntLit?
    requires IsRef(st.store, lt) && IsInt(st.store, st.store.nodes[lt].pointee)
    requires !Same(m, st.store, vt, st.store.nodes[lt].pointee)
    ensures AssignRule(m, fuel, tag, ctx, l, Some(v), st).out == Fail(m, tag, "Internal error 234666")
  {
    var p := st.store.nodes[lt].pointee;
    if m.ByStructure? {
      if Eq(st.store, p, vt) {
        EqSym(st.store, p, vt);
      }
    }
    var a := AsType(m, fuel, v, p, st);
    assert a.res == Conv(v.(node := IntLit(v.node.val, p))) && a.st == st;
    assert AsTypeOrError(m, fuel, v, p, st) == a;
  }

  /** Two different integer types: the narrower side (the right one on equal sizes)
      is cast to the other, which becomes signed in place when the cast side is
      signed; comparisons yield bool, arithmetic the wider type. */
  lemma ArithWidensRight(m: Mode, fuel: nat, tag: FTag, ctx: Ctx, op: string, le: Expr, lt: TypeId, re: Expr, rt: TypeId, st: TcState)
    requires IsInt(st.store, lt) && IsInt(st.store, rt) && !Same(m, st.store, lt, rt)
    requires st.store.nodes[lt].size >= st.store.nodes[rt].size
    ensures var r := ArithTyped(m, fuel, tag, ctx, op, le, lt, re, rt, st);
      var n := st.store.nodes;
      r.node == Binary(op, le, Some(Fresh(tag, Cast(re, lt, true))))
      && r.st.store.nodes[lt] == IntT(n[lt].size, n[lt].signed || n[rt].signed)
      && (forall u :: 0 <= u < |n| && u != lt ==> r.st.store.nodes[u] == n[u])
      && r.out == Typed(if op in Comparisons then BOOL else lt)
  {
  }

  /** The mirror case: a strictly narrower left side is cast to the right type. */
  lemma ArithWidensLeft(m: Mode, fuel: nat, tag: FTag, ctx: Ctx, op: string, le: Expr, lt: TypeId, re: Expr, rt: TypeId, st: TcState)
    requires IsInt(st.store, lt) && IsInt(st.store, rt) && !Same(m, st.store, lt, rt)
    requires st.store.nodes[lt].size < st.store.nodes[rt].size
    ensures var r := ArithTyped(m, fuel, tag, ctx, op, le, lt, re, rt, st);
      var n := st.store.nodes;
      r.node == Binary(op, Fresh(tag, Cast(le, rt, true)), Some(re))
      && r.st.store.nodes[rt] == IntT(n[rt].size, n[rt].signed || n[lt].signed)
      && (forall u :: 0 <= u < |n| && u != rt ==> r.st.store.nodes[u] == n[u])
      && r.out == Typed(if op in Comparisons then BOOL else rt)
  {
  }

  /** A float mixed with an integer that is not a literal is refused, because an
      integer value does not coerce to float; an integer literal does. */
  lemma ArithFloatWithInt(m: Mode, fuel: nat, tag: FTag, ctx: Ctx, op: string, le: Expr, lt: TypeId, re: Expr, rt: TypeId, st: TcState)
    requires fuel > 0 && IsFloat(st.store, lt) && IsInt(st.store, rt) && Cached(re, rt) && !re.node.Extern?
    ensures var r := ArithTyped(m, fuel, tag, ctx, op, le, lt, re, rt, st);
      (re.node.IntLit? ==> r.out == Typed(if op in Comparisons then BOOL else lt)
                           && r.node == Binary(op, le, Some(Fresh(re.tag, FloatLit(IntToStr(re.node.val))))))
      && (!re.node.IntLit? ==> !r.out.Typed?)
  {
    if !re.node.IntLit? {
      assert !Same(m, st.store, rt, lt);
      AsTypeRefusesUnrelated(m, fuel, re, rt, lt, st);
    } else {
      assert AsType(m, fuel, re, lt, st) == AsResult(re, st, Conv(Fresh(re.tag, FloatLit(IntToStr(re.node.val)))));
    }
  }

  /** Operators outside the arithmetic and comparison sets, '&&' and '||' among
      them, are refused. */
  lemma LogicalOperatorsRefused(m: Mode, fuel: nat, tag: FTag, ctx: Ctx, op: string, l: Expr, rv: Option<Expr>, st: TcState)
    requires op != "=" && op !in Arithmetic && op !in Comparisons
    ensures GetType(m, fuel, tag, ctx, Binary(op, l, rv), st).out
      == Fail(m, tag, "Unknown or unimplemented operator '" + op + "'.")
  {
  }

  /** '.' is legal only on a package. */
  lemma DotNeedsPackage(m: Mode, fuel: nat, tag: FTag, ctx: Ctx, obj: Expr, t: TypeId, member: string, st: TcState)
    requires fuel > 1 && Cached(obj, t) && !(t < |st.store.nodes| && st.store.nodes[t].PkgT?)
    ensures DotRule(m, fuel, tag, ctx, obj, member, st).out ==
      Fail(m, tag, "accessing a member using '.' is only possible with packages.")
  {
  }

  /** On a package, the member is looked up in that package's own top-level frame
      and the member name is cleared. */
  lemma DotMemberSpec(m: Mode, fuel: nat, tag: FTag, ctx: Ctx, obj: Expr, t: TypeId, member: string, st: TcState)
    requires fuel > 1 && Cached(obj, t)
    requires t < |st.store.nodes| && st.store.nodes[t].PkgT? && st.store.nodes[t].pkg in st.pkgs
    requires var f := st.pkgs[st.store.nodes[t].pkg].frame;
      Binds(st, f, member) && FrameAt(st, f)[member] < |st.syms| && st.syms[FrameAt(st, f)[member]].stype.Some?
    ensures var f := st.pkgs[st.store.nodes[t].pkg].frame;
      var r := DotRule(m, fuel, tag, ctx, obj, member, st);
      r.out == Typed(st.syms[FrameAt(st, f)[member]].stype.value) && r.node.member == ""
  {
    var p := st.store.nodes[t].pkg;
    var f := st.pkgs[p].frame;
    var pctx := Ctx(p, None, [f]);
    var s := FrameAt(st, f)[member];
    var ty := st.syms[s].stype.value;
    VarResolvesInnermost(m, tag, pctx, member, st, 0, ty);
    var v := VarRule(m, tag, pctx, VarRef(member, None, false), st);
    assert v.out == Typed(ty) && v.st == st;
    assert GetType(m, fuel - 1, tag, pctx, VarRef(member, None, false), st) == v;
    var x := TypeOf(m, fuel, Fresh(tag, VarRef(member, None, false)), pctx, st);
    assert x.out == Typed(ty) && x.st == st;
  }

  // ---------------------------------------------------------------------------
  // Casts and calls

  /** A cast to the operand's own type is a no-op that needs no conversion. */
  lemma CastToSameType(m: Mode, fuel: nat, tag: FTag, ctx: Ctx, x: Expr, t: TypeId, ft: TypeId, nc: bool, st: TcState)
    requires fuel > 0 && Cached(x, t) && Same(m, st.store, t, ft)
    ensures CastRule(m, fuel, tag, ctx, x, ft, nc, st) == Step(ctx, Cast(x, ft, false), st, Typed(ft))
  {
  }

  /** Between numeric types (that coercion does not cover) a cast is accepted and
      keeps its conversion; between types that are neither numeric nor
      dereferenceable it yields no type, in both revisions, instead of raising. */
  lemma CastBetweenKinds(m: Mode, fuel: nat, tag: FTag, ctx: Ctx, x: Expr, t: TypeId, ft: TypeId, nc: bool, st: TcState)
    requires fuel > 0 && Cached(x, t) && !x.node.IntLit? && !x.node.Extern?
    requires !Same(m, st.store, t, ft) && !Derefs(m, st.store, t)
    ensures var r := CastRule(m, fuel, tag, ctx, x, ft, nc, st);
      (Numeric(st.store, t) && Numeric(st.store, ft) ==> r == Step(ctx, Cast(x, ft, nc), st, Typed(ft)))
      && (!(Numeric(st.store, t) && Numeric(st.store, ft)) ==>
            r.out == NoType("impossible cast from '" + DescStr(st.store, t) + "' to '" + DescStr(st.store, ft) + "'."))
  {
    AsTypeRefusesUnrelated(m, fuel, x, t, ft, st);
  }

  /** Arguments that already have their parameters' types pass unchanged. */
  lemma {:induction false} CallArgsMatching(m: Mode, fuel: nat, tag: FTag, ctx: Ctx, args: seq<Expr>, fargs: seq<Arg>, i: nat, st: TcState)
    requires fuel > 0 && |args| == |fargs| && i <= |args|
    requires forall j :: i <= j < |args| ==>
      args[j].memo.ctx.Some? && args[j].memo.etype.Some? && Same(m, st.store, args[j].memo.etype.value, fargs[j].ty)
    ensures CallArgs(m, fuel, tag, ctx, args, fargs, i, st) == ArgsStep(args, st, None)
    decreases |args| - i
  {
    if i < |args| {
      assert args[i := args[i]] == args;
      CallArgsMatching(m, fuel, tag, ctx, args, fargs, i + 1, st);
    }
  }

  /** A call through a reference to a function type with the right number of
      arguments, each of its parameter's type, has the function's return type. */
  lemma CallTyped(m: Mode, fuel: nat, tag: FTag, ctx: Ctx, callee: Expr, t: TypeId, args: seq<Expr>, st: TcState)
    requires fuel > 0 && Cached(callee, t) && CalleeFunc(st.store, t).Some?
    requires var f := st.store.nodes[CalleeFunc(st.store, t).value];
      |args| == |f.args|
      && forall j :: 0 <= j < |args| ==>
           args[j].memo.ctx.Some? && args[j].memo.etype.Some? && Same(m, st.store, args[j].memo.etype.value, f.args[j].ty)
    ensures CallRule(m, fuel, tag, ctx, callee, args, st)
      == Step(ctx, Call(callee, args), st, Typed(st.store.nodes[CalleeFunc(st.store, t).value].ret))
  {
    var f := st.store.nodes[CalleeFunc(st.store, t).value];
    CallArgsMatching(m, fuel, tag, ctx, args, f.args, 0, st);
  }

  /** A call with the wrong number of arguments, or of something that is not a
      reference to a function, is refused. */
  lemma CallRefused(m: Mode, fuel: nat, tag: FTag, ctx: Ctx, callee: Expr, t: TypeId, args: seq<Expr>, st: TcState)
    requires fuel > 0 && Cached(callee, t)
    ensures var r := CallRule(m, fuel, tag, ctx, callee, args, st);
      (CalleeFunc(st.store, t).None? ==> r.out == Fail(m, tag, "Calling something that is not a function."))
      && (CalleeFunc(st.store, t).Some? && |args| != |st.store.nodes[CalleeFunc(st.store, t).value].args| ==>
            r.out == Fail(m, tag, "Wrong number of arguments for call to function of type "
                                  + DescStr(st.store, CalleeFunc(st.store, t).value) + "."))
  {
  }

  // ---------------------------------------------------------------------------
  // Control flow

  /** `if` needs a bool condition. */
  lemma IfNeedsBool(m: Mode, fuel: nat, tag: FTag, ctx: Ctx, c: Expr, ct: TypeId, t: Expr, tt: TypeId, el: Option<Expr>, st: TcState)
    requires fuel > 0 && Cached(c, ct) && Cached(t, tt)
    requires el.Some? ==> el.value.memo.ctx.Some? && el.value.memo.etype.Some?
    requires !Same(m, st.store, ct, BOOL)
    ensures IfRule(m, fuel, tag, ctx, c, t, el, st).out == Fail(m, tag, "Condition in 'if' must be boolean.")
  {
  }

  /** Without else, the branch must be void, and then so is the `if`. */
  lemma IfWithoutElse(m: Mode, fuel: nat, tag: FTag, ctx: Ctx, c: Expr, ct: TypeId, t: Expr, tt: TypeId, st: TcState)
    requires fuel > 0 && Cached(c, ct) && Cached(t, tt) && Same(m, st.store, ct, BOOL)
    ensures var r := IfRule(m, fuel, tag, ctx, c, t, None, st);
      (r.out == Typed(tt) <==> Same(m, st.store, tt, VOID))
      && (!Same(m, st.store, tt, VOID) ==> r.out == Fail(m, tag, "Expression in 'then' must be void when no 'else'."))
  {
  }

  /** With an else of the same type, the result is the then-type. */
  lemma IfWithElse(m: Mode, fuel: nat, tag: FTag, ctx: Ctx, c: Expr, ct: TypeId, t: Expr, tt: TypeId, el: Expr, st: TcState)
    requires fuel > 0 && Cached(c, ct) && Cached(t, tt) && el.memo.ctx.Some? && el.memo.etype.Some?
    requires Same(m, st.store, ct, BOOL) && Same(m, st.store, tt, el.memo.etype.value)
    ensures IfRule(m, fuel, tag, ctx, c, t, Some(el), st) == Step(ctx, If(c, t, Some(el)), st, Typed(tt))
  {
  }

  /** `while`/`until` needs a bool condition and is void. */
  lemma WhileRuleSpec(m: Mode, fuel: nat, tag: FTag, ctx: Ctx, c: Expr, ct: TypeId, b: Expr, bt: TypeId, u: bool, st: TcState)
    requires fuel > 0 && Cached(c, ct) && Cached(b, bt)
    ensures var r := WhileRule(m, fuel, tag, ctx, c, b, u, st);
      (Same(m, st.store, ct, BOOL) ==> r == Step(ctx, While(c, b, u), st, Typed(VOID)))
      && (!Same(m, st.store, ct, BOOL) ==> r.out == Fail(m, tag, "Condition in while/until must be of type bool."))
  {
  }

  /** A bare `return` is accepted iff the function returns void; a value of the
      return type is accepted; a return is void; outside a function there is no
      return type to read. */
  lemma ReturnRuleSpec(m: Mode, fuel: nat, tag: FTag, ctx: Ctx, v: Option<Expr>, st: TcState)
    requires fuel > 0 && (v.Some? ==> v.value.memo.ctx.Some? && v.value.memo.etype.Some?)
    ensures var r := ReturnRule(m, fuel, tag, ctx, v, st);
      (ctx.more.None? ==> r.out.Crashed?)
      && (ctx.more.Some? && v.None? ==>
            (r.out == Typed(VOID) <==> Same(m, st.store, ctx.more.value.retType, VOID))
            && (!Same(m, st.store, ctx.more.value.retType, VOID) ==>
                  r.out == Fail(m, tag, "Return statement does not return correct type value.")))
      && (ctx.more.Some? && v.Some? && Same(m, st.store, v.value.memo.etype.value, ctx.more.value.retType) ==>
            r.out == Typed(VOID))
  {
  }

  /** Returning an integer literal already typed as another integer type fails the
      same way as assignment does, with "Internal error #4525426". */
  lemma ReturnIntLiteralStaleType(m: Mode, fuel: nat, tag: FTag, ctx: Ctx, v: Expr, vt: TypeId, st: TcState)
    requires fuel > 0 && Cached(v, vt) && v.node.IntLit? && ctx.more.Some?
    requires IsInt(st.store, ctx.more.value.retType) && !Same(m, st.store, vt, ctx.more.value.retType)
    ensures ReturnRule(m, fuel, tag, ctx, Some(v), st).out == Fail(m, tag, "Internal error #4525426")
  {
  }

  // ---------------------------------------------------------------------------
  // Blocks, function literals and definitions

  /** A block gets one new, empty frame on its first computation only; an empty
      block is void and then owns its context. */
  lemma BlockFrame(m: Mode, fuel: nat, tag: FTag, ctx: Ctx, stmts: seq<Stmt>, own: bool, st: TcState)
    ensures var r := BlockRule(m, fuel, tag, ctx, stmts, own, st);
      (own ==> r.ctx == ctx)
      && (!own ==> r.ctx == ctx.(frames := ctx.frames + [|st.frames|]))
      && (stmts == [] ==>
            r.out == Typed(VOID) && r.node == Block([], true)
            && r.st == (if own then st else st.(frames := st.frames + [map[]])))
  {
  }

  /** A definition that checks is bound in the block's frame right after its own
      check, under its usage type, so that only the statements after it see it; a
      name the frame already binds keeps its first symbol. */
  lemma BlockBindsAfterCheck(m: Mode, fuel: nat, tag: FTag, ctx: Ctx, stmts: seq<Stmt>, i: nat, st: TcState)
    requires i < |stmts| && stmts[i].DefStmt? && |ctx.frames| > 0
    requires StmtCheck(m, fuel, stmts[i], ctx, st).res.Passed?
    requires var c := StmtCheck(m, fuel, stmts[i], ctx, st);
      var a := TypeAtDef(c.st.store, c.s.d); a.Some? && a.value.1.Some?
    ensures var c := StmtCheck(m, fuel, stmts[i], ctx, st);
      var a := TypeAtDef(c.st.store, c.s.d).value;
      var f := ctx.frames[|ctx.frames| - 1];
      var st2 := c.st.(store := a.0, syms := c.st.syms + [Symbol(KindOf(c.s.d), a.1)]);
      var st3 := Insert(st2, f, c.s.d.name, |c.st.syms|);
      BlockStmts(m, fuel, tag, ctx, stmts, i, st) == BlockStmts(m, fuel, tag, ctx, stmts[i := c.s], i + 1, st3)
      && (f < |st2.frames| && c.s.d.name in st2.frames[f] ==> st3 == st2)
      && (f < |st2.frames| && c.s.d.name !in st2.frames[f] ==> st3.frames[f][c.s.d.name] == |c.st.syms|)
  {
  }

  /** A function literal, the first time, is checked in a context that records its
      return type and adds one frame binding its parameters (first name wins) to
      new symbols of their types; its type is the reference to its function type. */
  lemma FuncLitBindsParameters(m: Mode, fuel: nat, tag: FTag, ctx: Ctx, ft: TypeId, code: Expr, ct: TypeId, st: TcState)
    requires fuel > 0 && Cached(code, ct) && IsFuncT(st.store, ft) && WF(st.store)
    ensures var f := st.store.nodes[ft];
      var r := FuncRule(m, fuel, tag, ctx, ft, code, false, st);
      r.ctx == Ctx(ctx.pkg, Some(More(f.ret)), ctx.frames + [|st.frames|])
      && r.st.frames == st.frames + [ArgFrame(f.args, |st.syms|)]
      && r.st.syms == st.syms + ArgSyms(f.args)
      && r.node == FuncLit(ft, code, true)
      && r.out.Typed? && r.st.store.nodes[r.out.t] == RefT(ft)
  {
  }

  /** An untyped `let`/`var` takes its initializer's type; the name is then used
      with that type (a `let`) or a reference to it (a `var`). */
  lemma UntypedDefTakesInitType(m: Mode, fuel: nat, tag: FTag, name: string, v: Expr, t: TypeId, isVar: bool, ctx: Ctx, st: TcState)
    requires fuel > 0 && Cached(v, t)
    ensures var c := DefCheck(m, fuel, VarDef(tag, name, None, v, isVar), ctx, st);
      c == DefStep(VarDef(tag, name, Some(t), v, isVar), st, Passed)
      && (!isVar ==> TypeAtDef(st.store, c.d) == Some((st.store, Some(t))))
  {
  }

  /** A typed definition whose initializer already has the declared type passes
      unchanged. */
  lemma TypedDefMatching(m: Mode, fuel: nat, tag: FTag, name: string, vt: TypeId, v: Expr, t: TypeId, isVar: bool, ctx: Ctx, st: TcState)
    requires fuel > 0 && Cached(v, t) && Same(m, st.store, vt, t)
    ensures DefCheck(m, fuel, VarDef(tag, name, Some(vt), v, isVar), ctx, st)
      == DefStep(VarDef(tag, name, Some(vt), v, isVar), st, Passed)
  {
  }

  /** An initializer whose typing raised is reported as the definition's error, with
      the original error as its cause. */
  lemma DefInitializerRaised(m: Mode, fuel: nat, tag: FTag, name: string, vt: Option<TypeId>, v: Expr, isVar: bool, ctx: Ctx, st: TcState)
    requires TypeOf(m, fuel, v, ctx, st).out.Thrown?
    ensures DefCheck(m, fuel, VarDef(tag, name, vt, v, isVar), ctx, st).res
      == Raised(Thrown(LangError(tag, "Cannot determine type of value for '" + name + "'.",
                                 Some(TypeOf(m, fuel, v, ctx, st).out.err))))
  {
  }
}

=== FILE: args.dfy ===
/** The command-line option reader (`ArgParser`): the program name, the remaining
    parameters, and the boolean and string options pulled out of them. */
module Args {

  /** `BinName`, `BoolOpts`, `StrOpts` and `Params`. */
  datatype ArgParser = ArgParser(
    binName: string,
    boolOpts: set<string>,
    strOpts: map<string, string>,
    params: seq<string>)

  /** The position of the first occurrence of `x` in `xs`, or `|xs|` when there is
      none (`std::find`). */
  function Find(xs: seq<string>, x: string): (k: nat)
    ensures k <= |xs|
    ensures k < |xs| ==> xs[k] == x
    ensures forall j :: 0 <= j < k ==> xs[j] != x
  {
    if |xs| == 0 then 0
    else if xs[0] == x then 0
    else 1 + Find(xs[1..], x)
  }

  /** The constructor: the program name is `argv[0]`, the parameters the rest. 
      `Args::Args` reads `argv[0]` unconditionally, so `argc` must be at least one. */
  function New(argv: seq<string>): (p: ArgParser)
    requires |argv| >= 1
    ensures [p.binName] + p.params == argv
    ensures p.boolOpts == {} && p.strOpts == map[]
  {
    ArgParser(argv[0], {}, map[], argv[1..])
  }

  /** `addBool`: when the flag is among the parameters, its first occurrence is
      removed and the flag recorded; otherwise nothing changes. */
  function AddBool(p: ArgParser, flag: string): (r: ArgParser)
    ensures r.binName == p.binName && r.strOpts == p.strOpts
    ensures flag !in p.params ==> r == p
    ensures flag in p.params ==> r.boolOpts == p.boolOpts + {flag} && |r.params| + 1 == |p.params|
  {
    var k := Find(p.params, flag);
    if k == |p.params| then p
    else p.(params := p.params[..k] + p.params[k + 1..], boolOpts := p.boolOpts + {flag})
  }

  /** `addStr`: the default is recorded; when the flag is among the parameters and
      another parameter follows its first occurrence, that parameter becomes the
      value and both are removed. A flag in last position stays. */
  function AddStr(p: ArgParser, flag: string, deflt: string): (r: ArgParser)
    ensures r.binName == p.binName && r.boolOpts == p.boolOpts
    ensures r.strOpts.Keys == p.strOpts.Keys + {flag}
    ensures forall s :: s in p.strOpts && s != flag ==> r.strOpts[s] == p.strOpts[s]
    ensures r.params == p.params || |r.params| + 2 == |p.params|
  {
    var k := Find(p.params, flag);
    if k + 1 < |p.params| then
      p.(strOpts := p.strOpts[flag := p.params[k + 1]], params := p.params[..k] + p.params[k + 2..])
    else
      p.(strOpts := p.strOpts[flag := deflt])
  }

  /** `getBool`: whether the flag was recorded by `addBool`. */
  function GetBool(p: ArgParser, flag: string): (b: bool)
    ensures b <==> flag in p.boolOpts
  {
    flag in p.boolOpts
  }

  /** `getStr`: the recorded value, the empty string for an option never registered. */
  function GetStr(p: ArgParser, flag: string): (v: string)
    ensures flag in p.strOpts ==> v == p.strOpts[flag]
    ensures flag !in p.strOpts ==> v == ""
  {
    if flag in p.strOpts then p.strOpts[flag] else ""
  }

  // ---------------------------------------------------------------------------
  // Properties

  /** The first occurrence is found past a prefix that does not contain the flag. */
  lemma {:induction false} FindAfter(pre: seq<string>, x: string, post: seq<string>)
    requires x !in pre
    ensures Find(pre + [x] + post, x) == |pre|
    decreases |pre|
  {
    if |pre| > 0 {
      assert (pre + [x] + post)[1..] == pre[1..] + [x] + post;
      FindAfter(pre[1..], x, post);
    }
  }

  /** A fresh parser has no options: every flag reads false and every string "". */
  lemma NewHasNoOptions(argv: seq<string>, flag: string)
    requires |argv| >= 1
    ensures !GetBool(New(argv), flag) && GetStr(New(argv), flag) == ""
  {
  }

  /** `addBool` takes out exactly the first occurrence: the parameters before and
      after it keep their order, and the flag reads true. */
  lemma AddBoolRemovesFirst(p: ArgParser, pre: seq<string>, flag: string, post: seq<string>)
    requires p.params == pre + [flag] + post && flag !in pre
    ensures AddBool(p, flag).params == pre + post
    ensures GetBool(AddBool(p, flag), flag)
  {
    FindAfter(pre, flag, post);
    assert p.params[..|pre|] == pre;
    assert p.params[|pre| + 1..] == post;
  }

  /** After `addBool`, the flag reads true exactly when it was a parameter or was
      already recorded; other flags read as before. */
  lemma AddBoolGet(p: ArgParser, flag: string, other: string)
    requires other != flag
    ensures GetBool(AddBool(p, flag), flag) <==> flag in p.params || flag in p.boolOpts
    ensures GetBool(AddBool(p, flag), other) == GetBool(p, other)
  {
  }

  /** `addBool` removes one copy of the flag and nothing else. */
  lemma AddBoolMultiset(p: ArgParser, flag: string)
    ensures multiset(AddBool(p, flag).params) + (if flag in p.params then multiset{flag} else multiset{}) ==
      multiset(p.params)
  {
    var k := Find(p.params, flag);
    if k < |p.params| {
      assert p.params == p.params[..k] + [flag] + p.params[k + 1..];
    }
  }

  /** A flag followed by a parameter takes that parameter as its value, and both
      leave the parameters, whatever the default. */
  lemma AddStrTakesValue(p: ArgParser, pre: seq<string>, flag: string, v: string, post: seq<string>, deflt: string)
    requires p.params == pre + [flag, v] + post && flag !in pre
    ensures AddStr(p, flag, deflt).params == pre + post
    ensures GetStr(AddStr(p, flag, deflt), flag) == v
  {
    FindAfter(pre, flag, [v] + post);
    assert pre + [flag] + ([v] + post) == p.params;
    assert p.params[..|pre|] == pre;
    assert p.params[|pre| + 2..] == post;
  }

  /** A flag in last position stays among the parameters and reads the default. */
  lemma AddStrLastKeeps(p: ArgParser, pre: seq<string>, flag: string, deflt: string)
    requires p.params == pre + [flag] && flag !in pre
    ensures AddStr(p, flag, deflt).params == p.params
    ensures GetStr(AddStr(p, flag, deflt), flag) == deflt
  {
    FindAfter(pre, flag, []);
    assert pre + [flag] + [] == p.params;
  }

  /** An absent flag leaves the parameters alone and reads the default. */
  lemma AddStrAbsent(p: ArgParser, flag: string, deflt: string)
    requires flag !in p.params
    ensures AddStr(p, flag, deflt).params == p.params
    ensures GetStr(AddStr(p, flag, deflt), flag) == deflt
  {
  }

  /** `addStr` removes the first copy of the flag and its value and nothing else. */
  lemma AddStrMultiset(p: ArgParser, flag: string, deflt: string)
    ensures var k := Find(p.params, flag);
      multiset(AddStr(p, flag, deflt).params) + (if k + 1 < |p.params| then multiset{flag, p.params[k + 1]} else multiset{}) ==
        multiset(p.params)
  {
    var k := Find(p.params, flag);
    if k + 1 < |p.params| {
      var a, v, b := p.params[..k], p.params[k + 1], p.params[k + 2..];
      assert p.params == a + [flag, v] + b;
      assert AddStr(p, flag, deflt).params == a + b;
    }
  }
}

=== FILE: ast.dfy ===
/** Expression, statement and definition trees, with the per-node state the analyser
    keeps in them (dependency-loop flag, first context, cached type). */
module Ast {
  import opened Wrappers
  import opened Errors
  import opened Types

  /** Index of a scope frame (a name → symbol map) in the analyser's frame table. */
  type FrameId = nat
  /** Index of a symbol in the analyser's symbol table. */
  type SymId = nat

  /** `MoreContext`: the enclosing function's return type. Its break/continue targets
      are backend blocks and are not part of this model. */
  datatype More = More(retType: TypeId)

  /** `Context`: the package, the optional function context and the stack of frames,
      innermost last. */
  datatype Ctx = Ctx(pkg: string, more: Option<More>, frames: seq<FrameId>)

  /** The analyser's state kept in every node. */
  datatype Memo = Memo(depLoop: bool, ctx: Option<Ctx>, etype: Option<TypeId>)

  /** A new node: no dependency loop seen, no context, no cached type. */
  const FreshMemo := Memo(false, None, None)

  datatype Expr = Expr(tag: FTag, memo: Memo, node: Node)

  /** The node kinds. `None` children are the null pointers the parser can leave in
      place (a prefix operator followed by another prefix operator, an absent
      else-branch, a value-less return). */
  datatype Node =
    | BoolLit(b: bool)
    | IntLit(val: int, itype: TypeId)
    | FloatLit(text: string)
    | VarRef(name: string, sym: Option<SymId>, isGlobalConst: bool)
    | Deref(ptr: Option<Expr>)
    | Unary(op: string, operand: Option<Expr>)
    | Binary(op: string, lhs: Expr, rhs: Option<Expr>)
    | DotMember(obj: Expr, member: string)
    | Cast(source: Expr, ftype: TypeId, needCast: bool)
    | Call(callee: Expr, args: seq<Expr>)
    | If(cond: Expr, thenBr: Expr, elseBr: Option<Expr>)
    | While(cond: Expr, body: Expr, isUntil: bool)
    | BreakCont(isBreak: bool)
    | Block(stmts: seq<Stmt>, ownContext: bool)
    | Return(retVal: Option<Expr>)
    | FuncLit(ftype: TypeId, code: Expr, ownContext: bool)
    | Extern(stype: Option<TypeId>, symbol: string)

  datatype Stmt =
    | ExprStmt(tag: FTag, e: Expr)
    | DefStmt(d: Def)

  /** Definitions: `let`/`var` (optional declared type, initializer, var flag), `func`
      with a body (a function literal) and `func ... extern` (the extern expression and
      the declared function type, kept apart). */
  datatype Def =
    | VarDef(tag: FTag, name: string, vtype: Option<TypeId>, val: Expr, isVar: bool)
    | FuncDef(tag: FTag, name: string, fn: Expr)
    | ExternFuncDef(tag: FTag, name: string, ext: Expr, etype: TypeId)

  /** `import a.b.c as d`: the path segments and the alias. */
  datatype Import = Import(tag: FTag, path: seq<string>, alias: string)

  /** A node as a constructor leaves it. */
  function Fresh(tag: FTag, n: Node): Expr {
    Expr(tag, FreshMemo, n)
  }

  function DefName(d: Def): string {
    d.name
  }
}

=== FILE: coercion_facts.dfy ===
/** Properties of the analyser's implicit coercion (`asType`, `asTypeOrError`) as each
    typing rule uses it: what a rule gives when its operand converts, when it does
    not, and when the conversion itself stops; and how coercion, the explicit-cast
    loop and arithmetic follow a chain of references through several dereferences. */
module CoercionFacts {
  import opened Wrappers
  import opened Errors
  import opened Types
  import opened Ast
  import opened Scope
  import opened Analyser
  import opened AnalyserFacts

  /** Both revisions compare types symmetrically. */
  lemma SameSym(m: Mode, s: Store, a: TypeId, b: TypeId)
    requires Same(m, s, a, b)
    ensures Same(m, s, b, a)
  {
    if m.ByStructure? {
      EqSym(s, a, b);
    }
  }

  /** A conversion of a node that is neither an integer literal nor a typed extern
      is a node whose cached type matches the target, so typing it again gives that
      type and leaves the state alone. */
  lemma ConvRetyped(m: Mode, fuel: nat, e: Expr, ty: TypeId, st: TcState, ctx: Ctx)
    requires fuel > 0 && !e.node.IntLit? && !(e.node.Extern? && e.node.stype.Some?)
    requires AsType(m, fuel, e, ty, st).res.Conv?
    ensures var c := AsType(m, fuel, e, ty, st);
      var t2 := TypeOf(m, fuel, c.res.e, ctx, c.st);
      t2.out.Typed? && t2.st == c.st && Same(m, c.st.store, ty, t2.out.t)
  {
    var c := AsType(m, fuel, e, ty, st);
    SameSym(m, c.st.store, c.res.e.memo.etype.value, ty);
  }

  // ---------------------------------------------------------------------------
  // The coercion each rule applies

  /** Assignment of a right side whose type is not the pointee of the left side's:
      the right side is coerced to the pointee. A conversion that stops stops the
      assignment; a refused one (reported only by the structure-comparing analyser)
      is "Cannot affect" and leaves a null right side; a conversion is typed again,
      and a typed assignment then has the pointee type. A conversion of anything but
      an integer literal or a typed extern always gives a typed assignment. */
  lemma AssignCoercesRight(m: Mode, fuel: nat, tag: FTag, ctx: Ctx, l: Expr, lt: TypeId, v: Expr, vt: TypeId, st: TcState)
    requires fuel > 0 && Cached(l, lt) && Cached(v, vt)
    requires IsRef(st.store, lt) && !Same(m, st.store, vt, st.store.nodes[lt].pointee)
    ensures var p := st.store.nodes[lt].pointee;
      var c := AsTypeOrError(m, fuel, v, p, st);
      var r := AssignRule(m, fuel, tag, ctx, l, Some(v), st);
      (c.res.ConvStop? ==> r.out == c.res.out && r.node.rhs == Some(c.self))
      && (c.res.NoConv? ==>
            m.ByStructure? && r.node.rhs.None?
            && r.out == Fail(m, tag, "Cannot affect '" + DescStr(st.store, vt) + "' to '" + DescStr(st.store, lt) + "'."))
      && (c.res.Conv? ==> r.node.rhs.Some? && (r.out.Typed? ==> Same(m, r.st.store, p, r.out.t)))
      && (c.res.Conv? && !v.node.IntLit? && !(v.node.Extern? && v.node.stype.Some?) ==>
            r.out.Typed? && r.st == c.st)
  {
    var p := st.store.nodes[lt].pointee;
    var c := AsTypeOrError(m, fuel, v, p, st);
    if c.res.Conv? && !v.node.IntLit? && !(v.node.Extern? && v.node.stype.Some?) {
      assert c == AsType(m, fuel, v, p, st);
      ConvRetyped(m, fuel, v, p, st, ctx);
    }
  }

  /** An else-branch whose type differs from the then-branch's is coerced to it: a
      conversion gives the `if` the then-type with the converted branch in place; a
      refusal is "must be of same type" with a null else-branch; a stopped conversion
      stops the `if`. */
  lemma IfElseCoerces(m: Mode, fuel: nat, tag: FTag, ctx: Ctx, c: Expr, ct: TypeId, t: Expr, tt: TypeId, el: Expr, et: TypeId, st: TcState)
    requires fuel > 0 && Cached(c, ct) && Cached(t, tt) && Cached(el, et)
    requires Same(m, st.store, ct, BOOL) && !Same(m, st.store, tt, et)
    ensures var cv := AsTypeOrError(m, fuel, el, tt, st);
      var r := IfRule(m, fuel, tag, ctx, c, t, Some(el), st);
      (cv.res.Conv? ==> r == Step(ctx, If(c, t, Some(cv.res.e)), cv.st, Typed(tt)))
      && (cv.res.NoConv? ==>
            m.ByStructure? && r.node == If(c, t, None)
            && r.out == Fail(m, tag, "Expression in 'then' and 'else' must be of same type."))
      && (cv.res.ConvStop? ==> r.out == cv.res.out && r.out.Abrupt())
  {
  }

  /** A returned value whose type is not the return type is coerced to it: a
      conversion of anything but an integer literal or a typed extern makes the
      return typed (void); a refusal is "does not return correct type value" and
      leaves a value-less return; a stopped conversion stops the return. */
  lemma ReturnCoerces(m: Mode, fuel: nat, tag: FTag, ctx: Ctx, v: Expr, vt: TypeId, st: TcState)
    requires fuel > 0 && Cached(v, vt) && ctx.more.Some?
    requires !Same(m, st.store, vt, ctx.more.value.retType)
    ensures var retT := ctx.more.value.retType;
      var c := AsType(m, fuel, v, retT, st);
      var r := ReturnRule(m, fuel, tag, ctx, Some(v), st);
      (c.res.ConvStop? ==> r.out == c.res.out && r.out.Abrupt())
      && (c.res.NoConv? ==>
            r.node == Return(None) && r.out == Fail(m, tag, "Return statement does not return correct type value."))
      && (c.res.Conv? ==> r.node.retVal.Some?)
      && (c.res.Conv? && !v.node.IntLit? && !(v.node.Extern? && v.node.stype.Some?) ==>
            r.out == Typed(VOID) && r.st == c.st)
  {
    var retT := ctx.more.value.retType;
    var c := AsType(m, fuel, v, retT, st);
    if c.res.Conv? && !v.node.IntLit? && !(v.node.Extern? && v.node.stype.Some?) {
      ConvRetyped(m, fuel, v, retT, st, ctx);
      var t2 := TypeOf(m, fuel, c.res.e, ctx, c.st);
      SameSym(m, c.st.store, retT, t2.out.t);
    }
  }

  /** A typed `let`/`var` whose initializer has another type coerces the initializer
      to the declared type: a conversion passes with the converted initializer in
      place; a refusal fails (structure-comparing analyser) and a stopped conversion
      is raised, wrapped with the definition's name by the identity-comparing one. */
  lemma TypedDefCoerces(m: Mode, fuel: nat, tag: FTag, name: string, vt: TypeId, v: Expr, t: TypeId, isVar: bool, ctx: Ctx, st: TcState)
    requires fuel > 0 && Cached(v, t) && !Same(m, st.store, vt, t)
    ensures var c := AsTypeOrError(m, fuel, v, vt, st);
      var r := DefCheck(m, fuel, VarDef(tag, name, Some(vt), v, isVar), ctx, st);
      (c.res.Conv? ==> r == DefStep(VarDef(tag, name, Some(vt), c.res.e, isVar), c.st, Passed))
      && (c.res.NoConv? ==> m.ByStructure? && r.res == Failed("cannot use value"))
      && (c.res.ConvStop? ==>
            r.res == (if m.ByIdentity? then WrapDef(tag, name, c.res.out) else Raised(c.res.out)))
  {
  }

  /** An argument whose type is not its parameter's is coerced to it: a conversion
      puts the converted argument in place and goes on with the next one; a refusal
      stops with "Wrong type for argument"; a stopped conversion stops the call. */
  lemma CallArgCoerces(m: Mode, fuel: nat, tag: FTag, ctx: Ctx, args: seq<Expr>, fargs: seq<Arg>, i: nat, at: TypeId, st: TcState)
    requires fuel > 0 && |args| == |fargs| && i < |args| && Cached(args[i], at)
    requires !Same(m, st.store, at, fargs[i].ty)
    ensures var c := AsTypeOrError(m, fuel, args[i], fargs[i].ty, st);
      var r := CallArgs(m, fuel, tag, ctx, args, fargs, i, st);
      (c.res.Conv? ==> r == CallArgs(m, fuel, tag, ctx, args[i := c.res.e], fargs, i + 1, c.st))
      && (c.res.NoConv? ==>
            m.ByStructure? && r.stop == Some(Fail(m, tag, "Wrong type for argument " + fargs[i].name + ".")))
      && (c.res.ConvStop? ==> r.stop == Some(c.res.out) && c.res.out.Abrupt())
  {
  }

  // ---------------------------------------------------------------------------
  // Chains of references

  /** The type reached from `t` by `n` dereferences, each of a reference to
      something other than a function (`canDeref`); None when the chain breaks. */
  function DerefChain(s: Store, t: TypeId, n: nat): (r: Option<TypeId>)
    ensures n == 0 ==> r == Some(t)
    ensures n > 0 && r.Some? ==> CanDeref(s, t)
    ensures r.Some? ==> n == 0 || Valid(s, r.value)
    decreases n
  {
    if n == 0 then Some(t)
    else if CanDeref(s, t) then DerefChain(s, s.nodes[t].pointee, n - 1)
    else None
  }

  /** How many dereference nodes wrap a node. */
  function DerefDepth(e: Expr): nat {
    if e.node.Deref? && e.node.ptr.Some? then 1 + DerefDepth(e.node.ptr.value) else 0
  }

  /** Dereferencing a typed node whose type `canDeref` gives its pointee type,
      without changing the state. */
  lemma DerefOfCached(m: Mode, fuel: nat, tag: FTag, ctx: Ctx, e: Expr, t: TypeId, st: TcState)
    requires fuel > 1 && Cached(e, t) && CanDeref(st.store, t)
    ensures var a := TypeOf(m, fuel, Fresh(tag, Deref(Some(e))), ctx, st);
      a.out == Typed(st.store.nodes[t].pointee) && a.st == st
      && Cached(a.e, st.store.nodes[t].pointee) && a.e.node == Deref(Some(e))
  {
    assert TypeOf(m, fuel - 1, e, ctx, st) == Typing(e, st, Typed(t));
    assert DerefRule(m, fuel - 1, tag, ctx, Some(e), st) == Step(ctx, Deref(Some(e)), st, Typed(st.store.nodes[t].pointee));
  }

  /** `asType` follows a chain of references: when `n` dereferences of a node's
      type reach a type the revision considers the target, the coercion succeeds
      (possibly earlier, at a shorter prefix of the chain) without changing the
      state. */
  lemma {:induction false} AsTypeThroughDerefs(m: Mode, fuel: nat, e: Expr, t: TypeId, ty: TypeId, st: TcState, n: nat)
    requires fuel > n && Cached(e, t) && !e.node.IntLit? && !e.node.Extern?
    requires DerefChain(st.store, t, n).Some? && Same(m, st.store, DerefChain(st.store, t, n).value, ty)
    ensures var c := AsType(m, fuel, e, ty, st);
      c.res.Conv? && c.st == st
    decreases n
  {
    var ctx := e.memo.ctx.value;
    assert TypeOf(m, fuel, e, ctx, st) == Typing(e, st, Typed(t));
    if !Same(m, st.store, t, ty) {
      assert n > 0;
      var p := st.store.nodes[t].pointee;
      DerefOfCached(m, fuel, e.tag, ctx, e, t, st);
      var a := TypeOf(m, fuel, Fresh(e.tag, Deref(Some(e))), ctx, st);
      if !Same(m, st.store, p, ty) {
        AsTypeThroughDerefs(m, fuel - 1, a.e, p, ty, st, n - 1);
      }
    }
  }

  /** What the explicit-cast loop reaches: a node of a type `n` dereferences of which
      give a numeric type is accepted as a cast to any numeric type. */
  lemma {:induction false} CastLoopReachesNumeric(m: Mode, fuel: nat, tag: FTag, ctx: Ctx, x: Expr, fromT: TypeId, ft: TypeId, st: TcState, n: nat)
    requires fuel > n && Cached(x, fromT) && Numeric(st.store, ft)
    requires DerefChain(st.store, fromT, n).Some? && Numeric(st.store, DerefChain(st.store, fromT, n).value)
    ensures var r := CastLoop(m, fuel, tag, ctx, x, fromT, ft, st);
      r.out == Typed(ft) && r.st == st
    decreases n
  {
    if !Numeric(st.store, fromT) {
      assert n > 0 && CanDeref(st.store, fromT);
      DerefOfCached(m, fuel, tag, ctx, x, fromT, st);
      var a := TypeOf(m, fuel, Fresh(tag, Deref(Some(x))), ctx, st);
      CastLoopReachesNumeric(m, fuel - 1, tag, ctx, a.e, st.store.nodes[fromT].pointee, ft, st, n - 1);
    }
  }

  /** Dereferencing a typed node never changes the analysis state, and a typed
      result is a dereference node whose type is cached. */
  lemma DerefKeepsState(m: Mode, fuel: nat, tag: FTag, ctx: Ctx, e: Expr, t: TypeId, st: TcState)
    requires fuel > 0 && Cached(e, t)
    ensures var a := TypeOf(m, fuel, Fresh(tag, Deref(Some(e))), ctx, st);
      a.st == st && a.e.node.Deref? && a.e.memo.ctx.Some?
      && (a.out.Typed? ==> Cached(a.e, a.out.t))
      && (!a.out.Typed? ==> a.e.memo.etype.None? && a.e.memo.depLoop)
  {
    assert TypeOf(m, fuel - 1, e, ctx, st).st == st;
    assert DerefRule(m, fuel - 1, tag, ctx, Some(e), st).st == st;
  }

  /** A node a second computation finds without a type and marked in progress is a
      dependency loop, so coercing it never reports a plain refusal in the
      identity-comparing analyser. */
  lemma AsTypeOfLoopStops(fuel: nat, e: Expr, ty: TypeId, st: TcState)
    requires e.node.Deref? && e.memo.ctx.Some? && e.memo.etype.None? && e.memo.depLoop
    ensures AsType(ByIdentity, fuel, e, ty, st).res.ConvStop?
  {
    if fuel > 0 {
      assert TypeOf(ByIdentity, fuel, e, e.memo.ctx.value, st).out.Thrown?;
    }
  }

  /** A refused coercion of a typed node that is neither an integer literal nor an
      extern hands back the node itself and leaves the state alone, however many
      dereferences it tried. */
  lemma {:induction false} AsTypeNoConvKeeps(m: Mode, fuel: nat, e: Expr, t: TypeId, ty: TypeId, st: TcState)
    requires Cached(e, t) && !e.node.IntLit? && !e.node.Extern?
    ensures var c := AsType(m, fuel, e, ty, st);
      c.res.NoConv? ==> c.self == e && c.st == st
    decreases fuel
  {
    if fuel > 0 {
      var ctx := e.memo.ctx.value;
      assert TypeOf(m, fuel, e, ctx, st) == Typing(e, st, Typed(t));
      if !Same(m, st.store, t, ty) && Derefs(m, st.store, t) {
        DerefKeepsState(m, fuel, e.tag, ctx, e, t, st);
        var a := TypeOf(m, fuel, Fresh(e.tag, Deref(Some(e))), ctx, st);
        if a.out.Typed? {
          AsTypeNoConvKeeps(m, fuel - 1, a.e, a.out.t, ty, a.st);
        } else if m.ByIdentity? {
          AsTypeOfLoopStops(fuel - 1, a.e, ty, a.st);
        }
      }
    }
  }

  /** A cast to a numeric type of a node `n` dereferences of whose type give a
      numeric type is accepted, whether coercion converts the node or the
      explicit-cast loop dereferences it; only a coercion that stops stops it. */
  lemma CastAcceptedThroughDerefs(m: Mode, fuel: nat, tag: FTag, ctx: Ctx, x: Expr, t: TypeId, ft: TypeId, nc: bool, st: TcState, n: nat)
    requires fuel > n && Cached(x, t) && Numeric(st.store, ft)
    requires DerefChain(st.store, t, n).Some? && Numeric(st.store, DerefChain(st.store, t, n).value)
    ensures var c := AsType(m, fuel, x, ft, st);
      var r := CastRule(m, fuel, tag, ctx, x, ft, nc, st);
      r.out == Typed(ft) || (c.res.ConvStop? && r.out == c.res.out && r.out.Abrupt())
  {
    assert TypeOf(m, fuel, x, ctx, st) == Typing(x, st, Typed(t));
    if !Same(m, st.store, t, ft) {
      var c := AsType(m, fuel, x, ft, st);
      if c.res.NoConv? {
        if !x.node.IntLit? && !x.node.Extern? {
          AsTypeNoConvKeeps(m, fuel, x, t, ft, st);
        }
        CastLoopReachesNumeric(m, fuel, tag, ctx, x, t, ft, st, n);
      }
    }
  }

  /** Arithmetic operands are dereferenced while their types allow: a node typed
      `t` ends up wrapped in exactly `n` more dereferences, with the type `n`
      dereferences of `t` reach, when that type is the first the revision does not
      dereference. */
  lemma {:induction false} DerefAllChain(m: Mode, fuel: nat, tag: FTag, ctx: Ctx, e: Expr, e1: Expr, t: TypeId, st: TcState, n: nat)
    requires fuel > n + 1 && TypeOf(m, fuel, e, ctx, st) == Typing(e1, st, Typed(t)) && Cached(e1, t)
    requires DerefChain(st.store, t, n).Some? && !Derefs(m, st.store, DerefChain(st.store, t, n).value)
    ensures var r := DerefAll(m, fuel, tag, e, ctx, st);
      r.out == Typed(DerefChain(st.store, t, n).value) && r.st == st && DerefDepth(r.e) == n + DerefDepth(e1)
    decreases n
  {
    if n > 0 {
      var d := Fresh(tag, Deref(Some(e1)));
      DerefOfCached(m, fuel - 1, tag, ctx, e1, t, st);
      var a := TypeOf(m, fuel - 1, d, ctx, st);
      DerefAllChain(m, fuel - 1, tag, ctx, d, a.e, st.store.nodes[t].pointee, st, n - 1);
    }
  }

  /** Both operands of an arithmetic or comparison operator are dereferenced as far
      as their types allow before the operator's own rule sees them. */
  lemma ArithDerefsOperands(m: Mode, fuel: nat, tag: FTag, ctx: Ctx, op: string, l: Expr, lt: TypeId, x: Expr, xt: TypeId, st: TcState, nl: nat, nr: nat)
    requires fuel > nl + 1 && fuel > nr + 1 && Cached(l, lt) && Cached(x, xt)
    requires DerefChain(st.store, lt, nl).Some? && !Derefs(m, st.store, DerefChain(st.store, lt, nl).value)
    requires DerefChain(st.store, xt, nr).Some? && !Derefs(m, st.store, DerefChain(st.store, xt, nr).value)
    ensures var dl := DerefAll(m, fuel, tag, l, ctx, st);
      var dr := DerefAll(m, fuel, tag, x, ctx, st);
      DerefDepth(dl.e) == nl + DerefDepth(l) && DerefDepth(dr.e) == nr + DerefDepth(x)
      && ArithRule(m, fuel, tag, ctx, op, l, Some(x), st)
         == ArithTyped(m, fuel, tag, ctx, op, dl.e, DerefChain(st.store, lt, nl).value,
                       dr.e, DerefChain(st.store, xt, nr).value, st)
  {
    assert TypeOf(m, fuel, l, ctx, st) == Typing(l, st, Typed(lt));
    assert TypeOf(m, fuel, x, ctx, st) == Typing(x, st, Typed(xt));
    DerefAllChain(m, fuel, tag, ctx, l, l, lt, st, nl);
    DerefAllChain(m, fuel, tag, ctx, x, x, xt, st, nr);
  }

  // ---------------------------------------------------------------------------
  // Calls with coerced arguments

  /** An argument after coercion: itself when it already has the parameter's
      type, else what `asTypeOrError` makes of it. */
  function Coerced(m: Mode, fuel: nat, a: Expr, ty: TypeId, st: TcState): Expr
    requires a.memo.etype.Some?
  {
    if Same(m, st.store, a.memo.etype.value, ty) then a
    else
      var c := AsTypeOrError(m, fuel, a, ty, st);
      if c.res.Conv? then c.res.e else c.self
  }

  /** Every argument from `i` on is typed, and has its parameter's type or converts
      to it without changing the state. */
  predicate ArgsConvert(m: Mode, fuel: nat, args: seq<Expr>, fargs: seq<Arg>, i: nat, st: TcState)
    requires |args| == |fargs|
  {
    forall j :: i <= j < |args| ==>
      args[j].memo.ctx.Some? && args[j].memo.etype.Some?
      && (Same(m, st.store, args[j].memo.etype.value, fargs[j].ty)
          || (AsTypeOrError(m, fuel, args[j], fargs[j].ty, st).res.Conv?
              && AsTypeOrError(m, fuel, args[j], fargs[j].ty, st).st == st))
  }

  /** Replacing an argument before position `i` keeps the arguments from `i` on
      matching or converting. */
  lemma ArgsConvertUpdate(m: Mode, fuel: nat, args: seq<Expr>, fargs: seq<Arg>, i: nat, k: nat, e: Expr, st: TcState)
    requires |args| == |fargs| && k < i && k < |args| && ArgsConvert(m, fuel, args, fargs, i, st)
    ensures ArgsConvert(m, fuel, args[k := e], fargs, i, st)
  {
    assert forall j :: i <= j < |args| ==> args[k := e][j] == args[j];
  }

  /** One argument that already has its parameter's type: checking goes on with the
      next one, nothing replaced. */
  lemma CallArgSame(m: Mode, fuel: nat, tag: FTag, ctx: Ctx, args: seq<Expr>, fargs: seq<Arg>, i: nat, st: TcState)
    requires fuel > 0 && |args| == |fargs| && i < |args| && args[i].memo.ctx.Some? && args[i].memo.etype.Some?
    requires Same(m, st.store, args[i].memo.etype.value, fargs[i].ty)
    ensures CallArgs(m, fuel, tag, ctx, args, fargs, i, st) == CallArgs(m, fuel, tag, ctx, args, fargs, i + 1, st)
  {
    assert args[i := args[i]] == args;
  }

  /** A sequence that differs from `args` only at `i`, and a result that agrees with
      it up to `i`, agree with `args` before `i`. */
  lemma Splice(args: seq<Expr>, args2: seq<Expr>, r: seq<Expr>, i: nat)
    requires |args| == |args2| == |r| && i < |args|
    requires forall j :: 0 <= j < |args| && j != i ==> args2[j] == args[j]
    requires r[..i + 1] == args2[..i + 1]
    ensures r[..i] == args[..i] && r[i] == args2[i]
  {
    assert forall j :: 0 <= j < i ==> r[j] == r[..i + 1][j];
  }

  /** Arguments that each match or convert pass, each replaced by its coercion. */
  lemma {:induction false} CallArgsCoerced(m: Mode, fuel: nat, tag: FTag, ctx: Ctx, args: seq<Expr>, fargs: seq<Arg>, i: nat, st: TcState)
    requires fuel > 0 && |args| == |fargs| && i <= |args| && ArgsConvert(m, fuel, args, fargs, i, st)
    ensures var r := CallArgs(m, fuel, tag, ctx, args, fargs, i, st);
      r.stop.None? && r.st == st && |r.args| == |args| && r.args[..i] == args[..i]
      && forall j :: i <= j < |args| ==> r.args[j] == Coerced(m, fuel, args[j], fargs[j].ty, st)
    decreases |args| - i
  {
    if i < |args| {
      var a := args[i];
      var ty := fargs[i].ty;
      assert a.memo.ctx.Some? && a.memo.etype.Some?;
      var args2 := args[i := Coerced(m, fuel, a, ty, st)];
      if Same(m, st.store, a.memo.etype.value, ty) {
        CallArgSame(m, fuel, tag, ctx, args, fargs, i, st);
        assert args2 == args;
      } else {
        CallArgCoerces(m, fuel, tag, ctx, args, fargs, i, a.memo.etype.value, st);
      }
      assert CallArgs(m, fuel, tag, ctx, args, fargs, i, st) == CallArgs(m, fuel, tag, ctx, args2, fargs, i + 1, st);
      ArgsConvertUpdate(m, fuel, args, fargs, i + 1, i, Coerced(m, fuel, a, ty, st), st);
      CallArgsCoerced(m, fuel, tag, ctx, args2, fargs, i + 1, st);
      var r := CallArgs(m, fuel, tag, ctx, args2, fargs, i + 1, st);
      Splice(args, args2, r.args, i);
    }
  }

  /** A call whose arguments each match or convert has the function's return type,
      with the coerced arguments in place. */
  lemma CallTypedWithCoercion(m: Mode, fuel: nat, tag: FTag, ctx: Ctx, callee: Expr, t: TypeId, args: seq<Expr>, st: TcState)
    requires fuel > 0 && Cached(callee, t) && CalleeFunc(st.store, t).Some?
    requires var f := st.store.nodes[CalleeFunc(st.store, t).value];
      |args| == |f.args| && ArgsConvert(m, fuel, args, f.args, 0, st)
    ensures var f := st.store.nodes[CalleeFunc(st.store, t).value];
      var r := CallRule(m, fuel, tag, ctx, callee, args, st);
      r.out == Typed(f.ret) && r.st == st && r.node.callee == callee
      && forall j :: 0 <= j < |args| ==> r.node.args[j] == Coerced(m, fuel, args[j], f.args[j].ty, st)
  {
    var f := st.store.nodes[CalleeFunc(st.store, t).value];
    CallArgsCoerced(m, fuel, tag, ctx, args, f.args, 0, st);
  }
}

=== FILE: errors.dfy ===
/** Source positions and the chained error values the front end raises. */
module Errors {
  import opened Wrappers
  import opened Text

  /** A position in a source file: file name, the token text there and the line. */
  datatype FTag = FTag(file: string, tok: string, line: int) {

    /** Rendering `[file:line near 'tok']`. */
    function Str(): (s: string)
      ensures |s| > |file| + 1 && s[0] == '[' && s[1..|file| + 1] == file && s[|file| + 1] == ':'
      ensures EndsWith(s, " near '" + tok + "']")
    {
      "[" + file + ":" + IntToStr(line) + " near '" + tok + "']"
    }

    /** The line number is written between "[file:" and " near '". */
    lemma StrShowsLine()
      ensures |file| + 2 <= |Str()| - |" near '" + tok + "']"|
      ensures Str()[|file| + 2 .. |Str()| - |" near '" + tok + "']"|] == IntToStr(line)
    {
      var head := "[" + file + ":";
      var tail := " near '" + tok + "']";
      var s := Str();
      assert s == head + IntToStr(line) + tail;
      assert s[|head| .. |s| - |tail|] == IntToStr(line);
    }
  }

  /** The tag of a position nobody recorded: file "_", no token, line -1. */
  const NoTag := FTag("_", "", -1)

  /** An error with an optional cause: `prev` is the error it wraps. */
  datatype Error =
    | PIFError(message: string, prev: Option<Error>)
    | LangError(tag: FTag, message: string, prev: Option<Error>)
    | InternalError(message: string, prev: Option<Error>)
  {
    /** The line this error contributes when displayed, without its causes: a
        heading that tells the kind of error, a tab, then the message. */
    function OwnLine(): (l: string)
      ensures EndsWith(l, " \t" + message)
      ensures PIFError? ==> StartsWith(l, "[error]")
      ensures InternalError? ==> StartsWith(l, "[internal error]")
      ensures LangError? ==> StartsWith(l, tag.Str())
    {
      match this
      case PIFError(m, _) => Framed("[error]", m)
      case LangError(t, m, _) => Framed(t.Str(), m)
      case InternalError(m, _) => Framed("[internal error]", m)
    }
  }

  /** One displayed line: `head`, a space and a tab, then the message. */
  function Framed(head: string, m: string): (l: string)
    ensures StartsWith(l, head) && EndsWith(l, " \t" + m)
  {
    var l := head + " \t" + m;
    assert l[..|head|] == head;
    assert l[|l| - |" \t" + m|..] == " \t" + m;
    l
  }

  /** The error and its causes, outermost first. */
  function Chain(e: Error): (c: seq<Error>)
    ensures |c| >= 1 && c[0] == e
    ensures e.prev.None? <==> |c| == 1
  {
    match e.prev
    case None => [e]
    case Some(p) => [e] + Chain(p)
  }

  /** `disp()`: the causes are displayed first, then the error's own line. */
  function Disp(e: Error): (lines: seq<string>)
    ensures |lines| >= 1 && lines[|lines| - 1] == e.OwnLine()
  {
    match e.prev
    case None => [e.OwnLine()]
    case Some(p) => Disp(p) + [e.OwnLine()]
  }

  /** Display shows one line per error of the chain, innermost cause first and
      the outermost wrapper last. */
  lemma {:induction false} DispInnermostFirst(e: Error)
    ensures |Disp(e)| == |Chain(e)|
    ensures forall i :: 0 <= i < |Chain(e)| ==>
      Disp(e)[i] == Chain(e)[|Chain(e)| - 1 - i].OwnLine()
  {
    match e.prev
    case None =>
      assert Chain(e) == [e];
      assert Disp(e) == [e.OwnLine()];
    case Some(p) =>
      DispInnermostFirst(p);
      var d, c := Disp(e), Chain(e);
      assert d == Disp(p) + [e.OwnLine()];
      assert c == [e] + Chain(p);
      DispStep(d, c, Disp(p), Chain(p), e);
  }

  /** One more wrapper: its line goes last, and it is first in the chain. */
  lemma DispStep(d: seq<string>, c: seq<Error>, dp: seq<string>, cp: seq<Error>, e: Error)
    requires d == dp + [e.OwnLine()] && c == [e] + cp && |dp| == |cp|
    requires forall i :: 0 <= i < |cp| ==> dp[i] == cp[|cp| - 1 - i].OwnLine()
    ensures |d| == |c|
    ensures forall i :: 0 <= i < |c| ==> d[i] == c[|c| - 1 - i].OwnLine()
  {
    forall i | 0 <= i < |c| ensures d[i] == c[|c| - 1 - i].OwnLine() {
      if i < |cp| {
        assert d[i] == dp[i];
        assert c[|c| - 1 - i] == cp[|cp| - 1 - i];
      }
    }
  }

  /** The outcome of an operation that may raise an error. */
  datatype Result<+T> = Ok(value: T) | Err(error: Error) {

    predicate IsFailure() {
      Err?
    }

    function PropagateFailure<U>(): Result<U>
      requires Err?
    {
      Err(error)
    }

    function Extract(): T
      requires Ok?
    {
      value
    }
  }
}

=== FILE: lexer.dfy ===
/** The lexer of the current front end (src/Lexer.h, src/Lexer.cpp): a state machine
    that, on each `gettok`, skips blanks and comments and scans one token. */
module Lexer {
  import opened Text
  import opened Errors
  import opened Scanner

  /** The token kinds, in the order of the source's enumeration. */
  datatype TokKind =
    | TokEof | TokIdentifier | TokFloat | TokInt | TokOperator
    | TokTrue | TokFalse
    | TokImport | TokAs | TokExtern | TokType | TokConst | TokLet | TokVar | TokFunc
    | TokReturn | TokIf | TokThen | TokElse | TokWhile | TokUntil | TokDo | TokBreak | TokContinue

  /** The reserved words. */
  const Keywords: set<string> := {
    "true", "false", "import", "as", "extern", "type", "const", "let", "var", "func",
    "return", "if", "then", "else", "while", "until", "do", "break", "continue"}

  /** Kind of a scanned word: its keyword kind if it is reserved, else identifier. */
  function WordKind(word: string): (k: TokKind)
    ensures k != TokIdentifier <==> word in Keywords
    ensures k !in {TokEof, TokFloat, TokInt, TokOperator}
  {
    if word == "true" then TokTrue
    else if word == "false" then TokFalse
    else if word == "import" then TokImport
    else if word == "as" then TokAs
    else if word == "extern" then TokExtern
    else if word == "type" then TokType
    else if word == "const" then TokConst
    else if word == "let" then TokLet
    else if word == "var" then TokVar
    else if word == "func" then TokFunc
    else if word == "return" then TokReturn
    else if word == "if" then TokIf
    else if word == "then" then TokThen
    else if word == "else" then TokElse
    else if word == "while" then TokWhile
    else if word == "until" then TokUntil
    else if word == "do" then TokDo
    else if word == "break" then TokBreak
    else if word == "continue" then TokContinue
    else TokIdentifier
  }

  /** The multi-character operators installed by the constructor. */
  const MultiCharOps: set<string> := {"==", "!=", ">=", "<=", "->"}

  predicate IsWordChar(c: char) {
    IsAlnum(c) || c == '_'
  }

  predicate IsNumChar(c: char) {
    IsDigit(c) || c == '.'
  }

  /** Lexer state: the file name, the reading position, the multi-character operator
      set, the kind and text of the current token, and the text of the last numeric
      token (which `tokInt` and `tokFloat` are computed from). */
  datatype LexState = LexState(file: string, cur: Cursor, ops: set<string>,
                               tok: TokKind, tokStr: string, tokNum: string)
  {
    /** `tokInt`: what `atol` reads from the last numeric token. */
    function TokInt(): nat {
      LeadingValue(tokNum)
    }

    /** `tag()`: the current file, token text and line. */
    function Tag(): FTag {
      FTag(file, tokStr, cur.line)
    }
  }

  /** Every one-character-longer prefix of `text + ext` beyond `text` is an operator. */
  ghost predicate OpSteps(text: string, ext: string, ops: set<string>) {
    forall j :: 1 <= j <= |ext| ==> text + ext[..j] in ops
  }

  lemma OpStepsCons(text: string, x: char, ext: string, ops: set<string>)
    requires text + [x] in ops && OpSteps(text + [x], ext, ops)
    ensures OpSteps(text, [x] + ext, ops)
  {
    forall j | 1 <= j <= |[x] + ext| ensures text + ([x] + ext)[..j] in ops {
      if j > 1 {
        assert text + ([x] + ext)[..j] == (text + [x]) + ext[..j - 1];
      } else {
        assert text + ([x] + ext)[..j] == text + [x];
      }
    }
  }

  /** One step of `ExtendOp`: an extending character followed by the rest of the run. */
  lemma ExtendOpMore(c: Cursor, c1: Cursor, r: Cursor, text: string, rtext: string, ops: set<string>)
    requires |c.rest| > 0 && c1.rest == c.rest[1..] && |c1.rest| > 0 && text + [c1.rest[0]] in ops
    requires Later(c1, r) && |Consumed(c1, r)| >= 1
    requires rtext == text + [c1.rest[0]] + Consumed(c1, r)[1..]
    requires OpSteps(text + [c1.rest[0]], Consumed(c1, r)[1..], ops)
    ensures Later(c, r) && |Consumed(c, r)| >= 1
    ensures rtext == text + Consumed(c, r)[1..]
    ensures OpSteps(text, Consumed(c, r)[1..], ops)
  {
    ReadThen(c, c1, r);
    var k := Consumed(c1, r);
    assert k[0] == c1.rest[0] && k == [c1.rest[0]] + k[1..];
    assert Consumed(c, r)[1..] == k;
    OpStepsCons(text, c1.rest[0], k[1..], ops);
  }

  /** The operator loop: keep appending the next character while the extended text
      is a known operator. The first character that does not extend it stays as
      lookahead; EOF never extends. */
  function ExtendOp(c: Cursor, text: string, ops: set<string>): (r: Scanned)
    requires |c.rest| > 0
    ensures Later(c, r.cur) && |Consumed(c, r.cur)| >= 1
    ensures r.text == text + Consumed(c, r.cur)[1..]
    ensures OpSteps(text, Consumed(c, r.cur)[1..], ops)
    ensures |r.cur.rest| > 0 ==> r.text + [r.cur.rest[0]] !in ops
    ensures r.cur.line == c.line
    decreases |c.rest|
  {
    var c1 := Read(c);
    if |c1.rest| > 0 && text + [c1.rest[0]] in ops then
      var r := ExtendOp(c1, text + [c1.rest[0]], ops);
      ExtendOpMore(c, c1, r.cur, text, r.text, ops);
      r
    else
      assert Consumed(c, c1) == [c.rest[0]];
      Scanned(c1, text)
  }

  /** A word: the longest run of letters, digits and '_'; a reserved word lexes to
      its keyword kind. */
  function ScanWord(s: LexState, c: Cursor): (r: LexState)
    requires |c.rest| > 0 && (IsAlpha(c.rest[0]) || c.rest[0] == '_')
    ensures Later(c, r.cur) && r.tokStr == Consumed(c, r.cur) && r.tokStr != ""
    ensures forall i :: 0 <= i < |r.tokStr| ==> IsWordChar(r.tokStr[i])
    ensures |r.cur.rest| > 0 ==> !IsWordChar(r.cur.rest[0])
    ensures r.tok == WordKind(r.tokStr) && r.tok != TokEof
    ensures r.cur.line == c.line && r.tokNum == s.tokNum && r.file == s.file && r.ops == s.ops
  {
    var w := ReadWhile(c, [c.rest[0]], IsWordChar);
    assert w.text == Consumed(c, w.cur);
    s.(cur := w.cur, tok := WordKind(w.text), tokStr := w.text)
  }

  /** A number: the longest run of digits and '.'; it is a float exactly when it
      contains a '.'. */
  function ScanNumber(s: LexState, c: Cursor): (r: LexState)
    requires |c.rest| > 0 && IsNumChar(c.rest[0])
    ensures Later(c, r.cur) && r.tokStr == Consumed(c, r.cur) && r.tokStr != ""
    ensures forall i :: 0 <= i < |r.tokStr| ==> IsNumChar(r.tokStr[i])
    ensures |r.cur.rest| > 0 ==> !IsNumChar(r.cur.rest[0])
    ensures r.tok == TokFloat <==> '.' in r.tokStr
    ensures r.tok == TokInt <==> '.' !in r.tokStr
    ensures r.tokNum == r.tokStr
    ensures r.cur.line == c.line && r.file == s.file && r.ops == s.ops
  {
    var n := ReadWhile(c, [c.rest[0]], IsNumChar);
    assert n.text == Consumed(c, n.cur);
    s.(cur := n.cur, tok := if '.' in n.text then TokFloat else TokInt,
       tokStr := n.text, tokNum := n.text)
  }

  /** An operator: one character, extended while the text stays a known operator. */
  function ScanOperator(s: LexState, c: Cursor): (r: LexState)
    requires |c.rest| > 0
    ensures Later(c, r.cur) && r.tokStr == Consumed(c, r.cur) && r.tokStr != ""
    ensures OpSteps([c.rest[0]], r.tokStr[1..], s.ops)
    ensures |r.cur.rest| > 0 ==> r.tokStr + [r.cur.rest[0]] !in s.ops
    ensures r.tok == TokOperator
    ensures r.cur.line == c.line && r.tokNum == s.tokNum && r.file == s.file && r.ops == s.ops
  {
    var o := ExtendOp(c, [c.rest[0]], s.ops);
    assert o.text == Consumed(c, o.cur);
    s.(cur := o.cur, tok := TokOperator, tokStr := o.text)
  }

  /** The result of a `gettok` whose lookahead is the start of a token (no blank). */
  function ScanToken(s: LexState, c: Cursor): (r: LexState)
    requires !AtSpace(c)
    ensures r.file == s.file && r.ops == s.ops
    ensures Later(c, r.cur)
    ensures r.tok != TokEof ==> |r.cur.rest| < |c.rest|
    ensures r.tokStr == "" ==> |r.cur.rest| == 0
    ensures |c.rest| == 0 || c.rest[0] != '#' ==> c.rest == r.tokStr + r.cur.rest
    decreases |c.rest|, 0
  {
    if |c.rest| == 0 then s.(cur := c, tok := TokEof, tokStr := "")
    else
      var ch := c.rest[0];
      if IsAlpha(ch) || ch == '_' then
        var r := ScanWord(s, c);
        ConsumedSplit(c, r.cur);
        r
      else if IsNumChar(ch) then
        var r := ScanNumber(s, c);
        ConsumedSplit(c, r.cur);
        r
      else if ch == '#' then
        var c2 := SkipComment(c);
        if |c2.rest| == 0 then s.(cur := c2, tokStr := "")
        else
          var r := GetTok(s.(cur := c2));
          LaterTrans(c, c2, r.cur);
          r
      else
        var r := ScanOperator(s, c);
        ConsumedSplit(c, r.cur);
        r
  }

  /** `gettok()`: skip blanks (counting lines) and comments, then scan one token. */
  function GetTok(s: LexState): (r: LexState)
    ensures r.file == s.file && r.ops == s.ops
    ensures Later(s.cur, r.cur)
    ensures r.tok != TokEof ==> |r.cur.rest| < |s.cur.rest|
    ensures r.tokStr == "" ==> |r.cur.rest| == 0
    ensures var c := SkipSpace(s.cur); |c.rest| == 0 || c.rest[0] != '#' ==>
      s.cur.rest == Consumed(s.cur, c) + r.tokStr + r.cur.rest
    decreases |s.cur.rest|, 1
  {
    var c := SkipSpace(s.cur);
    var r := ScanToken(s, c);
    SpaceThenToken(s.cur, c, r.cur, r.tokStr);
    r
  }

  lemma WordLines(s: LexState, c: Cursor)
    requires |c.rest| > 0 && (IsAlpha(c.rest[0]) || c.rest[0] == '_')
    ensures LinesTotal(ScanWord(s, c).cur) == LinesTotal(c)
  {
    var r := ScanWord(s, c);
    NoNewlineCount(r.tokStr);
    LinesAcross(c, r.cur);
  }

  lemma NumberLines(s: LexState, c: Cursor)
    requires |c.rest| > 0 && IsNumChar(c.rest[0])
    ensures LinesTotal(ScanNumber(s, c).cur) == LinesTotal(c)
  {
    var r := ScanNumber(s, c);
    NoNewlineCount(r.tokStr);
    LinesAcross(c, r.cur);
  }

  lemma OperatorLines(s: LexState, c: Cursor)
    requires |c.rest| > 0 && c.rest[0] != '\n'
    requires forall op :: op in s.ops ==> '\n' !in op
    ensures LinesTotal(ScanOperator(s, c).cur) == LinesTotal(c)
  {
    var r := ScanOperator(s, c);
    var t := r.tokStr;
    var ch := c.rest[0];
    assert t[0] == ch;
    forall i | 0 <= i < |t| ensures t[i] != '\n' {
      if i > 0 {
        assert [ch] + t[1..][..i] in s.ops;
        assert ([ch] + t[1..][..i])[i] == t[i];
      }
    }
    NoNewlineCount(t);
    LinesAcross(c, r.cur);
  }

  /** The line number always equals the line the lookahead sits on: the line plus the
      newlines still ahead is the same before and after `gettok` (provided no
      multi-character operator contains a newline). */
  lemma {:induction false} GetTokLines(s: LexState)
    requires forall op :: op in s.ops ==> '\n' !in op
    ensures LinesTotal(GetTok(s).cur) == LinesTotal(s.cur)
    decreases |s.cur.rest|
  {
    var c := SkipSpace(s.cur);
    SpaceLines(s.cur);
    assert GetTok(s) == ScanToken(s, c);
    if |c.rest| > 0 {
      var ch := c.rest[0];
      if IsAlpha(ch) || ch == '_' {
        assert ScanToken(s, c) == ScanWord(s, c);
        WordLines(s, c);
      } else if IsNumChar(ch) {
        assert ScanToken(s, c) == ScanNumber(s, c);
        NumberLines(s, c);
      } else if ch == '#' {
        var c2 := SkipComment(c);
        CommentLines(c);
        if |c2.rest| > 0 {
          assert ScanToken(s, c) == GetTok(s.(cur := c2));
          GetTokLines(s.(cur := c2));
        }
      } else {
        assert ScanToken(s, c) == ScanOperator(s, c);
        OperatorLines(s, c);
      }
    }
  }

  /** A comment running to the end of input leaves the previous token kind (and
      numeric value) in place, with empty text. */
  lemma CommentAtEnd(s: LexState)
    requires var c := SkipSpace(s.cur); |c.rest| > 0 && c.rest[0] == '#'
    requires |SkipComment(SkipSpace(s.cur)).rest| == 0
    ensures GetTok(s).tok == s.tok && GetTok(s).tokNum == s.tokNum && GetTok(s).tokStr == ""
  {
    var c := SkipSpace(s.cur);
    ScanTokenCommentEnd(s, c);
    assert GetTok(s) == ScanToken(s, c);
  }

  lemma ScanTokenCommentEnd(s: LexState, c: Cursor)
    requires !AtSpace(c) && |c.rest| > 0 && c.rest[0] == '#' && |SkipComment(c).rest| == 0
    ensures ScanToken(s, c) == s.(cur := SkipComment(c), tokStr := "")
  {
  }

  /** The operator loop stops at once when the next character does not extend the
      text (in particular at EOF). */
  lemma ExtendOpStops(c: Cursor, text: string, ops: set<string>)
    requires |c.rest| > 0
    requires |Read(c).rest| == 0 || text + [Read(c).rest[0]] !in ops
    ensures ExtendOp(c, text, ops) == Scanned(Read(c), text)
  {
  }

  /** The operator loop takes one more character when it extends the text. */
  lemma ExtendOpGoes(c: Cursor, text: string, ops: set<string>)
    requires |c.rest| > 0
    requires |Read(c).rest| > 0 && text + [Read(c).rest[0]] in ops
    ensures ExtendOp(c, text, ops) == ExtendOp(Read(c), text + [Read(c).rest[0]], ops)
  {
  }

  /** A lookahead that starts neither a word, a number nor a comment starts an
      operator. */
  lemma ScanTokenOperator(s: LexState, c: Cursor)
    requires |c.rest| > 0 && !IsSpace(c.rest[0]) && !IsWordChar(c.rest[0])
    requires !IsNumChar(c.rest[0]) && c.rest[0] != '#'
    ensures ScanToken(s, c) == ScanOperator(s, c)
  {
  }

  /** The constructor lexes the first token before any multi-character operator is
      known, so an operator at the very start is a single character. */
  lemma FirstOperatorIsOneChar(file: string, text: string)
    requires |text| >= 1 && !IsSpace(text[0]) && !IsWordChar(text[0])
    requires !IsNumChar(text[0]) && text[0] != '#'
    ensures NewLexer(file, text).tok == TokOperator
    ensures NewLexer(file, text).tokStr == [text[0]]
  {
    var s0 := LexState(file, Start(text), {}, TokEof, "", "");
    var c1 := Read(s0.cur);
    assert c1.rest == text;
    assert SkipSpace(c1) == c1;
    assert SkipSpace(s0.cur) == c1;
    ScanTokenOperator(s0, c1);
    ExtendOpStops(c1, [text[0]], {});
    assert GetTok(s0) == ScanOperator(s0, c1);
  }

  /** With no blank ahead and a character that starts neither a word, a number nor
      a comment, `gettok` scans an operator at the cursor. */
  lemma GetTokOperator(s: LexState)
    requires |s.cur.rest| > 0 && !IsSpace(s.cur.rest[0]) && !IsWordChar(s.cur.rest[0])
    requires !IsNumChar(s.cur.rest[0]) && s.cur.rest[0] != '#'
    ensures GetTok(s) == ScanOperator(s, s.cur)
  {
    assert SkipSpace(s.cur) == s.cur;
    ScanTokenOperator(s, s.cur);
  }

  /** With an operator set of two-character operators only, the operator loop over
      one of them takes exactly its two characters. */
  lemma ExtendTwo(c: Cursor, x: char, y: char, rest: string, ops: set<string>)
    requires c.rest == [x, y] + rest && [x, y] in ops
    requires forall o :: o in ops ==> |o| == 2
    ensures ExtendOp(c, [x], ops).text == [x, y]
  {
    var c1 := Read(c);
    assert c1.rest == [y] + rest;
    assert [x] + [c1.rest[0]] == [x, y];
    ExtendOpGoes(c, [x], ops);
    var c2 := Read(c1);
    assert |c2.rest| > 0 ==> |[x, y] + [c2.rest[0]]| == 3;
    ExtendOpStops(c1, [x, y], ops);
  }

  /** With the multi-character operators installed, an operator scan over one of
      them stops after its two characters. */
  lemma ScanTwoCharOperator(s: LexState, op: string, rest: string)
    requires s.ops == MultiCharOps && op in MultiCharOps
    requires s.cur.rest == op + rest
    ensures ScanOperator(s, s.cur).tokStr == op
  {
    assert forall o :: o in MultiCharOps ==> |o| == 2;
    assert |op| == 2 && op == [op[0], op[1]];
    ExtendTwo(s.cur, op[0], op[1], rest, MultiCharOps);
  }

  /** Once the constructor has installed them, "==" (and every other two-character
      operator) lexes as one token. */
  lemma TwoCharOperator(s: LexState, op: string, rest: string)
    requires s.ops == MultiCharOps && op in MultiCharOps
    requires s.cur.rest == op + rest
    ensures GetTok(s).tok == TokOperator && GetTok(s).tokStr == op
  {
    assert op == "==" || op == "!=" || op == ">=" || op == "<=" || op == "->";
    assert s.cur.rest[0] == op[0];
    GetTokOperator(s);
    ScanTwoCharOperator(s, op, rest);
  }

  /** Characters left to lex, plus one while the current token is not EOF. */
  function Remaining(s: LexState): nat {
    |s.cur.rest| + (if s.tok == TokEof then 0 else 1)
  }

  /** At end of input (after any blanks) the token is EOF, with empty text. */
  lemma EndIsEof(s: LexState)
    requires |SkipSpace(s.cur).rest| == 0
    ensures GetTok(s).tok == TokEof && GetTok(s).tokStr == ""
  {
    var c := SkipSpace(s.cur);
    assert GetTok(s) == ScanToken(s, c);
  }

  lemma GetTokProgress(s: LexState)
    requires s.tok != TokEof
    ensures Remaining(GetTok(s)) < Remaining(s)
  {
  }

  /** The constructor: lex the first token with no multi-character operator known,
      then install them. The C++ leaves `tok` uninitialised before that first
      `gettok`; the model starts it at TokEof, which shows only when the whole text
      is one comment (see CommentAtEnd). */
  function NewLexer(file: string, text: string): (s: LexState)
    ensures s.ops == MultiCharOps && s.file == file
    ensures Later(Start(text), s.cur)
    ensures s.tokStr == "" ==> |s.cur.rest| == 0
  {
    var s0 := LexState(file, Start(text), {}, TokEof, "", "");
    GetTok(s0).(ops := MultiCharOps)
  }

  /** A snapshot of the lexer after one `gettok`, as the parser sees it. */
  datatype Token = Token(kind: TokKind, text: string, num: string, tag: FTag) {
    function IntVal(): nat {
      LeadingValue(num)
    }
  }

  function Snapshot(s: LexState): Token {
    Token(s.tok, s.tokStr, s.tokNum, s.Tag())
  }

  /** A token sequence of the shape `gettok` produces: EOF last and nowhere else. */
  predicate EndsAtEof(ts: seq<Token>) {
    |ts| >= 1 && ts[|ts| - 1].kind == TokEof
    && forall i :: 0 <= i < |ts| - 1 ==> ts[i].kind != TokEof
  }

  function Cons(t: Token, rest: seq<Token>): (ts: seq<Token>)
    requires t.kind != TokEof && EndsAtEof(rest)
    ensures EndsAtEof(ts) && ts[0] == t
  {
    var ts := [t] + rest;
    assert forall i :: 1 <= i < |ts| ==> ts[i] == rest[i - 1];
    ts
  }

  /** The current token followed by every token `gettok` yields up to end of input. */
  function Tokens(s: LexState): (ts: seq<Token>)
    ensures EndsAtEof(ts) && ts[0] == Snapshot(s)
    decreases Remaining(s)
  {
    if s.tok == TokEof then [Snapshot(s)]
    else
      GetTokProgress(s);
      Cons(Snapshot(s), Tokens(GetTok(s)))
  }

  /** The token sequence of a whole file. */
  function Tokenize(file: string, text: string): seq<Token> {
    Tokens(NewLexer(file, text))
  }
}

=== FILE: package.dfy ===
/** The package layer: packages are directories of `.pif` files under a root path,
    registered by dotted name, loaded once, type checked in two passes and then handed
    to the code generator.

    The outside world is a parameter (`Env`): the directory listings `getdir` would
    return, the file contents, and which packages the code generator fails to build.
    `Gen->init` is recorded as the list of initialised packages; `Gen->main` is not
    called, the package it would receive is returned instead. */
module Packages {
  import opened Wrappers
  import opened Text
  import opened Errors
  import opened Lexer
  import opened Types
  import opened Ast
  import opened Scope
  import opened Analyser
  import opened Parser

  /** An entry of the definition order: the symbol and the definition it was made from. */
  datatype Entry = Entry(sym: SymId, def: Def)

  /** The fields of `Package` the front end uses. The top-level symbols are the frame
      `frame` of the analyser's frame table. */
  datatype Package = Package(
    prefix: string,
    complete: bool,
    frame: FrameId,
    pkgType: TypeId,
    imports: map<string, string>,
    order: seq<Entry>)

  /** Every package object (by name), the names in the global `packages` registry, and
      the packages `Gen->init` was called on, in order. The interpreter context is a
      package object that is not registered. */
  datatype World = World(
    tc: TcState,
    objs: map<string, Package>,
    registry: set<string>,
    inits: seq<string>)

  /** `DefAST::typeCheck` as the loader calls it: a definition, the package context and
      the analyser state give the checked definition, the new state and the verdict. */
  type DefChecker = (Def, Ctx, TcState) -> DefStep

  /** The definition checker of the analyser revision `m`, with fuel `fuel`. */
  function Checker(m: Mode, fuel: nat): DefChecker {
    (d, ctx, st) => DefCheck(m, fuel, d, ctx, st)
  }

  /** A checker that never turns a variable definition into another kind, or back. */
  ghost predicate KeepsKind(check: DefChecker) {
    forall d, ctx, st :: check(d, ctx, st).d.VarDef? == d.VarDef?
  }

  /** What loading reads from outside: `pkgPath`, the directory listings (a missing path
      cannot be opened), the file contents (a missing file cannot be opened), the
      packages whose code generation fails; and the definition checker. */
  datatype Env = Env(
    root: string,
    dirs: map<string, seq<string>>,
    files: map<string, string>,
    buildFails: set<string>,
    check: DefChecker)

  /** Errors that no caller in the package layer catches; `OutOfFuel` bounds the depth
      of nested imports and has no counterpart in the source. */
  datatype Escape = ParseError(err: Error) | CheckError(out: Outcome) | OutOfFuel

  /** A `bool` result with the state it leaves, or an escaping error. */
  datatype Run = Run(w: World, ok: bool) | Escaped(why: Escape)
  {
    predicate Stops() {
      Escaped? || !ok
    }
  }

  // ---------------------------------------------------------------------------
  // Invariants

  /** Registered packages exist, and a registered package is complete exactly when it
      has been initialised; only registered packages are. */
  predicate Coherent(w: World) {
    Ready(w.tc.store)
    && w.registry <= w.objs.Keys
    && (forall n :: n in w.registry ==> (w.objs[n].complete <==> n in w.inits))
    && (forall k :: 0 <= k < |w.inits| ==> w.inits[k] in w.registry)
  }

  /** `name` is a package whose files may still be read: it exists and is not a
      complete registered package. */
  predicate Loading(w: World, name: string) {
    name in w.objs && (name in w.registry ==> !w.objs[name].complete)
  }

  /** How loading may change the world: objects and registrations are never removed,
      an unregistered object is never registered later, a complete package is frozen,
      an incomplete registered package stays incomplete, and initialisation only
      appends. */
  predicate Evolves(w: World, w2: World) {
    Coherent(w2)
    && w.objs.Keys <= w2.objs.Keys
    && w.registry <= w2.registry
    && (forall n :: n in w.objs && n !in w.registry ==> n !in w2.registry)
    && (forall n :: n in w.registry && n in w.objs && w.objs[n].complete ==> w2.objs[n] == w.objs[n])
    && (forall n :: n in w.registry && n in w.objs ==> w2.objs[n].complete == w.objs[n].complete)
    && w.inits <= w2.inits
  }

  /** The package views the analyser reads: frame, package type and imports. */
  function Views(objs: map<string, Package>): (r: map<string, PkgView>)
    ensures r.Keys == objs.Keys
    ensures forall n :: n in objs ==> r[n] == PkgView(objs[n].frame, objs[n].pkgType, objs[n].imports)
  {
    map n | n in objs :: PkgView(objs[n].frame, objs[n].pkgType, objs[n].imports)
  }

  /** The context of a package: no function context, its symbols as the only frame. */
  function PackageCtx(name: string, pk: Package): Ctx {
    Ctx(name, None, [pk.frame])
  }

  // ---------------------------------------------------------------------------
  // Names and files

  /** The registry key of an import path: the segments joined with '.'. */
  function PackageName(path: seq<string>): string {
    Join(path, ".")
  }

  /** The directory of an import path: `root` followed by "/segment" per segment. */
  function PackageDir(root: string, path: seq<string>): (d: string)
    ensures |d| >= |root| && d[..|root|] == root
    decreases |path|
  {
    if |path| == 0 then root
    else
      var d := PackageDir(root + "/" + path[0], path[1..]);
      assert d[..|root|] == (root + "/" + path[0])[..|root|];
      d
  }

  /** The files of a directory that are read: at least four characters, ending in ".pif". */
  predicate IsSource(f: string) {
    !(|f| < 4) && f[|f| - 4..] == ".pif"
  }

  // ---------------------------------------------------------------------------
  // Package objects

  /** `Package::Package`: symbol prefix "PIF_name.", not complete, no definitions,
      no imports, a new empty frame and a new package type object. */
  function NewPackage(w: World, name: string): (r: World)
    requires Coherent(w) && name !in w.objs
    ensures Evolves(w, r) && r.registry == w.registry && r.inits == w.inits
    ensures r.objs.Keys == w.objs.Keys + {name}
    ensures forall n :: n in w.objs ==> r.objs[n] == w.objs[n]
    ensures r.objs[name].prefix == "PIF_" + name + "." && !r.objs[name].complete
    ensures r.objs[name].order == [] && r.objs[name].imports == map[]
    ensures r.objs[name].frame == |w.tc.frames| && r.tc.frames == w.tc.frames + [map[]]
    ensures r.tc.store.nodes == w.tc.store.nodes + [PkgT(name)] && r.objs[name].pkgType == |w.tc.store.nodes|
  {
    var (s1, pt) := Alloc(w.tc.store, PkgT(name));
    var (tc1, f) := PushFrame(w.tc.(store := s1), map[]);
    w.(tc := tc1, objs := w.objs[name := Package("PIF_" + name + ".", false, f, pt, map[], [])])
  }

  /** `packages[name] = new Package(name)`: a new package object, registered. */
  function Register(w: World, name: string): (r: World)
    requires Coherent(w) && name !in w.objs
    ensures Evolves(w, r) && Coherent(r) && Loading(r, name)
    ensures r.registry == w.registry + {name} && r.objs.Keys == w.objs.Keys + {name}
    ensures forall n :: n in w.objs ==> r.objs[n] == w.objs[n]
    ensures !r.objs[name].complete && r.inits == w.inits
  {
    NewPackage(w, name).(registry := w.registry + {name})
  }

  /** `Imports[alias] = pkg` on the importing package. */
  function Bind(w: World, importer: string, alias: string, target: string): (r: World)
    requires importer in w.objs
    ensures r.objs.Keys == w.objs.Keys && r.tc == w.tc && r.registry == w.registry && r.inits == w.inits
    ensures r.objs[importer].imports == w.objs[importer].imports[alias := target]
    ensures r.objs[importer] == w.objs[importer].(imports := r.objs[importer].imports)
    ensures forall n :: n in w.objs && n != importer ==> r.objs[n] == w.objs[n]
  {
    var pk := w.objs[importer];
    w.(objs := w.objs[importer := pk.(imports := pk.imports[alias := target])])
  }

  /** The top-level definition step of `inputFile`. A name the package frame already
      binds is a redefinition: false, nothing changes. Otherwise a symbol is made whose
      type is `typeAtDef`, bound in the frame and appended to the definition order.
      None: a dangling type object. */
  function Define(w: World, name: string, d: Def): (r: Option<(World, bool)>)
    requires Coherent(w) && Loading(w, name)
    ensures r.Some? ==> Evolves(w, r.value.0) && Loading(r.value.0, name)
    ensures r.Some? ==> r.value.0.objs.Keys == w.objs.Keys && r.value.0.registry == w.registry
    ensures Binds(w.tc, w.objs[name].frame, d.name) ==> r == Some((w, false))
    ensures r.Some? && r.value.1 ==>
      !Binds(w.tc, w.objs[name].frame, d.name)
      && r.value.0.objs[name] == w.objs[name].(order := r.value.0.objs[name].order)
      && r.value.0.objs[name].order == w.objs[name].order + [Entry(|w.tc.syms|, d)]
      && Binds(r.value.0.tc, w.objs[name].frame, d.name) == (w.objs[name].frame < |w.tc.frames|)
    ensures forall n :: n in w.objs && n != name && r.Some? ==> r.value.0.objs[n] == w.objs[n]
  {
    var pk := w.objs[name];
    if Binds(w.tc, pk.frame, d.name) then Some((w, false))
    else
      match TypeAtDef(w.tc.store, d)
      case None => None
      case Some((s1, t)) =>
        var (tc1, sid) := NewSym(w.tc.(store := s1), Symbol(KindOf(d), t));
        var tc2 := Insert(tc1, pk.frame, d.name, sid);
        Some((w.(tc := tc2, objs := w.objs[name := pk.(order := pk.order + [Entry(sid, d)])]), true))
  }

  /** The `_init` function made for a package whose frame does not bind one:
      `func _init : () -> { return }`, every node with the empty tag. */
  function InitDef(fty: TypeId): Def {
    FuncDef(NoTag, "_init",
      Fresh(NoTag, FuncLit(fty, Fresh(NoTag, Block([ExprStmt(NoTag, Fresh(NoTag, Return(None)))], false)), false)))
  }

  /** Appends the dummy `_init` (with a new `() -> void` function type and a symbol of
      unknown type) when the package frame does not bind `_init`. */
  function WithInit(w: World, name: string): (r: World)
    requires Coherent(w) && Loading(w, name)
    ensures Evolves(w, r) && Loading(r, name)
    ensures r.objs.Keys == w.objs.Keys && r.registry == w.registry
    ensures forall n :: n in w.objs && n != name ==> r.objs[n] == w.objs[n]
    ensures Binds(w.tc, w.objs[name].frame, "_init") ==> r == w
    ensures !Binds(w.tc, w.objs[name].frame, "_init") ==>
      var o := r.objs[name].order;
      |o| == |w.objs[name].order| + 1 && o[..|o| - 1] == w.objs[name].order
      && o[|o| - 1].def == InitDef(|w.tc.store.nodes|)
      && r.tc.store.nodes == w.tc.store.nodes + [FuncT([], VOID)]
      && r.tc.syms == w.tc.syms + [Symbol(FuncSym, None)] && o[|o| - 1].sym == |w.tc.syms|
  {
    var pk := w.objs[name];
    if Binds(w.tc, pk.frame, "_init") then w
    else
      var (s1, fty) := Alloc(w.tc.store, FuncT([], VOID));
      var (tc1, sid) := NewSym(w.tc.(store := s1), Symbol(FuncSym, None));
      var tc2 := Insert(tc1, pk.frame, "_init", sid);
      w.(tc := tc2, objs := w.objs[name := pk.(order := pk.order + [Entry(sid, InitDef(fty))])])
  }

  // ---------------------------------------------------------------------------
  // Type checking: `Package::typeCheck`

  /** The symbol's type replaced, as `SType = typeAtDef()` does. */
  function SetSType(tc: TcState, sid: SymId, t: Option<TypeId>): (r: TcState)
    ensures r.store == tc.store && r.frames == tc.frames && r.pkgs == tc.pkgs && |r.syms| == |tc.syms|
    ensures sid < |tc.syms| ==> r.syms[sid] == Symbol(tc.syms[sid].def, t)
    ensures forall k :: 0 <= k < |tc.syms| && k != sid ==> r.syms[k] == tc.syms[k]
  {
    if sid < |tc.syms| then tc.(syms := tc.syms[sid := Symbol(tc.syms[sid].def, t)]) else tc
  }

  /** Whether each entry of the definition order is a variable definition. */
  function Kinds(order: seq<Entry>): (ks: seq<bool>)
    ensures |ks| == |order|
    ensures forall i :: 0 <= i < |order| ==> ks[i] == order[i].def.VarDef?
  {
    seq(|order|, i requires 0 <= i < |order| => order[i].def.VarDef?)
  }

  /** Checking a definition keeps what kind of definition it is. */
  lemma DefCheckKeepsKind(m: Mode, fuel: nat, d: Def, ctx: Ctx, st: TcState)
    ensures DefCheck(m, fuel, d, ctx, st).d.VarDef? == d.VarDef?
  {
  }

  /** The analyser's checkers keep definition kinds. */
  lemma CheckerKeepsKind(m: Mode, fuel: nat)
    ensures KeepsKind(Checker(m, fuel))
  {
    forall d, ctx, st ensures Checker(m, fuel)(d, ctx, st).d.VarDef? == d.VarDef? {
      DefCheckKeepsKind(m, fuel, d, ctx, st);
    }
  }

  /** One definition checked in the package context (the analyser sees the current
      package views). */
  function CheckEntry(env: Env, w: World, name: string, i: nat): (r: Run)
    requires Coherent(w) && Loading(w, name) && i < |w.objs[name].order|
    ensures r.Run? ==> Evolves(w, r.w) && Loading(r.w, name)
    ensures r.Run? ==> r.w.objs.Keys == w.objs.Keys && r.w.registry == w.registry && r.w.inits == w.inits
    ensures r.Run? && KeepsKind(env.check) ==> Kinds(r.w.objs[name].order) == Kinds(w.objs[name].order)
    ensures r.Run? ==> forall n :: n in w.objs && n != name ==> r.w.objs[n] == w.objs[n]
    ensures r.Run? ==> r.w.objs[name] == w.objs[name].(order := r.w.objs[name].order)
  {
    var pk := w.objs[name];
    AfterCheck(w, name, i, env.check(pk.order[i].def, PackageCtx(name, pk), w.tc.(pkgs := Views(w.objs))))
  }

  /** The outcome of checking entry `i`. A raised error escapes; a failure is false; on
      success the checked tree replaces the definition and the symbol's type is
      refreshed. A store that no longer satisfies its invariant counts as a dangling
      type object. */
  function AfterCheck(w: World, name: string, i: nat, c: DefStep): (r: Run)
    requires Coherent(w) && Loading(w, name) && i < |w.objs[name].order|
    ensures c.res.Raised? ==> r == Escaped(CheckError(c.res.out))
    ensures r.Run? ==> Evolves(w, r.w) && Loading(r.w, name)
    ensures r.Run? ==> r.w.objs.Keys == w.objs.Keys && r.w.registry == w.registry && r.w.inits == w.inits
    ensures r.Run? && c.d.VarDef? == w.objs[name].order[i].def.VarDef? ==>
      Kinds(r.w.objs[name].order) == Kinds(w.objs[name].order)
    ensures r.Run? ==> |r.w.objs[name].order| == |w.objs[name].order|
    ensures r.Run? ==> r.ok == c.res.Passed? && r.w.objs[name].order[i].def == c.d
    ensures r.Run? ==> forall n :: n in w.objs && n != name ==> r.w.objs[n] == w.objs[n]
    ensures r.Run? ==> r.w.objs[name] == w.objs[name].(order := r.w.objs[name].order)
    ensures r.Run? ==> forall j :: 0 <= j < |w.objs[name].order| && j != i ==>
      r.w.objs[name].order[j] == w.objs[name].order[j]
  {
    var pk := w.objs[name];
    var e := pk.order[i];
    var pk1 := pk.(order := pk.order[i := e.(def := c.d)]);
    assert c.d.VarDef? == e.def.VarDef? ==> Kinds(pk1.order) == Kinds(pk.order);
    var objs1 := w.objs[name := pk1];
    if c.res.Raised? then Escaped(CheckError(c.res.out))
    else if !Ready(c.st.store) then Escaped(CheckError(DanglingType))
    else if c.res.Failed? then Run(w.(tc := c.st, objs := objs1), false)
    else
      match Refresh(c.st, e.sym, c.d)
      case None => Escaped(CheckError(DanglingType))
      case Some(tc) => Run(w.(tc := tc, objs := objs1), true)
  }

  /** `SType = typeAtDef()` after a definition passed; None: a dangling type object. */
  function Refresh(tc: TcState, sid: SymId, d: Def): (r: Option<TcState>)
    requires Ready(tc.store)
    ensures r.Some? ==> Ready(r.value.store) && |r.value.syms| == |tc.syms| && r.value.frames == tc.frames
    ensures r.Some? && sid < |tc.syms| ==> r.value.syms[sid].def == tc.syms[sid].def
  {
    match TypeAtDef(tc.store, d)
    case None => None
    case Some((s2, t)) => Some(SetSType(tc.(store := s2), sid, t))
  }

  /** One pass of `typeCheck` from entry `i` on: the entries whose kind is `checkVar`,
      in order, stopping at the first that does not pass. */
  function CheckPass(env: Env, w: World, name: string, checkVar: bool, i: nat): (r: Run)
    requires Coherent(w) && Loading(w, name)
    ensures r.Run? ==> Evolves(w, r.w) && Loading(r.w, name)
    ensures r.Run? ==> r.w.objs.Keys == w.objs.Keys && r.w.registry == w.registry && r.w.inits == w.inits
    ensures r.Run? ==> |r.w.objs[name].order| == |w.objs[name].order|
    ensures r.Run? && KeepsKind(env.check) ==> Kinds(r.w.objs[name].order) == Kinds(w.objs[name].order)
    ensures r.Run? ==> forall n :: n in w.objs && n != name ==> r.w.objs[n] == w.objs[n]
    ensures r.Run? ==> r.w.objs[name] == w.objs[name].(order := r.w.objs[name].order)
    decreases |w.objs[name].order| - i
  {
    var order := w.objs[name].order;
    if i >= |order| then Run(w, true)
    else if order[i].def.VarDef? != checkVar then CheckPass(env, w, name, checkVar, i + 1)
    else
      var r := CheckEntry(env, w, name, i);
      if r.Stops() then r else CheckPass(env, r.w, name, checkVar, i + 1)
  }

  /** `Package::typeCheck`: the variable definitions first, then the others. */
  function TypeCheck(env: Env, w: World, name: string): (r: Run)
    requires Coherent(w) && Loading(w, name)
    ensures r.Run? ==> Evolves(w, r.w) && Loading(r.w, name)
    ensures r.Run? ==> r.w.objs.Keys == w.objs.Keys && r.w.registry == w.registry && r.w.inits == w.inits
    ensures r.Run? && KeepsKind(env.check) ==> Kinds(r.w.objs[name].order) == Kinds(w.objs[name].order)
    ensures r.Run? ==> forall n :: n in w.objs && n != name ==> r.w.objs[n] == w.objs[n]
  {
    var r1 := CheckPass(env, w, name, true, 0);
    if r1.Stops() then r1 else CheckPass(env, r1.w, name, false, 0)
  }

  // ---------------------------------------------------------------------------
  // Loading: `inputFile` and `import`

  /** A parse that ended: a reported error is false, a raised one escapes. */
  function Stopped(w: World, why: Stop): Run {
    match why
    case Reported(_) => Run(w, false)
    case Raised(e) => Escaped(ParseError(e))
  }

  /** `Package::inputFile`: a file that cannot be opened is false; otherwise its tokens
      are read as top-level input. */
  function InputFile(env: Env, w: World, name: string, filename: string, fuel: nat): (r: Run)
    requires Coherent(w) && Loading(w, name)
    ensures r.Run? ==> Evolves(w, r.w) && Loading(r.w, name)
    ensures filename !in env.files ==> r == Run(w, false)
    decreases fuel, 3, 0
  {
    if filename !in env.files then Run(w, false)
    else InputLoop(env, w, name, Tokenize(filename, env.files[filename]), 0, fuel)
  }

  /** The loop of `inputFile` at token `pos`: end of file is success; `import` parses
      an import and performs it; `let`, `var` and `func` parse a definition and define
      it; any other token, a parse error, a failed import or a redefinition is false. */
  function InputLoop(env: Env, w: World, name: string, ts: seq<Token>, pos: nat, fuel: nat): (r: Run)
    requires Coherent(w) && Loading(w, name) && pos <= |ts|
    ensures r.Run? ==> Evolves(w, r.w) && Loading(r.w, name)
    ensures At(ts, pos).kind == TokEof ==> r == Run(w, true)
    ensures !(At(ts, pos).kind in {TokEof, TokImport, TokLet, TokVar, TokFunc}) ==> r == Run(w, false)
    decreases fuel, 2, |ts| - pos
  {
    var t := At(ts, pos);
    if t.kind == TokEof then Run(w, true)
    else if t.kind == TokImport then
      match ParseImport(ts, pos, w.tc.store)
      case Failed(why) => Stopped(w, why)
      case Parsed(imp, p, _) =>
        var r := ImportPackage(env, w, name, imp, fuel);
        if r.Stops() then r else InputLoop(env, r.w, name, ts, p, fuel)
    else if t.kind == TokLet || t.kind == TokVar || t.kind == TokFunc then
      match TopDefinition(w, name, ts, pos)
      case Halt(r) => r
      case Continue(w2, p) => InputLoop(env, w2, name, ts, p, fuel)
    else Run(w, false)
  }

  /** Where a top-level definition leaves the loop: continuing at a later token, or
      halted with the loop's result. */
  datatype Top = Continue(w: World, pos: nat) | Halt(run: Run)

  /** A `let`, `var` or `func` definition at `pos`, parsed and defined. */
  function TopDefinition(w: World, name: string, ts: seq<Token>, pos: nat): (r: Top)
    requires Coherent(w) && Loading(w, name) && pos <= |ts|
    ensures r.Continue? ==> Evolves(w, r.w) && Loading(r.w, name) && pos < r.pos <= |ts|
    ensures r.Halt? && r.run.Run? ==> Evolves(w, r.run.w) && Loading(r.run.w, name) && !r.run.ok
  {
    var pd := if At(ts, pos).kind == TokFunc then ParseFuncDefinition(ts, pos, w.tc.store)
              else ParseVarDefinition(ts, pos, w.tc.store);
    match pd
    case Failed(why) => Halt(Stopped(w, why))
    case Parsed(d, p, st1) =>
      var w1 := w.(tc := w.tc.(store := st1));
      match Define(w1, name, d)
      case None => Halt(Escaped(CheckError(DanglingType)))
      case Some((w2, isNew)) => if !isNew then Halt(Run(w2, false)) else Continue(w2, p)
  }

  /** The directory loop of `import`: the files that are not sources are skipped, the
      others read in listing order; the first that fails ends the loop. */
  function LoadFiles(env: Env, w: World, name: string, dir: string, files: seq<string>, i: nat, fuel: nat): (r: Run)
    requires Coherent(w) && Loading(w, name) && i <= |files|
    ensures r.Run? ==> Evolves(w, r.w) && Loading(r.w, name)
    decreases fuel, 4, |files| - i
  {
    if i == |files| then Run(w, true)
    else if !IsSource(files[i]) then LoadFiles(env, w, name, dir, files, i + 1, fuel)
    else
      var r := InputFile(env, w, name, dir + "/" + files[i], fuel);
      if r.Stops() then r else LoadFiles(env, r.w, name, dir, files, i + 1, fuel)
  }

  /** The checks of a first import after the files are read: the dummy `_init`, the
      type check and the code generator. */
  function Prepare(env: Env, w: World, pname: string): (r: Run)
    requires Coherent(w) && Loading(w, pname)
    ensures r.Run? ==> Evolves(w, r.w) && Loading(r.w, pname)
    ensures r.Run? ==> r.w.objs.Keys == w.objs.Keys && r.w.registry == w.registry && r.w.inits == w.inits
    ensures r.Run? ==> forall n :: n in w.objs && n != pname ==> r.w.objs[n] == w.objs[n]
    ensures r.Run? && r.ok ==> pname !in env.buildFails
  {
    var w1 := WithInit(w, pname);
    var c := TypeCheck(env, w1, pname);
    if c.Escaped? then c
    else
      EvolvesTrans(w, w1, c.w);
      if !c.ok || pname in env.buildFails then Run(c.w, false) else c
  }

  /** `Complete = true; Gen->init(pkg)`. */
  function Completed(w: World, pname: string): (r: World)
    requires pname in w.objs
    ensures r.objs.Keys == w.objs.Keys && r.registry == w.registry && r.tc == w.tc
    ensures r.objs[pname] == w.objs[pname].(complete := true) && r.inits == w.inits + [pname]
    ensures forall n :: n in w.objs && n != pname ==> r.objs[n] == w.objs[n]
  {
    var pk := w.objs[pname];
    w.(objs := w.objs[pname := pk.(complete := true)], inits := w.inits + [pname])
  }

  /** Binding an alias in a package that is not frozen is an evolution. */
  lemma BindEvolves(w: World, importer: string, alias: string, target: string)
    requires Coherent(w) && Loading(w, importer)
    ensures Evolves(w, Bind(w, importer, alias, target)) && Loading(Bind(w, importer, alias, target), importer)
  {
  }

  lemma EvolvesTrans(a: World, b: World, c: World)
    requires Coherent(a) && Evolves(a, b) && Evolves(b, c)
    ensures Evolves(a, c)
  {
  }

  /** Completing a package registered after `w0`, and binding it in a package that
      is not frozen in `w0`, is an evolution of `w0`. */
  lemma CompleteBindEvolves(w0: World, w: World, pname: string, importer: string, alias: string)
    requires Coherent(w0) && Evolves(w0, w) && pname in w.registry && pname !in w0.registry
    requires pname !in w.inits && Loading(w0, importer) && importer != pname
    ensures Evolves(w0, Bind(Completed(w, pname), importer, alias, pname))
    ensures Loading(Bind(Completed(w, pname), importer, alias, pname), importer)
    ensures var w3 := Bind(Completed(w, pname), importer, alias, pname);
      pname in w3.registry && w3.objs[pname].complete
      && alias in w3.objs[importer].imports && w3.objs[importer].imports[alias] == pname
      && w3.inits[|w3.inits| - 1] == pname
  {
    var w2 := Completed(w, pname);
    var w3 := Bind(w2, importer, alias, pname);
    assert forall k :: 0 <= k < |w2.inits| ==> w2.inits[k] in w2.registry by {
      forall k | 0 <= k < |w2.inits| ensures w2.inits[k] in w2.registry {
        if k < |w.inits| { assert w2.inits[k] == w.inits[k]; }
      }
    }
    assert w0.inits <= w.inits <= w2.inits;
  }

  /** A package name not seen before: registered, its directory listed, its source
      files read, then prepared, completed and bound under the alias. */
  function LoadNew(env: Env, w: World, importer: string, imp: Import, fuel: nat): (r: Run)
    requires Coherent(w) && Loading(w, importer)
    requires PackageName(imp.path) !in w.objs && fuel > 0
    ensures r.Run? ==> Evolves(w, r.w) && Loading(r.w, importer)
    ensures r.Run? ==> PackageName(imp.path) in r.w.registry && (r.ok <==> r.w.objs[PackageName(imp.path)].complete)
    ensures r.Run? && r.ok ==>
      imp.alias in r.w.objs[importer].imports && r.w.objs[importer].imports[imp.alias] == PackageName(imp.path)
      && PackageName(imp.path) !in env.buildFails && r.w.inits[|r.w.inits| - 1] == PackageName(imp.path)
    ensures PackageDir(env.root, imp.path) !in env.dirs ==> r.Run? && !r.ok
    decreases fuel, 0, 0
  {
    var pname := PackageName(imp.path);
    var dir := PackageDir(env.root, imp.path);
    var w1 := Register(w, pname);
    if dir !in env.dirs then Run(w1, false)
    else
      var r := LoadFiles(env, w1, pname, dir, env.dirs[dir], 0, fuel - 1);
      if r.Stops() then r
      else
        EvolvesTrans(w, w1, r.w);
        Conclude(env, w, r.w, importer, imp.alias, pname)
  }

  /** The end of a first import, once the files are read: the package is prepared,
      then completed, initialised and bound under the alias in the importer. `w0` is
      the world before the package was registered. */
  function Conclude(env: Env, ghost w0: World, w: World, importer: string, alias: string, pname: string): (r: Run)
    requires Coherent(w0) && Loading(w0, importer) && pname !in w0.objs
    requires Evolves(w0, w) && pname in w.registry && Loading(w, pname)
    ensures r.Run? ==> Evolves(w0, r.w) && Loading(r.w, importer)
    ensures r.Run? ==> pname in r.w.registry && (r.ok <==> r.w.objs[pname].complete)
    ensures r.Run? && r.ok ==>
      alias in r.w.objs[importer].imports && r.w.objs[importer].imports[alias] == pname
      && pname !in env.buildFails && r.w.inits[|r.w.inits| - 1] == pname
  {
    var c := Prepare(env, w, pname);
    if c.Escaped? then c
    else
      EvolvesTrans(w0, w, c.w);
      if !c.ok then
        assert !c.w.objs[pname].complete;
        c
      else
        assert pname !in c.w.inits;
        CompleteBindEvolves(w0, c.w, pname, importer, alias);
        Run(Bind(Completed(c.w, pname), importer, alias, pname), true)
  }

  /** `Package::import`. A registered package is bound under the alias when complete;
      when it is not (it is being loaded, or failed) the import is false. An unknown
      name is loaded as a new package. A name held by an unregistered package (the
      interpreter context) is refused. */
  function ImportPackage(env: Env, w: World, importer: string, imp: Import, fuel: nat): (r: Run)
    requires Coherent(w) && Loading(w, importer)
    ensures r.Run? ==> Evolves(w, r.w) && Loading(r.w, importer)
    ensures PackageName(imp.path) in w.registry && !w.objs[PackageName(imp.path)].complete ==> r == Run(w, false)
    ensures PackageName(imp.path) in w.registry && w.objs[PackageName(imp.path)].complete ==>
      r == Run(Bind(w, importer, imp.alias, PackageName(imp.path)), true)
    ensures PackageName(imp.path) !in w.objs && r.Run? ==>
      PackageName(imp.path) in r.w.registry && (r.ok <==> r.w.objs[PackageName(imp.path)].complete)
    ensures r.Run? && r.ok ==>
      PackageName(imp.path) in r.w.registry && r.w.objs[PackageName(imp.path)].complete
      && imp.alias in r.w.objs[importer].imports && r.w.objs[importer].imports[imp.alias] == PackageName(imp.path)
    ensures PackageName(imp.path) !in w.objs && r.Run? && r.ok ==>
      PackageName(imp.path) !in env.buildFails && r.w.inits[|r.w.inits| - 1] == PackageName(imp.path)
    ensures PackageName(imp.path) !in w.objs && PackageDir(env.root, imp.path) !in env.dirs && fuel > 0 ==>
      r.Run? && !r.ok && !r.w.objs[PackageName(imp.path)].complete
    decreases fuel, 1, 0
  {
    var pname := PackageName(imp.path);
    if pname in w.registry then
      if w.objs[pname].complete then
        BindEvolves(w, importer, imp.alias, pname);
        Run(Bind(w, importer, imp.alias, pname), true)
      else Run(w, false)
    else if pname in w.objs then Run(w, false)
    else if fuel == 0 then Escaped(OutOfFuel)
    else LoadNew(env, w, importer, imp, fuel)
  }

  // ---------------------------------------------------------------------------
  // `importAndRunMain`

  /** The names in use that have at least `n` characters. */
  function LongKeys(imports: map<string, string>, n: nat): set<string> {
    set k | k in imports && |k| >= n
  }

  lemma ProperSubsetSmaller(a: set<string>, b: set<string>)
    requires a < b
    ensures |a| < |b|
  {
    var d := b - a;
    assert b == a + d && a * d == {};
    assert d != {};
  }

  /** The alias of the main package: the last segment, with "2" appended while the
      importer already uses the name. */
  function FreshAlias(imports: map<string, string>, a: string): (r: string)
    ensures r !in imports
    ensures |a| <= |r| && r[..|a|] == a && forall k :: |a| <= k < |r| ==> r[k] == '2'
    ensures a !in imports ==> r == a
    decreases |LongKeys(imports, |a|)|
  {
    if a !in imports then a
    else
      assert LongKeys(imports, |a| + 1) < LongKeys(imports, |a|) by {
        assert a in LongKeys(imports, |a|) && a !in LongKeys(imports, |a| + 1);
      }
      assert |a + "2"| == |a| + 1;
      ProperSubsetSmaller(LongKeys(imports, |a| + 1), LongKeys(imports, |a|));
      var r := FreshAlias(imports, a + "2");
      assert r[..|a|] == (a + "2")[..|a|];
      r
  }

  /** What `importAndRunMain` does, and the package it would hand to `Gen->main`. */
  datatype Launch = Launch(run: Run, main: Option<string>)

  /** `Package::importAndRunMain` on the package `pkg`: the dotted name split at every
      '.', imported under a fresh alias; on success the package bound to that alias is
      the one to run. */
  function ImportAndRunMain(env: Env, w: World, pkg: string, dotted: string, fuel: nat): (r: Launch)
    requires Coherent(w) && Loading(w, pkg)
    ensures r.run.Run? ==> Evolves(w, r.run.w)
    ensures r.main.Some? <==> r.run.Run? && r.run.ok
    ensures r.main.Some? ==> r.main.value == dotted && dotted in r.run.w.registry && r.run.w.objs[dotted].complete
  {
    var path := Split(dotted, '.');
    var alias := FreshAlias(w.objs[pkg].imports, path[|path| - 1]);
    var run := ImportPackage(env, w, pkg, Import(NoTag, path, alias), fuel);
    JoinSplit(dotted, '.');
    if run.Stops() then Launch(run, None)
    else Launch(run, Some(run.w.objs[pkg].imports[alias]))
  }
}

=== FILE: package_facts.dfy ===
/** Properties of the package layer: the order in which the two-pass type check visits
    definitions, the files a directory load reads, where a package lives, and what a
    repeated import does. */
module PackageFacts {
  import opened Wrappers
  import opened Text
  import opened Ast
  import opened Packages

  // ---------------------------------------------------------------------------
  // The order of `typeCheck`

  /** The positions from `i` on whose kind is `want`, in increasing order. */
  function Select(ks: seq<bool>, want: bool, i: nat): (r: seq<nat>)
    requires i <= |ks|
    ensures forall k :: 0 <= k < |r| ==> i <= r[k] < |ks| && ks[r[k]] == want
    ensures forall k, l :: 0 <= k < l < |r| ==> r[k] < r[l]
    ensures forall j :: i <= j < |ks| && ks[j] == want ==> j in r
    decreases |ks| - i
  {
    if i == |ks| then []
    else if ks[i] == want then [i] + Select(ks, want, i + 1)
    else Select(ks, want, i + 1)
  }

  /** Every variable definition, then every other definition, each group in order. */
  function VarFirst(ks: seq<bool>): (r: seq<nat>)
    ensures forall k :: 0 <= k < |r| ==> r[k] < |ks|
    ensures forall j :: 0 <= j < |ks| ==> j in r
    ensures forall k, l :: 0 <= k < l < |r| ==> r[k] != r[l]
    ensures forall k, l :: 0 <= k < l < |r| && ks[r[l]] ==> ks[r[k]]
    ensures forall k, l :: 0 <= k < l < |r| && ks[r[k]] == ks[r[l]] ==> r[k] < r[l]
  {
    var a := Select(ks, true, 0);
    var b := Select(ks, false, 0);
    JoinedKinds(ks, a, b);
    JoinedCover(ks, a, b);
    JoinedOrder(ks, a, b);
    a + b
  }

  /** In the joined selections, the variables come first. */
  lemma JoinedKinds(ks: seq<bool>, a: seq<nat>, b: seq<nat>)
    requires a == Select(ks, true, 0) && b == Select(ks, false, 0)
    ensures forall k :: 0 <= k < |a + b| ==> (a + b)[k] < |ks| && (ks[(a + b)[k]] <==> k < |a|)
  {
    forall k | 0 <= k < |a + b|
      ensures (a + b)[k] < |ks| && (ks[(a + b)[k]] <==> k < |a|)
    {
      if k < |a| { assert (a + b)[k] == a[k]; } else { assert (a + b)[k] == b[k - |a|]; }
    }
  }

  /** The joined selections hold every position. */
  lemma JoinedCover(ks: seq<bool>, a: seq<nat>, b: seq<nat>)
    requires a == Select(ks, true, 0) && b == Select(ks, false, 0)
    ensures forall j :: 0 <= j < |ks| ==> j in a + b
  {
    forall j | 0 <= j < |ks|
      ensures j in a + b
    {
      if ks[j] { assert j in a; } else { assert j in b; }
    }
  }

  /** Within each kind, the joined selections keep the definition order. */
  lemma JoinedOrder(ks: seq<bool>, a: seq<nat>, b: seq<nat>)
    requires forall k, l :: 0 <= k < l < |a| ==> a[k] < a[l]
    requires forall k, l :: 0 <= k < l < |b| ==> b[k] < b[l]
    requires forall k :: 0 <= k < |a + b| ==> (a + b)[k] < |ks| && (ks[(a + b)[k]] <==> k < |a|)
    ensures forall k, l :: 0 <= k < l < |a + b| && ks[(a + b)[k]] == ks[(a + b)[l]] ==> (a + b)[k] < (a + b)[l]
  {
    var r := a + b;
    forall k, l | 0 <= k < l < |r| && ks[r[k]] == ks[r[l]]
      ensures r[k] < r[l]
    {
      if k < |a| {
        assert ks[r[k]];
        assert l < |a|;
        assert r[k] == a[k] && r[l] == a[l];
      } else {
        assert r[k] == b[k - |a|] && r[l] == b[l - |a|];
      }
    }
  }

  /** The reference order: the listed entries checked one after the other, stopping at
      the first that does not pass; positions past the end are skipped. */
  function CheckList(env: Env, w: World, name: string, idx: seq<nat>): (r: Run)
    requires Coherent(w) && Loading(w, name)
    ensures r.Run? ==> Coherent(r.w) && Loading(r.w, name)
    ensures r.Run? ==> |r.w.objs[name].order| == |w.objs[name].order|
    ensures r.Run? && KeepsKind(env.check) ==> Kinds(r.w.objs[name].order) == Kinds(w.objs[name].order)
    decreases |idx|
  {
    if |idx| == 0 then Run(w, true)
    else if idx[0] >= |w.objs[name].order| then CheckList(env, w, name, idx[1..])
    else
      var r := CheckEntry(env, w, name, idx[0]);
      if r.Stops() then r else CheckList(env, r.w, name, idx[1..])
  }

  /** Checking two lists is checking the first, then the second if the first passed. */
  lemma {:induction false} CheckListAppend(env: Env, w: World, name: string, a: seq<nat>, b: seq<nat>)
    requires Coherent(w) && Loading(w, name)
    ensures var r := CheckList(env, w, name, a);
      CheckList(env, w, name, a + b) == if r.Stops() then r else CheckList(env, r.w, name, b)
    decreases |a|
  {
    if |a| > 0 {
      assert (a + b)[1..] == a[1..] + b;
      if a[0] >= |w.objs[name].order| {
        CheckListAppend(env, w, name, a[1..], b);
      } else {
        var r := CheckEntry(env, w, name, a[0]);
        if !r.Stops() {
          CheckListAppend(env, r.w, name, a[1..], b);
        }
      }
    } else {
      assert a + b == b;
    }
  }

  /** One pass of `typeCheck` checks exactly the entries of its kind, in order. */
  lemma {:induction false} PassChecksSelection(env: Env, w: World, name: string, want: bool, i: nat)
    requires Coherent(w) && Loading(w, name) && KeepsKind(env.check) && i <= |w.objs[name].order|
    ensures CheckPass(env, w, name, want, i) == CheckList(env, w, name, Select(Kinds(w.objs[name].order), want, i))
    decreases |w.objs[name].order| - i
  {
    var order := w.objs[name].order;
    var ks := Kinds(order);
    if i < |order| {
      if order[i].def.VarDef? != want {
        assert Select(ks, want, i) == Select(ks, want, i + 1);
        PassChecksSelection(env, w, name, want, i + 1);
      } else {
        var r := CheckEntry(env, w, name, i);
        SelectedStep(env, w, name, want, i);
        if !r.Stops() {
          PassChecksSelection(env, r.w, name, want, i + 1);
        }
      }
    } else {
      assert Select(ks, want, i) == [];
    }
  }

  /** One selected entry: both the pass and the list check it, then go on from the
      world it leaves with the selection of the entries after it. */
  lemma SelectedStep(env: Env, w: World, name: string, want: bool, i: nat)
    requires Coherent(w) && Loading(w, name) && KeepsKind(env.check)
    requires i < |w.objs[name].order| && w.objs[name].order[i].def.VarDef? == want
    ensures var r := CheckEntry(env, w, name, i);
      CheckPass(env, w, name, want, i) == (if r.Stops() then r else CheckPass(env, r.w, name, want, i + 1))
      && CheckList(env, w, name, Select(Kinds(w.objs[name].order), want, i))
         == (if r.Stops() then r else CheckList(env, r.w, name, Select(Kinds(r.w.objs[name].order), want, i + 1)))
  {
    var ks := Kinds(w.objs[name].order);
    assert Select(ks, want, i) == [i] + Select(ks, want, i + 1);
    ListStep(env, w, name, i, Select(ks, want, i + 1));
    var r := CheckEntry(env, w, name, i);
    if !r.Stops() {
      assert Kinds(r.w.objs[name].order) == ks;
    }
  }

  /** A list that starts with an existing entry checks it, then the rest. */
  lemma ListStep(env: Env, w: World, name: string, i: nat, rest: seq<nat>)
    requires Coherent(w) && Loading(w, name) && i < |w.objs[name].order|
    ensures var r := CheckEntry(env, w, name, i);
      CheckList(env, w, name, [i] + rest) == (if r.Stops() then r else CheckList(env, r.w, name, rest))
  {
    assert ([i] + rest)[0] == i && ([i] + rest)[1..] == rest;
  }

  /** `typeCheck` checks every variable definition before any other definition: it is
      the reference check of the `VarFirst` order. */
  lemma TypeCheckOrder(env: Env, w: World, name: string)
    requires Coherent(w) && Loading(w, name) && KeepsKind(env.check)
    ensures TypeCheck(env, w, name) == CheckList(env, w, name, VarFirst(Kinds(w.objs[name].order)))
  {
    var ks := Kinds(w.objs[name].order);
    PassChecksSelection(env, w, name, true, 0);
    var r1 := CheckPass(env, w, name, true, 0);
    if !r1.Stops() {
      PassChecksSelection(env, r1.w, name, false, 0);
    }
    CheckListAppend(env, w, name, Select(ks, true, 0), Select(ks, false, 0));
  }

  // ---------------------------------------------------------------------------
  // The files of a package

  /** The source files of a listing, in listing order. */
  function Sources(files: seq<string>): (r: seq<string>)
    ensures forall k :: 0 <= k < |r| ==> IsSource(r[k])
    ensures forall f :: f in files && IsSource(f) ==> f in r
  {
    if |files| == 0 then []
    else (if IsSource(files[0]) then [files[0]] else []) + Sources(files[1..])
  }

  /** One turn of the directory loop. */
  lemma LoadFilesStep(env: Env, w: World, name: string, dir: string, files: seq<string>, i: nat, fuel: nat)
    requires Coherent(w) && Loading(w, name) && i < |files|
    ensures !IsSource(files[i]) ==>
      LoadFiles(env, w, name, dir, files, i, fuel) == LoadFiles(env, w, name, dir, files, i + 1, fuel)
    ensures IsSource(files[i]) ==>
      var r := InputFile(env, w, name, dir + "/" + files[i], fuel);
      LoadFiles(env, w, name, dir, files, i, fuel) ==
        if r.Stops() then r else LoadFiles(env, r.w, name, dir, files, i + 1, fuel)
  {
  }

  /** The directory loop only depends on the part of the listing it has not reached:
      two listings that agree from their positions on load alike. */
  lemma {:induction false} LoadFilesAgree(env: Env, w: World, name: string, dir: string,
                                          f1: seq<string>, i1: nat, f2: seq<string>, i2: nat, fuel: nat)
    requires Coherent(w) && Loading(w, name) && i1 <= |f1| && i2 <= |f2| && f1[i1..] == f2[i2..]
    ensures LoadFiles(env, w, name, dir, f1, i1, fuel) == LoadFiles(env, w, name, dir, f2, i2, fuel)
    decreases |f1| - i1
  {
    assert |f1| - i1 == |f1[i1..]| == |f2[i2..]| == |f2| - i2;
    if i1 < |f1| {
      assert f1[i1] == f1[i1..][0] == f2[i2..][0] == f2[i2];
      assert f1[i1 + 1..] == f1[i1..][1..] == f2[i2..][1..] == f2[i2 + 1..];
      LoadFilesStep(env, w, name, dir, f1, i1, fuel);
      LoadFilesStep(env, w, name, dir, f2, i2, fuel);
      if !IsSource(f1[i1]) {
        LoadFilesAgree(env, w, name, dir, f1, i1 + 1, f2, i2 + 1, fuel);
      } else {
        var r := InputFile(env, w, name, dir + "/" + f1[i1], fuel);
        if !r.Stops() {
          LoadFilesAgree(env, r.w, name, dir, f1, i1 + 1, f2, i2 + 1, fuel);
        }
      }
    }
  }

  /** Loading a directory reads exactly its source files: the result is that of
      loading the listing with every other name removed. */
  lemma {:induction false} OnlySourcesRead(env: Env, w: World, name: string, dir: string, files: seq<string>,
                                           i: nat, fuel: nat)
    requires Coherent(w) && Loading(w, name) && i <= |files|
    ensures LoadFiles(env, w, name, dir, files, i, fuel) == LoadFiles(env, w, name, dir, Sources(files[i..]), 0, fuel)
    decreases |files| - i
  {
    if i < |files| {
      var rest := Sources(files[i + 1..]);
      assert files[i..][1..] == files[i + 1..];
      LoadFilesStep(env, w, name, dir, files, i, fuel);
      if !IsSource(files[i]) {
        assert Sources(files[i..]) == rest;
        OnlySourcesRead(env, w, name, dir, files, i + 1, fuel);
      } else {
        var list := [files[i]] + rest;
        assert Sources(files[i..]) == list;
        LoadFilesStep(env, w, name, dir, list, 0, fuel);
        var r := InputFile(env, w, name, dir + "/" + files[i], fuel);
        if !r.Stops() {
          OnlySourcesRead(env, r.w, name, dir, files, i + 1, fuel);
          assert list[1..] == rest[0..];
          LoadFilesAgree(env, r.w, name, dir, list, 1, rest, 0, fuel);
        }
      }
    } else {
      assert files[i..] == [];
    }
  }

  /** A package's directory is its import path joined with '/' under the root. */
  lemma {:induction false} DirectoryOfPath(root: string, path: seq<string>)
    requires |path| > 0
    ensures PackageDir(root, path) == root + "/" + Join(path, "/")
    decreases |path|
  {
    if |path| > 1 {
      DirectoryOfPath(root + "/" + path[0], path[1..]);
      assert Join(path, "/") == path[0] + "/" + Join(path[1..], "/");
    } else {
      assert PackageDir(root + "/" + path[0], path[1..]) == root + "/" + path[0];
    }
  }

  /** With dot-free segments, the registry key and the directory determine each
      other: two paths with the same name are the same path. */
  lemma NameDeterminesPath(p: seq<string>, q: seq<string>)
    requires |p| > 0 && |q| > 0
    requires forall i :: 0 <= i < |p| ==> '.' !in p[i]
    requires forall i :: 0 <= i < |q| ==> '.' !in q[i]
    requires PackageName(p) == PackageName(q)
    ensures p == q
  {
    SplitJoin(p, '.');
    SplitJoin(q, '.');
  }

  // ---------------------------------------------------------------------------
  // Imports

  /** A package is loaded once: after an import succeeded, importing the same path
      again, from any package still loading, only binds the alias. */
  lemma ImportedOnce(env: Env, env2: Env, w: World, importer: string, imp: Import, fuel: nat,
                     importer2: string, alias2: string, fuel2: nat)
    requires Coherent(w) && Loading(w, importer)
    requires ImportPackage(env, w, importer, imp, fuel).Run? && ImportPackage(env, w, importer, imp, fuel).ok
    requires Loading(ImportPackage(env, w, importer, imp, fuel).w, importer2)
    ensures var w2 := ImportPackage(env, w, importer, imp, fuel).w;
      ImportPackage(env2, w2, importer2, imp.(alias := alias2), fuel2)
        == Run(Bind(w2, importer2, alias2, PackageName(imp.path)), true)
  {
  }

  /** A package whose directory is missing stays registered and incomplete, so every
      later import of it fails without reading anything. */
  lemma MissingStaysBroken(env: Env, w: World, importer: string, imp: Import, fuel: nat,
                           importer2: string, alias2: string, fuel2: nat)
    requires Coherent(w) && Loading(w, importer) && fuel > 0
    requires PackageName(imp.path) !in w.objs && PackageDir(env.root, imp.path) !in env.dirs
    requires Loading(ImportPackage(env, w, importer, imp, fuel).w, importer2)
    ensures var w2 := ImportPackage(env, w, importer, imp, fuel).w;
      ImportPackage(env, w2, importer2, imp.(alias := alias2), fuel2) == Run(w2, false)
  {
  }
}

=== FILE: parser.dfy ===
/** The recursive-descent parser of the current front end (src/Parser.h,
    src/parser/expr.cpp, src/Parser-stmt.cpp, src/Parser-type.cpp).

    The parser reads the token sequence the lexer yields (one `Token` per `gettok`) at a
    position; consuming a token is moving one step right. Types are created in the
    type store as the parser meets them, so every parse threads the store. */
module Parser {
  import opened Wrappers
  import opened Errors
  import opened Lexer
  import opened Types
  import opened Ast

  // ---------------------------------------------------------------------------
  // Operator precedence

  /** The table the constructor's `setBinopPrec` calls leave behind. */
  const Precedences: map<string, int> := map[
    "=" := 2, "||" := 10, "&&" := 10, "!" := 20,
    "<" := 30, ">" := 30, "<=" := 30, ">=" := 30, "==" := 30, "!=" := 30,
    "+" := 50, "-" := 50, "*" := 60, "/" := 60, "%" := 60,
    ":" := 80, "(" := 100, "." := 120, "@" := 130]

  /** `setBinopPrec`: the entry for `op` becomes `prec`, every other entry stays. */
  function SetBinopPrec(table: map<string, int>, op: string, prec: int): (r: map<string, int>)
    ensures op in r && r[op] == prec
    ensures forall o :: o != op ==> (o in r <==> o in table)
    ensures forall o :: o != op && o in table ==> r[o] == table[o]
  {
    table[op := prec]
  }

  predicate IsAscii(c: char) {
    c as int < 128
  }

  /** `getBinopPrec`: -1 for a token whose first character is not ASCII, for a token
      with no entry and for an entry that is not positive. The empty string's first
      character is the terminating NUL, which is ASCII. */
  function BinopPrec(table: map<string, int>, op: string): (p: int)
    ensures p == -1 || p > 0
    ensures p > 0 <==> (|op| == 0 || IsAscii(op[0])) && op in table && table[op] > 0
    ensures p > 0 ==> p == table[op]
  {
    if |op| > 0 && !IsAscii(op[0]) then -1
    else if op in table && table[op] > 0 then table[op]
    else -1
  }

  /** The precedence the parser uses: the constructor's table. */
  function Prec(op: string): (p: int)
    ensures p == -1 || p > 0
    ensures p > 0 ==> op in Precedences && |op| > 0
  {
    BinopPrec(Precedences, op)
  }

  /** The tokens `ParseBinOpLHS` leaves for `ParseBinOpRHS` as a missing left operand:
      the prefix operators. */
  const PrefixOps: set<string> := {"-", "@", "!"}

  // ---------------------------------------------------------------------------
  // Reading tokens

  /** What the lexer yields with no input at all. */
  const EofToken := Token(TokEof, "", "", NoTag)

  /** The current token at position `i`. Past the end the lexer keeps answering
      end-of-file at the place where the input ended. */
  function At(ts: seq<Token>, i: nat): (t: Token)
    ensures i >= |ts| ==> t.kind == TokEof && t.text == ""
  {
    if i < |ts| then ts[i]
    else if |ts| > 0 then Token(TokEof, "", ts[|ts| - 1].num, ts[|ts| - 1].tag)
    else EofToken
  }

  /** `gettok`: move past the current token; at the end, stay. */
  function Next(ts: seq<Token>, i: nat): (j: nat)
    ensures i < |ts| ==> j == i + 1
    ensures i >= |ts| ==> j == i
  {
    if i < |ts| then i + 1 else i
  }

  // ---------------------------------------------------------------------------
  // Outcomes

  /** How a parse stops: an exception (`FTag::Throw`, or the `PIFError` of a missing
      left operand), or a diagnostic from `Parser::error`, which reports the message
      and hands a null pointer back to the caller. */
  datatype Stop = Raised(err: Error) | Reported(msg: string)

  /** A parsed value with the position after it and the type store as it left it. */
  datatype Parsing<T> = Parsed(v: T, pos: nat, store: Store) | Failed(why: Stop)

  /** `Lex.tag().Throw(msg)`: a language error at the current token. */
  function Throw(ts: seq<Token>, i: nat, msg: string): (s: Stop)
    ensures s.Raised? && s.err.LangError? && s.err.tag == At(ts, i).tag && s.err.message == msg
  {
    Raised(LangError(At(ts, i).tag, msg, None))
  }

  /** The exception `ParseBinOpRHS` throws when it must return a missing operand. */
  const BadLhs := Raised(PIFError("Bad LHS.", None))

  /** A store the parser can work in: well formed, with the five global types. */
  predicate Ready(st: Store) {
    WF(st) && S64I < |st.nodes|
  }

  /** The store only grows and stays usable. */
  predicate Grows(st: Store, st2: Store) {
    Ready(st2) && |st.nodes| <= |st2.nodes|
  }

  /** A successful parse consumed at least one token. */
  predicate Moved<T>(ts: seq<Token>, pos: nat, st: Store, r: Parsing<T>) {
    r.Parsed? ==> pos < r.pos <= |ts| && Grows(st, r.store)
  }

  /** A successful parse consumed zero or more tokens. */
  predicate Kept<T>(ts: seq<Token>, pos: nat, st: Store, r: Parsing<T>) {
    r.Parsed? ==> pos <= r.pos <= |ts| && Grows(st, r.store)
  }

  // ---------------------------------------------------------------------------
  // Types

  /** The named types of `ParseType`: a global singleton, or a new (not interned)
      integer type object. */
  datatype TypeName = Global(id: TypeId) | NewInt(size: nat, signed: bool)

  function NamedType(name: string): (r: Option<TypeName>)
    ensures r.Some? ==> |name| > 0
    ensures r.Some? && r.value.Global? ==> r.value.id <= S64I
  {
    if name == "void" then Some(Global(VOID))
    else if name == "bool" then Some(Global(BOOL))
    else if name == "float" then Some(Global(FLOAT))
    else if name == "s64i" || name == "int" then Some(Global(S64I))
    else if name == "u8i" || name == "byte" then Some(Global(U8I))
    else if name == "u16i" then Some(NewInt(16, false))
    else if name == "u32i" then Some(NewInt(32, false))
    else if name == "u64i" then Some(NewInt(64, false))
    else if name == "s8i" then Some(NewInt(8, true))
    else if name == "s16i" then Some(NewInt(16, true))
    else if name == "s32i" then Some(NewInt(32, true))
    else None
  }

  /** `ParseType`: a prototype, `&` and a type, or a type name. A reference type is
      interned; the six sized integer names other than u8i and s64i get a new object
      every time. */
  function ParseType(ts: seq<Token>, pos: nat, st: Store): (r: Parsing<TypeId>)
    requires pos <= |ts| && Ready(st)
    ensures Moved(ts, pos, st, r)
    ensures r.Parsed? ==> r.v < |r.store.nodes|
    ensures r.Failed? ==> r.why.Reported?
    ensures At(ts, pos).text != "(" && At(ts, pos).text != "&" && NamedType(At(ts, pos).text).None? ==>
      r == Failed(Reported("Invalid type definiton, starting by '" + At(ts, pos).text + "'."))
    decreases |ts| - pos, 1
  {
    var t := At(ts, pos).text;
    if t == "(" then ParsePrototype(ts, pos, st)
    else if t == "&" then
      match ParseType(ts, Next(ts, pos), st)
      case Failed(w) => Failed(w)
      case Parsed(pointee, p, s) =>
        var (s2, id) := RefGet(s, pointee);
        Parsed(id, p, s2)
    else
      match NamedType(t)
      case Some(Global(id)) => Parsed(id, Next(ts, pos), st)
      case Some(NewInt(size, signed)) =>
        var (s2, id) := Alloc(st, IntT(size, signed));
        Parsed(id, Next(ts, pos), s2)
      case None => Failed(Reported("Invalid type definiton, starting by '" + t + "'."))
  }

  /** `ParseFuncArg`: `name ':' type`. */
  function ParseFuncArg(ts: seq<Token>, pos: nat, st: Store): (r: Parsing<Arg>)
    requires pos <= |ts| && Ready(st)
    ensures Moved(ts, pos, st, r)
    ensures r.Parsed? ==> r.v.ty < |r.store.nodes| && r.v.name == At(ts, pos).text
    ensures r.Failed? ==> r.why.Reported?
    ensures At(ts, pos).kind != TokIdentifier ==>
      r == Failed(Reported("Expected identifier for argument name."))
    decreases |ts| - pos, 1
  {
    if At(ts, pos).kind != TokIdentifier then
      Failed(Reported("Expected identifier for argument name."))
    else
      var name := At(ts, pos).text;
      var p := Next(ts, pos);
      if At(ts, p).text != ":" then Failed(Reported("Expected argument type."))
      else
        match ParseType(ts, Next(ts, p), st)
        case Failed(w) => Failed(w)
        case Parsed(ty, q, s) => Parsed(Arg(name, ty), q, s)
  }

  /** The argument list of a prototype: one or more arguments separated by ',', up to
      (not past) the ')'. */
  function ProtoArgs(ts: seq<Token>, pos: nat, st: Store): (r: Parsing<seq<Arg>>)
    requires pos <= |ts| && Ready(st)
    ensures Moved(ts, pos, st, r)
    ensures r.Parsed? ==> |r.v| > 0 && At(ts, r.pos).text == ")"
    ensures r.Failed? ==> r.why.Reported?
    ensures r.Parsed? ==> forall i :: 0 <= i < |r.v| ==> r.v[i].ty < |r.store.nodes|
    decreases |ts| - pos, 2
  {
    match ParseFuncArg(ts, pos, st)
    case Failed(w) => Failed(w)
    case Parsed(a, p, s) =>
      if At(ts, p).text == ")" then Parsed([a], p, s)
      else if At(ts, p).text != "," then Failed(Reported("Expected ')' or ',' in argument list."))
      else
        match ProtoArgs(ts, Next(ts, p), s)
        case Failed(w) => Failed(w)
        case Parsed(rest, q, s2) => Parsed([a] + rest, q, s2)
  }

  /** `ParsePrototype`: '(' arguments ')' '->' and a return type, which may be left
      out (void) when a '{' follows; the '{' stays unread. The function type object is
      new, not interned. */
  function ParsePrototype(ts: seq<Token>, pos: nat, st: Store): (r: Parsing<TypeId>)
    requires pos <= |ts| && Ready(st)
    ensures Moved(ts, pos, st, r)
    ensures r.Parsed? ==> r.v < |r.store.nodes| && r.store.nodes[r.v].FuncT?
    ensures r.Parsed? ==> r.v == |r.store.nodes| - 1
    ensures r.Failed? ==> r.why.Reported?
    decreases |ts| - pos, if pos < |ts| then 0 else 4
  {
    var p1 := Next(ts, pos);
    var args :=
      if At(ts, p1).text != ")" then ProtoArgs(ts, p1, st)
      else Parsed([], p1, st);
    match args
    case Failed(w) => Failed(w)
    case Parsed(as_, q, s) =>
      var p2 := Next(ts, q);
      if At(ts, p2).text != "->" then
        Failed(Reported("Invalid prototype : was expecting '->', not '" + At(ts, p2).text + "'."))
      else
        var p3 := Next(ts, p2);
        if At(ts, p3).text == "{" then
          var (s2, id) := Alloc(s, FuncT(as_, VOID));
          Parsed(id, p3, s2)
        else
          match ParseType(ts, p3, s)
          case Failed(w) => Failed(w)
          case Parsed(ret, p4, s3) =>
            var (s4, id) := Alloc(s3, FuncT(as_, ret));
            Parsed(id, p4, s4)
  }

  // ---------------------------------------------------------------------------
  // Expressions

  /** `ParseExtern`: `extern` and a symbol name. The declared type is always absent
      (the type suffix is commented out in the source). */
  function ParseExtern(ts: seq<Token>, pos: nat, st: Store): (r: Parsing<Expr>)
    requires pos <= |ts| && Ready(st)
    ensures Moved(ts, pos, st, r)
    ensures r.Parsed? ==> r.v.node.Extern? && r.v.node.stype.None? && r.store == st
    ensures At(ts, Next(ts, pos)).kind != TokIdentifier ==>
      r == Failed(Throw(ts, Next(ts, pos),
        "Expected identifier after 'extern', not '" + At(ts, Next(ts, pos)).text + "'."))
  {
    var p := Next(ts, pos);
    if At(ts, p).kind != TokIdentifier then
      Failed(Throw(ts, p, "Expected identifier after 'extern', not '" + At(ts, p).text + "'."))
    else
      var q := Next(ts, p);
      Parsed(Fresh(At(ts, q).tag, Extern(None, At(ts, p).text)), q, st)
  }

  /** `ParseDotMember`: '.' and a member name. */
  function ParseDotMember(ts: seq<Token>, pos: nat, obj: Expr, st: Store): (r: Parsing<Expr>)
    requires pos <= |ts| && Ready(st)
    ensures Moved(ts, pos, st, r)
    ensures r.Parsed? ==> r.v.node == DotMember(obj, At(ts, Next(ts, pos)).text) && r.store == st
    ensures At(ts, Next(ts, pos)).kind != TokIdentifier ==>
      r == Failed(Throw(ts, Next(ts, pos), "Expected identifier after '.'."))
  {
    var p := Next(ts, pos);
    if At(ts, p).kind != TokIdentifier then Failed(Throw(ts, p, "Expected identifier after '.'."))
    else
      var q := Next(ts, p);
      Parsed(Fresh(At(ts, q).tag, DotMember(obj, At(ts, p).text)), q, st)
  }

  /** The node `ParseBinOpRHS` builds for `binop`: with no left operand, '@' is a
      dereference and any other operator a unary operation; otherwise a binary one. */
  function Combine(tag: FTag, binop: string, lhs: Option<Expr>, rhs: Option<Expr>): (e: Expr)
    ensures e.tag == tag && e.memo == FreshMemo
  {
    if lhs.None? then
      if binop == "@" then Fresh(tag, Deref(rhs)) else Fresh(tag, Unary(binop, rhs))
    else Fresh(tag, Binary(binop, lhs.value, rhs))
  }

  /** `ParsePrimary`. Literals carry the tag of their own token; names, `break` and
      `continue` the tag of the token after them. */
  function ParsePrimary(ts: seq<Token>, pos: nat, st: Store): (r: Parsing<Expr>)
    requires pos <= |ts| && Ready(st)
    ensures Moved(ts, pos, st, r)
    ensures r.Failed? ==> r.why != BadLhs
    decreases |ts| - pos, 7
  {
    var t := At(ts, pos);
    if t.kind == TokExtern then ParseExtern(ts, pos, st)
    else if t.kind == TokIdentifier then
      var p := Next(ts, pos);
      Parsed(Fresh(At(ts, p).tag, VarRef(t.text, None, false)), p, st)
    else if t.kind == TokTrue || t.kind == TokFalse then
      Parsed(Fresh(t.tag, BoolLit(t.kind == TokTrue)), Next(ts, pos), st)
    else if t.kind == TokInt then
      Parsed(Fresh(t.tag, IntLit(t.IntVal(), S64I)), Next(ts, pos), st)
    else if t.kind == TokFloat then
      Parsed(Fresh(t.tag, FloatLit(t.num)), Next(ts, pos), st)
    else if t.kind == TokIf then ParseIfThenElse(ts, pos, st)
    else if t.kind == TokWhile || t.kind == TokUntil then ParseWhile(ts, pos, st)
    else if t.kind == TokBreak || t.kind == TokContinue then
      var p := Next(ts, pos);
      Parsed(Fresh(At(ts, p).tag, BreakCont(t.kind == TokBreak)), p, st)
    else if t.text == "(" then
      match ParseExpression(ts, Next(ts, pos), st)
      case Failed(w) => Failed(w)
      case Parsed(v, p, s) =>
        if At(ts, p).text != ")" then Failed(Throw(ts, p, "Expected ')'."))
        else Parsed(v, Next(ts, p), s)
    else Failed(Throw(ts, pos, "Unknown token '" + t.text + "' when expecting an expression."))
  }

  /** `ParseExpression`: a block, a `return`, or a primary followed by operators. A
      `return` directly followed by '}' or ';' has no value. */
  function ParseExpression(ts: seq<Token>, pos: nat, st: Store): (r: Parsing<Expr>)
    requires pos <= |ts| && Ready(st)
    ensures Moved(ts, pos, st, r)
    ensures r.Failed? ==> r.why != BadLhs
    decreases |ts| - pos, 10
  {
    var t := At(ts, pos);
    if t.text == "{" then ParseBlock(ts, pos, st)
    else if t.kind == TokReturn then
      var p := Next(ts, pos);
      if At(ts, p).text == "}" || At(ts, p).text == ";" then
        Parsed(Fresh(At(ts, p).tag, Return(None)), p, st)
      else
        match ParseExpression(ts, p, st)
        case Failed(w) => Failed(w)
        case Parsed(v, q, s) => Parsed(Fresh(At(ts, q).tag, Return(Some(v))), q, s)
    else
      match ParseBinOpLHS(ts, pos, st)
      case Failed(w) => Failed(w)
      case Parsed(lhs, p, s) => ParseBinOpRHS(ts, p, 0, lhs, s)
  }

  /** `ParseBinOpLHS`: a prefix operator is left unread and stands for a missing left
      operand; anything else is a primary. */
  function ParseBinOpLHS(ts: seq<Token>, pos: nat, st: Store): (r: Parsing<Option<Expr>>)
    requires pos <= |ts| && Ready(st)
    ensures Kept(ts, pos, st, r)
    ensures r.Failed? ==> r.why != BadLhs
    ensures r.Parsed? ==> (r.v.None? <==> r.pos == pos)
    ensures r.Parsed? && r.v.None? ==> At(ts, pos).text in PrefixOps
    ensures At(ts, pos).text in PrefixOps ==> r == Parsed(None, pos, st)
    decreases |ts| - pos, 9
  {
    if At(ts, pos).text in PrefixOps then Parsed(None, pos, st)
    else
      match ParsePrimary(ts, pos, st)
      case Failed(w) => Failed(w)
      case Parsed(e, p, s) => Parsed(Some(e), p, s)
  }

  /** `ParseBinOpRHS`: operator-precedence parsing of everything binding at least as
      tightly as `exprPrec`, with calls, casts and member accesses as postfix
      operators. A missing left operand only ever arrives on a prefix operator. */
  function ParseBinOpRHS(ts: seq<Token>, pos: nat, exprPrec: int, lhs: Option<Expr>, st: Store)
    : (r: Parsing<Expr>)
    requires pos <= |ts| && Ready(st) && exprPrec >= 0
    requires lhs.None? ==> At(ts, pos).text in PrefixOps
    ensures Kept(ts, pos, st, r)
    ensures r.Parsed? ==> Prec(At(ts, r.pos).text) < exprPrec
    ensures r.Parsed? && lhs.None? ==> pos < r.pos
    ensures r.Failed? && (lhs.Some? || exprPrec <= Prec(At(ts, pos).text)) ==> r.why != BadLhs
    decreases |ts| - pos, 8
  {
    var t := At(ts, pos);
    var tokPrec := Prec(t.text);
    if tokPrec < exprPrec then
      if lhs.None? then Failed(BadLhs) else Parsed(lhs.value, pos, st)
    else if t.text == "(" then
      match ParseCall(ts, pos, lhs.value, st)
      case Failed(w) => Failed(w)
      case Parsed(e, p, s) => ParseBinOpRHS(ts, p, exprPrec, Some(e), s)
    else if t.text == ":" then
      match ParseType(ts, Next(ts, pos), st)
      case Failed(w) => Failed(w)
      case Parsed(ty, p, s) =>
        ParseBinOpRHS(ts, p, exprPrec, Some(Fresh(At(ts, p).tag, Cast(lhs.value, ty, true))), s)
    else if t.text == "." then
      match ParseDotMember(ts, pos, lhs.value, st)
      case Failed(w) => Failed(w)
      case Parsed(e, p, s) => ParseBinOpRHS(ts, p, exprPrec, Some(e), s)
    else
      var binop := t.text;
      match ParseBinOpLHS(ts, Next(ts, pos), st)
      case Failed(w) => Failed(w)
      case Parsed(rhs0, p2, s2) =>
        if tokPrec < Prec(At(ts, p2).text) then
          match ParseBinOpRHS(ts, p2, tokPrec + 1, rhs0, s2)
          case Failed(w) => Failed(w)
          case Parsed(rhs, p3, s3) =>
            ParseBinOpRHS(ts, p3, exprPrec, Some(Combine(At(ts, p3).tag, binop, lhs, Some(rhs))), s3)
        else
          ParseBinOpRHS(ts, p2, exprPrec, Some(Combine(At(ts, p2).tag, binop, lhs, rhs0)), s2)
  }

  /** `ParseCall`: '(' then, unless ')' follows at once, expressions separated by ','
      up to ')'. */
  function ParseCall(ts: seq<Token>, pos: nat, callee: Expr, st: Store): (r: Parsing<Expr>)
    requires pos <= |ts| && Ready(st)
    ensures Moved(ts, pos, st, r)
    ensures r.Failed? ==> r.why != BadLhs
    ensures r.Parsed? ==> r.v.node.Call? && r.v.node.callee == callee
    ensures r.Parsed? && At(ts, Next(ts, pos)).text == ")" ==> r.v.node.args == []
    decreases |ts| - pos, if pos < |ts| then 0 else 12
  {
    var p := Next(ts, pos);
    var args :=
      if At(ts, p).text != ")" then CallArgs(ts, p, st)
      else Parsed([], p, st);
    match args
    case Failed(w) => Failed(w)
    case Parsed(as_, q, s) =>
      var q2 := Next(ts, q);
      Parsed(Fresh(At(ts, q2).tag, Call(callee, as_)), q2, s)
  }

  /** The arguments of a call, up to (not past) the ')'. */
  function CallArgs(ts: seq<Token>, pos: nat, st: Store): (r: Parsing<seq<Expr>>)
    requires pos <= |ts| && Ready(st)
    ensures Moved(ts, pos, st, r)
    ensures r.Failed? ==> r.why != BadLhs
    ensures r.Parsed? ==> |r.v| > 0 && At(ts, r.pos).text == ")"
    decreases |ts| - pos, 11
  {
    match ParseExpression(ts, pos, st)
    case Failed(w) => Failed(w)
    case Parsed(a, p, s) =>
      if At(ts, p).text == ")" then Parsed([a], p, s)
      else if At(ts, p).text != "," then Failed(Throw(ts, p, "Expected ')' or ',' in parameter list."))
      else
        match CallArgs(ts, Next(ts, p), s)
        case Failed(w) => Failed(w)
        case Parsed(rest, q, s2) => Parsed([a] + rest, q, s2)
  }

  /** `ParseIfThenElse`: `if`, a condition, an optional `then`, a branch and, when
      `else` follows, the other branch. The node carries the tag of the `if`. */
  function ParseIfThenElse(ts: seq<Token>, pos: nat, st: Store): (r: Parsing<Expr>)
    requires pos <= |ts| && Ready(st)
    ensures Moved(ts, pos, st, r)
    ensures r.Failed? ==> r.why != BadLhs
    ensures r.Parsed? ==> r.v.tag == At(ts, pos).tag && r.v.node.If?
    ensures r.Parsed? && r.v.node.If? && r.v.node.elseBr.None? ==> At(ts, r.pos).kind != TokElse
    decreases |ts| - pos, if pos < |ts| then 0 else 12
  {
    var tag := At(ts, pos).tag;
    match ParseExpression(ts, Next(ts, pos), st)
    case Failed(w) => Failed(w)
    case Parsed(cond, p1, s1) =>
      var p2 := if At(ts, p1).kind == TokThen then Next(ts, p1) else p1;
      match ParseExpression(ts, p2, s1)
      case Failed(w) => Failed(w)
      case Parsed(thenE, p3, s3) =>
        if At(ts, p3).kind == TokElse then
          (match ParseExpression(ts, Next(ts, p3), s3)
           case Failed(w) => Failed(w)
           case Parsed(elseE, p4, s4) => Parsed(Fresh(tag, If(cond, thenE, Some(elseE))), p4, s4))
        else Parsed(Fresh(tag, If(cond, thenE, None)), p3, s3)
  }

  /** `ParseWhile`: `while` or `until`, a condition, an optional `do` and a body. */
  function ParseWhile(ts: seq<Token>, pos: nat, st: Store): (r: Parsing<Expr>)
    requires pos <= |ts| && Ready(st)
    ensures Moved(ts, pos, st, r)
    ensures r.Failed? ==> r.why != BadLhs
    ensures r.Parsed? ==> r.v.tag == At(ts, pos).tag && r.v.node.While?
    ensures r.Parsed? && r.v.node.While? ==> (r.v.node.isUntil <==> At(ts, pos).kind == TokUntil)
    decreases |ts| - pos, if pos < |ts| then 0 else 12
  {
    var tag := At(ts, pos).tag;
    var isUntil := At(ts, pos).kind == TokUntil;
    match ParseExpression(ts, Next(ts, pos), st)
    case Failed(w) => Failed(w)
    case Parsed(cond, p1, s1) =>
      var p2 := if At(ts, p1).kind == TokDo then Next(ts, p1) else p1;
      match ParseExpression(ts, p2, s1)
      case Failed(w) => Failed(w)
      case Parsed(body, p3, s3) => Parsed(Fresh(tag, While(cond, body, isUntil)), p3, s3)
  }

  /** `ParseBlock`: the first token is taken as the '{' whatever it is; statements
      follow up to '}', each optionally ended by ';'. */
  function ParseBlock(ts: seq<Token>, pos: nat, st: Store): (r: Parsing<Expr>)
    requires pos <= |ts| && Ready(st)
    ensures Moved(ts, pos, st, r)
    ensures r.Failed? ==> r.why != BadLhs
    ensures r.Parsed? ==> r.v.node.Block? && !r.v.node.ownContext
    ensures r.Parsed? ==> At(ts, r.pos - 1).text == "}"
    decreases |ts| - pos, if pos < |ts| then 0 else 13
  {
    match BlockStmts(ts, Next(ts, pos), st)
    case Failed(w) => Failed(w)
    case Parsed(stmts, q, s) =>
      var q2 := Next(ts, q);
      Parsed(Fresh(At(ts, q2).tag, Block(stmts, false)), q2, s)
  }

  /** The statements of a block, up to (not past) the '}'. An expression statement
      carries the tag of its first token. */
  function BlockStmts(ts: seq<Token>, pos: nat, st: Store): (r: Parsing<seq<Stmt>>)
    requires pos <= |ts| && Ready(st)
    ensures Kept(ts, pos, st, r)
    ensures r.Failed? ==> r.why != BadLhs
    ensures r.Parsed? ==> At(ts, r.pos).text == "}"
    ensures At(ts, pos).text == "}" ==> r == Parsed([], pos, st)
    decreases |ts| - pos, 12
  {
    var t := At(ts, pos);
    if t.text == "}" then Parsed([], pos, st)
    else
      var s :=
        if t.kind == TokVar || t.kind == TokLet then
          (match ParseVarDefinition(ts, pos, st)
           case Failed(w) => Failed(w)
           case Parsed(d, p, s1) => Parsed(DefStmt(d), p, s1))
        else
          (match ParseExpression(ts, pos, st)
           case Failed(w) => Failed(w)
           case Parsed(e, p, s1) => Parsed(ExprStmt(t.tag, e), p, s1));
      match s
      case Failed(w) => Failed(w)
      case Parsed(stmt, p, s1) =>
        var p2 := if At(ts, p).text == ";" then Next(ts, p) else p;
        match BlockStmts(ts, p2, s1)
        case Failed(w) => Failed(w)
        case Parsed(rest, q, s2) => Parsed([stmt] + rest, q, s2)
  }

  // ---------------------------------------------------------------------------
  // Definitions and imports

  /** `ParseVarDefinition`: `let` or `var`, a name, then either ': type = value' or
      '= value'. The definition carries the tag of the keyword. */
  function ParseVarDefinition(ts: seq<Token>, pos: nat, st: Store): (r: Parsing<Def>)
    requires pos <= |ts| && Ready(st)
    ensures Moved(ts, pos, st, r)
    ensures r.Failed? ==> r.why != BadLhs
    ensures r.Parsed? ==> r.v.VarDef? && r.v.tag == At(ts, pos).tag
    ensures r.Parsed? && r.v.VarDef? ==> (r.v.isVar <==> At(ts, pos).text == "var")
    ensures r.Parsed? && r.v.VarDef? ==> r.v.name == At(ts, Next(ts, pos)).text
    ensures r.Parsed? && r.v.VarDef? ==>
      (r.v.vtype.Some? <==> At(ts, Next(ts, Next(ts, pos))).text == ":")
    ensures At(ts, Next(ts, pos)).kind != TokIdentifier ==>
      r == Failed(Reported("Expected identifier after 'let'/'var'."))
    decreases |ts| - pos, 11
  {
    var tag := At(ts, pos).tag;
    var isVar := At(ts, pos).text == "var";
    var p1 := Next(ts, pos);
    if At(ts, p1).kind != TokIdentifier then Failed(Reported("Expected identifier after 'let'/'var'."))
    else
      var name := At(ts, p1).text;
      var p2 := Next(ts, p1);
      if At(ts, p2).text == ":" then
        match ParseType(ts, Next(ts, p2), st)
        case Failed(w) => Failed(w)
        case Parsed(ty, p3, s3) =>
          if At(ts, p3).text != "=" then Failed(Reported("Expected '= expression' in 'let'/'var'."))
          else
            (match ParseExpression(ts, Next(ts, p3), s3)
             case Failed(w) => Failed(w)
             case Parsed(val, p4, s4) => Parsed(VarDef(tag, name, Some(ty), val, isVar), p4, s4))
      else if At(ts, p2).text == "=" then
        match ParseExpression(ts, Next(ts, p2), st)
        case Failed(w) => Failed(w)
        case Parsed(val, p4, s4) => Parsed(VarDef(tag, name, None, val, isVar), p4, s4)
      else
        Failed(Reported("Expected either ': type' or '= expression' after 'let/var " + name + "'."))
  }

  /** `ParseFuncDefinition`: `func`, a name, ':', a prototype, then either `extern` and
      a symbol or a block body. The body becomes a function literal with the tag of
      the `func` keyword. */
  function ParseFuncDefinition(ts: seq<Token>, pos: nat, st: Store): (r: Parsing<Def>)
    requires pos <= |ts| && Ready(st)
    ensures Moved(ts, pos, st, r)
    ensures r.Parsed? ==> !r.v.VarDef? && r.v.tag == At(ts, pos).tag && r.v.name == At(ts, Next(ts, pos)).text
    ensures r.Parsed? && r.v.FuncDef? ==>
      r.v.fn.tag == r.v.tag && r.v.fn.node.FuncLit? && r.v.fn.node.code.node.Block?
    ensures r.Parsed? && r.v.ExternFuncDef? ==> r.v.ext.node.Extern?
    ensures At(ts, Next(ts, pos)).kind != TokIdentifier ==>
      r == Failed(Reported("Expected identifier after 'func'."))
  {
    var tag := At(ts, pos).tag;
    var p1 := Next(ts, pos);
    if At(ts, p1).kind != TokIdentifier then Failed(Reported("Expected identifier after 'func'."))
    else
      var name := At(ts, p1).text;
      var p2 := Next(ts, p1);
      if At(ts, p2).text != ":" then Failed(Reported("Expected ':' in function definition."))
      else
        match ParsePrototype(ts, Next(ts, p2), st)
        case Failed(w) => Failed(w)
        case Parsed(fty, p4, s4) =>
          if At(ts, p4).kind == TokExtern then
            (match ParseExtern(ts, p4, s4)
             case Failed(w) => Failed(w)
             case Parsed(x, p5, s5) => Parsed(ExternFuncDef(tag, name, x, fty), p5, s5))
          else
            match ParseBlock(ts, p4, s4)
            case Failed(w) => Failed(w)
            case Parsed(b, p5, s5) => Parsed(FuncDef(tag, name, Fresh(tag, FuncLit(fty, b, false))), p5, s5)
  }

  /** The dotted path of an import: identifiers separated by '.'. The loop stops after
      an identifier not followed by '.', or at a token that is not an identifier (a
      trailing '.' is then consumed). */
  function ImportPath(ts: seq<Token>, pos: nat): (r: (seq<string>, nat))
    requires pos <= |ts|
    ensures pos <= r.1 <= |ts|
    ensures |r.0| == 0 <==> At(ts, pos).kind != TokIdentifier
    ensures |r.0| > 0 ==> r.0[0] == At(ts, pos).text && pos < r.1
    ensures |r.0| == 0 ==> r.1 == pos
    decreases |ts| - pos
  {
    if At(ts, pos).kind != TokIdentifier then ([], pos)
    else
      var p := Next(ts, pos);
      if At(ts, p).text == "." then
        var rest := ImportPath(ts, Next(ts, p));
        ([At(ts, pos).text] + rest.0, rest.1)
      else ([At(ts, pos).text], p)
  }

  /** `ParseImport`: `import`, a path, and optionally `as` and an alias; the alias
      defaults to the last path segment. */
  function ParseImport(ts: seq<Token>, pos: nat, st: Store): (r: Parsing<Import>)
    requires pos <= |ts| && Ready(st)
    ensures Moved(ts, pos, st, r)
    ensures r.Parsed? ==> r.store == st && r.v.tag == At(ts, pos).tag
    ensures r.Parsed? ==> r.v.path == ImportPath(ts, Next(ts, pos)).0 && |r.v.path| > 0
    ensures r.Parsed? && At(ts, ImportPath(ts, Next(ts, pos)).1).kind != TokAs ==>
      r.v.alias == r.v.path[|r.v.path| - 1]
    ensures r.Parsed? && At(ts, ImportPath(ts, Next(ts, pos)).1).kind == TokAs ==>
      r.v.alias == At(ts, Next(ts, ImportPath(ts, Next(ts, pos)).1)).text
    ensures At(ts, Next(ts, pos)).kind != TokIdentifier ==>
      r == Failed(Reported("Expected package identifier after 'import'."))
  {
    var tag := At(ts, pos).tag;
    var (path, p) := ImportPath(ts, Next(ts, pos));
    if |path| == 0 then Failed(Reported("Expected package identifier after 'import'."))
    else if At(ts, p).kind == TokAs then
      var p2 := Next(ts, p);
      if At(ts, p2).kind != TokIdentifier then Failed(Reported("Expected identifier after 'as'."))
      else Parsed(Import(tag, path, At(ts, p2).text), Next(ts, p2), st)
    else Parsed(Import(tag, path, path[|path| - 1]), p, st)
  }
}

=== FILE: parser_facts.dfy ===
/** Properties of the parser: the precedence table, the shapes operator-precedence
    parsing gives, and how types are created while parsing. */
module ParserFacts {
  import opened Wrappers
  import opened Errors
  import opened Lexer
  import opened Types
  import opened Ast
  import opened Parser

  function Id(name: string): Token {
    Token(TokIdentifier, name, "", NoTag)
  }

  function Op(text: string): Token {
    Token(TokOperator, text, "", NoTag)
  }

  /** The shape of an identifier the lexer produces: a letter or '_' first. */
  predicate Word(s: string) {
    |s| > 0 && ('a' <= s[0] <= 'z' || 'A' <= s[0] <= 'Z' || s[0] == '_')
  }

  function Var(name: string): Expr {
    Fresh(NoTag, VarRef(name, None, false))
  }

  // ---------------------------------------------------------------------------
  // The precedence table

  /** The levels, tightest first: '@', '.', call, cast, multiplicative, additive,
      relational, '!', the logical operators, assignment. */
  lemma PrecedenceLevels()
    ensures Prec("@") == 130 && Prec(".") == 120 && Prec("(") == 100 && Prec(":") == 80
    ensures Prec("*") == 60 && Prec("/") == 60 && Prec("%") == 60
    ensures Prec("+") == 50 && Prec("-") == 50
    ensures Prec("<") == 30 && Prec(">") == 30 && Prec("<=") == 30 && Prec(">=") == 30
    ensures Prec("==") == 30 && Prec("!=") == 30
    ensures Prec("!") == 20 && Prec("||") == 10 && Prec("&&") == 10 && Prec("=") == 2
  {
  }

  /** Tokens that end an expression: no precedence. */
  lemma Terminators()
    ensures Prec("") == -1 && Prec(")") == -1 && Prec("}") == -1 && Prec("{") == -1
    ensures Prec(",") == -1 && Prec(";") == -1 && Prec("&") == -1 && Prec("->") == -1
    ensures Prec("then") == -1 && Prec("else") == -1 && Prec("do") == -1
  {
  }

  /** After `setBinopPrec(op, prec)`, asking for `op` gives `prec` when it is positive
      and `op` starts with an ASCII character, and -1 otherwise; every other operator
      answers as before. */
  lemma SetThenGet(table: map<string, int>, op: string, prec: int, other: string)
    requires other != op
    ensures BinopPrec(SetBinopPrec(table, op, prec), op) ==
      (if (|op| == 0 || IsAscii(op[0])) && prec > 0 then prec else -1)
    ensures BinopPrec(SetBinopPrec(table, op, prec), other) == BinopPrec(table, other)
  {
  }

  /** `getBinopPrec` looks an unknown operator up with `operator[]`, which inserts a
      zero entry; that entry answers -1 like a missing one, so no later answer
      changes. */
  lemma LookupInsertionHarmless(table: map<string, int>, op: string, other: string)
    requires op !in table
    ensures BinopPrec(table[op := 0], other) == BinopPrec(table, other)
  {
  }

  /** A token starting with a non-ASCII character is never an operator, whatever the
      table says. */
  lemma NonAsciiNeverOperator(table: map<string, int>, op: string)
    requires |op| > 0 && !IsAscii(op[0])
    ensures BinopPrec(table, op) == -1
  {
  }

  // ---------------------------------------------------------------------------
  // Operator-precedence parsing

  /** A name in operand position is a variable reference tagged with the next token. */
  lemma NameOperand(ts: seq<Token>, pos: nat, x: string, st: Store)
    requires pos < |ts| && ts[pos] == Id(x) && Word(x) && Ready(st)
    ensures ParseBinOpLHS(ts, pos, st) ==
      Parsed(Some(Fresh(At(ts, pos + 1).tag, VarRef(x, None, false))), pos + 1, st)
  {
    assert x !in PrefixOps;
  }

  /** An expression that is neither a block nor a `return` is its left operand
      followed by operators. */
  lemma ExpressionOfLhs(ts: seq<Token>, pos: nat, st: Store, lhs: Option<Expr>, p: nat, s: Store)
    requires pos <= |ts| && Ready(st)
    requires At(ts, pos).text != "{" && At(ts, pos).kind != TokReturn
    requires ParseBinOpLHS(ts, pos, st) == Parsed(lhs, p, s)
    ensures ParseExpression(ts, pos, st) == ParseBinOpRHS(ts, p, 0, lhs, s)
  {
  }

  /** A token binding more loosely than the level ends the operator loop. */
  lemma RhsStops(ts: seq<Token>, pos: nat, exprPrec: int, lhs: Expr, st: Store)
    requires pos <= |ts| && Ready(st) && exprPrec >= 0
    requires Prec(At(ts, pos).text) < exprPrec
    ensures ParseBinOpRHS(ts, pos, exprPrec, Some(lhs), st) == Parsed(lhs, pos, st)
  {
  }

  /** A binary operator whose right operand is not followed by a tighter operator
      combines at once. */
  lemma RhsFlat(ts: seq<Token>, pos: nat, exprPrec: int, lhs: Option<Expr>, st: Store,
                rhs0: Option<Expr>, p2: nat, s2: Store)
    requires pos < |ts| && Ready(st) && exprPrec >= 0
    requires lhs.None? ==> At(ts, pos).text in PrefixOps
    requires exprPrec <= Prec(ts[pos].text) && ts[pos].text !in {"(", ":", "."}
    requires ParseBinOpLHS(ts, pos + 1, st) == Parsed(rhs0, p2, s2)
    requires Prec(At(ts, p2).text) <= Prec(ts[pos].text)
    ensures p2 <= |ts| && Ready(s2)
    ensures rhs0.None? ==> At(ts, p2).text in PrefixOps
    ensures ParseBinOpRHS(ts, pos, exprPrec, lhs, st) ==
      ParseBinOpRHS(ts, p2, exprPrec, Some(Combine(At(ts, p2).tag, ts[pos].text, lhs, rhs0)), s2)
  {
  }

  /** A binary operator whose right operand is followed by a tighter operator first
      lets that operator take the right operand. */
  lemma RhsNested(ts: seq<Token>, pos: nat, exprPrec: int, lhs: Option<Expr>, st: Store,
                  rhs0: Option<Expr>, p2: nat, s2: Store, rhs: Expr, p3: nat, s3: Store)
    requires pos < |ts| && Ready(st) && exprPrec >= 0
    requires lhs.None? ==> At(ts, pos).text in PrefixOps
    requires exprPrec <= Prec(ts[pos].text) && ts[pos].text !in {"(", ":", "."}
    requires ParseBinOpLHS(ts, pos + 1, st) == Parsed(rhs0, p2, s2)
    requires Prec(ts[pos].text) < Prec(At(ts, p2).text)
    requires p2 <= |ts| && Ready(s2) && (rhs0.None? ==> At(ts, p2).text in PrefixOps)
    requires ParseBinOpRHS(ts, p2, Prec(ts[pos].text) + 1, rhs0, s2) == Parsed(rhs, p3, s3)
    ensures p3 <= |ts| && Ready(s3)
    ensures ParseBinOpRHS(ts, pos, exprPrec, lhs, st) ==
      ParseBinOpRHS(ts, p3, exprPrec, Some(Combine(At(ts, p3).tag, ts[pos].text, lhs, Some(rhs))), s3)
  {
  }

  /** Operators of one level group to the left: `x o1 y o2 z` is `(x o1 y) o2 z`. */
  lemma SameLevelGroupsLeft(x: string, o1: string, y: string, o2: string, z: string, st: Store)
    requires Ready(st) && Word(x) && Word(y) && Word(z)
    requires Prec(o1) > 0 && Prec(o1) == Prec(o2)
    requires o1 !in {"(", ":", "."} && o2 !in {"(", ":", "."}
    ensures var ts := [Id(x), Op(o1), Id(y), Op(o2), Id(z)];
      ParseExpression(ts, 0, st) ==
        Parsed(Fresh(NoTag, Binary(o2, Fresh(NoTag, Binary(o1, Var(x), Some(Var(y)))), Some(Var(z)))), 5, st)
  {
    var ts := [Id(x), Op(o1), Id(y), Op(o2), Id(z)];
    var b1 := Fresh(NoTag, Binary(o1, Var(x), Some(Var(y))));
    var b2 := Fresh(NoTag, Binary(o2, b1, Some(Var(z))));
    NameOperand(ts, 0, x, st);
    ExpressionOfLhs(ts, 0, st, Some(Var(x)), 1, st);
    NameOperand(ts, 2, y, st);
    RhsFlat(ts, 1, 0, Some(Var(x)), st, Some(Var(y)), 3, st);
    NameOperand(ts, 4, z, st);
    RhsFlat(ts, 3, 0, Some(b1), st, Some(Var(z)), 5, st);
    RhsStops(ts, 5, 0, b2, st);
  }

  /** A tighter operator on the right takes the middle operand: `x o1 y o2 z` is
      `x o1 (y o2 z)` when `o2` binds more tightly. */
  lemma TighterGroupsRight(x: string, o1: string, y: string, o2: string, z: string, st: Store)
    requires Ready(st) && Word(x) && Word(y) && Word(z)
    requires 0 < Prec(o1) < Prec(o2)
    requires o1 !in {"(", ":", "."} && o2 !in {"(", ":", "."}
    ensures var ts := [Id(x), Op(o1), Id(y), Op(o2), Id(z)];
      ParseExpression(ts, 0, st) ==
        Parsed(Fresh(NoTag, Binary(o1, Var(x), Some(Fresh(NoTag, Binary(o2, Var(y), Some(Var(z))))))), 5, st)
  {
    var ts := [Id(x), Op(o1), Id(y), Op(o2), Id(z)];
    var b2 := Fresh(NoTag, Binary(o2, Var(y), Some(Var(z))));
    var top := Fresh(NoTag, Binary(o1, Var(x), Some(b2)));
    NameOperand(ts, 0, x, st);
    ExpressionOfLhs(ts, 0, st, Some(Var(x)), 1, st);
    NameOperand(ts, 2, y, st);
    NameOperand(ts, 4, z, st);
    RhsFlat(ts, 3, Prec(o1) + 1, Some(Var(y)), st, Some(Var(z)), 5, st);
    RhsStops(ts, 5, Prec(o1) + 1, b2, st);
    RhsNested(ts, 1, 0, Some(Var(x)), st, Some(Var(y)), 3, st, b2, 5, st);
    RhsStops(ts, 5, 0, top, st);
  }

  /** Every prefix operator is also a binary operator of the table. */
  lemma PrefixPrec(op: string)
    requires op in PrefixOps
    ensures Prec(op) > 0 && op != "(" && op != ":" && op != "." && op != "{"
  {
    assert op == "-" || op == "@" || op == "!";
  }

  /** A prefix operator is an operator with a missing left operand: `@x` is a
      dereference, `-x` and `!x` are unary operations. */
  lemma PrefixOperators(op: string, x: string, st: Store)
    requires Ready(st) && op in PrefixOps && Word(x)
    ensures ParseExpression([Op(op), Id(x)], 0, st) ==
      Parsed(if op == "@" then Fresh(NoTag, Deref(Some(Var(x))))
             else Fresh(NoTag, Unary(op, Some(Var(x)))), 2, st)
  {
    var ts := [Op(op), Id(x)];
    var e := if op == "@" then Fresh(NoTag, Deref(Some(Var(x)))) else Fresh(NoTag, Unary(op, Some(Var(x))));
    PrefixPrec(op);
    ExpressionOfLhs(ts, 0, st, None, 0, st);
    NameOperand(ts, 1, x, st);
    RhsFlat(ts, 0, 0, None, st, Some(Var(x)), 2, st);
    RhsStops(ts, 2, 0, e, st);
  }

  /** A prefix operator after a binary one does not bind to its operand: `x + -y`
      parses as `(x + <missing>) - y`. */
  lemma PrefixAfterBinary(x: string, y: string, st: Store)
    requires Ready(st) && Word(x) && Word(y)
    ensures ParseExpression([Id(x), Op("+"), Op("-"), Id(y)], 0, st) ==
      Parsed(Fresh(NoTag, Binary("-", Fresh(NoTag, Binary("+", Var(x), None)), Some(Var(y)))), 4, st)
  {
    var ts := [Id(x), Op("+"), Op("-"), Id(y)];
    var b1 := Fresh(NoTag, Binary("+", Var(x), None));
    var b2 := Fresh(NoTag, Binary("-", b1, Some(Var(y))));
    assert Prec("+") == 50 && Prec("-") == 50;
    NameOperand(ts, 0, x, st);
    ExpressionOfLhs(ts, 0, st, Some(Var(x)), 1, st);
    RhsFlat(ts, 1, 0, Some(Var(x)), st, None, 2, st);
    NameOperand(ts, 3, y, st);
    RhsFlat(ts, 2, 0, Some(b1), st, Some(Var(y)), 4, st);
    RhsStops(ts, 4, 0, b2, st);
  }

  /** "Bad LHS." is never raised by parsing an expression: a missing operand always
      meets the operator that stands for it. */
  lemma NoBadLhs(ts: seq<Token>, pos: nat, st: Store)
    requires pos <= |ts| && Ready(st)
    ensures ParseExpression(ts, pos, st) != Failed(BadLhs)
  {
  }

  /** `return` directly followed by '}' or ';' has no value and leaves that token. */
  lemma BareReturn(ts: seq<Token>, pos: nat, st: Store)
    requires pos < |ts| && Ready(st) && ts[pos].kind == TokReturn && ts[pos].text != "{"
    requires At(ts, pos + 1).text in {"}", ";"}
    ensures ParseExpression(ts, pos, st) == Parsed(Fresh(At(ts, pos + 1).tag, Return(None)), pos + 1, st)
  {
  }

  /** Statements in a block need no separator: an expression statement is followed
      by the next statement, with or without a ';' between them. It carries the tag
      of its first token. */
  lemma ExprStatementStep(ts: seq<Token>, pos: nat, st: Store, e: Expr, p: nat, s: Store,
                          rest: seq<Stmt>, q: nat, s2: Store)
    requires pos <= |ts| && Ready(st)
    requires At(ts, pos).text != "}" && At(ts, pos).kind != TokVar && At(ts, pos).kind != TokLet
    requires ParseExpression(ts, pos, st) == Parsed(e, p, s)
    requires BlockStmts(ts, if At(ts, p).text == ";" then Next(ts, p) else p, s) == Parsed(rest, q, s2)
    ensures BlockStmts(ts, pos, st) == Parsed([ExprStmt(At(ts, pos).tag, e)] + rest, q, s2)
  {
  }

  // ---------------------------------------------------------------------------
  // Types

  /** The base names give the global singletons and create nothing. */
  lemma BaseNamesAreGlobals(name: string, st: Store)
    requires Ready(st)
    requires name in {"void", "bool", "float", "int", "s64i", "byte", "u8i"}
    ensures var r := ParseType([Id(name)], 0, st);
      r.Parsed? && r.store == st && r.pos == 1 && r.v <= S64I
      && (name == "int" || name == "s64i" <==> r.v == S64I)
      && (name == "byte" || name == "u8i" <==> r.v == U8I)
  {
  }

  /** Every sized integer name other than u8i and s64i creates a new object, so two
      mentions of `u16i` are two different type objects. */
  lemma SizedIntsNotShared(st: Store)
    requires Ready(st)
    ensures var r1 := ParseType([Id("u16i")], 0, st);
      r1.Parsed? &&
      var r2 := ParseType([Id("u16i")], 0, r1.store);
      r2.Parsed? && r1.v != r2.v && r2.store.nodes[r1.v] == r2.store.nodes[r2.v] == IntT(16, false)
  {
  }

  /** A reference type is interned: `&int` twice is one object. */
  lemma RefTypesShared(st: Store)
    requires Ready(st)
    ensures var r1 := ParseType([Op("&"), Id("int")], 0, st);
      r1.Parsed? &&
      var r2 := ParseType([Op("&"), Id("int")], 0, r1.store);
      r2.Parsed? && r1.v == r2.v && r2.store == r1.store && r1.store.nodes[r1.v] == RefT(S64I)
  {
    var ts := [Op("&"), Id("int")];
    assert ParseType(ts, 1, st) == Parsed(S64I, 2, st);
    var r1 := ParseType(ts, 0, st);
    assert ParseType(ts, 1, r1.store) == Parsed(S64I, 2, r1.store);
  }

  /** `() -> {`: the return type is void and the '{' is left for the body. */
  lemma PrototypeVoidReturn(st: Store)
    requires Ready(st)
    ensures var r := ParsePrototype([Op("("), Op(")"), Op("->"), Op("{")], 0, st);
      r.Parsed? && r.pos == 3 && r.v == |st.nodes| && r.store.nodes[r.v] == FuncT([], VOID)
  {
  }

  /** Function types are not interned: the same prototype twice is two objects. */
  lemma PrototypesNotShared(st: Store)
    requires Ready(st)
    ensures var ts := [Op("("), Op(")"), Op("->"), Id("int")];
      var r1 := ParsePrototype(ts, 0, st);
      r1.Parsed? &&
      var r2 := ParsePrototype(ts, 0, r1.store);
      r2.Parsed? && r1.v != r2.v
  {
    var ts := [Op("("), Op(")"), Op("->"), Id("int")];
    assert ParseType(ts, 3, st) == Parsed(S64I, 4, st);
    var r1 := ParsePrototype(ts, 0, st);
    assert ParseType(ts, 3, r1.store) == Parsed(S64I, 4, r1.store);
  }

  // ---------------------------------------------------------------------------
  // Imports

  /** An identifier followed by '.' starts a path that goes on after the '.'. */
  lemma PathStep(ts: seq<Token>, pos: nat)
    requires pos + 1 < |ts| && ts[pos].kind == TokIdentifier && ts[pos + 1].text == "."
    ensures ImportPath(ts, pos) ==
      ([ts[pos].text] + ImportPath(ts, pos + 2).0, ImportPath(ts, pos + 2).1)
  {
  }

  /** An identifier not followed by '.' ends the path. */
  lemma PathLast(ts: seq<Token>, pos: nat)
    requires pos < |ts| && ts[pos].kind == TokIdentifier && At(ts, pos + 1).text != "."
    ensures ImportPath(ts, pos) == ([ts[pos].text], pos + 1)
  {
  }

  /** `import a.b` imports path [a, b] under the alias b. */
  lemma ImportDefaultAlias(a: string, b: string, st: Store)
    requires Ready(st)
    ensures var ts := [Token(TokImport, "import", "", NoTag), Id(a), Op("."), Id(b)];
      ParseImport(ts, 0, st) == Parsed(Import(NoTag, [a, b], b), 4, st)
  {
    var ts := [Token(TokImport, "import", "", NoTag), Id(a), Op("."), Id(b)];
    PathLast(ts, 3);
    PathStep(ts, 1);
    assert [a] + [b] == [a, b];
  }

  /** `import a.b as c` imports path [a, b] under the alias c. */
  lemma ImportExplicitAlias(a: string, b: string, c: string, st: Store)
    requires Ready(st)
    ensures var ts := [Token(TokImport, "import", "", NoTag), Id(a), Op("."), Id(b),
                       Token(TokAs, "as", "", NoTag), Id(c)];
      ParseImport(ts, 0, st) == Parsed(Import(NoTag, [a, b], c), 6, st)
  {
    var ts := [Token(TokImport, "import", "", NoTag), Id(a), Op("."), Id(b),
               Token(TokAs, "as", "", NoTag), Id(c)];
    PathLast(ts, 3);
    PathStep(ts, 1);
    assert [a] + [b] == [a, b];
  }

  /** A trailing '.' is consumed and ends the path: `import a. as c` imports [a]. */
  lemma ImportTrailingDot(a: string, c: string, st: Store)
    requires Ready(st)
    ensures var ts := [Token(TokImport, "import", "", NoTag), Id(a), Op("."),
                       Token(TokAs, "as", "", NoTag), Id(c)];
      ParseImport(ts, 0, st) == Parsed(Import(NoTag, [a], c), 5, st)
  {
    var ts := [Token(TokImport, "import", "", NoTag), Id(a), Op("."),
               Token(TokAs, "as", "", NoTag), Id(c)];
    assert At(ts, 1).kind == TokIdentifier && Next(ts, 1) == 2;
    assert At(ts, 2).text == "." && Next(ts, 2) == 3;
    assert ImportPath(ts, 3) == ([], 3);
    assert ImportPath(ts, 1).0 == [a] && ImportPath(ts, 1).1 == 3;
  }
}

=== FILE: printer.dfy ===
/** The debugging printer of expression trees (`prettyprint`).

    A node whose child pointer is null but printed would crash `prettyprint`; here the
    printer answers None for it. The printer reads type objects only to describe them,
    except `typeAtDef`, whose interning of a reference type is not kept. */
module Printer {
  import opened Wrappers
  import opened Text
  import opened Types
  import opened Ast
  import opened Scope

  // ---------------------------------------------------------------------------
  // The fixed texts the printer writes

  /** A fixed text of the output. Each text is named through this identity so that
      proofs about the output treat it as a value and look at its characters only
      where its balance of parentheses is established. */
  function Fixed(s: string): string {
    s
  }

  const TrueText := Fixed("true")
  const FalseText := Fixed("false")
  const IntTag := Fixed("int:")
  const FloatTag := Fixed("float:")
  const VarTag := Fixed("var_ref:")
  const DerefTag := Fixed("*")
  const DotTag := Fixed(".")
  const Space := Fixed(" ")
  const Open := Fixed("(")
  const Close := Fixed(")")
  const CloseSp := Fixed(") ")
  const SpOpen := Fixed(" (")
  const TypeSep := Fixed(" : ")
  const CallOpen := Fixed("call[")
  const CallMid := Fixed("]:[")
  const CallClose := Fixed("]")
  const Comma := Fixed(",")
  const IfOpen := Fixed(" if (")
  const ThenSep := Fixed(" then ")
  const ElseSep := Fixed(" else ")
  const WhileOpen := Fixed(" while (")
  const DoSep := Fixed(" do ")
  const BreakText := Fixed(" BREAK ")
  const ContinueText := Fixed(" CONTINUE ")
  const BlockOpen := Fixed(" block{")
  const LineStart := Fixed("\n    ")
  const BlockClose := Fixed("\n}\n")
  const ReturnOpen := Fixed(" return(")
  const FuncOpen := Fixed(" func ")
  const FuncSep := Fixed("  ")
  const ExternOpen := Fixed(" <extern ")
  const AsSep := Fixed(" as ")
  const Unresolved := Fixed("[not resolved]")
  const ExternClose := Fixed("> ")
  const DefOpen := Fixed("* def:")
  const DefEq := Fixed(" = ")
  const UnknownType := Fixed("[unknown type]")
  const NoValue := Fixed("??")
  const Dangling := Fixed("?")

  // ---------------------------------------------------------------------------
  // Assembling optional parts

  /** `pre`, the part and `post`, when the part could be printed. */
  function Wrap(pre: string, x: Option<string>, post: string): (r: Option<string>)
    ensures r.Some? <==> x.Some?
    ensures r.Some? ==> r.value == pre + x.value + post
  {
    match x
    case None => None
    case Some(s) => Some(pre + s + post)
  }

  /** Every part, when all of them could be printed. */
  function AllSome(xs: seq<Option<string>>): (r: Option<seq<string>>)
    ensures r.Some? <==> forall i :: 0 <= i < |xs| ==> xs[i].Some?
    ensures r.Some? ==> |r.value| == |xs| && forall i :: 0 <= i < |xs| ==> r.value[i] == xs[i].value
  {
    if |xs| == 0 then Some([])
    else match (xs[0], AllSome(xs[1..]))
      case (Some(s), Some(rest)) => Some([s] + rest)
      case _ => None
  }

  /** The strings one after the other. */
  function Concat(xs: seq<string>): string {
    if |xs| == 0 then [] else xs[0] + Concat(xs[1..])
  }

  // ---------------------------------------------------------------------------
  // The printer

  /** The type text of a definition line: a dangling type reads "?". */
  function DefTypeText(st: Store, d: Def): string {
    match TypeAtDef(st, d)
    case None => Dangling
    case Some((_, None)) => UnknownType
    case Some((s1, Some(t))) => DescStr(s1, t)
  }

  /** The line of a block's definition, given its printed value when it has one. */
  function DefLine(st: Store, d: Def, val: Option<string>): (r: Option<string>)
    ensures r.Some? <==> val.Some?
    ensures r.Some? ==> StartsWith(r.value, "* def:" + d.name + " : ") && EndsWith(r.value, " = " + val.value)
  {
    match val
    case None => None
    case Some(v) =>
      var head := DefOpen + DefName(d) + TypeSep;
      Around(head, DefTypeText(st, d), DefEq + v);
      Some(head + DefTypeText(st, d) + (DefEq + v))
  }

  /** A text made of three parts starts with the first and ends with the last. */
  lemma Around(a: string, b: string, c: string)
    ensures StartsWith(a + b + c, a) && EndsWith(a + b + c, c)
  {
    assert (a + b + c)[..|a|] == a;
    assert (a + b + c)[|a + b + c| - |c|..] == c;
  }

  /** The printed form of `e`, None where `prettyprint` dereferences a null child. */
  function Show(st: Store, e: Expr): (r: Option<string>)
    ensures r.Some? <==> !ReachesNull(e)
    decreases e, 2
  {
    match e.node
    case BoolLit(b) => Some(if b then TrueText else FalseText)
    case IntLit(v, _) => Some(IntTag + IntToStr(v))
    case FloatLit(text) => Some(FloatTag + text)
    case VarRef(name, _, _) => Some(VarTag + name)
    case Deref(p) => if p.None? then None else Wrap(DerefTag, Show(st, p.value), [])
    case Unary(op, x) => if x.None? then None else Wrap(Space + op + Open, Show(st, x.value), CloseSp)
    case Binary(op, l, rhs) =>
      if rhs.None? then None
      else (match (Show(st, l), Show(st, rhs.value))
            case (Some(a), Some(b)) => Some(SpOpen + a + (Close + op + Open) + b + CloseSp)
            case _ => None)
    case DotMember(_, member) => Some(DotTag + member)
    case Cast(x, ftype, _) => Wrap([], Show(st, x), TypeSep + DescStr(st, ftype))
    case Call(callee, args) =>
      (match (Show(st, callee), ArgTexts(st, e))
       case (Some(c), Some(xs)) => Some(CallOpen + c + CallMid + Join(xs, Comma) + CallClose)
       case _ => None)
    case If(c, t, f) =>
      (match (Show(st, c), Show(st, t), if f.None? then Some([]) else Wrap(ElseSep, Show(st, f.value), []))
       case (Some(a), Some(b), Some(z)) => Some(IfOpen + a + ThenSep + b + z)
       case _ => None)
    case While(c, body, _) =>
      (match (Show(st, c), Show(st, body))
       case (Some(a), Some(b)) => Some(WhileOpen + a + DoSep + b + [])
       case _ => None)
    case BreakCont(isBreak) => Some(if isBreak then BreakText else ContinueText)
    case Block(_, _) => Wrap(BlockOpen, LineTexts(st, e), BlockClose)
    case Return(v) => if v.None? then Some(ReturnOpen + Close) else Wrap(ReturnOpen, Show(st, v.value), Close)
    case FuncLit(ftype, code, _) => Wrap(FuncOpen + DescStr(st, ftype) + FuncSep, Show(st, code), [])
    case Extern(stype, symbol) =>
      Some(ExternOpen + symbol + AsSep + (if stype.None? then Unresolved else DescStr(st, stype.value)) + ExternClose)
  }

  /** The printed arguments of a call, when every one prints. */
  function ArgTexts(st: Store, e: Expr): (r: Option<seq<string>>)
    requires e.node.Call?
    ensures r.Some? <==> forall i :: 0 <= i < |e.node.args| ==> !ReachesNull(e.node.args[i])
    ensures r.Some? ==> |r.value| == |e.node.args|
    ensures r.Some? ==> forall i :: 0 <= i < |e.node.args| ==> r.value[i] == Show(st, e.node.args[i]).value
    decreases e, 0
  {
    var args := e.node.args;
    var shown := seq(|args|, i requires 0 <= i < |args| => Show(st, args[i]));
    assert forall i :: 0 <= i < |args| ==> (shown[i].Some? <==> !ReachesNull(args[i]));
    AllSome(shown)
  }

  /** The printed line of a block statement; a function definition's value is "??". */
  function LineText(st: Store, s: Stmt, ghost e: Expr): (r: Option<string>)
    requires s < e
    ensures r.Some? <==> !StmtReachesNull(s, e)
    decreases e, 0
  {
    match s
    case ExprStmt(_, x) => Show(st, x)
    case DefStmt(d) => DefLine(st, d, if d.VarDef? then Show(st, d.val) else Some(NoValue))
  }

  /** The printed lines of a block, each on a new line indented by four spaces. */
  function LineTexts(st: Store, e: Expr): (r: Option<string>)
    requires e.node.Block?
    ensures r.Some? <==> forall i :: 0 <= i < |e.node.stmts| ==> !StmtReachesNull(e.node.stmts[i], e)
    decreases e, 1
  {
    var stmts := e.node.stmts;
    var lines := seq(|stmts|, i requires 0 <= i < |stmts| => LineText(st, stmts[i], e));
    assert forall i :: 0 <= i < |stmts| ==> (lines[i].Some? <==> !StmtReachesNull(stmts[i], e));
    match AllSome(lines)
    case Some(ls) => Some(Concat(seq(|ls|, i requires 0 <= i < |ls| => LineStart + ls[i])))
    case None => None
  }

  // ---------------------------------------------------------------------------
  // Which trees print

  /** `e` has a null child in a position the printer dereferences: the operand of a
      dereference or a unary operator, or the right operand of a binary operator,
      at any depth the printer visits. The object of a member access and the bodies
      of function definitions inside blocks are not visited. */
  predicate ReachesNull(e: Expr)
    decreases e, 2
  {
    match e.node
    case Deref(p) => p.None? || ReachesNull(p.value)
    case Unary(_, x) => x.None? || ReachesNull(x.value)
    case Binary(_, l, rhs) => rhs.None? || ReachesNull(l) || ReachesNull(rhs.value)
    case Cast(x, _, _) => ReachesNull(x)
    case Call(callee, args) => ReachesNull(callee) || exists i :: 0 <= i < |args| && ReachesNull(args[i])
    case If(c, t, f) => ReachesNull(c) || ReachesNull(t) || (f.Some? && ReachesNull(f.value))
    case While(c, body, _) => ReachesNull(c) || ReachesNull(body)
    case Block(stmts, _) => exists i :: 0 <= i < |stmts| && StmtReachesNull(stmts[i], e)
    case Return(v) => v.Some? && ReachesNull(v.value)
    case FuncLit(_, code, _) => ReachesNull(code)
    case _ => false
  }

  /** A block statement reaches a null child: the value of a variable definition is
      visited, the value of a function definition is not. */
  predicate StmtReachesNull(s: Stmt, ghost e: Expr)
    requires s < e
    decreases e, 0
  {
    match s
    case ExprStmt(_, x) => ReachesNull(x)
    case DefStmt(d) => d.VarDef? && ReachesNull(d.val)
  }

  // ---------------------------------------------------------------------------
  // Parentheses in the output

  /** Opening minus closing parentheses. */
  function Bal(s: string): int {
    Count(s, '(') - Count(s, ')')
  }

  predicate NoParen(s: string) {
    '(' !in s && ')' !in s
  }

  function Sum(xs: seq<int>): int {
    if |xs| == 0 then 0 else xs[0] + Sum(xs[1..])
  }

  function Bals(xs: seq<string>): (r: seq<int>)
    ensures |r| == |xs| && forall i :: 0 <= i < |xs| ==> r[i] == Bal(xs[i])
  {
    seq(|xs|, i requires 0 <= i < |xs| => Bal(xs[i]))
  }

  /** The names a type description prints are free of parentheses. */
  predicate PlainNode(n: TypeNode) {
    match n
    case PkgT(p) => NoParen(p)
    case FuncT(args, _) => forall k :: 0 <= k < |args| ==> NoParen(args[k].name)
    case _ => true
  }

  predicate PlainStore(st: Store) {
    forall i :: 0 <= i < |st.nodes| ==> PlainNode(st.nodes[i])
  }

  /** Every name, operator and literal text the printer copies from `e` is free of
      parentheses. */
  predicate Plain(e: Expr)
    decreases e, 1
  {
    match e.node
    case FloatLit(text) => NoParen(text)
    case VarRef(name, _, _) => NoParen(name)
    case Deref(p) => p.Some? ==> Plain(p.value)
    case Unary(op, x) => NoParen(op) && (x.Some? ==> Plain(x.value))
    case Binary(op, l, rhs) => NoParen(op) && Plain(l) && (rhs.Some? ==> Plain(rhs.value))
    case DotMember(_, member) => NoParen(member)
    case Cast(x, _, _) => Plain(x)
    case Call(callee, args) => Plain(callee) && forall i :: 0 <= i < |args| ==> Plain(args[i])
    case If(c, t, f) => Plain(c) && Plain(t) && (f.Some? ==> Plain(f.value))
    case While(c, body, _) => Plain(c) && Plain(body)
    case Block(stmts, _) => forall i :: 0 <= i < |stmts| ==> StmtPlain(stmts[i], e)
    case Return(v) => v.Some? ==> Plain(v.value)
    case FuncLit(_, code, _) => Plain(code)
    case Extern(_, symbol) => NoParen(symbol)
    case _ => true
  }

  predicate StmtPlain(s: Stmt, ghost e: Expr)
    requires s < e
    decreases e, 0
  {
    match s
    case ExprStmt(_, x) => Plain(x)
    case DefStmt(d) => NoParen(DefName(d)) && (d.VarDef? ==> Plain(d.val))
  }

  /** The conditionals and loops the printer visits. */
  function Conditions(e: Expr): int
    decreases e, 1
  {
    match e.node
    case Deref(p) => if p.None? then 0 else Conditions(p.value)
    case Unary(_, x) => if x.None? then 0 else Conditions(x.value)
    case Binary(_, l, rhs) => Conditions(l) + (if rhs.None? then 0 else Conditions(rhs.value))
    case Cast(x, _, _) => Conditions(x)
    case Call(callee, args) =>
      Conditions(callee) + Sum(seq(|args|, i requires 0 <= i < |args| => Conditions(args[i])))
    case If(c, t, f) => 1 + Conditions(c) + Conditions(t) + (if f.None? then 0 else Conditions(f.value))
    case While(c, body, _) => 1 + Conditions(c) + Conditions(body)
    case Block(stmts, _) => Sum(seq(|stmts|, i requires 0 <= i < |stmts| => StmtConditions(stmts[i], e)))
    case Return(v) => if v.None? then 0 else Conditions(v.value)
    case FuncLit(_, code, _) => Conditions(code)
    case _ => 0
  }

  function StmtConditions(s: Stmt, ghost e: Expr): int
    requires s < e
    decreases e, 0
  {
    match s
    case ExprStmt(_, x) => Conditions(x)
    case DefStmt(d) => if d.VarDef? then Conditions(d.val) else 0
  }

  lemma BalCat(a: string, b: string)
    ensures Bal(a + b) == Bal(a) + Bal(b)
  {
    CountAppend(a, b, '(');
    CountAppend(a, b, ')');
  }

  lemma Bal3(a: string, b: string, c: string)
    ensures Bal(a + b + c) == Bal(a) + Bal(b) + Bal(c)
  {
    BalCat(a, b);
    BalCat(a + b, c);
  }

  lemma Bal5(a: string, b: string, c: string, d: string, e: string)
    ensures Bal(a + b + c + d + e) == Bal(a) + Bal(b) + Bal(c) + Bal(d) + Bal(e)
  {
    Bal3(a, b, c);
    Bal3(a + b + c, d, e);
  }

  lemma {:induction false} NoParenBal(s: string)
    requires NoParen(s)
    ensures Bal(s) == 0
    decreases |s|
  {
    if |s| > 0 {
      assert forall c :: c in s[1..] ==> c in s;
      NoParenBal(s[1..]);
    }
  }

  // The balance of each fixed text, one text per lemma: proved together, the
  // characters of several literals make the solver's work grow quickly.

  lemma EmptyBal()
    ensures Bal([]) == 0
  {
  }

  lemma OpenBal()
    ensures Bal(Open) == 1
  {
  }

  lemma SpOpenBal()
    ensures Bal(SpOpen) == 1
  {
  }

  lemma IfOpenBal()
    ensures Bal(IfOpen) == 1
  {
  }

  lemma WhileOpenBal()
    ensures Bal(WhileOpen) == 1
  {
  }

  lemma ReturnOpenBal()
    ensures Bal(ReturnOpen) == 1
  {
  }

  lemma CloseBal()
    ensures Bal(Close) == -1
  {
  }

  lemma CloseSpBal()
    ensures Bal(CloseSp) == -1
  {
  }

  lemma TrueTextBal()
    ensures Bal(TrueText) == 0
  {
    NoParenBal(TrueText);
  }

  lemma FalseTextBal()
    ensures Bal(FalseText) == 0
  {
    NoParenBal(FalseText);
  }

  lemma IntTagBal()
    ensures Bal(IntTag) == 0
  {
    NoParenBal(IntTag);
  }

  lemma FloatTagBal()
    ensures Bal(FloatTag) == 0
  {
    NoParenBal(FloatTag);
  }

  lemma VarTagBal()
    ensures Bal(VarTag) == 0
  {
    NoParenBal(VarTag);
  }

  lemma DerefTagBal()
    ensures Bal(DerefTag) == 0
  {
    NoParenBal(DerefTag);
  }

  lemma DotTagBal()
    ensures Bal(DotTag) == 0
  {
    NoParenBal(DotTag);
  }

  lemma SpaceBal()
    ensures Bal(Space) == 0
  {
    NoParenBal(Space);
  }

  lemma TypeSepBal()
    ensures Bal(TypeSep) == 0
  {
    NoParenBal(TypeSep);
  }

  lemma CallOpenBal()
    ensures Bal(CallOpen) == 0
  {
    NoParenBal(CallOpen);
  }

  lemma CallMidBal()
    ensures Bal(CallMid) == 0
  {
    NoParenBal(CallMid);
  }

  lemma CallCloseBal()
    ensures Bal(CallClose) == 0
  {
    NoParenBal(CallClose);
  }

  lemma CommaBal()
    ensures Bal(Comma) == 0
  {
    NoParenBal(Comma);
  }

  lemma ThenSepBal()
    ensures Bal(ThenSep) == 0
  {
    NoParenBal(ThenSep);
  }

  lemma ElseSepBal()
    ensures Bal(ElseSep) == 0
  {
    NoParenBal(ElseSep);
  }

  lemma DoSepBal()
    ensures Bal(DoSep) == 0
  {
    NoParenBal(DoSep);
  }

  lemma BreakTextBal()
    ensures Bal(BreakText) == 0
  {
    NoParenBal(BreakText);
  }

  lemma ContinueTextBal()
    ensures Bal(ContinueText) == 0
  {
    NoParenBal(ContinueText);
  }

  lemma BlockOpenBal()
    ensures Bal(BlockOpen) == 0
  {
    NoParenBal(BlockOpen);
  }

  lemma LineStartBal()
    ensures Bal(LineStart) == 0
  {
    NoParenBal(LineStart);
  }

  lemma BlockCloseBal()
    ensures Bal(BlockClose) == 0
  {
    NoParenBal(BlockClose);
  }

  lemma FuncOpenBal()
    ensures Bal(FuncOpen) == 0
  {
    NoParenBal(FuncOpen);
  }

  lemma FuncSepBal()
    ensures Bal(FuncSep) == 0
  {
    NoParenBal(FuncSep);
  }

  lemma ExternOpenBal()
    ensures Bal(ExternOpen) == 0
  {
    NoParenBal(ExternOpen);
  }

  lemma AsSepBal()
    ensures Bal(AsSep) == 0
  {
    NoParenBal(AsSep);
  }

  lemma UnresolvedBal()
    ensures Bal(Unresolved) == 0
  {
    NoParenBal(Unresolved);
  }

  lemma ExternCloseBal()
    ensures Bal(ExternClose) == 0
  {
    NoParenBal(ExternClose);
  }

  lemma DefOpenBal()
    ensures Bal(DefOpen) == 0
  {
    NoParenBal(DefOpen);
  }

  lemma DefEqBal()
    ensures Bal(DefEq) == 0
  {
    NoParenBal(DefEq);
  }

  lemma UnknownTypeBal()
    ensures Bal(UnknownType) == 0
  {
    NoParenBal(UnknownType);
  }

  lemma NoValueBal()
    ensures Bal(NoValue) == 0
  {
    NoParenBal(NoValue);
  }

  lemma DanglingBal()
    ensures Bal(Dangling) == 0
  {
    NoParenBal(Dangling);
  }

  lemma IntToStrPlain(i: int)
    ensures Bal(IntToStr(i)) == 0
  {
    var n := NatToStr(if i < 0 then -i else i);
    assert forall k :: 0 <= k < |n| ==> IsDigit(n[k]);
    if i < 0 {
      assert IntToStr(i) == "-" + n;
    }
    NoParenBal(IntToStr(i));
  }

  lemma {:induction false} BalJoin(xs: seq<string>, sep: string)
    requires Bal(sep) == 0
    ensures Bal(Join(xs, sep)) == Sum(Bals(xs))
    decreases |xs|
  {
    if |xs| > 1 {
      BalJoin(xs[1..], sep);
      Bal3(xs[0], sep, Join(xs[1..], sep));
      assert Bals(xs)[1..] == Bals(xs[1..]);
    } else if |xs| == 1 {
      assert Bals(xs)[1..] == [];
    }
  }

  lemma {:induction false} BalConcat(xs: seq<string>)
    ensures Bal(Concat(xs)) == Sum(Bals(xs))
    decreases |xs|
  {
    if |xs| > 0 {
      BalConcat(xs[1..]);
      BalCat(xs[0], Concat(xs[1..]));
      assert Bals(xs)[1..] == Bals(xs[1..]);
    }
  }

  /** Type descriptions balance their parentheses. */
  lemma {:induction false} DescBal(st: Store, t: TypeId)
    requires PlainStore(st)
    ensures Bal(DescStr(st, t)) == 0
    decreases t, 2
  {
    if t >= |st.nodes| {
      NoParenBal("?");
    } else {
      assert PlainNode(st.nodes[t]);
      match st.nodes[t]
      case PkgT(p) => PkgDescBal(st, t);
      case Base(k) => BaseDescBal(k);
      case IntT(size, signed) => IntDescBal(size, signed);
      case FuncT(args, ret) => FuncDescBal(st, t);
      case RefT(p) => RefDescBal(st, t);
    }
  }

  lemma PkgDescBal(st: Store, t: TypeId)
    requires t < |st.nodes| && st.nodes[t].PkgT? && PlainNode(st.nodes[t])
    ensures Bal(DescStr(st, t)) == 0
  {
    var p := st.nodes[t].pkg;
    NoParenBal(p);
    NoParenBal("{");
    NoParenBal("}");
    Bal3("{", p, "}");
  }

  lemma BaseDescBal(k: BaseKind)
    ensures Bal(BaseDesc(k)) == 0
  {
    NoParenBal(BaseDesc(k));
  }

  lemma IntDescBal(size: int, signed: bool)
    ensures Bal(IntDesc(size, signed)) == 0
  {
    var d := IntDesc(size, signed);
    IntToStrPlain(size);
    assert d == [d[0]] + IntToStr(size) + [d[|d| - 1]];
    NoParenBal([d[0]]);
    NoParenBal([d[|d| - 1]]);
    Bal3([d[0]], IntToStr(size), [d[|d| - 1]]);
  }

  lemma {:induction false} FuncDescBal(st: Store, t: TypeId)
    requires PlainStore(st) && t < |st.nodes| && st.nodes[t].FuncT?
    ensures Bal(DescStr(st, t)) == 0
    decreases t, 1
  {
    var args, ret := st.nodes[t].args, st.nodes[t].ret;
    assert PlainNode(st.nodes[t]);
    ArgsBal(st, args, t);
    var r := if ret < t then DescStr(st, ret) else "?";
    if ret < t { DescBal(st, ret); } else { NoParenBal("?"); }
    assert Bal("(") == 1;
    assert Bal(") -> ") == -1;
    Bal3("(", ArgsDesc(st, args, t), ") -> ");
    BalCat("(" + ArgsDesc(st, args, t) + ") -> ", r);
  }

  lemma {:induction false} RefDescBal(st: Store, t: TypeId)
    requires PlainStore(st) && t < |st.nodes| && st.nodes[t].RefT?
    ensures Bal(DescStr(st, t)) == 0
    decreases t, 1
  {
    var p := st.nodes[t].pointee;
    var r := if p < t then DescStr(st, p) else "?";
    if p < t { DescBal(st, p); } else { NoParenBal("?"); }
    NoParenBal("&");
    BalCat("&", r);
  }

  lemma {:induction false} ArgsBal(st: Store, args: seq<Arg>, bound: TypeId)
    requires PlainStore(st)
    requires forall k :: 0 <= k < |args| ==> NoParen(args[k].name)
    ensures Bal(ArgsDesc(st, args, bound)) == 0
    decreases bound, 0, |args|
  {
    if |args| > 0 {
      var ty := if args[0].ty < bound then DescStr(st, args[0].ty) else "?";
      if args[0].ty < bound { DescBal(st, args[0].ty); } else { NoParenBal("?"); }
      NoParenBal(args[0].name);
      NoParenBal(" : ");
      Bal3(args[0].name, " : ", ty);
      if |args| > 1 {
        NoParenBal(", ");
        ArgsBal(st, args[1..], bound);
        Bal3(args[0].name + " : " + ty, ", ", ArgsDesc(st, args[1..], bound));
      }
    }
  }

  /** The type text of a definition line balances its parentheses. */
  lemma DefTypeBal(st: Store, d: Def)
    requires PlainStore(st)
    ensures Bal(DefTypeText(st, d)) == 0
  {
    match TypeAtDef(st, d)
    case None => DanglingBal();
    case Some((_, None)) => UnknownTypeBal();
    case Some((s1, Some(t))) =>
      if d.VarDef? && !d.isVar {
        DescBal(st, t);
      } else {
        RefTypeBal(st, d);
      }
  }

  /** A reference type made by `typeAtDef` is described from the original store. */
  lemma RefTypeBal(st: Store, d: Def)
    requires PlainStore(st) && !(d.VarDef? && !d.isVar)
    requires TypeAtDef(st, d).Some? && TypeAtDef(st, d).value.1.Some?
    ensures Bal(DefTypeText(st, d)) == 0
  {
    var s1, t := TypeAtDef(st, d).value.0, TypeAtDef(st, d).value.1.value;
    var p := match d
      case VarDef(_, _, vtype, _, _) => vtype.value
      case FuncDef(_, _, fn) => fn.node.ftype
      case ExternFuncDef(_, _, _, etype) => etype;
    assert RefOf(st, p) == Some((s1, t));
    assert s1.nodes[t] == RefT(p) && p < t;
    DescStable(st, s1, p);
    DescBal(st, p);
    NoParenBal("&");
    BalCat("&", DescStr(st, p));
  }

  /** Every conditional and loop prints an opening parenthesis it never closes
      (" if (" and " while ("), and nothing else unbalances the output: the output
      opens exactly as many more parentheses than it closes as there are conditionals
      and loops in the printed tree. */
  lemma {:induction false} UnclosedConditions(st: Store, e: Expr)
    requires PlainStore(st) && Plain(e) && !ReachesNull(e)
    ensures Bal(Show(st, e).value) == Conditions(e)
    decreases e, 2
  {
    match e.node
    case Deref(_) => DerefBal(st, e);
    case Unary(_, _) => UnaryBal(st, e);
    case Cast(_, _, _) => CastBal(st, e);
    case FuncLit(_, _, _) => FuncLitBal(st, e);
    case Return(_) => ReturnBal(st, e);
    case Binary(_, _, _) => BinaryBal(st, e);
    case Call(_, _) => CallBal(st, e);
    case If(_, _, _) => IfBal(st, e);
    case While(_, _, _) => WhileBal(st, e);
    case Block(_, _) => BlockBal(st, e);
    case Extern(_, _) => ExternBal(st, e);
    case BoolLit(_) => BoolBal(st, e);
    case IntLit(_, _) => IntLitBal(st, e);
    case BreakCont(_) => BreakContBal(st, e);
    case _ => NamedBal(st, e);
  }

  lemma BoolBal(st: Store, e: Expr)
    requires e.node.BoolLit?
    ensures Show(st, e).Some? && Bal(Show(st, e).value) == 0
  {
    TrueTextBal();
    FalseTextBal();
  }

  lemma IntLitBal(st: Store, e: Expr)
    requires e.node.IntLit?
    ensures Show(st, e).Some? && Bal(Show(st, e).value) == 0
  {
    IntToStrPlain(e.node.val);
    IntTagBal();
    BalCat(IntTag, IntToStr(e.node.val));
  }

  lemma BreakContBal(st: Store, e: Expr)
    requires e.node.BreakCont?
    ensures Show(st, e).Some? && Bal(Show(st, e).value) == 0
  {
    assert Show(st, e) == Some(if e.node.isBreak then BreakText else ContinueText);
    if e.node.isBreak { BreakTextBal(); } else { ContinueTextBal(); }
  }

  /** Float literals, variable references and member accesses print a tag and a
      name or literal text. */
  lemma NamedBal(st: Store, e: Expr)
    requires Plain(e) && (e.node.FloatLit? || e.node.VarRef? || e.node.DotMember?)
    ensures Show(st, e).Some? && Bal(Show(st, e).value) == 0
  {
    match e.node
    case FloatLit(text) =>
      FloatTagBal();
      NoParenBal(text);
      BalCat(FloatTag, text);
    case VarRef(name, _, _) =>
      VarTagBal();
      NoParenBal(name);
      BalCat(VarTag, name);
    case DotMember(_, member) =>
      DotTagBal();
      NoParenBal(member);
      BalCat(DotTag, member);
  }

  lemma ExternBal(st: Store, e: Expr)
    requires e.node.Extern? && PlainStore(st) && Plain(e)
    ensures Show(st, e).Some? && Bal(Show(st, e).value) == 0
  {
    var stype, symbol := e.node.stype, e.node.symbol;
    var ty := if stype.None? then Unresolved else DescStr(st, stype.value);
    assert Show(st, e) == Some(ExternOpen + symbol + AsSep + ty + ExternClose);
    ExternTextBal(st, stype, symbol);
  }

  lemma ExternTextBal(st: Store, stype: Option<TypeId>, symbol: string)
    requires PlainStore(st) && NoParen(symbol)
    ensures Bal(ExternOpen + symbol + AsSep + (if stype.None? then Unresolved else DescStr(st, stype.value)) + ExternClose) == 0
  {
    var ty := if stype.None? then Unresolved else DescStr(st, stype.value);
    if stype.Some? { DescBal(st, stype.value); } else { UnresolvedBal(); }
    ExternOpenBal();
    AsSepBal();
    ExternCloseBal();
    NoParenBal(symbol);
    Bal5(ExternOpen, symbol, AsSep, ty, ExternClose);
  }

  lemma {:induction false} DerefBal(st: Store, e: Expr)
    requires e.node.Deref? && PlainStore(st) && Plain(e) && !ReachesNull(e)
    ensures Bal(Show(st, e).value) == Conditions(e)
    decreases e, 1
  {
    var x := e.node.ptr.value;
    UnclosedConditions(st, x);
    DerefTagBal();
    EmptyBal();
    Bal3(DerefTag, Show(st, x).value, []);
  }

  lemma {:induction false} UnaryBal(st: Store, e: Expr)
    requires e.node.Unary? && PlainStore(st) && Plain(e) && !ReachesNull(e)
    ensures Bal(Show(st, e).value) == Conditions(e)
    decreases e, 1
  {
    var op, x := e.node.op, e.node.operand.value;
    UnclosedConditions(st, x);
    NoParenBal(op);
    SpaceBal();
    OpenBal();
    CloseSpBal();
    Bal3(Space, op, Open);
    Bal3(Space + op + Open, Show(st, x).value, CloseSp);
  }

  lemma {:induction false} CastBal(st: Store, e: Expr)
    requires e.node.Cast? && PlainStore(st) && Plain(e) && !ReachesNull(e)
    ensures Bal(Show(st, e).value) == Conditions(e)
    decreases e, 1
  {
    var x, ftype := e.node.source, e.node.ftype;
    UnclosedConditions(st, x);
    DescBal(st, ftype);
    TypeSepBal();
    EmptyBal();
    BalCat(TypeSep, DescStr(st, ftype));
    Bal3([], Show(st, x).value, TypeSep + DescStr(st, ftype));
  }

  lemma {:induction false} FuncLitBal(st: Store, e: Expr)
    requires e.node.FuncLit? && PlainStore(st) && Plain(e) && !ReachesNull(e)
    ensures Bal(Show(st, e).value) == Conditions(e)
    decreases e, 1
  {
    var ftype, code := e.node.ftype, e.node.code;
    UnclosedConditions(st, code);
    DescBal(st, ftype);
    FuncOpenBal();
    FuncSepBal();
    EmptyBal();
    Bal3(FuncOpen, DescStr(st, ftype), FuncSep);
    Bal3(FuncOpen + DescStr(st, ftype) + FuncSep, Show(st, code).value, []);
  }

  lemma {:induction false} ReturnBal(st: Store, e: Expr)
    requires e.node.Return? && PlainStore(st) && Plain(e) && !ReachesNull(e)
    ensures Bal(Show(st, e).value) == Conditions(e)
    decreases e, 1
  {
    ReturnOpenBal();
    CloseBal();
    var v := e.node.retVal;
    if v.Some? {
      UnclosedConditions(st, v.value);
      Bal3(ReturnOpen, Show(st, v.value).value, Close);
    } else {
      BalCat(ReturnOpen, Close);
    }
  }

  /** The binary case of `UnclosedConditions`. */
  lemma {:induction false} BinaryBal(st: Store, e: Expr)
    requires e.node.Binary? && PlainStore(st) && Plain(e) && !ReachesNull(e)
    ensures Bal(Show(st, e).value) == Conditions(e)
    decreases e, 1
  {
    var op, l, r := e.node.op, e.node.lhs, e.node.rhs.value;
    UnclosedConditions(st, l);
    UnclosedConditions(st, r);
    NoParenBal(op);
    OpenBal();
    CloseBal();
    CloseSpBal();
    SpOpenBal();
    Bal3(Close, op, Open);
    Bal5(SpOpen, Show(st, l).value, Close + op + Open, Show(st, r).value, CloseSp);
  }

  /** The loop case of `UnclosedConditions`. */
  lemma {:induction false} WhileBal(st: Store, e: Expr)
    requires e.node.While? && PlainStore(st) && Plain(e) && !ReachesNull(e)
    ensures Bal(Show(st, e).value) == Conditions(e)
    decreases e, 1
  {
    var c, body := e.node.cond, e.node.body;
    UnclosedConditions(st, c);
    UnclosedConditions(st, body);
    WhileOpenBal();
    DoSepBal();
    EmptyBal();
    Bal5(WhileOpen, Show(st, c).value, DoSep, Show(st, body).value, []);
  }

  /** The call case of `UnclosedConditions`. */
  lemma {:induction false} CallBal(st: Store, e: Expr)
    requires e.node.Call? && PlainStore(st) && Plain(e) && !ReachesNull(e)
    ensures Bal(Show(st, e).value) == Conditions(e)
    decreases e, 1
  {
    var args := e.node.args;
    UnclosedConditions(st, e.node.callee);
    var xs := ArgTexts(st, e).value;
    forall i | 0 <= i < |args| ensures Bal(xs[i]) == Conditions(args[i]) {
      UnclosedConditions(st, args[i]);
    }
    CallOpenBal();
    CallMidBal();
    CallCloseBal();
    CommaBal();
    BalJoin(xs, Comma);
    assert Bals(xs) == seq(|args|, i requires 0 <= i < |args| => Conditions(args[i]));
    Bal5(CallOpen, Show(st, e.node.callee).value, CallMid, Join(xs, Comma), CallClose);
  }

  /** The conditional case of `UnclosedConditions`. */
  lemma {:induction false} IfBal(st: Store, e: Expr)
    requires e.node.If? && PlainStore(st) && Plain(e) && !ReachesNull(e)
    ensures Bal(Show(st, e).value) == Conditions(e)
    decreases e, 1
  {
    var c, t, f := e.node.cond, e.node.thenBr, e.node.elseBr;
    UnclosedConditions(st, c);
    UnclosedConditions(st, t);
    IfOpenBal();
    ThenSepBal();
    EmptyBal();
    var z := if f.None? then [] else ElseSep + Show(st, f.value).value + [];
    if f.Some? {
      UnclosedConditions(st, f.value);
      ElseSepBal();
      Bal3(ElseSep, Show(st, f.value).value, []);
    }
    Bal5(IfOpen, Show(st, c).value, ThenSep, Show(st, t).value, z);
  }

  /** The block case of `UnclosedConditions`: each line balances like its statement. */
  lemma {:induction false} BlockBal(st: Store, e: Expr)
    requires e.node.Block? && PlainStore(st) && Plain(e) && !ReachesNull(e)
    ensures Bal(Show(st, e).value) == Conditions(e)
    decreases e, 1
  {
    var stmts := e.node.stmts;
    var lines := seq(|stmts|, i requires 0 <= i < |stmts| => LineText(st, stmts[i], e));
    var ls := AllSome(lines).value;
    var padded := seq(|ls|, i requires 0 <= i < |ls| => LineStart + ls[i]);
    var counts := seq(|stmts|, i requires 0 <= i < |stmts| => StmtConditions(stmts[i], e));
    LineStartBal();
    forall i | 0 <= i < |stmts| ensures Bal(padded[i]) == counts[i] {
      LineBal(st, stmts[i], e);
      BalCat(LineStart, ls[i]);
    }
    BalConcat(padded);
    assert Bals(padded) == counts;
    BlockOpenBal();
    BlockCloseBal();
    Bal3(BlockOpen, Concat(padded), BlockClose);
  }

  lemma {:induction false} LineBal(st: Store, s: Stmt, e: Expr)
    requires s < e && PlainStore(st) && StmtPlain(s, e) && !StmtReachesNull(s, e)
    ensures Bal(LineText(st, s, e).value) == StmtConditions(s, e)
    decreases e, 0
  {
    match s
    case ExprStmt(_, x) =>
      UnclosedConditions(st, x);
    case DefStmt(d) =>
      DefOpenBal();
      TypeSepBal();
      DefEqBal();
      var v := if d.VarDef? then Show(st, d.val).value else NoValue;
      if d.VarDef? { UnclosedConditions(st, d.val); } else { NoValueBal(); }
      NoParenBal(DefName(d));
      DefTypeBal(st, d);
      var head := DefOpen + DefName(d) + TypeSep;
      assert LineText(st, s, e).value == head + DefTypeText(st, d) + (DefEq + v);
      Bal3(DefOpen, DefName(d), TypeSep);
      BalCat(DefEq, v);
      Bal3(head, DefTypeText(st, d), DefEq + v);
  }
}

=== FILE: scanner.dfy ===
/** Character-level reading shared by both lexers: a one-character lookahead over the
    input stream, plus the loops that skip blanks and comments and read runs. */
module Scanner {
  import opened Text

  /** What `istream::get()` yields: a character, or EOF once the input is exhausted. */
  datatype Ch = EOF | Chr(c: char)

  /** The lexer's reading position and line number. `rest` holds the lookahead
      character (`LastChar`) followed by the input not yet read; it is empty once
      the lookahead is EOF. */
  datatype Cursor = Cursor(rest: string, line: int) {
    function Last(): Ch {
      if |rest| == 0 then EOF else Chr(rest[0])
    }
  }

  /** `r` is `c` after zero or more reads. */
  predicate Later(c: Cursor, r: Cursor) {
    |r.rest| <= |c.rest| && r.rest == c.rest[|c.rest| - |r.rest|..]
  }

  /** The characters read between `c` and `r`. */
  function Consumed(c: Cursor, r: Cursor): string
    requires Later(c, r)
  {
    c.rest[..|c.rest| - |r.rest|]
  }

  lemma ConsumedSplit(c: Cursor, r: Cursor)
    requires Later(c, r)
    ensures c.rest == Consumed(c, r) + r.rest
  {
  }

  lemma LaterTrans(a: Cursor, b: Cursor, c: Cursor)
    requires Later(a, b) && Later(b, c)
    ensures Later(a, c)
    ensures Consumed(a, c) == Consumed(a, b) + Consumed(b, c)
  {
    assert a.rest == Consumed(a, b) + b.rest;
    assert b.rest == Consumed(b, c) + c.rest;
  }

  /** One read followed by more: the consumed text starts with the read character. */
  lemma ReadThen(c: Cursor, c1: Cursor, r: Cursor)
    requires |c.rest| > 0 && c1.rest == c.rest[1..] && Later(c1, r)
    ensures Later(c, r) && Consumed(c, r) == [c.rest[0]] + Consumed(c1, r)
  {
    assert c.rest == [c.rest[0]] + c1.rest;
  }

  /** Blanks, then a token: the input splits into the blanks, the token's text and
      what follows. */
  lemma SpaceThenToken(c0: Cursor, c: Cursor, r: Cursor, text: string)
    requires Later(c0, c) && Later(c, r)
    requires |c.rest| == 0 || c.rest[0] != '#' ==> c.rest == text + r.rest
    ensures Later(c0, r)
    ensures |c.rest| == 0 || c.rest[0] != '#' ==> c0.rest == Consumed(c0, c) + text + r.rest
  {
    LaterTrans(c0, c, r);
    ConsumedSplit(c0, c);
  }

  /** The cursor of a fresh lexer: a blank lookahead, line 1. */
  function Start(text: string): (c: Cursor)
    ensures c.rest == " " + text && c.line == 1
  {
    Cursor(" " + text, 1)
  }

  /** One `LastChar = In.get()`; reading past the end keeps yielding EOF. */
  function Read(c: Cursor): (r: Cursor)
    ensures |c.rest| > 0 ==> r.rest == c.rest[1..]
    ensures |c.rest| == 0 ==> r == c
    ensures r.line == c.line
  {
    if |c.rest| == 0 then c else c.(rest := c.rest[1..])
  }

  /** `isspace` in the C locale. */
  predicate IsSpace(c: char) {
    c == ' ' || c == '\t' || c == '\n' || c as int == 11 || c as int == 12 || c == '\r'
  }

  predicate IsAlpha(c: char) {
    'a' <= c <= 'z' || 'A' <= c <= 'Z'
  }

  predicate IsAlnum(c: char) {
    IsAlpha(c) || IsDigit(c)
  }

  predicate AtSpace(c: Cursor) {
    |c.rest| > 0 && IsSpace(c.rest[0])
  }

  /** The blank-skipping loop at the head of `gettok`: every skipped '\n' adds one
      to the line number. */
  function SkipSpace(c: Cursor): (r: Cursor)
    ensures Later(c, r) && !AtSpace(r)
    ensures forall i :: 0 <= i < |Consumed(c, r)| ==> IsSpace(Consumed(c, r)[i])
    ensures r.line == c.line + Count(Consumed(c, r), '\n')
    decreases |c.rest|
  {
    if AtSpace(c) then
      var c1 := Read(c.(line := if c.rest[0] == '\n' then c.line + 1 else c.line));
      var r := SkipSpace(c1);
      ReadThen(c, c1, r);
      assert Count(Consumed(c, r), '\n') == Count([c.rest[0]], '\n') + Count(Consumed(c1, r), '\n') by {
        CountAppend([c.rest[0]], Consumed(c1, r), '\n');
      }
      r
    else
      assert Consumed(c, c) == [];
      c
  }

  /** A scanning loop's result: where it stopped and the text it collected. */
  datatype Scanned = Scanned(cur: Cursor, text: string)

  /** The loop `while (p(LastChar = In.get())) text += LastChar`: starting on a
      lookahead already collected in `text`, it collects the longest run of characters
      satisfying `p` and stops with the first other character as lookahead. */
  function ReadWhile(c: Cursor, text: string, p: char -> bool): (r: Scanned)
    requires |c.rest| > 0
    ensures Later(c, r.cur) && |Consumed(c, r.cur)| >= 1
    ensures r.text == text + Consumed(c, r.cur)[1..]
    ensures forall i :: 1 <= i < |Consumed(c, r.cur)| ==> p(Consumed(c, r.cur)[i])
    ensures |r.cur.rest| > 0 ==> !p(r.cur.rest[0])
    ensures r.cur.line == c.line
    decreases |c.rest|
  {
    var c1 := Read(c);
    if |c1.rest| > 0 && p(c1.rest[0]) then
      var r := ReadWhile(c1, text + [c1.rest[0]], p);
      ReadWhileMore(c, c1, r.cur, text, r.text, p);
      r
    else
      assert Consumed(c, c1) == [c.rest[0]];
      Scanned(c1, text)
  }

  /** One step of `ReadWhile`: a collected character followed by the rest of the run. */
  lemma ReadWhileMore(c: Cursor, c1: Cursor, r: Cursor, text: string, rtext: string, p: char -> bool)
    requires |c.rest| > 0 && c1.rest == c.rest[1..] && |c1.rest| > 0 && p(c1.rest[0])
    requires Later(c1, r) && |Consumed(c1, r)| >= 1
    requires rtext == text + [c1.rest[0]] + Consumed(c1, r)[1..]
    requires forall i :: 1 <= i < |Consumed(c1, r)| ==> p(Consumed(c1, r)[i])
    ensures Later(c, r) && |Consumed(c, r)| >= 1
    ensures rtext == text + Consumed(c, r)[1..]
    ensures forall i :: 1 <= i < |Consumed(c, r)| ==> p(Consumed(c, r)[i])
  {
    ReadThen(c, c1, r);
    var k := Consumed(c1, r);
    assert k[0] == c1.rest[0];
    assert Consumed(c, r)[1..] == k == [k[0]] + k[1..];
    forall i | 1 <= i < |Consumed(c, r)|
      ensures p(Consumed(c, r)[i])
    {
      assert Consumed(c, r)[i] == k[i - 1];
    }
  }

  /** The comment loop `do LastChar = In.get(); while (not EOF, '\n' or '\r')`:
      it reads at least once and stops on EOF or a line break, which it leaves as
      lookahead. */
  function SkipComment(c: Cursor): (r: Cursor)
    requires |c.rest| > 0
    ensures Later(c, r) && |Consumed(c, r)| >= 1
    ensures forall i :: 1 <= i < |Consumed(c, r)| ==>
      Consumed(c, r)[i] != '\n' && Consumed(c, r)[i] != '\r'
    ensures |r.rest| == 0 || r.rest[0] == '\n' || r.rest[0] == '\r'
    ensures r.line == c.line
    decreases |c.rest|
  {
    var c1 := Read(c);
    if |c1.rest| == 0 || c1.rest[0] == '\n' || c1.rest[0] == '\r' then
      assert Consumed(c, c1) == [c.rest[0]];
      c1
    else
      var r := SkipComment(c1);
      ReadThen(c, c1, r);
      r
  }

  lemma NoNewlineCount(t: string)
    requires forall i :: 0 <= i < |t| ==> t[i] != '\n'
    ensures Count(t, '\n') == 0
  {
    if |t| > 0 {
      NoNewlineCount(t[1..]);
    }
  }

  lemma LinesAcross(c: Cursor, r: Cursor)
    requires Later(c, r)
    ensures Count(c.rest, '\n') == Count(Consumed(c, r), '\n') + Count(r.rest, '\n')
  {
    ConsumedSplit(c, r);
    CountAppend(Consumed(c, r), r.rest, '\n');
  }

  /** The line plus the newlines still ahead: what stays constant while lexing. */
  function LinesTotal(c: Cursor): int {
    c.line + Count(c.rest, '\n')
  }

  lemma CommentLines(c: Cursor)
    requires |c.rest| > 0 && c.rest[0] == '#'
    ensures LinesTotal(SkipComment(c)) == LinesTotal(c)
  {
    var c2 := SkipComment(c);
    LinesAcross(c, c2);
    NoNewlineCount(Consumed(c, c2));
  }

  lemma SpaceLines(c: Cursor)
    ensures LinesTotal(SkipSpace(c)) == LinesTotal(c)
  {
    LinesAcross(c, SkipSpace(c));
  }
}

=== FILE: scope.dfy ===
/** The analyser's state outside the trees: type store, scope frames, symbols and the
    packages that contexts refer to; plus the outcome values of typing. */
module Scope {
  import opened Wrappers
  import opened Text
  import opened Errors
  import opened Types
  import opened Ast

  /** What a symbol remembers of its definition: `VarExprAST` only asks whether it
      is a `let`. Function arguments have no definition. */
  datatype DefKind = NoDef | VarSym(isVar: bool) | FuncSym | ExternSym

  /** `Symbol`: the definition kind and the type the name has where it is used
      (None is the null type of a definition not yet checked). */
  datatype Symbol = Symbol(def: DefKind, stype: Option<TypeId>)

  /** What a context needs of a package: its top-level frame, its package type
      object and its import table (alias → package name). */
  datatype PkgView = PkgView(frame: FrameId, pkgType: TypeId, imports: map<string, string>)

  datatype TcState = TcState(
    store: Store,
    frames: seq<map<string, SymId>>,
    syms: seq<Symbol>,
    pkgs: map<string, PkgView>)

  /** The two revisions of the analyser. `ByIdentity` compares type objects with `==`,
      dereferences with `canDeref` and raises errors; `ByStructure` compares with `eq`,
      dereferences any reference and reports an error by yielding no type. */
  datatype Mode = ByIdentity | ByStructure

  /** The result of typing: a type, no type (the null type, with the diagnostic the
      analyser printed), a raised error, or an abort — a null dereference or an
      error thrown by value, which no handler catches. */
  datatype Outcome = Typed(t: TypeId) | NoType(diag: string) | Thrown(err: Error) | Crashed(why: string)
  {
    predicate Abrupt() {
      Thrown? || Crashed?
    }
  }

  /** Type comparison of the revision. */
  function Same(m: Mode, st: Store, a: TypeId, b: TypeId): bool {
    if m.ByIdentity? then a == b else Eq(st, a, b)
  }

  /** Whether the revision wraps a value of this type in a dereference. */
  predicate Derefs(m: Mode, st: Store, t: TypeId) {
    if m.ByIdentity? then CanDeref(st, t) else IsRef(st, t)
  }

  /** A language error of the revision: raised (`Tag.Throw`) or reported (`typeError`). */
  function Fail(m: Mode, tag: FTag, msg: string): (o: Outcome)
    ensures m.ByIdentity? <==> o.Thrown?
    ensures o.Thrown? ==> o.err == LangError(tag, msg, None)
    ensures o.NoType? ==> o.diag == msg
  {
    if m.ByIdentity? then Thrown(LangError(tag, msg, None)) else NoType(msg)
  }

  /** `RefTypeAST::Get` on a store and type the analyser keeps well formed; None
      stands for a dangling type object, which the front end never creates. */
  function RefOf(s: Store, t: TypeId): (r: Option<(Store, TypeId)>)
    ensures r.Some? <==> WF(s) && Valid(s, t)
    ensures r.Some? ==> WF(r.value.0) && Extends(s, r.value.0) && Valid(r.value.0, r.value.1) && r.value.0.nodes[r.value.1] == RefT(t)
    ensures r.Some? && t in s.refTypes ==> r.value == (s, s.refTypes[t])
  {
    if WF(s) && Valid(s, t) then Some(RefGet(s, t)) else None
  }

  /** The frame behind an id; an unknown id reads as an empty frame. */
  function FrameAt(st: TcState, f: FrameId): map<string, SymId> {
    if f < |st.frames| then st.frames[f] else map[]
  }

  predicate Binds(st: TcState, f: FrameId, name: string) {
    name in FrameAt(st, f)
  }

  /** Name resolution over a context's frames, innermost (last) first: the position
      of the frame that binds the name, and the symbol it binds there. */
  function Lookup(st: TcState, frames: seq<FrameId>, name: string): (r: Option<(nat, SymId)>)
    ensures r.Some? ==>
      r.value.0 < |frames| && Binds(st, frames[r.value.0], name)
      && FrameAt(st, frames[r.value.0])[name] == r.value.1
      && forall j :: r.value.0 < j < |frames| ==> !Binds(st, frames[j], name)
    ensures r.None? <==> forall j :: 0 <= j < |frames| ==> !Binds(st, frames[j], name)
    decreases |frames|
  {
    if |frames| == 0 then None
    else
      var i := |frames| - 1;
      if Binds(st, frames[i], name) then Some((i, FrameAt(st, frames[i])[name]))
      else
        var r := Lookup(st, frames[..i], name);
        assert forall j :: 0 <= j < i ==> frames[..i][j] == frames[j];
        r
  }

  /** Adds a fresh frame holding `m` to the table. */
  function PushFrame(st: TcState, m: map<string, SymId>): (r: (TcState, FrameId))
    ensures r.1 == |st.frames| && r.0.frames == st.frames + [m]
    ensures r.0.store == st.store && r.0.syms == st.syms && r.0.pkgs == st.pkgs
  {
    (st.(frames := st.frames + [m]), |st.frames|)
  }

  /** `map::insert` into a frame: the first binding of a name is kept. */
  function Insert(st: TcState, f: FrameId, name: string, s: SymId): (r: TcState)
    ensures |r.frames| == |st.frames|
    ensures f < |st.frames| ==> name in r.frames[f]
    ensures f < |st.frames| && name in st.frames[f] ==> r == st
    ensures f < |st.frames| && name !in st.frames[f] ==> r.frames[f][name] == s
    ensures forall g :: 0 <= g < |st.frames| && g != f ==> r.frames[g] == st.frames[g]
    ensures r.store == st.store && r.syms == st.syms && r.pkgs == st.pkgs
  {
    if f < |st.frames| && name !in st.frames[f] then
      var fr: map<string, SymId> := st.frames[f][name := s];
      st.(frames := st.frames[f := fr])
    else st
  }

  /** `new Symbol`: appended to the symbol table. */
  function NewSym(st: TcState, s: Symbol): (r: (TcState, SymId))
    ensures r.1 == |st.syms| && r.0.syms == st.syms + [s]
    ensures r.0.store == st.store && r.0.frames == st.frames && r.0.pkgs == st.pkgs
  {
    (st.(syms := st.syms + [s]), |st.syms|)
  }

  /** The symbols of a function literal's arguments: the argument's type and no
      definition. */
  function ArgSyms(args: seq<Arg>): (r: seq<Symbol>)
    ensures |r| == |args|
    ensures forall i :: 0 <= i < |args| ==> r[i] == Symbol(NoDef, Some(args[i].ty))
  {
    seq(|args|, i requires 0 <= i < |args| => Symbol(NoDef, Some(args[i].ty)))
  }

  /** Argument `i` is the first one named `n`. */
  predicate FirstNamed(args: seq<Arg>, n: string, i: int) {
    0 <= i < |args| && args[i].name == n && forall j :: 0 <= j < i ==> args[j].name != n
  }

  /** Each name of the frame is bound to the symbol of the first argument that
      carries it, arguments being numbered from `base`. */
  predicate FirstWins(args: seq<Arg>, base: nat, r: map<string, SymId>) {
    forall n {:trigger r[n]} :: n in r ==> base <= r[n] && FirstNamed(args, n, r[n] - base)
  }

  /** The frame of a function literal's arguments, whose symbols are numbered from
      `base` in argument order, inserted in order. */
  function ArgFrame(args: seq<Arg>, base: nat): map<string, SymId>
    decreases |args|
  {
    if |args| == 0 then map[]
    else InsertFirst(ArgFrame(args[..|args| - 1], base), args[|args| - 1].name, base + |args| - 1)
  }

  /** Every argument name is bound, each to the symbol of the first argument that
      carries it. */
  lemma {:induction false} ArgFrameSpec(args: seq<Arg>, base: nat)
    ensures forall i :: 0 <= i < |args| ==> args[i].name in ArgFrame(args, base)
    ensures FirstWins(args, base, ArgFrame(args, base))
    decreases |args|
  {
    if |args| > 0 {
      var k := |args| - 1;
      var prev := args[..k];
      ArgFrameSpec(prev, base);
      var rest := ArgFrame(prev, base);
      var r := ArgFrame(args, base);
      assert r == InsertFirst(rest, args[k].name, base + k);
      ArgFrameStep(args, prev, rest, base, r);
    } else {
      assert ArgFrame(args, base) == map[];
    }
  }

  /** `map::insert`: an existing key keeps its value. */
  function InsertFirst(m: map<string, SymId>, n: string, v: SymId): map<string, SymId> {
    if n in m then m else m[n := v]
  }

  lemma ArgFrameStep(args: seq<Arg>, prev: seq<Arg>, rest: map<string, SymId>, base: nat, r: map<string, SymId>)
    requires |args| > 0 && prev == args[..|args| - 1]
    requires forall i :: 0 <= i < |prev| ==> prev[i].name in rest
    requires FirstWins(prev, base, rest)
    requires r == InsertFirst(rest, args[|args| - 1].name, base + |args| - 1)
    ensures forall i :: 0 <= i < |args| ==> args[i].name in r
    ensures FirstWins(args, base, r)
  {
    var k := |args| - 1;
    assert forall j :: 0 <= j < k ==> args[..k][j] == args[j];
    forall n | n in r ensures base <= r[n] && FirstNamed(args, n, r[n] - base) {
      if n in rest {
        assert r[n] == rest[n];
        assert FirstNamed(args[..k], n, rest[n] - base);
      } else {
        assert n == args[k].name && r[n] == base + k;
        forall j | 0 <= j < k ensures args[j].name != n {
          assert args[..k][j].name in rest;
        }
      }
    }
  }

  /** The kind a definition leaves in its symbol. */
  function KindOf(d: Def): DefKind {
    match d
    case VarDef(_, _, _, _, isVar) => VarSym(isVar)
    case FuncDef(_, _, _) => FuncSym
    case ExternFuncDef(_, _, _, _) => ExternSym
  }

  /** `typeAtDef`: a `var` is used through a reference to its type, a `let` as its
      type, a function through a reference to its function type; a variable whose
      type is still unknown has none. The outer None is a dangling type. */
  function TypeAtDef(s: Store, d: Def): (r: Option<(Store, Option<TypeId>)>)
    ensures d.VarDef? && d.vtype.None? ==> r == Some((s, None))
    ensures d.VarDef? && d.vtype.Some? && !d.isVar ==> r == Some((s, d.vtype))
    ensures r.Some? && r.value.1.Some? && (d.FuncDef? || d.ExternFuncDef? || d.isVar) ==>
      Valid(r.value.0, r.value.1.value) && r.value.0.nodes[r.value.1.value].RefT? && Extends(s, r.value.0)
    ensures r.Some? && WF(s) ==> WF(r.value.0) && Extends(s, r.value.0)
    ensures d.VarDef? && d.vtype.Some? && d.isVar ==>
      (r.Some? <==> WF(s) && Valid(s, d.vtype.value))
      && (r.Some? ==> r.value.1.Some? && r.value.0.nodes[r.value.1.value] == RefT(d.vtype.value))
    ensures d.FuncDef? && !d.fn.node.FuncLit? ==> r.None?
    ensures d.FuncDef? && d.fn.node.FuncLit? ==>
      (r.Some? <==> WF(s) && Valid(s, d.fn.node.ftype))
      && (r.Some? ==> r.value.1.Some? && r.value.0.nodes[r.value.1.value] == RefT(d.fn.node.ftype))
    ensures d.ExternFuncDef? ==>
      (r.Some? <==> WF(s) && Valid(s, d.etype))
      && (r.Some? ==> r.value.1.Some? && r.value.0.nodes[r.value.1.value] == RefT(d.etype))
  {
    match d
    case VarDef(_, _, vtype, _, isVar) =>
      if vtype.None? then Some((s, None))
      else if !isVar then Some((s, vtype))
      else (match RefOf(s, vtype.value)
            case Some((s1, t)) => Some((s1, Some(t)))
            case None => None)
    case FuncDef(_, _, fn) =>
      if !fn.node.FuncLit? then None
      else (match RefOf(s, fn.node.ftype)
            case Some((s1, t)) => Some((s1, Some(t)))
            case None => None)
    case ExternFuncDef(_, _, _, etype) =>
      match RefOf(s, etype)
      case Some((s1, t)) => Some((s1, Some(t)))
      case None => None
  }

  /** `li->Signed = true`: the one place the analyser changes a type object in place. */
  function SetSigned(s: Store, t: TypeId): (r: Store)
    ensures |r.nodes| == |s.nodes|
    ensures t < |s.nodes| && s.nodes[t].IntT? ==> r.nodes[t] == IntT(s.nodes[t].size, true)
    ensures forall u :: 0 <= u < |s.nodes| && u != t ==> r.nodes[u] == s.nodes[u]
    ensures WF(s) ==> WF(r)
  {
    if t < |s.nodes| && s.nodes[t].IntT? then
      s.(nodes := s.nodes[t := IntT(s.nodes[t].size, true)])
    else s
  }
}

=== FILE: text.dfy ===
/** Decimal rendering, digit-prefix reading and '.'-separated names: the string helpers
    the front end relies on for positions, literals, type descriptions and package names. */
module Text {

  predicate IsDigit(c: char) {
    '0' <= c <= '9'
  }

  predicate AllDigits(s: string) {
    forall i :: 0 <= i < |s| ==> IsDigit(s[i])
  }

  function DigitChar(d: nat): (c: char)
    requires d < 10
    ensures IsDigit(c) && c as int - '0' as int == d
  {
    ('0' as int + d) as char
  }

  /** Value of a string of decimal digits. */
  function DigitsValue(s: string): nat
    requires AllDigits(s)
  {
    if |s| == 0 then 0
    else DigitsValue(s[..|s| - 1]) * 10 + (s[|s| - 1] as int - '0' as int)
  }

  /** Decimal rendering of a natural number, as an output stream writes it. */
  function NatToStr(n: nat): (s: string)
    ensures |s| >= 1 && AllDigits(s)
    ensures |s| > 1 ==> s[0] != '0'
  {
    if n < 10 then [DigitChar(n)] else NatToStr(n / 10) + [DigitChar(n % 10)]
  }

  /** Reading back a rendered number gives the number. */
  lemma {:induction false} NatToStrRoundTrip(n: nat)
    ensures DigitsValue(NatToStr(n)) == n
  {
    if n >= 10 {
      var s := NatToStr(n);
      assert s[..|s| - 1] == NatToStr(n / 10);
      NatToStrRoundTrip(n / 10);
    }
  }

  /** Decimal rendering of a signed integer: a '-' in front of negative values. */
  function IntToStr(i: int): (s: string)
    ensures |s| >= 1
    ensures s[0] == '-' <==> i < 0
    ensures i >= 0 ==> s == NatToStr(i)
  {
    if i < 0 then "-" + NatToStr(-i) else NatToStr(i)
  }

  /** Length of the longest prefix of `s` made of decimal digits. */
  function DigitRun(s: string): (k: nat)
    ensures k <= |s| && AllDigits(s[..k])
    ensures k < |s| ==> !IsDigit(s[k])
  {
    if |s| == 0 || !IsDigit(s[0]) then 0
    else
      var k := 1 + DigitRun(s[1..]);
      assert s[..k] == [s[0]] + s[1..][..k - 1];
      k
  }

  /** What `atol` yields for a numeric token: the value of its leading digits
      (the text of a numeric token never starts with a sign or with blanks). */
  function LeadingValue(s: string): nat {
    DigitsValue(s[..DigitRun(s)])
  }

  /** `parts` joined, with `sep` between consecutive parts. */
  function Join(parts: seq<string>, sep: string): string {
    if |parts| == 0 then ""
    else if |parts| == 1 then parts[0]
    else parts[0] + sep + Join(parts[1..], sep)
  }

  /** Index of the first occurrence of `c` in `s`, or |s| when there is none. */
  function FirstIndex(s: string, c: char): (k: nat)
    ensures k <= |s|
    ensures k < |s| ==> s[k] == c
    ensures forall i :: 0 <= i < k ==> s[i] != c
  {
    if |s| == 0 then 0
    else if s[0] == c then 0
    else 1 + FirstIndex(s[1..], c)
  }

  /** `s` cut at every occurrence of `c`; empty pieces are kept. */
  function Split(s: string, c: char): (parts: seq<string>)
    ensures |parts| >= 1
    ensures forall i :: 0 <= i < |parts| ==> c !in parts[i]
    decreases |s|
  {
    var k := FirstIndex(s, c);
    if k == |s| then [s] else [s[..k]] + Split(s[k + 1..], c)
  }

  /** Joining the pieces of a split with the separator gives the string back. */
  lemma {:induction false} JoinSplit(s: string, c: char)
    ensures Join(Split(s, c), [c]) == s
    decreases |s|
  {
    var k := FirstIndex(s, c);
    if k < |s| {
      JoinSplit(s[k + 1..], c);
      assert s == s[..k] + [c] + s[k + 1..];
    }
  }

  /** Splitting a join of separator-free, non-empty lists gives the parts back. */
  lemma {:induction false} SplitJoin(parts: seq<string>, c: char)
    requires |parts| >= 1
    requires forall i :: 0 <= i < |parts| ==> c !in parts[i]
    ensures Split(Join(parts, [c]), c) == parts
  {
    if |parts| > 1 {
      var s := Join(parts, [c]);
      assert s == parts[0] + [c] + Join(parts[1..], [c]);
      assert FirstIndex(s, c) == |parts[0]| by {
        assert s[|parts[0]|] == c;
        forall i | 0 <= i < |parts[0]| ensures s[i] != c {
          assert s[i] == parts[0][i];
        }
      }
      assert s[..|parts[0]|] == parts[0];
      assert s[|parts[0]| + 1..] == Join(parts[1..], [c]);
      SplitJoin(parts[1..], c);
    } else {
      assert FirstIndex(parts[0], c) == |parts[0]|;
    }
  }

  /** Number of occurrences of `c` in `s`. */
  function Count(s: string, c: char): nat {
    if |s| == 0 then 0 else (if s[0] == c then 1 else 0) + Count(s[1..], c)
  }

  lemma {:induction false} CountAppend(s: string, t: string, c: char)
    ensures Count(s + t, c) == Count(s, c) + Count(t, c)
  {
    if |s| > 0 {
      assert (s + t)[1..] == s[1..] + t;
      CountAppend(s[1..], t, c);
    } else {
      assert s + t == t;
    }
  }

  predicate EndsWith(s: string, suffix: string) {
    |suffix| <= |s| && s[|s| - |suffix|..] == suffix
  }

  predicate StartsWith(s: string, prefix: string) {
    |prefix| <= |s| && s[..|prefix|] == prefix
  }
}

=== FILE: types.dfy ===
/** The type language and the type store.

    Type objects are ids into an explicit store, so that object identity (what the newer
    analyser compares with `==`) and structural equality (`eq`) are different relations,
    and so that non-interned copies of a type can coexist with the interned one. */
module Types {
  import opened Wrappers
  import opened Text

  type TypeId = nat

  /** `BaseTypeE`: integers are a separate node kind. */
  datatype BaseKind = BtVoid | BtBool | BtFloat

  /** `FuncArgAST`: a named argument. */
  datatype Arg = Arg(name: string, ty: TypeId)

  /** One type object. */
  datatype TypeNode =
    | PkgT(pkg: string)
    | Base(kind: BaseKind)
    | IntT(size: int, signed: bool)
    | FuncT(args: seq<Arg>, ret: TypeId)
    | RefT(pointee: TypeId)

  /** All type objects, plus the four interning tables of the type manager. */
  datatype Store = Store(
    nodes: seq<TypeNode>,
    refTypes: map<TypeId, TypeId>,
    baseTypes: map<BaseKind, TypeId>,
    intTypes: map<int, TypeId>,
    funcTypes: map<string, TypeId>)

  /** The global singletons `voidBaseType`, `boolBaseType`, `floatBaseType`,
      `u8iBaseType` (8 bits, unsigned) and `s64iBaseType` (64 bits, signed). */
  const VOID: TypeId := 0
  const BOOL: TypeId := 1
  const FLOAT: TypeId := 2
  const U8I: TypeId := 3
  const S64I: TypeId := 4

  /** The store before any type is requested: the five globals, empty tables. */
  const InitialStore: Store :=
    Store([Base(BtVoid), Base(BtBool), Base(BtFloat), IntT(8, false), IntT(64, true)],
          map[], map[], map[], map[])

  predicate Valid(st: Store, t: TypeId) {
    t < |st.nodes|
  }

  /** Every type object refers only to objects created before it. */
  predicate ChildrenBelow(n: TypeNode, id: nat) {
    match n
    case FuncT(args, ret) => ret < id && forall i :: 0 <= i < |args| ==> args[i].ty < id
    case RefT(p) => p < id
    case _ => true
  }

  /** The store invariant: children come first, and every table entry names an
      object of the kind its table promises. */
  predicate WF(st: Store) {
    (forall i :: 0 <= i < |st.nodes| ==> ChildrenBelow(st.nodes[i], i))
    && (forall t :: t in st.refTypes ==>
          st.refTypes[t] < |st.nodes| && st.nodes[st.refTypes[t]] == RefT(t))
    && (forall k :: k in st.baseTypes ==>
          st.baseTypes[k] < |st.nodes| && st.nodes[st.baseTypes[k]] == Base(k))
    && (forall k :: k in st.intTypes ==>
          st.intTypes[k] < |st.nodes| && st.nodes[st.intTypes[k]].IntT?)
    && (forall k :: k in st.funcTypes ==>
          st.funcTypes[k] < |st.nodes| && st.nodes[st.funcTypes[k]].FuncT?)
  }

  /** `st2` keeps every object of `st` as it was (new objects may follow). */
  predicate Extends(st: Store, st2: Store) {
    |st.nodes| <= |st2.nodes| && st2.nodes[..|st.nodes|] == st.nodes
  }

  lemma InitialStoreWF()
    ensures WF(InitialStore)
  {
  }

  /** Allocate a new, non-interned object (`new IntTypeAST`, `new FuncTypeAST`). */
  function Alloc(st: Store, n: TypeNode): (r: (Store, TypeId))
    requires ChildrenBelow(n, |st.nodes|)
    ensures r.1 == |st.nodes| && r.0.nodes == st.nodes + [n]
    ensures WF(st) ==> WF(r.0)
    ensures Extends(st, r.0)
  {
    (st.(nodes := st.nodes + [n]), |st.nodes|)
  }

  // ---------------------------------------------------------------------------
  // Interning

  /** `RefTypeAST::Get`: one reference object per pointee object, created on first
      request. */
  function RefGet(st: Store, t: TypeId): (r: (Store, TypeId))
    requires WF(st) && Valid(st, t)
    ensures WF(r.0) && Extends(st, r.0) && Valid(r.0, r.1)
    ensures r.0.nodes[r.1] == RefT(t)
    ensures t in r.0.refTypes && r.0.refTypes[t] == r.1
    ensures t in st.refTypes ==> r.0 == st && r.1 == st.refTypes[t]
    ensures r.0.baseTypes == st.baseTypes && r.0.intTypes == st.intTypes
    ensures r.0.funcTypes == st.funcTypes
  {
    if t in st.refTypes then (st, st.refTypes[t])
    else
      var id := |st.nodes|;
      var st2 := st.(nodes := st.nodes + [RefT(t)], refTypes := st.refTypes[t := id]);
      assert st2.nodes[id] == RefT(t);
      (st2, id)
  }

  /** `BaseTypeAST::Get`: one object per base kind. The table starts empty, so the
      first request creates an object distinct from the global singleton. */
  function BaseGet(st: Store, k: BaseKind): (r: (Store, TypeId))
    requires WF(st)
    ensures WF(r.0) && Extends(st, r.0) && Valid(r.0, r.1)
    ensures r.0.nodes[r.1] == Base(k)
    ensures k in r.0.baseTypes && r.0.baseTypes[k] == r.1
    ensures k in st.baseTypes ==> r.0 == st && r.1 == st.baseTypes[k]
  {
    if k in st.baseTypes then (st, st.baseTypes[k])
    else
      var id := |st.nodes|;
      var st2 := st.(nodes := st.nodes + [Base(k)], baseTypes := st.baseTypes[k := id]);
      assert st2.nodes[id] == Base(k);
      (st2, id)
  }

  /** The interning key of an integer type: size * 2, plus one when signed. */
  function IntKey(size: int, signed: bool): int {
    size * 2 + (if signed then 1 else 0)
  }

  /** Distinct (size, signedness) pairs never share a key. */
  lemma IntKeyInjective(s1: int, g1: bool, s2: int, g2: bool)
    requires IntKey(s1, g1) == IntKey(s2, g2)
    ensures s1 == s2 && g1 == g2
  {
  }

  /** `IntTypeAST::Get`: one interned object per key. A new object has the requested
      size and signedness; a hit returns whatever the table holds. */
  function IntGet(st: Store, size: int, signed: bool): (r: (Store, TypeId))
    requires WF(st)
    ensures WF(r.0) && Extends(st, r.0) && Valid(r.0, r.1) && r.0.nodes[r.1].IntT?
    ensures IntKey(size, signed) in r.0.intTypes && r.0.intTypes[IntKey(size, signed)] == r.1
    ensures IntKey(size, signed) in st.intTypes ==>
      r.0 == st && r.1 == st.intTypes[IntKey(size, signed)]
    ensures IntKey(size, signed) !in st.intTypes ==> r.0.nodes[r.1] == IntT(size, signed)
  {
    var key := IntKey(size, signed);
    if key in st.intTypes then (st, st.intTypes[key])
    else
      var id := |st.nodes|;
      var st2 := st.(nodes := st.nodes + [IntT(size, signed)], intTypes := st.intTypes[key := id]);
      assert st2.nodes[id] == IntT(size, signed);
      (st2, id)
  }

  /** Asking twice for the same integer type gives the same object. */
  lemma IntGetIdempotent(st: Store, size: int, signed: bool)
    requires WF(st)
    ensures var (st1, a) := IntGet(st, size, signed);
      IntGet(st1, size, signed) == (st1, a)
  {
  }

  /** A newly interned integer type is a different object from the one any other
      (size, signedness) pair gets afterwards. */
  lemma IntGetDistinct(st: Store, s1: int, g1: bool, s2: int, g2: bool)
    requires WF(st) && (s1, g1) != (s2, g2) && IntKey(s1, g1) !in st.intTypes
    ensures var (st1, a) := IntGet(st, s1, g1);
      var (st2, b) := IntGet(st1, s2, g2);
      a != b
  {
    var (st1, a) := IntGet(st, s1, g1);
    if IntKey(s1, g1) == IntKey(s2, g2) {
      IntKeyInjective(s1, g1, s2, g2);
    }
  }

  // ---------------------------------------------------------------------------
  // Descriptions

  /** `typeDescStr`. The guards never fail in a well-formed store; they only make the
      recursion visibly follow children created earlier. */
  function DescStr(st: Store, t: TypeId): (d: string)
    ensures |d| >= 1
    ensures t < |st.nodes| ==>
      (st.nodes[t].RefT? <==> d[0] == '&') && (st.nodes[t].PkgT? <==> d[0] == '{')
      && (st.nodes[t].FuncT? <==> d[0] == '(')
    decreases t, 1
  {
    if t >= |st.nodes| then "?"
    else match st.nodes[t]
      case PkgT(p) => "{" + p + "}"
      case Base(k) => BaseDesc(k)
      case IntT(size, signed) => IntDesc(size, signed)
      case FuncT(args, ret) =>
        "(" + ArgsDesc(st, args, t) + ") -> " + (if ret < t then DescStr(st, ret) else "?")
      case RefT(p) => "&" + (if p < t then DescStr(st, p) else "?")
  }

  function BaseDesc(k: BaseKind): string {
    match k
    case BtVoid => "void"
    case BtBool => "bool"
    case BtFloat => "float"
  }

  /** Signed integers render as "s<size>i" and unsigned ones as "i<size>i". */
  function IntDesc(size: int, signed: bool): (s: string)
    ensures |s| >= 3 && s[|s| - 1] == 'i'
    ensures s[0] == (if signed then 's' else 'i')
    ensures s[1..|s| - 1] == IntToStr(size)
  {
    var s := (if signed then "s" else "i") + IntToStr(size) + "i";
    assert s[1..|s| - 1] == IntToStr(size);
    s
  }

  /** "a : T, b : U" for an argument list. */
  function ArgsDesc(st: Store, args: seq<Arg>, bound: TypeId): string
    decreases bound, 0, |args|
  {
    if |args| == 0 then ""
    else
      var first := args[0].name + " : " + (if args[0].ty < bound then DescStr(st, args[0].ty) else "?");
      if |args| == 1 then first else first + ", " + ArgsDesc(st, args[1..], bound)
  }

  /** Reading an integer description back: a description determines the
      signedness and the size of the integer type it describes. */
  lemma IntDescInjective(s1: nat, g1: bool, s2: nat, g2: bool)
    requires IntDesc(s1, g1) == IntDesc(s2, g2)
    ensures s1 == s2 && g1 == g2
  {
    var d := IntDesc(s1, g1);
    assert d[0] == IntDesc(s2, g2)[0];
    assert NatToStr(s1) == d[1..|d| - 1] == NatToStr(s2);
    NatToStrRoundTrip(s1);
    NatToStrRoundTrip(s2);
  }

  /** The unsigned 8-bit global describes itself as "i8i", not "u8i". */
  lemma U8IDesc()
    ensures DescStr(InitialStore, U8I) == "i8i"
  {
    assert IntToStr(8) == "8";
  }

  // ---------------------------------------------------------------------------
  // Function types

  /** The interning key of a function type, "(name:desc,...)->desc": argument names
      are part of it. */
  function FuncKey(st: Store, args: seq<Arg>, ret: TypeId): string {
    "(" + ArgsKey(st, args) + ")->" + DescStr(st, ret)
  }

  function ArgsKey(st: Store, args: seq<Arg>): string {
    if |args| == 0 then ""
    else
      var first := args[0].name + ":" + DescStr(st, args[0].ty);
      if |args| == 1 then first else first + "," + ArgsKey(st, args[1..])
  }

  /** `FuncTypeAST::Get`. On a miss a new object holding the caller's arguments is
      stored; on a hit the caller's arguments are dropped and the stored entry is
      returned. */
  function FuncGet(st: Store, args: seq<Arg>, ret: TypeId): (r: (Store, TypeId))
    requires WF(st) && ChildrenBelow(FuncT(args, ret), |st.nodes|)
    ensures WF(r.0) && Extends(st, r.0) && Valid(r.0, r.1) && r.0.nodes[r.1].FuncT?
    ensures FuncKey(st, args, ret) in r.0.funcTypes
    ensures r.0.funcTypes[FuncKey(st, args, ret)] == r.1
    ensures FuncKey(st, args, ret) in st.funcTypes ==>
      r.0 == st && r.1 == st.funcTypes[FuncKey(st, args, ret)]
    ensures FuncKey(st, args, ret) !in st.funcTypes ==> r.0.nodes[r.1] == FuncT(args, ret)
    ensures r.0.funcTypes == st.funcTypes[FuncKey(st, args, ret) := r.1]
  {
    var key := FuncKey(st, args, ret);
    if key in st.funcTypes then (st, st.funcTypes[key])
    else
      var id := |st.nodes|;
      var st2 := st.(nodes := st.nodes + [FuncT(args, ret)], funcTypes := st.funcTypes[key := id]);
      assert st2.nodes[id] == FuncT(args, ret);
      (st2, id)
  }

  lemma CancelSuffix(a: string, b: string, tail: string)
    ensures a + tail == b + tail ==> a == b
  {
    if a + tail == b + tail {
      assert |a| == |b|;
      assert a == (a + tail)[..|a|];
      assert b == (b + tail)[..|b|];
    }
  }

  /** Two one-argument signatures that differ only in the argument's name get
      different interning keys. */
  lemma FuncKeyNamesMatter(st: Store, n1: string, n2: string, t: TypeId, ret: TypeId)
    requires n1 != n2
    ensures FuncKey(st, [Arg(n1, t)], ret) != FuncKey(st, [Arg(n2, t)], ret)
  {
    var dt, dr := DescStr(st, t), DescStr(st, ret);
    assert ArgsKey(st, [Arg(n1, t)]) == n1 + ":" + dt;
    assert ArgsKey(st, [Arg(n2, t)]) == n2 + ":" + dt;
    OneArgKeyNames(n1, n2, dt, dr);
  }

  /** The key text of a one-argument signature determines the argument's name. */
  lemma OneArgKeyNames(n1: string, n2: string, dt: string, dr: string)
    requires n1 != n2
    ensures "(" + (n1 + ":" + dt) + ")->" + dr != "(" + (n2 + ":" + dt) + ")->" + dr
  {
    var tail := ":" + dt + ")->" + dr;
    assert "(" + (n1 + ":" + dt) + ")->" + dr == "(" + n1 + tail;
    assert "(" + (n2 + ":" + dt) + ")->" + dr == "(" + n2 + tail;
    assert ("(" + n1)[1..] == n1 && ("(" + n2)[1..] == n2;
    CancelSuffix("(" + n1, "(" + n2, tail);
  }

  // ---------------------------------------------------------------------------
  // Structural equality

  /** `eq`, dispatched on the kind of `a`: packages by identity, base and integer
      types by their fields, references by identity or by pointee, function types by
      return type, arity and argument types (names ignored). */
  function Eq(st: Store, a: TypeId, b: TypeId): (r: bool)
    ensures r ==> a < |st.nodes| && b < |st.nodes|
    ensures r && (st.nodes[a].Base? || st.nodes[a].IntT?) ==> st.nodes[b] == st.nodes[a]
    ensures r && st.nodes[a].PkgT? ==> a == b
    ensures r && st.nodes[a].FuncT? ==> st.nodes[b].FuncT? && |st.nodes[b].args| == |st.nodes[a].args|
    ensures r && st.nodes[a].RefT? ==> st.nodes[b].RefT?
    decreases a + b, 1
  {
    if a >= |st.nodes| || b >= |st.nodes| then false
    else match st.nodes[a]
      case PkgT(_) => a == b
      case Base(k) => st.nodes[b] == Base(k)
      case IntT(size, signed) => st.nodes[b] == IntT(size, signed)
      case FuncT(args, ret) =>
        (match st.nodes[b]
         case FuncT(args2, ret2) =>
           ret2 < b && ret < a && Eq(st, ret2, ret) && |args| == |args2|
           && ArgsEq(st, args, args2, a, b)
         case _ => false)
      case RefT(p) =>
        a == b
        || (match st.nodes[b]
            case RefT(q) => p < a && q < b && Eq(st, p, q)
            case _ => false)
  }

  /** Pairwise `eq` of argument types below the two bounds. */
  function ArgsEq(st: Store, args: seq<Arg>, args2: seq<Arg>, a: TypeId, b: TypeId): bool
    requires |args| == |args2|
    decreases a + b, 0, |args|
  {
    if |args| == 0 then true
    else
      args[0].ty < a && args2[0].ty < b && Eq(st, args[0].ty, args2[0].ty)
      && ArgsEq(st, args[1..], args2[1..], a, b)
  }

  /** Every object of a well-formed store is `eq` to itself. */
  lemma {:induction false} EqRefl(st: Store, a: TypeId)
    requires WF(st) && Valid(st, a)
    ensures Eq(st, a, a)
    decreases a, 1
  {
    match st.nodes[a]
    case FuncT(args, ret) =>
      assert ChildrenBelow(st.nodes[a], a);
      EqRefl(st, ret);
      ArgsEqRefl(st, args, a);
    case _ =>
  }

  lemma {:induction false} ArgsEqRefl(st: Store, args: seq<Arg>, a: TypeId)
    requires WF(st) && a < |st.nodes|
    requires forall i :: 0 <= i < |args| ==> args[i].ty < a
    ensures ArgsEq(st, args, args, a, a)
    decreases a, 0, |args|
  {
    if |args| > 0 {
      EqRefl(st, args[0].ty);
      ArgsEqRefl(st, args[1..], a);
    }
  }

  /** `eq` does not depend on which side dispatches. */
  lemma {:induction false} EqSym(st: Store, a: TypeId, b: TypeId)
    requires Eq(st, a, b)
    ensures Eq(st, b, a)
    decreases a + b, 1
  {
    match st.nodes[a]
    case FuncT(args, ret) =>
      var args2 := st.nodes[b].args;
      var ret2 := st.nodes[b].ret;
      EqSym(st, ret2, ret);
      ArgsEqSym(st, args, args2, a, b);
    case RefT(p) =>
      if a != b {
        EqSym(st, p, st.nodes[b].pointee);
      }
    case _ =>
  }

  lemma {:induction false} ArgsEqSym(st: Store, args: seq<Arg>, args2: seq<Arg>, a: TypeId, b: TypeId)
    requires |args| == |args2| && ArgsEq(st, args, args2, a, b)
    ensures ArgsEq(st, args2, args, b, a)
    decreases a + b, 0, |args|
  {
    if |args| > 0 {
      EqSym(st, args[0].ty, args2[0].ty);
      ArgsEqSym(st, args[1..], args2[1..], a, b);
    }
  }

  /** Two interned function types whose signatures differ only in an argument name
      are distinct objects, yet `eq` to each other. */
  lemma FuncNamesIgnoredByEq(st: Store, n1: string, n2: string, t: TypeId, ret: TypeId)
    requires WF(st) && Valid(st, t) && Valid(st, ret) && n1 != n2
    requires FuncKey(st, [Arg(n1, t)], ret) !in st.funcTypes
    requires FuncKey(st, [Arg(n2, t)], ret) !in st.funcTypes
    ensures var r1 := FuncGet(st, [Arg(n1, t)], ret);
      var r2 := FuncGet(r1.0, [Arg(n2, t)], ret);
      r1.1 != r2.1 && Eq(r2.0, r1.1, r2.1)
  {
    var r1 := FuncGet(st, [Arg(n1, t)], ret);
    SecondKeyAbsent(st, r1.0, r1.1, n1, n2, t, ret);
    var r2 := FuncGet(r1.0, [Arg(n2, t)], ret);
    SecondFuncObject(st, r1.0, r2.0, r1.1, r2.1, n1, n2, t, ret);
    SameSignatureEq(r2.0, r1.1, r2.1, n1, n2, t, ret);
  }

  /** After interning the first signature, the second one's key is still absent. */
  lemma SecondKeyAbsent(st: Store, st1: Store, f1: TypeId, n1: string, n2: string, t: TypeId, ret: TypeId)
    requires WF(st) && Valid(st, t) && Valid(st, ret) && n1 != n2
    requires FuncKey(st, [Arg(n2, t)], ret) !in st.funcTypes
    requires Extends(st, st1) && st1.funcTypes == st.funcTypes[FuncKey(st, [Arg(n1, t)], ret) := f1]
    ensures FuncKey(st1, [Arg(n2, t)], ret) !in st1.funcTypes
  {
    FuncKeyNamesMatter(st, n1, n2, t, ret);
    FuncKeyStable(st, st1, [Arg(n2, t)], ret);
  }

  /** The object made by the first `Get` keeps its node, and the second is new. */
  lemma SecondFuncObject(st: Store, st1: Store, st2: Store, f1: TypeId, f2: TypeId, n1: string, n2: string,
                         t: TypeId, ret: TypeId)
    requires Extends(st1, st2) && Valid(st1, f1) && Valid(st2, f2)
    requires st1.nodes[f1] == FuncT([Arg(n1, t)], ret) && st2.nodes[f2] == FuncT([Arg(n2, t)], ret)
    requires n1 != n2
    ensures st2.nodes[f1] == FuncT([Arg(n1, t)], ret) && f1 != f2
  {
    assert st2.nodes[f1] == st1.nodes[f1];
  }

  /** Two function objects with one argument of the same type and the same return
      type are `eq`, whatever the argument names. */
  lemma SameSignatureEq(st: Store, f1: TypeId, f2: TypeId, n1: string, n2: string, t: TypeId, ret: TypeId)
    requires WF(st) && Valid(st, f1) && Valid(st, f2)
    requires st.nodes[f1] == FuncT([Arg(n1, t)], ret) && st.nodes[f2] == FuncT([Arg(n2, t)], ret)
    ensures Eq(st, f1, f2)
  {
    EqRefl(st, t);
    EqRefl(st, ret);
    assert ArgsEq(st, [Arg(n1, t)], [Arg(n2, t)], f1, f2);
  }

  /** Descriptions of existing objects do not change when the store grows. */
  lemma {:induction false} DescStable(st: Store, st2: Store, t: TypeId)
    requires Extends(st, st2) && Valid(st, t)
    ensures DescStr(st2, t) == DescStr(st, t)
    decreases t, 1
  {
    assert st2.nodes[t] == st.nodes[t];
    match st.nodes[t]
    case FuncT(args, ret) =>
      if ret < t { DescStable(st, st2, ret); }
      ArgsDescStable(st, st2, args, t);
    case RefT(p) =>
      if p < t { DescStable(st, st2, p); }
    case _ =>
  }

  lemma {:induction false} ArgsDescStable(st: Store, st2: Store, args: seq<Arg>, bound: TypeId)
    requires Extends(st, st2) && bound < |st.nodes|
    ensures ArgsDesc(st2, args, bound) == ArgsDesc(st, args, bound)
    decreases bound, 0, |args|
  {
    if |args| > 0 {
      if args[0].ty < bound { DescStable(st, st2, args[0].ty); }
      ArgsDescStable(st, st2, args[1..], bound);
    }
  }

  lemma {:induction false} ArgsKeyStable(st: Store, st2: Store, args: seq<Arg>)
    requires Extends(st, st2)
    requires forall i :: 0 <= i < |args| ==> Valid(st, args[i].ty)
    ensures ArgsKey(st2, args) == ArgsKey(st, args)
  {
    if |args| > 0 {
      DescStable(st, st2, args[0].ty);
      ArgsKeyStable(st, st2, args[1..]);
    }
  }

  /** A function type's interning key does not change when the store grows. */
  lemma FuncKeyStable(st: Store, st2: Store, args: seq<Arg>, ret: TypeId)
    requires Extends(st, st2) && Valid(st, ret)
    requires forall i :: 0 <= i < |args| ==> Valid(st, args[i].ty)
    ensures FuncKey(st2, args, ret) == FuncKey(st, args, ret)
  {
    DescStable(st, st2, ret);
    ArgsKeyStable(st, st2, args);
  }

  // ---------------------------------------------------------------------------
  // Dereferencing and conversions

  /** `canDeref`: a reference to anything but a function. */
  predicate CanDeref(st: Store, t: TypeId): (r: bool)
    ensures r ==> IsRef(st, t) && Valid(st, st.nodes[t].pointee)
  {
    t < |st.nodes| && st.nodes[t].RefT? && st.nodes[t].pointee < |st.nodes|
    && !st.nodes[st.nodes[t].pointee].FuncT?
  }

  predicate IsInt(st: Store, t: TypeId) {
    t < |st.nodes| && st.nodes[t].IntT?
  }

  predicate IsFloat(st: Store, t: TypeId) {
    t < |st.nodes| && st.nodes[t] == Base(BtFloat)
  }

  predicate IsRef(st: Store, t: TypeId) {
    t < |st.nodes| && st.nodes[t].RefT?
  }

  /** The conversions `castCodegen` can emit, without the backend. */
  datatype Conversion = Identity | SIToFP | UIToFP | IntCast(signed: bool) | FPToSI | FPToUI

  /** `castCodegen`: which conversion turns a value of type `from` into one of type
      `to`, or None when the cast is refused. */
  function CastChoice(st: Store, to: TypeId, from: TypeId): (r: Option<Conversion>)
    ensures r.Some? ==> Valid(st, to) && Valid(st, from)
    ensures r == Some(Identity) ==> Eq(st, to, from)
  {
    if to >= |st.nodes| || from >= |st.nodes| then None
    else match st.nodes[to]
      case Base(k) =>
        if k != BtFloat then None
        else if st.nodes[from].IntT? then Some(if st.nodes[from].signed then SIToFP else UIToFP)
        else None
      case IntT(_, signed) =>
        if st.nodes[from].IntT? then Some(IntCast(signed))
        else if st.nodes[from] == Base(BtFloat) then Some(if signed then FPToSI else FPToUI)
        else None
      case _ => if Eq(st, to, from) then Some(Identity) else None
  }

  /** What each conversion means: the kinds of types it goes between. */
  predicate Converts(st: Store, c: Conversion, to: TypeId, from: TypeId) {
    Valid(st, to) && Valid(st, from) &&
    match c
    case Identity => !st.nodes[to].Base? && !st.nodes[to].IntT? && Eq(st, to, from)
    case SIToFP => IsFloat(st, to) && IsInt(st, from) && st.nodes[from].signed
    case UIToFP => IsFloat(st, to) && IsInt(st, from) && !st.nodes[from].signed
    case IntCast(s) => IsInt(st, to) && IsInt(st, from) && s == st.nodes[to].signed
    case FPToSI => IsInt(st, to) && IsFloat(st, from) && st.nodes[to].signed
    case FPToUI => IsInt(st, to) && IsFloat(st, from) && !st.nodes[to].signed
  }

  /** The chosen conversion always fits the two types, and a conversion that fits
      is the one chosen: float targets take only integers, integer targets take
      integers and floats, every other target only an `eq` type. */
  lemma CastChoiceSound(st: Store, to: TypeId, from: TypeId)
    requires Valid(st, to) && Valid(st, from)
    ensures CastChoice(st, to, from).Some? ==> Converts(st, CastChoice(st, to, from).value, to, from)
    ensures forall c :: Converts(st, c, to, from) ==> CastChoice(st, to, from) == Some(c)
  {
  }

  /** A float-to-float cast is refused: the float target accepts integers only. */
  lemma FloatToFloatRefused(st: Store)
    requires WF(st) && |st.nodes| > FLOAT && st.nodes[FLOAT] == Base(BtFloat)
    ensures CastChoice(st, FLOAT, FLOAT).None?
  {
  }
}

=== FILE: v1_ast.dfy ===
/** The syntax tree of the first pipeline (src-v1/AST.h) and its typing rules
    (src-v1/AST.cpp). Types are plain values here: the first pipeline has no interning
    and compares nothing by identity. */
module V1Ast {
  import opened Wrappers
  import opened V1Lexer

  /** `BaseTypeE`. */
  datatype BaseKind = VoidK | BoolK | IntK | FloatK

  /** `TypeAST`: a base type or a function type (`FuncTypeAST`). */
  datatype Ty = Base(kind: BaseKind) | FuncTy(args: seq<FuncArg>, ret: Ty)

  /** `FuncArgAST`: a named argument. */
  datatype FuncArg = FuncArg(name: string, ty: Ty)

  /** `ExprAST` and its subclasses. `Null` is a null node pointer: the parser can leave
      one behind as the left operand of an operator or the callee of a call. A function
      literal keeps its `FuncTypeAST` as its argument list and return type. */
  datatype Expr =
    | Null
    | BoolE(tag: FTag, b: bool)
    | IntE(tag: FTag, n: nat)
    | FloatE(tag: FTag, text: string)
    | VarE(tag: FTag, name: string)
    | BinaryE(tag: FTag, op: string, lhs: Expr, rhs: Expr)
    | CallE(tag: FTag, callee: Expr, args: seq<Expr>)
    | BlockE(tag: FTag, body: seq<Expr>)
    | ReturnE(tag: FTag, val: Expr)
    | FuncE(tag: FTag, params: seq<FuncArg>, ret: Ty, code: Expr)
    | ExternE(tag: FTag, ety: Option<Ty>, sym: string)

  /** `DefAST`: a `let` definition with its optional declared type. */
  datatype Def = Def(tag: FTag, ty: Option<Ty>, name: string, val: Expr)

  /** `ImportAST`. */
  datatype Import = Import(tag: FTag, path: seq<string>, alias: string)

  /** A package's symbol table as the typing rules see it: a name may map to a null
      definition, which a lookup of an unknown name leaves behind. */
  type Symbols = map<string, Option<Def>>

  /** What `type()` yields: the type (null when unknown), the symbol table after the
      lookups it made, and the "Type Error" lines it printed. */
  datatype Typed = Typed(ty: Option<Ty>, syms: Symbols, errors: seq<string>)

  const NotAFunction := "Calling something that is not a function."

  /** `errorTA`: the line printed for a type error at `tag`. */
  function TypeError(tag: FTag, msg: string): string {
    tag.Str() + " Type Error: " + msg
  }

  /** Whether computing the type follows a null pointer: the typing rules descend into
      the right operand of an operator, the callee of a call and the value of a return. */
  predicate ReachesNull(e: Expr) {
    match e
    case Null => true
    case BinaryE(_, _, _, rhs) => ReachesNull(rhs)
    case CallE(_, callee, _) => ReachesNull(callee)
    case ReturnE(_, v) => ReachesNull(v)
    case _ => false
  }

  /** The names whose lookup the typing rules perform. */
  function Looked(e: Expr): set<string> {
    match e
    case VarE(_, name) => {name}
    case BinaryE(_, _, _, rhs) => Looked(rhs)
    case CallE(_, callee, _) => Looked(callee)
    case ReturnE(_, v) => Looked(v)
    case _ => {}
  }

  /** `ExprAST::type`. Following a null pointer is a crash and yields no result. A
      lookup keeps every existing entry and only adds null entries, for names it
      looked up; a type error is reported only by a call. */
  function TypeOf(syms: Symbols, e: Expr): (r: Option<Typed>)
    ensures r.Some? <==> !ReachesNull(e)
    ensures r.Some? ==> syms.Keys <= r.value.syms.Keys <= syms.Keys + Looked(e)
    ensures r.Some? ==> forall n :: n in syms ==> r.value.syms[n] == syms[n]
    ensures r.Some? ==> forall n :: n in r.value.syms && n !in syms ==> r.value.syms[n].None?
    ensures r.Some? && !e.CallE? && !e.BinaryE? && !e.ReturnE? ==> r.value.errors == []
  {
    match e
    case Null => None
    case BoolE(_, _) => Some(Typed(Some(Base(BoolK)), syms, []))
    case IntE(_, _) => Some(Typed(Some(Base(IntK)), syms, []))
    case FloatE(_, _) => Some(Typed(Some(Base(FloatK)), syms, []))
    case VarE(_, name) =>
      if name !in syms then Some(Typed(None, syms[name := None], []))
      else if syms[name].None? then Some(Typed(None, syms, []))
      else Some(Typed(syms[name].value.ty, syms, []))
    case BinaryE(_, _, _, rhs) => TypeOf(syms, rhs)
    case CallE(tag, callee, _) =>
      var c :- TypeOf(syms, callee);
      if c.ty.Some? && c.ty.value.FuncTy? then Some(Typed(Some(c.ty.value.ret), c.syms, c.errors))
      else Some(Typed(None, c.syms, c.errors + [TypeError(tag, NotAFunction)]))
    case BlockE(_, _) => Some(Typed(Some(Base(VoidK)), syms, []))
    case ReturnE(_, v) => TypeOf(syms, v)
    case ExternE(_, ty, _) => Some(Typed(ty, syms, []))
    case FuncE(_, params, ret, _) => Some(Typed(Some(FuncTy(params, ret)), syms, []))
  }

  // ---------------------------------------------------------------------------
  // Properties

  /** The node whose type an expression takes: operators and returns pass their right
      operand's or value's type through unchanged. */
  function Spine(e: Expr): (s: Expr)
    ensures !s.BinaryE? && !s.ReturnE?
    ensures s == e || s < e
  {
    match e
    case BinaryE(_, _, _, rhs) => Spine(rhs)
    case ReturnE(_, v) => Spine(v)
    case _ => e
  }

  /** Typing an operator chain or a return is typing its spine node: the type of
      `a + b * c` is the type of `c`, and `return e` has the type of `e`. */
  lemma {:induction false} TypeIsSpineType(syms: Symbols, e: Expr)
    ensures TypeOf(syms, e) == TypeOf(syms, Spine(e))
  {
    match e
    case BinaryE(_, _, _, rhs) => TypeIsSpineType(syms, rhs);
    case ReturnE(_, v) => TypeIsSpineType(syms, v);
    case _ =>
  }

  /** Typing twice gives the same answer: the second time every name looked up is
      already in the table, so nothing is inserted, and the same errors are reported
      again. */
  lemma {:induction false} TypeOfIdempotent(syms: Symbols, e: Expr)
    requires !ReachesNull(e)
    ensures TypeOf(TypeOf(syms, e).value.syms, e).value.ty == TypeOf(syms, e).value.ty
    ensures TypeOf(TypeOf(syms, e).value.syms, e).value.syms == TypeOf(syms, e).value.syms
    ensures TypeOf(TypeOf(syms, e).value.syms, e).value.errors == TypeOf(syms, e).value.errors
  {
    match e
    case BinaryE(_, _, _, rhs) => TypeOfIdempotent(syms, rhs);
    case ReturnE(_, v) => TypeOfIdempotent(syms, v);
    case CallE(_, callee, _) => TypeOfIdempotent(syms, callee);
    case _ =>
  }

  /** A table that already holds every name looked up is left unchanged. */
  lemma {:induction false} TypeOfKeepsFullTable(syms: Symbols, e: Expr)
    requires !ReachesNull(e) && Looked(e) <= syms.Keys
    ensures TypeOf(syms, e).value.syms == syms
  {
    match e
    case BinaryE(_, _, _, rhs) => TypeOfKeepsFullTable(syms, rhs);
    case ReturnE(_, v) => TypeOfKeepsFullTable(syms, v);
    case CallE(_, callee, _) => TypeOfKeepsFullTable(syms, callee);
    case _ =>
  }

  /** A variable has the declared type of the package-level definition of that name;
      an unknown name has no type and leaves a null entry behind, so that the name is
      known, still without a type, from then on. */
  lemma VarType(syms: Symbols, tag: FTag, tag2: FTag, name: string)
    ensures name in syms && syms[name].Some? ==>
      TypeOf(syms, VarE(tag, name)) == Some(Typed(syms[name].value.ty, syms, []))
    ensures name !in syms ==>
      var r := TypeOf(syms, VarE(tag, name)).value;
      r.ty.None? && r.syms.Keys == syms.Keys + {name} && r.syms[name].None? &&
      TypeOf(r.syms, VarE(tag2, name)) == Some(Typed(None, r.syms, []))
  {
  }

  /** Calling a name defined with a function type has that type's return type, with
      no error; calling anything else has no type and reports one error at the call. */
  lemma CallType(syms: Symbols, tag: FTag, callee: Expr, args: seq<Expr>)
    requires !ReachesNull(callee)
    ensures var c := TypeOf(syms, callee).value;
      var r := TypeOf(syms, CallE(tag, callee, args)).value;
      r.syms == c.syms &&
      (c.ty.Some? && c.ty.value.FuncTy? ==> r.ty == Some(c.ty.value.ret) && r.errors == c.errors) &&
      (!(c.ty.Some? && c.ty.value.FuncTy?) ==> r.ty.None? && r.errors == c.errors + [TypeError(tag, NotAFunction)])
  {
  }

  /** A chain of calls on a function-typed name peels one return type per call. */
  lemma CallOfDefinedFunction(syms: Symbols, tag: FTag, vtag: FTag, f: string, d: Def, params: seq<FuncArg>,
                              ret: Ty, args: seq<Expr>)
    requires f in syms && syms[f] == Some(d) && d.ty == Some(FuncTy(params, ret))
    ensures TypeOf(syms, CallE(tag, VarE(vtag, f), args)) == Some(Typed(Some(ret), syms, []))
  {
  }
}

=== FILE: v1_lexer.dfy ===
/** The lexer of the first pipeline (src-v1/Lexer.h, src-v1/Lexer.cpp). It differs
    from the current one in its keyword set, in having no table of multi-character
    operators (an operator absorbs every following character of a fixed set), and in
    tagging positions by file and line only. */
module V1Lexer {
  import opened Text
  import opened Scanner

  /** The token kinds, in the order of the source's enumeration. */
  datatype TokKind =
    | TokEof | TokIdentifier | TokFloat | TokInt | TokOperator
    | TokTrue | TokFalse
    | TokImport | TokAs | TokExtern | TokType | TokConst | TokLet | TokFunc
    | TokReturn | TokIf | TokWhile

  /** The reserved words. */
  const Keywords: set<string> := {
    "true", "false", "import", "as", "extern", "type", "const", "let", "func",
    "return", "if", "while"}

  /** Kind of a scanned word: its keyword kind if it is reserved, else identifier. */
  function WordKind(word: string): (k: TokKind)
    ensures k != TokIdentifier <==> word in Keywords
    ensures k !in {TokEof, TokFloat, TokInt, TokOperator}
  {
    if word == "true" then TokTrue
    else if word == "false" then TokFalse
    else if word == "import" then TokImport
    else if word == "as" then TokAs
    else if word == "extern" then TokExtern
    else if word == "type" then TokType
    else if word == "const" then TokConst
    else if word == "let" then TokLet
    else if word == "func" then TokFunc
    else if word == "return" then TokReturn
    else if word == "if" then TokIf
    else if word == "while" then TokWhile
    else TokIdentifier
  }

  predicate IsWordChar(c: char) {
    IsAlnum(c) || c == '_'
  }

  predicate IsNumChar(c: char) {
    IsDigit(c) || c == '.'
  }

  /** The characters an operator token absorbs after its first one. */
  predicate Absorbs(c: char) {
    c == '+' || c == '-' || c == ':' || c == '*' || c == '/' || c == '>' || c == '<'
  }

  /** A position: file name and line (`FTag`). */
  datatype FTag = FTag(file: string, line: int) {
    /** Rendering `[file:line]`. */
    function Str(): (s: string)
      ensures |s| > |file| + 2 && s[0] == '[' && s[1..|file| + 1] == file && s[|file| + 1] == ':'
      ensures s[|s| - 1] == ']'
      ensures s[|file| + 2 .. |s| - 1] == IntToStr(line)
    {
      var head := "[" + file + ":";
      var s := head + IntToStr(line) + "]";
      assert s[..|head|] == head;
      assert s[|head| .. |s| - 1] == IntToStr(line);
      s
    }
  }

  /** Lexer state: the file name, the reading position, the kind and text of the
      current token, and the text of the last numeric token. */
  datatype LexState = LexState(file: string, cur: Cursor, tok: TokKind, tokStr: string, tokNum: string)
  {
    /** `tokInt`: what `atol` reads from the last numeric token. */
    function TokInt(): nat {
      LeadingValue(tokNum)
    }

    /** `tag()`: the current file and line. */
    function Tag(): FTag {
      FTag(file, cur.line)
    }
  }

  /** A word: the longest run of letters, digits and '_'; a reserved word lexes to
      its keyword kind. */
  function ScanWord(s: LexState, c: Cursor): (r: LexState)
    requires |c.rest| > 0 && (IsAlpha(c.rest[0]) || c.rest[0] == '_')
    ensures Later(c, r.cur) && r.tokStr == Consumed(c, r.cur) && r.tokStr != ""
    ensures forall i :: 0 <= i < |r.tokStr| ==> IsWordChar(r.tokStr[i])
    ensures |r.cur.rest| > 0 ==> !IsWordChar(r.cur.rest[0])
    ensures r.tok == WordKind(r.tokStr) && r.tok != TokEof
    ensures r.cur.line == c.line && r.tokNum == s.tokNum && r.file == s.file
  {
    var w := ReadWhile(c, [c.rest[0]], IsWordChar);
    assert w.text == Consumed(c, w.cur);
    s.(cur := w.cur, tok := WordKind(w.text), tokStr := w.text)
  }

  /** A number: the longest run of digits and '.'; it is a float exactly when it
      contains a '.'. */
  function ScanNumber(s: LexState, c: Cursor): (r: LexState)
    requires |c.rest| > 0 && IsNumChar(c.rest[0])
    ensures Later(c, r.cur) && r.tokStr == Consumed(c, r.cur) && r.tokStr != ""
    ensures forall i :: 0 <= i < |r.tokStr| ==> IsNumChar(r.tokStr[i])
    ensures |r.cur.rest| > 0 ==> !IsNumChar(r.cur.rest[0])
    ensures r.tok == TokFloat <==> '.' in r.tokStr
    ensures r.tok == TokInt <==> '.' !in r.tokStr
    ensures r.tokNum == r.tokStr
    ensures r.cur.line == c.line && r.file == s.file
  {
    var n := ReadWhile(c, [c.rest[0]], IsNumChar);
    assert n.text == Consumed(c, n.cur);
    s.(cur := n.cur, tok := if '.' in n.text then TokFloat else TokInt,
       tokStr := n.text, tokNum := n.text)
  }

  /** An operator: its first character, then every following character that the
      operator set absorbs. */
  function ScanOperator(s: LexState, c: Cursor): (r: LexState)
    requires |c.rest| > 0
    ensures Later(c, r.cur) && r.tokStr == Consumed(c, r.cur) && r.tokStr != ""
    ensures r.tokStr[0] == c.rest[0]
    ensures forall i :: 1 <= i < |r.tokStr| ==> Absorbs(r.tokStr[i])
    ensures |r.cur.rest| > 0 ==> !Absorbs(r.cur.rest[0])
    ensures r.tok == TokOperator
    ensures r.cur.line == c.line && r.tokNum == s.tokNum && r.file == s.file
  {
    var o := ReadWhile(c, [c.rest[0]], Absorbs);
    assert o.text == Consumed(c, o.cur);
    s.(cur := o.cur, tok := TokOperator, tokStr := o.text)
  }

  /** The result of a `gettok` whose lookahead is the start of a token (no blank). */
  function ScanToken(s: LexState, c: Cursor): (r: LexState)
    requires !AtSpace(c)
    ensures r.file == s.file
    ensures Later(c, r.cur)
    ensures r.tok != TokEof ==> |r.cur.rest| < |c.rest|
    ensures r.tokStr == "" ==> |r.cur.rest| == 0
    ensures |c.rest| == 0 || c.rest[0] != '#' ==> c.rest == r.tokStr + r.cur.rest
    decreases |c.rest|, 0
  {
    if |c.rest| == 0 then s.(cur := c, tok := TokEof, tokStr := "")
    else
      var ch := c.rest[0];
      if IsAlpha(ch) || ch == '_' then
        var r := ScanWord(s, c);
        ConsumedSplit(c, r.cur);
        r
      else if IsNumChar(ch) then
        var r := ScanNumber(s, c);
        ConsumedSplit(c, r.cur);
        r
      else if ch == '#' then
        var c2 := SkipComment(c);
        if |c2.rest| == 0 then s.(cur := c2, tokStr := "")
        else
          var r := GetTok(s.(cur := c2));
          LaterTrans(c, c2, r.cur);
          r
      else
        var r := ScanOperator(s, c);
        ConsumedSplit(c, r.cur);
        r
  }

  /** `gettok()`: skip blanks (counting lines) and comments, then scan one token. */
  function GetTok(s: LexState): (r: LexState)
    ensures r.file == s.file
    ensures Later(s.cur, r.cur)
    ensures r.tok != TokEof ==> |r.cur.rest| < |s.cur.rest|
    ensures r.tokStr == "" ==> |r.cur.rest| == 0
    ensures var c := SkipSpace(s.cur); |c.rest| == 0 || c.rest[0] != '#' ==>
      s.cur.rest == Consumed(s.cur, c) + r.tokStr + r.cur.rest
    decreases |s.cur.rest|, 1
  {
    var c := SkipSpace(s.cur);
    var r := ScanToken(s, c);
    SpaceThenToken(s.cur, c, r.cur, r.tokStr);
    r
  }

  /** The constructor: line 1, a blank lookahead, and the first token scanned. The
      C++ leaves `tok` uninitialised before that first `gettok`; the model starts it
      at TokEof, which shows only when the whole text is one comment (see
      CommentAtEnd). */
  function NewLexer(file: string, text: string): (s: LexState)
    ensures s.file == file
    ensures Later(Start(text), s.cur)
    ensures s.tokStr == "" ==> |s.cur.rest| == 0
  {
    GetTok(LexState(file, Start(text), TokEof, "", ""))
  }

  // ---------------------------------------------------------------------------
  // The token sequence

  /** A snapshot of the lexer after one `gettok`, as the parser sees it. */
  datatype Token = Token(kind: TokKind, text: string, num: string, tag: FTag) {
    function IntVal(): nat {
      LeadingValue(num)
    }
  }

  function Snapshot(s: LexState): Token {
    Token(s.tok, s.tokStr, s.tokNum, s.Tag())
  }

  /** Characters left to lex, plus one while the current token is not EOF. */
  function Remaining(s: LexState): nat {
    |s.cur.rest| + (if s.tok == TokEof then 0 else 1)
  }

  /** A token sequence of the shape `gettok` produces: EOF last and nowhere else. */
  predicate EndsAtEof(ts: seq<Token>) {
    |ts| >= 1 && ts[|ts| - 1].kind == TokEof
    && forall i :: 0 <= i < |ts| - 1 ==> ts[i].kind != TokEof
  }

  function Cons(t: Token, rest: seq<Token>): (ts: seq<Token>)
    requires t.kind != TokEof && EndsAtEof(rest)
    ensures EndsAtEof(ts) && ts[0] == t && ts[1..] == rest
  {
    var ts := [t] + rest;
    assert forall i :: 1 <= i < |ts| ==> ts[i] == rest[i - 1];
    ts
  }

  /** At end of input (after any blanks) the token is EOF, with empty text. */
  lemma EndIsEof(s: LexState)
    requires |SkipSpace(s.cur).rest| == 0
    ensures GetTok(s).tok == TokEof && GetTok(s).tokStr == ""
  {
    var c := SkipSpace(s.cur);
    assert GetTok(s) == ScanToken(s, c);
  }

  lemma GetTokProgress(s: LexState)
    requires s.tok != TokEof
    ensures Remaining(GetTok(s)) < Remaining(s)
  {
  }

  /** The current token followed by every token `gettok` yields up to end of input. */
  function Tokens(s: LexState): (ts: seq<Token>)
    ensures EndsAtEof(ts) && ts[0] == Snapshot(s)
    decreases Remaining(s)
  {
    if s.tok == TokEof then [Snapshot(s)]
    else
      GetTokProgress(s);
      Cons(Snapshot(s), Tokens(GetTok(s)))
  }

  /** The token sequence of a whole file. */
  function Tokenize(file: string, text: string): seq<Token> {
    Tokens(NewLexer(file, text))
  }

  // ---------------------------------------------------------------------------
  // Properties

  /** `var`, `then`, `else` and `do` are not reserved here. */
  lemma NewerKeywordsAreNames()
    ensures WordKind("var") == TokIdentifier && WordKind("then") == TokIdentifier
    ensures WordKind("else") == TokIdentifier && WordKind("do") == TokIdentifier
    ensures WordKind("until") == TokIdentifier && WordKind("break") == TokIdentifier
  {
  }

  /** With no blank ahead and a character that starts neither a word, a number nor
      a comment, `gettok` scans an operator at the cursor. */
  lemma GetTokOperator(s: LexState)
    requires |s.cur.rest| > 0 && !IsSpace(s.cur.rest[0]) && !IsWordChar(s.cur.rest[0])
    requires !IsNumChar(s.cur.rest[0]) && s.cur.rest[0] != '#'
    ensures GetTok(s) == ScanOperator(s, s.cur)
  {
    assert SkipSpace(s.cur) == s.cur;
    assert GetTok(s) == ScanToken(s, s.cur);
  }

  /** An operator token is its first character followed by the longest run of
      absorbed characters: exactly `op` when the input is `op + rest` with every
      character of `op` after the first absorbed and `rest` not starting with one. */
  lemma OperatorRun(s: LexState, op: string, rest: string)
    requires |op| >= 1 && s.cur.rest == op + rest
    requires !IsSpace(op[0]) && !IsWordChar(op[0]) && !IsNumChar(op[0]) && op[0] != '#'
    requires forall i :: 1 <= i < |op| ==> Absorbs(op[i])
    requires |rest| == 0 || !Absorbs(rest[0])
    ensures GetTok(s).tok == TokOperator && GetTok(s).tokStr == op && GetTok(s).cur.rest == rest
  {
    GetTokOperator(s);
    ScanOperatorRun(s, s.cur, op, rest);
  }

  lemma ScanOperatorRun(s: LexState, c: Cursor, op: string, rest: string)
    requires |op| >= 1 && c.rest == op + rest
    requires forall i :: 1 <= i < |op| ==> Absorbs(op[i])
    requires |rest| == 0 || !Absorbs(rest[0])
    ensures ScanOperator(s, c).tokStr == op && ScanOperator(s, c).cur.rest == rest
  {
    var r := ScanOperator(s, c);
    var t, u := r.tokStr, c.rest;
    ConsumedSplit(c, r.cur);
    assert u == t + r.cur.rest;
    forall i | 1 <= i < |t|
      ensures Absorbs(u[i])
    {
      assert u[i] == t[i];
    }
    assert |t| < |u| ==> u[|t|] == r.cur.rest[0];
    assert |op| < |u| ==> u[|op|] == rest[0];
    RunUnique(u, |t|, |op|);
    assert t == u[..|t|];
  }

  /** An absorbing run that starts at position 0 has one possible length. */
  lemma RunUnique(u: string, k1: nat, k2: nat)
    requires 1 <= k1 <= |u| && 1 <= k2 <= |u|
    requires forall i :: 1 <= i < k1 ==> Absorbs(u[i])
    requires forall i :: 1 <= i < k2 ==> Absorbs(u[i])
    requires k1 == |u| || !Absorbs(u[k1])
    requires k2 == |u| || !Absorbs(u[k2])
    ensures k1 == k2
  {
  }

  /** "->" is one token. */
  lemma ArrowOneToken(s: LexState, rest: string)
    requires s.cur.rest == "->" + rest && (|rest| == 0 || !Absorbs(rest[0]))
    ensures GetTok(s).tokStr == "->"
  {
    OperatorRun(s, "->", rest);
  }

  /** "==" is two "=" tokens: '=' is not absorbed. */
  lemma EqualsEqualsTwoTokens(s: LexState, rest: string)
    requires s.cur.rest == "==" + rest
    ensures GetTok(s).tokStr == "=" && GetTok(s).cur.rest == "=" + rest
    ensures GetTok(GetTok(s)).tokStr == "=" || (|rest| > 0 && Absorbs(rest[0]))
  {
    OperatorRun(s, "=", "=" + rest);
    var s1 := GetTok(s);
    if |rest| == 0 || !Absorbs(rest[0]) {
      OperatorRun(s1, "=", rest);
    }
  }

  /** "(-" is one token: an opening parenthesis absorbs a following minus. */
  lemma ParenMinusOneToken(s: LexState, rest: string)
    requires s.cur.rest == "(-" + rest && (|rest| == 0 || !Absorbs(rest[0]))
    ensures GetTok(s).tokStr == "(-"
  {
    OperatorRun(s, "(-", rest);
  }

  lemma WordLines(s: LexState, c: Cursor)
    requires |c.rest| > 0 && (IsAlpha(c.rest[0]) || c.rest[0] == '_')
    ensures LinesTotal(ScanWord(s, c).cur) == LinesTotal(c)
  {
    var r := ScanWord(s, c);
    NoNewlineCount(r.tokStr);
    LinesAcross(c, r.cur);
  }

  lemma NumberLines(s: LexState, c: Cursor)
    requires |c.rest| > 0 && IsNumChar(c.rest[0])
    ensures LinesTotal(ScanNumber(s, c).cur) == LinesTotal(c)
  {
    var r := ScanNumber(s, c);
    NoNewlineCount(r.tokStr);
    LinesAcross(c, r.cur);
  }

  lemma OperatorLines(s: LexState, c: Cursor)
    requires |c.rest| > 0 && c.rest[0] != '\n'
    ensures LinesTotal(ScanOperator(s, c).cur) == LinesTotal(c)
  {
    var r := ScanOperator(s, c);
    NoNewlineCount(r.tokStr);
    LinesAcross(c, r.cur);
  }

  /** The line number always equals the line the lookahead sits on: the line plus
      the newlines still ahead is the same before and after `gettok`. */
  lemma {:induction false} GetTokLines(s: LexState)
    ensures LinesTotal(GetTok(s).cur) == LinesTotal(s.cur)
    decreases |s.cur.rest|
  {
    var c := SkipSpace(s.cur);
    SpaceLines(s.cur);
    assert GetTok(s) == ScanToken(s, c);
    if |c.rest| > 0 {
      var ch := c.rest[0];
      if IsAlpha(ch) || ch == '_' {
        assert ScanToken(s, c) == ScanWord(s, c);
        WordLines(s, c);
      } else if IsNumChar(ch) {
        assert ScanToken(s, c) == ScanNumber(s, c);
        NumberLines(s, c);
      } else if ch == '#' {
        var c2 := SkipComment(c);
        CommentLines(c);
        if |c2.rest| > 0 {
          assert ScanToken(s, c) == GetTok(s.(cur := c2));
          GetTokLines(s.(cur := c2));
        }
      } else {
        assert ScanToken(s, c) == ScanOperator(s, c);
        OperatorLines(s, c);
      }
    }
  }

  /** A comment running to the end of input leaves the previous token kind in place,
      with empty text. */
  lemma CommentAtEnd(s: LexState)
    requires var c := SkipSpace(s.cur); |c.rest| > 0 && c.rest[0] == '#'
    requires |SkipComment(SkipSpace(s.cur)).rest| == 0
    ensures GetTok(s).tok == s.tok && GetTok(s).tokStr == ""
  {
    var c := SkipSpace(s.cur);
    ScanTokenCommentEnd(s, c);
    assert GetTok(s) == ScanToken(s, c);
  }

  lemma ScanTokenCommentEnd(s: LexState, c: Cursor)
    requires !AtSpace(c) && |c.rest| > 0 && c.rest[0] == '#' && |SkipComment(c).rest| == 0
    ensures ScanToken(s, c) == s.(cur := SkipComment(c), tokStr := "")
  {
  }

  /** A fresh lexer starts on line 1 plus the newlines before its first token. */
  lemma FirstTokenLine(file: string, text: string)
    ensures LinesTotal(NewLexer(file, text).cur) == 1 + Count(text, '\n')
  {
    var s0 := LexState(file, Start(text), TokEof, "", "");
    GetTokLines(s0);
    CountAppend(" ", text, '\n');
  }
}

=== FILE: v1_package.dfy ===
/** The package layer of the first pipeline (src-v1/Package.cpp): a package is one
    `.pif` file under the package root, registered in the global `packages` map by its
    dotted name before its file is read, and complete once the code generator has
    built it.

    The outside world is a parameter (`Env`): the root path, the file contents (a
    missing file cannot be opened) and the packages whose code generation fails.
    `Gen->init` is recorded as the list of initialised packages. */
module V1Package {
  import opened Wrappers
  import opened Text
  import opened V1Lexer
  import opened V1Ast
  import opened V1Parser

  /** The fields of `Package` the front end uses: the symbol prefix, `Complete`, the
      imported packages by alias (as registry names), the definitions by name, and
      the start-up code in source order. */
  datatype Package = Package(
    prefix: string,
    complete: bool,
    imports: map<string, string>,
    symbols: map<string, Def>,
    initCode: seq<Expr>)

  /** A package object: the one made for the main file, which is never registered, or
      the object registered under a dotted name. */
  datatype PkgId = MainPkg | Named(name: string)

  /** The main package, the global registry `packages` with the objects it holds, and
      the packages `Gen->init` was called on, in order. */
  datatype World = World(main: Package, packages: map<string, Package>, inits: seq<string>)

  /** What loading reads from outside: `pkgPath`, the file contents, and the packages
      whose `Gen->build` fails. */
  datatype Env = Env(root: string, files: map<string, string>, buildFails: set<string>)

  /** The `bool` result of `inputFile` or `import` with the world it leaves.
      `OutOfFuel` bounds the depth of nested imports and has no counterpart in the
      source. */
  datatype Run = Run(w: World, ok: bool) | OutOfFuel

  // ---------------------------------------------------------------------------
  // Package objects

  /** `Package::Package`: not complete, no imports, no definitions, no start-up code,
      and an empty symbol prefix until the importer sets one. */
  function NewPackage(): (p: Package)
    ensures !p.complete && p.prefix == ""
    ensures p.imports == map[] && p.symbols == map[] && p.initCode == []
  {
    Package("", false, map[], map[], [])
  }

  /** The world before anything is loaded: a fresh main package, nothing registered. */
  function Start(): (w: World)
    ensures Coherent(w) && Loading(w, MainPkg) && w.packages == map[]
  {
    World(NewPackage(), map[], [])
  }

  predicate Has(w: World, id: PkgId) {
    id.MainPkg? || id.name in w.packages
  }

  function Get(w: World, id: PkgId): Package
    requires Has(w, id)
  {
    if id.MainPkg? then w.main else w.packages[id.name]
  }

  function Put(w: World, id: PkgId, p: Package): (r: World)
    requires Has(w, id)
    ensures Has(r, id) && Get(r, id) == p && r.inits == w.inits && r.packages.Keys == w.packages.Keys
    ensures forall x :: Has(w, x) && x != id ==> Get(r, x) == Get(w, x)
  {
    if id.MainPkg? then w.(main := p) else w.(packages := w.packages[id.name := p])
  }

  // ---------------------------------------------------------------------------
  // Invariants

  /** A registered package is complete exactly when it has been initialised, and only
      registered packages are initialised. */
  predicate Coherent(w: World) {
    (forall n :: n in w.packages ==> (w.packages[n].complete <==> n in w.inits))
    && (forall k :: 0 <= k < |w.inits| ==> w.inits[k] in w.packages)
  }

  /** `id` is a package whose file may still be read: the main package, or a
      registered package that is not complete. */
  predicate Loading(w: World, id: PkgId) {
    Has(w, id) && (id.Named? ==> !w.packages[id.name].complete)
  }

  /** How loading may change the world: nothing is unregistered, a registered package
      keeps its prefix and its completeness, a complete package is frozen, and
      initialisation only appends. */
  predicate Evolves(w: World, w2: World) {
    Coherent(w2)
    && w.packages.Keys <= w2.packages.Keys
    && (forall n :: n in w.packages ==> w2.packages[n].prefix == w.packages[n].prefix)
    && (forall n :: n in w.packages ==> w2.packages[n].complete == w.packages[n].complete)
    && (forall n :: n in w.packages && w.packages[n].complete ==> w2.packages[n] == w.packages[n])
    && w.inits <= w2.inits
  }

  /** Every package object that existed, other than `id`, is unchanged. */
  predicate Others(w: World, w2: World, id: PkgId) {
    (id != MainPkg ==> w2.main == w.main)
    && forall n :: n in w.packages && Named(n) != id ==> n in w2.packages && w2.packages[n] == w.packages[n]
  }

  /** How reading a file changes its own package: definitions are only added, start-up
      code is only appended, aliases are only added or rebound. */
  predicate Grows(p: Package, p2: Package) {
    p2.prefix == p.prefix && p2.complete == p.complete
    && (forall s :: s in p.symbols ==> s in p2.symbols && p2.symbols[s] == p.symbols[s])
    && p.initCode <= p2.initCode
    && p.imports.Keys <= p2.imports.Keys
  }

  /** One run of loading on behalf of package `id`: the world evolves, no other
      existing object changes, and `id` itself only grows and is still loading. */
  predicate Step(w: World, w2: World, id: PkgId) {
    Has(w, id) && Loading(w2, id) && Evolves(w, w2) && Others(w, w2, id) && Grows(Get(w, id), Get(w2, id))
  }

  /** Two steps make a step. */
  lemma Chain(w: World, w1: World, r: Run, id: PkgId)
    requires Step(w, w1, id)
    requires r.Run? ==> Step(w1, r.w, id)
    ensures r.Run? ==> Step(w, r.w, id)
  {
  }

  /** Replacing the loading package by a grown copy is a step. */
  lemma PutStep(w: World, id: PkgId, p: Package)
    requires Coherent(w) && Loading(w, id) && Grows(Get(w, id), p)
    ensures Step(w, Put(w, id, p), id)
  {
  }

  // ---------------------------------------------------------------------------
  // Names and files

  /** The segments of a path, each preceded by `sep`. */
  function Prefixed(sep: string, path: seq<string>): string
    decreases |path|
  {
    if |path| == 0 then "" else sep + path[0] + Prefixed(sep, path[1..])
  }

  /** The registry key of an import path: the segments joined with '.'. */
  function PackageName(path: seq<string>): string {
    Join(path, ".")
  }

  /** The file of an import path: `pkgPath`, then "/segment" per segment, then ".pif". */
  function FilePath(root: string, path: seq<string>): string {
    root + Prefixed("/", path) + ".pif"
  }

  /** The symbol prefix of an imported package: "PIF_", then "_segment" per segment,
      then "__". */
  function SymbolPrefix(path: seq<string>): string {
    "PIF_" + Prefixed("_", path) + "__"
  }

  /** Each segment preceded by the separator is the separator, then the segments
      joined by it. */
  lemma {:induction false} PrefixedIsJoin(sep: string, path: seq<string>)
    requires |path| > 0
    ensures Prefixed(sep, path) == sep + Join(path, sep)
    decreases |path|
  {
    if |path| > 1 {
      PrefixedIsJoin(sep, path[1..]);
      assert Prefixed(sep, path) == sep + path[0] + (sep + Join(path[1..], sep));
    } else {
      assert Prefixed(sep, path[1..]) == "";
    }
  }

  /** The symbol prefix of `a.b.c` is "PIF__a_b_c__". */
  lemma PrefixIsJoin(path: seq<string>)
    requires |path| > 0
    ensures SymbolPrefix(path) == "PIF__" + Join(path, "_") + "__"
  {
    PrefixedIsJoin("_", path);
    var u := Join(path, "_");
    assert "PIF_" + "_" == "PIF__";
    assert "PIF_" + ("_" + u) == ("PIF_" + "_") + u;
  }

  /** The file of `a.b.c` is `root/a/b/c.pif`. */
  lemma FileIsJoin(root: string, path: seq<string>)
    requires |path| > 0
    ensures FilePath(root, path) == root + "/" + Join(path, "/") + ".pif"
  {
    PrefixedIsJoin("/", path);
    var v := Join(path, "/");
    assert root + ("/" + v) == root + "/" + v;
  }

  // ---------------------------------------------------------------------------
  // Reading a file

  /** The start-up assignment made for a definition: `name = value`, at the
      definition's tag. */
  function Assignment(d: Def): (e: Expr)
    ensures e.BinaryE? && e.op == "=" && e.tag == d.tag
    ensures e.lhs == VarE(d.tag, d.name) && e.rhs == d.val
  {
    BinaryE(d.tag, "=", VarE(d.tag, d.name), d.val)
  }

  /** Whether a definition's value is computed at start-up: everything except function
      literals and externs. */
  predicate RunsAtStart(d: Def) {
    !d.val.FuncE? && !d.val.ExternE?
  }

  /** The `let` step of `inputFile`: a name the package already defines is a
      redefinition (None) and the first definition stays; otherwise the definition is
      added, and a value computed at start-up becomes an assignment at the end of the
      start-up code. */
  function Define(p: Package, d: Def): (r: Option<Package>)
    ensures r.None? <==> d.name in p.symbols
    ensures r.Some? ==> Grows(p, r.value) && r.value.imports == p.imports
    ensures r.Some? ==> r.value.symbols.Keys == p.symbols.Keys + {d.name} && r.value.symbols[d.name] == d
    ensures r.Some? && RunsAtStart(d) ==> r.value.initCode == p.initCode + [Assignment(d)]
    ensures r.Some? && !RunsAtStart(d) ==> r.value.initCode == p.initCode
  {
    if d.name in p.symbols then None
    else
      var code := if RunsAtStart(d) then p.initCode + [Assignment(d)] else p.initCode;
      Some(p.(symbols := p.symbols[d.name := d], initCode := code))
  }

  /** `Imports[alias] = pkg` on the importing package. */
  function Bind(w: World, id: PkgId, alias: string, n: string): (r: World)
    requires Has(w, id)
    ensures Has(r, id) && Get(r, id) == Get(w, id).(imports := Get(w, id).imports[alias := n])
    ensures r.packages.Keys == w.packages.Keys && r.inits == w.inits && Others(w, r, id)
  {
    var p := Get(w, id);
    Put(w, id, p.(imports := p.imports[alias := n]))
  }

  /** `Package::inputFile`: a file that cannot be opened is a failure; otherwise its
      tokens are read by `InputLoop`. */
  function InputFile(env: Env, fuel: nat, w: World, id: PkgId, filename: string): (r: Run)
    requires Coherent(w) && Loading(w, id)
    ensures r.Run? ==> Step(w, r.w, id)
    ensures filename !in env.files ==> r == Run(w, false)
    decreases fuel, 2, 0
  {
    if filename !in env.files then Run(w, false)
    else
      var ts := Tokenize(filename, env.files[filename]);
      InputLoop(env, fuel, w, id, ts, 0)
  }

  /** The loop of `inputFile` from token `pos` on: end of file is success; `import`,
      `let` and any other token start an import, a definition and an expression, and
      the first failure ends the file. A definition whose value is computed at start-up
      and every top-level expression are appended to the start-up code. */
  function InputLoop(env: Env, fuel: nat, w: World, id: PkgId, ts: seq<Token>, pos: nat): (r: Run)
    requires Coherent(w) && Loading(w, id) && pos <= |ts|
    ensures r.Run? ==> Step(w, r.w, id)
    decreases fuel, 1, |ts| - pos
  {
    var t := At(ts, pos);
    if t.kind == TokEof then Run(w, true)
    else if t.kind == TokImport then
      match ParseImport(ts, pos)
      case Failed(_, _) => Run(w, false)
      case Parsed(imp, p) =>
        var r := Import(env, fuel, w, id, imp);
        if r.OutOfFuel? || !r.ok then r
        else
          var r2 := InputLoop(env, fuel, r.w, id, ts, p);
          Chain(w, r.w, r2, id);
          r2
    else if t.kind == TokLet then
      match ParseDefinition(ts, pos)
      case Failed(_, _) => Run(w, false)
      case Parsed(d, p) =>
        match Define(Get(w, id), d)
        case None => Run(w, false)
        case Some(pk) =>
          PutStep(w, id, pk);
          var r := InputLoop(env, fuel, Put(w, id, pk), id, ts, p);
          Chain(w, Put(w, id, pk), r, id);
          r
    else
      match ParseExpression(ts, pos)
      case Failed(_, _) => Run(w, false)
      case Parsed(e, p) =>
        var pk := Get(w, id);
        var pk2 := pk.(initCode := pk.initCode + [e]);
        PutStep(w, id, pk2);
        var r := InputLoop(env, fuel, Put(w, id, pk2), id, ts, p);
        Chain(w, Put(w, id, pk2), r, id);
        r
  }

  /** `Package::import` into package `id`. A registered package is bound under the
      alias when complete and refused otherwise: it is still being read (a cycle) or
      failed earlier. An unregistered package is loaded by `Load`. */
  function Import(env: Env, fuel: nat, w: World, id: PkgId, imp: Import): (r: Run)
    requires Coherent(w) && Loading(w, id)
    ensures r.Run? ==> Step(w, r.w, id)
    ensures var n := PackageName(imp.path);
      n in w.packages && w.packages[n].complete ==> r == Run(Bind(w, id, imp.alias, n), true)
    ensures var n := PackageName(imp.path);
      n in w.packages && !w.packages[n].complete ==> r == Run(w, false)
    ensures PackageName(imp.path) !in w.packages ==> r == Load(env, fuel, w, id, imp)
    decreases fuel, 0, 1
  {
    var n := PackageName(imp.path);
    if n in w.packages then
      if w.packages[n].complete then Run(Bind(w, id, imp.alias, n), true) else Run(w, false)
    else Load(env, fuel, w, id, imp)
  }

  /** Loading a package that is not registered: it is registered with its symbol
      prefix before its file is read, and is complete and initialised only once its
      file was read and it was built; only then is it bound under the alias. Nothing
      else of the importer changes. */
  function Load(env: Env, fuel: nat, w: World, id: PkgId, imp: Import): (r: Run)
    requires Coherent(w) && Loading(w, id) && PackageName(imp.path) !in w.packages
    ensures r.Run? ==> Step(w, r.w, id)
    ensures var n := PackageName(imp.path);
      r.Run? ==>
        n in r.w.packages && r.w.packages[n].prefix == SymbolPrefix(imp.path)
        && (r.w.packages[n].complete <==> r.ok)
        && (n in env.buildFails ==> !r.ok)
    ensures var n := PackageName(imp.path);
      r.Run? ==> Get(r.w, id) == if r.ok then Get(w, id).(imports := Get(w, id).imports[imp.alias := n]) else Get(w, id)
    decreases fuel, 0, 0
  {
    var n := PackageName(imp.path);
    if fuel == 0 then OutOfFuel
    else
      var w1 := Registered(w, id, imp.path);
      var r := InputFile(env, fuel - 1, w1, Named(n), FilePath(env.root, imp.path));
      if r.OutOfFuel? then OutOfFuel
      else
        StepAside(w, w1, r.w, id, n);
        if !r.ok || n in env.buildFails then Run(r.w, false)
        else Finish(w, r.w, id, n, imp.alias)
  }

  /** `packages[name] = pkg` with a new package carrying the symbol prefix of `path`:
      a step for the importer, after which the new package is loading. */
  function Registered(w: World, id: PkgId, path: seq<string>): (r: World)
    requires Coherent(w) && Loading(w, id) && PackageName(path) !in w.packages
    ensures Step(w, r, id) && Get(r, id) == Get(w, id) && Loading(r, Named(PackageName(path)))
    ensures r.packages[PackageName(path)].prefix == SymbolPrefix(path)
  {
    w.(packages := w.packages[PackageName(path) := NewPackage().(prefix := SymbolPrefix(path))])
  }

  /** Reading the file of a package registered after `w` leaves the importer as it
      was. */
  lemma StepAside(w: World, w1: World, w2: World, id: PkgId, n: string)
    requires Step(w, w1, id) && Get(w1, id) == Get(w, id) && n !in w.packages
    requires Loading(w1, Named(n)) && Step(w1, w2, Named(n))
    ensures Step(w, w2, id) && Get(w2, id) == Get(w, id)
  {
  }

  /** The end of a successful load of `n` into `id`: `Complete = true`, `Gen->init`,
      and the alias bound. */
  function Finish(w: World, w1: World, id: PkgId, n: string, alias: string): (r: Run)
    requires Step(w, w1, id) && Get(w1, id) == Get(w, id) && n !in w.packages && Loading(w1, Named(n))
    ensures r.Run? && r.ok && Step(w, r.w, id)
    ensures n in r.w.packages && r.w.packages[n].complete && r.w.packages[n].prefix == w1.packages[n].prefix
    ensures Get(r.w, id) == Get(w, id).(imports := Get(w, id).imports[alias := n])
  {
    var w2 := Completed(w1, n);
    CompleteStep(w, w1, id, n);
    var p := Get(w2, id);
    PutStep(w2, id, p.(imports := p.imports[alias := n]));
    var r := Run(Bind(w2, id, alias, n), true);
    Chain(w, w2, r, id);
    r
  }

  /** `Complete = true` and `Gen->init`: the package joins the initialised ones. */
  function Completed(w: World, n: string): World
    requires n in w.packages
  {
    w.(packages := w.packages[n := w.packages[n].(complete := true)], inits := w.inits + [n])
  }

  /** Completing a package loaded on behalf of `id` is still a step of `id`, and
      leaves `id` itself alone. */
  lemma CompleteStep(w: World, w1: World, id: PkgId, n: string)
    requires Step(w, w1, id) && Get(w1, id) == Get(w, id) && n !in w.packages && Loading(w1, Named(n))
    ensures var w2 := Completed(w1, n);
      Step(w, w2, id) && Get(w2, id) == Get(w, id) && Coherent(w2)
      && n in w2.packages && w2.packages[n].complete && w2.packages[n].prefix == w1.packages[n].prefix
  {
    var w2 := Completed(w1, n);
    assert Named(n) != id;
    assert Get(w2, id) == Get(w1, id);
    assert Coherent(w2) by {
      forall k | 0 <= k < |w2.inits| ensures w2.inits[k] in w2.packages {
        if k < |w1.inits| { assert w2.inits[k] == w1.inits[k]; }
      }
    }
  }

  // ---------------------------------------------------------------------------
  // Properties

  /** A redefinition is refused and the first definition stays: defining a name twice
      fails the second time, whatever the second value. */
  lemma RedefinitionKeepsFirst(p: Package, d: Def, d2: Def)
    requires d.name !in p.symbols && d2.name == d.name
    ensures Define(p, d).Some? && Define(Define(p, d).value, d2).None?
    ensures Define(p, d).value.symbols[d.name] == d
  {
  }

  /** Start-up code keeps source order: two definitions computed at start-up, in that
      order, append their assignments in that order; functions and externs add none. */
  lemma AssignmentsInOrder(p: Package, d1: Def, d2: Def)
    requires d1.name !in p.symbols && d2.name !in p.symbols && d1.name != d2.name
    ensures var p1 := Define(p, d1).value;
      Define(p1, d2).Some? &&
      Define(p1, d2).value.initCode ==
        p.initCode + (if RunsAtStart(d1) then [Assignment(d1)] else []) + (if RunsAtStart(d2) then [Assignment(d2)] else [])
  {
  }

  /** A package is read once: after a successful import, importing the same path again,
      under any alias, only binds the alias. */
  lemma ImportedOnce(env: Env, fuel: nat, fuel2: nat, w: World, id: PkgId, imp: Import, imp2: Import)
    requires Coherent(w) && Loading(w, id) && imp2.path == imp.path
    requires Import(env, fuel, w, id, imp).Run? && Import(env, fuel, w, id, imp).ok
    ensures var w1 := Import(env, fuel, w, id, imp).w;
      Import(env, fuel2, w1, id, imp2) == Run(Bind(w1, id, imp2.alias, PackageName(imp.path)), true)
  {
  }

  /** A package whose build failed stays registered and incomplete, so every later
      import of it is refused. */
  lemma FailedBuildRefusedLater(env: Env, fuel: nat, fuel2: nat, w: World, id: PkgId, imp: Import, imp2: Import)
    requires Coherent(w) && Loading(w, id) && imp2.path == imp.path
    requires PackageName(imp.path) !in w.packages && PackageName(imp.path) in env.buildFails
    requires Import(env, fuel, w, id, imp).Run?
    ensures var w1 := Import(env, fuel, w, id, imp).w;
      !Import(env, fuel, w, id, imp).ok && Import(env, fuel2, w1, id, imp2) == Run(w1, false)
  {
  }

  /** A file that cannot be opened fails its import, and leaves the package registered
      and incomplete. */
  lemma MissingFileFailsImport(env: Env, fuel: nat, w: World, id: PkgId, imp: Import)
    requires Coherent(w) && Loading(w, id) && fuel > 0
    requires PackageName(imp.path) !in w.packages && FilePath(env.root, imp.path) !in env.files
    ensures var r := Import(env, fuel, w, id, imp);
      r.Run? && !r.ok && PackageName(imp.path) in r.w.packages && !r.w.packages[PackageName(imp.path)].complete
  {
  }
}

=== FILE: v1_parser.dfy ===
/** The recursive-descent parser of the first pipeline (src-v1/Parser.h,
    src-v1/Parser.cpp).

    As for the current parser, the input is the token sequence the lexer yields and a
    position in it. Every error function prints a diagnostic and returns a null
    pointer without reading further, so a failure here carries the message and the
    position the lexer had reached: `ParseExtern` and `ParseBinOpRHS` go on reading
    after some failures. */
module V1Parser {
  import opened Wrappers
  import opened V1Lexer
  import opened V1Ast
  import Parser

  // ---------------------------------------------------------------------------
  // Operator precedence

  /** The table the constructor leaves behind. "||" and "&&" are handed to a
      `setBiopPrec` that no file declares; it is taken to leave the table alone, so they
      never reach it. */
  const V1Precedences: map<string, int> := map[
    "<" := 30, ">" := 30, "<=" := 30, ">=" := 30, "==" := 30, "!=" := 30,
    "+" := 50, "-" := 50, "*" := 60, "/" := 60, "%" := 60,
    "(" := 100, "." := 120]

  /** `getBinopPrec`, the same lookup as in the current parser, on the first
      pipeline's table. */
  function Prec(op: string): (p: int)
    ensures p == -1 || p > 0
    ensures p > 0 ==> op in V1Precedences && p == V1Precedences[op]
  {
    Parser.BinopPrec(V1Precedences, op)
  }

  // ---------------------------------------------------------------------------
  // Reading tokens

  /** What the lexer yields with no input at all. */
  const EofToken := Token(TokEof, "", "", FTag("", 1))

  /** The current token at position `i`; past the end the lexer keeps answering
      end-of-file. */
  function At(ts: seq<Token>, i: nat): (t: Token)
    ensures i >= |ts| ==> t.kind == TokEof && t.text == ""
  {
    if i < |ts| then ts[i]
    else if |ts| > 0 then Token(TokEof, "", ts[|ts| - 1].num, ts[|ts| - 1].tag)
    else EofToken
  }

  /** `gettok`: move past the current token; at the end, stay. */
  function Next(ts: seq<Token>, i: nat): (j: nat)
    ensures i < |ts| ==> j == i + 1
    ensures i >= |ts| ==> j == i
  {
    if i < |ts| then i + 1 else i
  }

  // ---------------------------------------------------------------------------
  // Outcomes

  /** A parsed value and the position after it, or the diagnostic of the error that
      produced a null pointer and the position where the lexer stood. */
  datatype Parsing<T> = Parsed(v: T, pos: nat) | Failed(msg: string, pos: nat)

  /** The lexer never moves backwards nor past the end. */
  predicate Within<T>(ts: seq<Token>, pos: nat, r: Parsing<T>) {
    pos <= r.pos <= |ts|
  }

  /** In addition, a successful parse consumed at least one token. */
  predicate Moved<T>(ts: seq<Token>, pos: nat, r: Parsing<T>) {
    Within(ts, pos, r) && (r.Parsed? ==> pos < r.pos)
  }

  // ---------------------------------------------------------------------------
  // Types

  /** `ParseType`: one of four base type names, or a prototype. */
  function ParseType(ts: seq<Token>, pos: nat): (r: Parsing<Ty>)
    requires pos <= |ts|
    ensures Moved(ts, pos, r)
    ensures At(ts, pos).text == "(" ==> r == ParsePrototype(ts, pos)
    ensures At(ts, pos).text !in {"void", "bool", "int", "float", "("} ==>
      r == Failed("Invalid type definiton, starting by '" + At(ts, pos).text + "'.", pos)
    decreases |ts| - pos, 2
  {
    var t := At(ts, pos).text;
    if t == "void" then Parsed(Base(VoidK), Next(ts, pos))
    else if t == "bool" then Parsed(Base(BoolK), Next(ts, pos))
    else if t == "int" then Parsed(Base(IntK), Next(ts, pos))
    else if t == "float" then Parsed(Base(FloatK), Next(ts, pos))
    else if t == "(" then ParsePrototype(ts, pos)
    else Failed("Invalid type definiton, starting by '" + t + "'.", pos)
  }

  /** `ParseFuncArg`: `name ':' type`. */
  function ParseFuncArg(ts: seq<Token>, pos: nat): (r: Parsing<FuncArg>)
    requires pos <= |ts|
    ensures Moved(ts, pos, r)
    ensures r.Parsed? ==> r.v.name == At(ts, pos).text && At(ts, pos).kind == TokIdentifier
    ensures At(ts, pos).kind != TokIdentifier ==> r == Failed("Expected identifier for argument name.", pos)
    decreases |ts| - pos, 1
  {
    if At(ts, pos).kind != TokIdentifier then Failed("Expected identifier for argument name.", pos)
    else
      var name := At(ts, pos).text;
      var p := Next(ts, pos);
      if At(ts, p).text != ":" then Failed("Expected argument type.", p)
      else
        match ParseType(ts, Next(ts, p))
        case Failed(m, q) => Failed(m, q)
        case Parsed(ty, q) => Parsed(FuncArg(name, ty), q)
  }

  /** The arguments of a prototype, up to (not past) the ')'. */
  function ProtoArgs(ts: seq<Token>, pos: nat): (r: Parsing<seq<FuncArg>>)
    requires pos <= |ts|
    ensures Moved(ts, pos, r)
    ensures r.Parsed? ==> |r.v| > 0 && At(ts, r.pos).text == ")"
    decreases |ts| - pos, 3
  {
    match ParseFuncArg(ts, pos)
    case Failed(m, p) => Failed(m, p)
    case Parsed(a, p) =>
      if At(ts, p).text == ")" then Parsed([a], p)
      else if At(ts, p).text != "," then Failed("Expected ')' or ',' in argument list.", p)
      else
        match ProtoArgs(ts, Next(ts, p))
        case Failed(m, q) => Failed(m, q)
        case Parsed(rest, q) => Parsed([a] + rest, q)
  }

  /** `ParsePrototype`: '(' arguments ')' '->' and a return type. When '{' follows
      the arrow the return type is void and the '{' stays unread. */
  function ParsePrototype(ts: seq<Token>, pos: nat): (r: Parsing<Ty>)
    requires pos <= |ts|
    ensures Within(ts, pos, r)
    ensures r.Parsed? ==> r.v.FuncTy? && pos < r.pos
    decreases |ts| - pos, if pos < |ts| then 0 else 4
  {
    var p := Next(ts, pos);
    var args := if At(ts, p).text != ")" then ProtoArgs(ts, p) else Parsed([], p);
    match args
    case Failed(m, q) => Failed(m, q)
    case Parsed(as_, q) =>
      var q2 := Next(ts, q);
      if At(ts, q2).text != "->" then
        Failed("Invalid prototype : was expecting '->', not '" + At(ts, q2).text + "'.", q2)
      else
        var q3 := Next(ts, q2);
        if At(ts, q3).text == "{" then Parsed(FuncTy(as_, Base(VoidK)), q3)
        else
          match ParseType(ts, q3)
          case Failed(m, q4) => Failed(m, q4)
          case Parsed(ret, q4) => Parsed(FuncTy(as_, ret), q4)
  }

  /** `ParseExtern`: `extern`, a symbol name, and optionally ':' and a type. A type
      that fails to parse is reported and the extern is kept without a type. */
  function ParseExtern(ts: seq<Token>, pos: nat): (r: Parsing<Expr>)
    requires pos <= |ts|
    ensures Within(ts, pos, r)
    ensures r.Parsed? ==> r.v.ExternE? && r.v.sym == At(ts, Next(ts, pos)).text && pos < r.pos
    ensures At(ts, Next(ts, pos)).kind != TokIdentifier ==>
      r == Failed("Expected identifier after 'extern', not '" + At(ts, Next(ts, pos)).text + "'.", Next(ts, pos))
    ensures At(ts, Next(ts, pos)).kind == TokIdentifier ==> r.Parsed?
    decreases |ts| - pos, 1
  {
    var p := Next(ts, pos);
    if At(ts, p).kind != TokIdentifier then
      Failed("Expected identifier after 'extern', not '" + At(ts, p).text + "'.", p)
    else
      var sym := At(ts, p).text;
      var p2 := Next(ts, p);
      if At(ts, p2).text == ":" then
        var tr := ParseType(ts, Next(ts, p2));
        var ty := if tr.Parsed? then Some(tr.v) else None;
        Parsed(ExternE(At(ts, tr.pos).tag, ty, sym), tr.pos)
      else Parsed(ExternE(At(ts, p2).tag, None, sym), p2)
  }

  // ---------------------------------------------------------------------------
  // Expressions

  const UnknownTokenPrefix := "Unknown token '"

  /** `ParsePrimary`. An unexpected token is reported and then consumed. Literals
      carry the tag of their own token, a name the tag of the token after it. */
  function ParsePrimary(ts: seq<Token>, pos: nat): (r: Parsing<Expr>)
    requires pos <= |ts|
    ensures Within(ts, pos, r)
    ensures r.Parsed? ==> pos < r.pos && r.v != Null
    ensures r.Parsed? ==> r.v.ExternE? || r.v.VarE? || r.v.BoolE? || r.v.IntE? || r.v.FloatE? || At(ts, pos).text == "("
    decreases |ts| - pos, 5
  {
    var t := At(ts, pos);
    if t.kind == TokExtern then ParseExtern(ts, pos)
    else if t.kind == TokIdentifier then
      var p := Next(ts, pos);
      Parsed(VarE(At(ts, p).tag, t.text), p)
    else if t.kind == TokTrue || t.kind == TokFalse then Parsed(BoolE(t.tag, t.kind == TokTrue), Next(ts, pos))
    else if t.kind == TokInt then Parsed(IntE(t.tag, t.IntVal()), Next(ts, pos))
    else if t.kind == TokFloat then Parsed(FloatE(t.tag, t.text), Next(ts, pos))
    else if t.text == "(" then
      match ParseExpression(ts, Next(ts, pos))
      case Failed(m, p) => Failed(m, p)
      case Parsed(v, p) =>
        if At(ts, p).text != ")" then Failed("Expected ')'.", p)
        else Parsed(v, Next(ts, p))
    else Failed(UnknownTokenPrefix + t.text + "' when expecting an expression.", Next(ts, pos))
  }

  /** `ParseExpression`: a block, `return` and an expression (there is no bare
      return), or a primary followed by operators. */
  function ParseExpression(ts: seq<Token>, pos: nat): (r: Parsing<Expr>)
    requires pos <= |ts|
    ensures Within(ts, pos, r)
    ensures r.Parsed? ==> pos < r.pos && r.v != Null
    ensures At(ts, pos).text == "{" ==> r == ParseBlock(ts, pos)
    decreases |ts| - pos, 6
  {
    var t := At(ts, pos);
    if t.text == "{" then ParseBlock(ts, pos)
    else if t.kind == TokReturn then
      match ParseExpression(ts, Next(ts, pos))
      case Failed(m, p) => Failed(m, p)
      case Parsed(v, p) => Parsed(ReturnE(At(ts, p).tag, v), p)
    else
      match ParsePrimary(ts, pos)
      case Failed(m, p) => Failed(m, p)
      case Parsed(lhs, p) => ParseBinOpRHS(ts, p, 0, lhs, "")
  }

  /** `ParseBinOpRHS`: operator-precedence parsing of everything binding at least as
      tightly as `exprPrec`, with calls as a postfix operator. The left operand is
      null after a call failed to parse (`why` then holds that failure): the loop
      goes on, so a null operand can end up inside an operator or call node, and is
      returned as a failure only if nothing more is read. */
  function ParseBinOpRHS(ts: seq<Token>, pos: nat, exprPrec: int, lhs: Expr, why: string): (r: Parsing<Expr>)
    requires pos <= |ts| && exprPrec >= 0
    ensures Within(ts, pos, r)
    ensures r.Parsed? ==> r.v != Null && Prec(At(ts, r.pos).text) < exprPrec
    ensures r.Parsed? ==> r.v == lhs || r.v.BinaryE? || r.v.CallE?
    ensures Prec(At(ts, pos).text) < exprPrec ==>
      r == if lhs == Null then Failed(why, pos) else Parsed(lhs, pos)
    decreases |ts| - pos, 5
  {
    var t := At(ts, pos);
    var tokPrec := Prec(t.text);
    if tokPrec < exprPrec then
      if lhs == Null then Failed(why, pos) else Parsed(lhs, pos)
    else if t.text == "(" then
      match ParseCall(ts, pos, lhs)
      case Failed(m, p) => ParseBinOpRHS(ts, p, exprPrec, Null, m)
      case Parsed(e, p) => ParseBinOpRHS(ts, p, exprPrec, e, why)
    else
      var binop := t.text;
      match ParsePrimary(ts, Next(ts, pos))
      case Failed(m, p) => Failed(m, p)
      case Parsed(rhs, p2) =>
        if tokPrec < Prec(At(ts, p2).text) then
          match ParseBinOpRHS(ts, p2, tokPrec + 1, rhs, "")
          case Failed(m, p3) => Failed(m, p3)
          case Parsed(rhs2, p3) =>
            ParseBinOpRHS(ts, p3, exprPrec, BinaryE(At(ts, p3).tag, binop, lhs, rhs2), why)
        else
          ParseBinOpRHS(ts, p2, exprPrec, BinaryE(At(ts, p2).tag, binop, lhs, rhs), why)
  }

  /** `ParseCall`: '(' then, unless ')' follows at once, expressions separated by ','
      up to ')'. The '(' is read even when the call then fails. */
  function ParseCall(ts: seq<Token>, pos: nat, callee: Expr): (r: Parsing<Expr>)
    requires pos <= |ts|
    ensures Within(ts, pos, r)
    ensures pos < |ts| ==> pos < r.pos
    ensures r.Parsed? ==> r.v.CallE? && r.v.callee == callee
    ensures r.Parsed? && At(ts, Next(ts, pos)).text == ")" ==> r.v.args == []
    decreases |ts| - pos, if pos < |ts| then 0 else 8
  {
    var p := Next(ts, pos);
    var args := if At(ts, p).text != ")" then CallArgs(ts, p) else Parsed([], p);
    match args
    case Failed(m, q) => Failed(m, q)
    case Parsed(as_, q) =>
      var q2 := Next(ts, q);
      Parsed(CallE(At(ts, q2).tag, callee, as_), q2)
  }

  /** The arguments of a call, up to (not past) the ')'. */
  function CallArgs(ts: seq<Token>, pos: nat): (r: Parsing<seq<Expr>>)
    requires pos <= |ts|
    ensures Moved(ts, pos, r)
    ensures r.Parsed? ==> |r.v| > 0 && At(ts, r.pos).text == ")"
    ensures r.Parsed? ==> forall i :: 0 <= i < |r.v| ==> r.v[i] != Null
    decreases |ts| - pos, 7
  {
    match ParseExpression(ts, pos)
    case Failed(m, p) => Failed(m, p)
    case Parsed(a, p) =>
      if At(ts, p).text == ")" then Parsed([a], p)
      else if At(ts, p).text != "," then Failed("Expected ')' or ',' in parameter list.", p)
      else
        match CallArgs(ts, Next(ts, p))
        case Failed(m, q) => Failed(m, q)
        case Parsed(rest, q) => Parsed([a] + rest, q)
  }

  /** `ParseBlock`: the current token is read as if it were '{' (whatever it is), then
      expressions, each optionally followed by ';', up to '}'. */
  function ParseBlock(ts: seq<Token>, pos: nat): (r: Parsing<Expr>)
    requires pos <= |ts|
    ensures Within(ts, pos, r)
    ensures pos < |ts| ==> pos < r.pos
    ensures r.Parsed? ==> r.v.BlockE? && forall i :: 0 <= i < |r.v.body| ==> r.v.body[i] != Null
    decreases |ts| - pos, if pos < |ts| then 0 else 8
  {
    match BlockItems(ts, Next(ts, pos))
    case Failed(m, q) => Failed(m, q)
    case Parsed(items, q) =>
      var q2 := Next(ts, q);
      Parsed(BlockE(At(ts, q2).tag, items), q2)
  }

  /** The expressions of a block, up to (not past) the '}'. */
  function BlockItems(ts: seq<Token>, pos: nat): (r: Parsing<seq<Expr>>)
    requires pos <= |ts|
    ensures Within(ts, pos, r)
    ensures r.Parsed? ==> At(ts, r.pos).text == "}" && forall i :: 0 <= i < |r.v| ==> r.v[i] != Null
    ensures At(ts, pos).text == "}" ==> r == Parsed([], pos)
    decreases |ts| - pos, 7
  {
    if At(ts, pos).text == "}" then Parsed([], pos)
    else
      match ParseExpression(ts, pos)
      case Failed(m, p) => Failed(m, p)
      case Parsed(e, p) =>
        var p2 := if At(ts, p).text == ";" then Next(ts, p) else p;
        match BlockItems(ts, p2)
        case Failed(m, q) => Failed(m, q)
        case Parsed(rest, q) => Parsed([e] + rest, q)
  }

  // ---------------------------------------------------------------------------
  // Top-level forms

  /** The dotted path of an import: identifiers separated by '.'. The loop stops after
      an identifier not followed by '.', or at a token that is not an identifier (a
      trailing '.' is then consumed). */
  function ImportPath(ts: seq<Token>, pos: nat): (r: (seq<string>, nat))
    requires pos <= |ts|
    ensures pos <= r.1 <= |ts|
    ensures |r.0| == 0 <==> At(ts, pos).kind != TokIdentifier
    ensures |r.0| > 0 ==> r.0[0] == At(ts, pos).text && pos < r.1
    ensures |r.0| == 0 ==> r.1 == pos
    decreases |ts| - pos
  {
    if At(ts, pos).kind != TokIdentifier then ([], pos)
    else
      var p := Next(ts, pos);
      if At(ts, p).text == "." then
        var rest := ImportPath(ts, Next(ts, p));
        ([At(ts, pos).text] + rest.0, rest.1)
      else ([At(ts, pos).text], p)
  }

  /** `ParseImport`: `import`, a path, and optionally `as` and an alias; the alias
      defaults to the last path segment. */
  function ParseImport(ts: seq<Token>, pos: nat): (r: Parsing<Import>)
    requires pos <= |ts|
    ensures Moved(ts, pos, r)
    ensures r.Parsed? ==> r.v.tag == At(ts, pos).tag
    ensures r.Parsed? ==> r.v.path == ImportPath(ts, Next(ts, pos)).0 && |r.v.path| > 0
    ensures r.Parsed? && At(ts, ImportPath(ts, Next(ts, pos)).1).kind != TokAs ==>
      r.v.alias == r.v.path[|r.v.path| - 1]
    ensures r.Parsed? && At(ts, ImportPath(ts, Next(ts, pos)).1).kind == TokAs ==>
      r.v.alias == At(ts, Next(ts, ImportPath(ts, Next(ts, pos)).1)).text
    ensures At(ts, Next(ts, pos)).kind != TokIdentifier ==>
      r == Failed("Expected package identifier after 'import'.", Next(ts, pos))
    ensures var (path, p) := ImportPath(ts, Next(ts, pos));
      |path| > 0 && At(ts, p).kind == TokAs && At(ts, Next(ts, p)).kind != TokIdentifier ==>
        r == Failed("Expected identifier after 'as'.", Next(ts, p))
  {
    var tag := At(ts, pos).tag;
    var (path, p) := ImportPath(ts, Next(ts, pos));
    if |path| == 0 then Failed("Expected package identifier after 'import'.", p)
    else if At(ts, p).kind == TokAs then
      var p2 := Next(ts, p);
      if At(ts, p2).kind != TokIdentifier then Failed("Expected identifier after 'as'.", p2)
      else Parsed(Import(tag, path, At(ts, p2).text), Next(ts, p2))
    else Parsed(Import(tag, path, path[|path| - 1]), p)
  }

  const RedundantExternType := "Redundant definition of extern type"

  /** `ParseDefinition`: `let name : type = value`, `let name = prototype block`, or
      `let name = value`. The definition carries the tag of the `let`. */
  function ParseDefinition(ts: seq<Token>, pos: nat): (r: Parsing<Def>)
    requires pos <= |ts|
    ensures Moved(ts, pos, r)
    ensures r.Parsed? ==> r.v.tag == At(ts, pos).tag && r.v.name == At(ts, Next(ts, pos)).text
    ensures r.Parsed? ==> At(ts, Next(ts, pos)).kind == TokIdentifier && r.v.val != Null
    ensures r.Parsed? && r.v.ty.Some? && r.v.val.ExternE? ==> r.v.val.ety == r.v.ty
  {
    var tag := At(ts, pos).tag;
    var p := Next(ts, pos);
    if At(ts, p).kind != TokIdentifier then Failed("Expected identifier after 'let'.", p)
    else
      var name := At(ts, p).text;
      var p2 := Next(ts, p);
      if At(ts, p2).text == ":" then TypedDefinition(ts, Next(ts, p2), tag, name)
      else if At(ts, p2).text == "=" then
        var p3 := Next(ts, p2);
        if At(ts, p3).text == "(" then FunctionDefinition(ts, p3, tag, name)
        else
          match ParseExpression(ts, p3)
          case Failed(m, q) => Failed(m, q)
          case Parsed(val, q) => Parsed(Def(tag, None, name, val), q)
      else Failed("Expected either ': type' or '= expression' after 'let " + name + "'.", p2)
  }

  /** `let name : type = value`, from the type on. An extern value takes the declared
      type; one that has its own type is an error. */
  function TypedDefinition(ts: seq<Token>, pos: nat, tag: FTag, name: string): (r: Parsing<Def>)
    requires pos <= |ts|
    ensures Within(ts, pos, r)
    ensures r.Parsed? ==> r.v.tag == tag && r.v.name == name && r.v.ty.Some? && r.v.val != Null
    ensures r.Parsed? && r.v.val.ExternE? ==> r.v.val.ety == r.v.ty
  {
    match ParseType(ts, pos)
    case Failed(m, q) => Failed(m, q)
    case Parsed(ty, q) =>
      if At(ts, q).text != "=" then Failed("Expected '= expression' in 'let'.", q)
      else
        match ParseExpression(ts, Next(ts, q))
        case Failed(m, q2) => Failed(m, q2)
        case Parsed(val, q2) =>
          if val.ExternE? then
            if val.ety.Some? then Failed(RedundantExternType, q2)
            else Parsed(Def(tag, Some(ty), name, val.(ety := Some(ty))), q2)
          else Parsed(Def(tag, Some(ty), name, val), q2)
  }

  /** `let name = prototype block`, from the '(' on: a '(' after `let name =` always
      starts a prototype, so a value in parentheses is not accepted. The block follows
      the prototype directly; the token after the prototype is read as its '{'
      whatever it is. The function literal carries the tag of the `let`. */
  function FunctionDefinition(ts: seq<Token>, pos: nat, tag: FTag, name: string): (r: Parsing<Def>)
    requires pos <= |ts|
    ensures Within(ts, pos, r)
    ensures r.Parsed? ==> r.v.tag == tag && r.v.name == name && r.v.val.FuncE? && r.v.val.tag == tag
    ensures r.Parsed? ==> r.v.ty == Some(FuncTy(r.v.val.params, r.v.val.ret)) && r.v.val.code.BlockE?
  {
    match ParsePrototype(ts, pos)
    case Failed(m, q) => Failed(m, q)
    case Parsed(fty, q) =>
      match ParseBlock(ts, q)
      case Failed(m, q2) => Failed(m, q2)
      case Parsed(code, q2) => Parsed(Def(tag, Some(fty), name, FuncE(tag, fty.args, fty.ret, code)), q2)
  }
}

=== FILE: v1_parser_facts.dfy ===
/** Properties of the first pipeline's parser: its precedence table, the shapes it
    gives operator chains, and the inputs where it differs from what its grammar
    comments describe. */
module V1ParserFacts {
  import opened Wrappers
  import opened Text
  import opened V1Lexer
  import opened V1Ast
  import opened V1Parser

  const NoTag := FTag("", 1)

  function Id(name: string): Token {
    Token(TokIdentifier, name, "", NoTag)
  }

  function Op(text: string): Token {
    Token(TokOperator, text, "", NoTag)
  }

  function Kw(kind: TokKind, text: string): Token {
    Token(kind, text, "", NoTag)
  }

  function Var(name: string): Expr {
    VarE(NoTag, name)
  }

  // ---------------------------------------------------------------------------
  // The precedence table

  /** The levels, tightest first: '.', call, multiplicative, additive, relational. */
  lemma PrecedenceLevels()
    ensures Prec(".") == 120 && Prec("(") == 100
    ensures Prec("*") == 60 && Prec("/") == 60 && Prec("%") == 60
    ensures Prec("+") == 50 && Prec("-") == 50
    ensures Prec("<") == 30 && Prec(">") == 30 && Prec("<=") == 30 && Prec(">=") == 30
    ensures Prec("==") == 30 && Prec("!=") == 30
  {
  }

  /** '=', ':', '@' and '!' are not operators here, and neither are the logical
      operators, given that the undeclared `setBiopPrec` leaves the table alone; so each
      of them ends an expression. */
  lemma Terminators()
    ensures Prec("=") == -1 && Prec(":") == -1 && Prec("@") == -1 && Prec("!") == -1
    ensures Prec("||") == -1 && Prec("&&") == -1
    ensures Prec("") == -1 && Prec(")") == -1 && Prec(",") == -1 && Prec(";") == -1
    ensures Prec("->") == -1 && Prec("}") == -1
  {
  }

  /** An operator token parsed from an expression that does not bind is left for the
      caller: `x = y` parses as `x`, with the '=' still ahead. */
  lemma ExpressionStopsAtTerminator(x: string, op: string, y: string)
    requires x != "{" && Prec(op) == -1 && op != "("
    ensures ParseExpression([Id(x), Op(op), Id(y)], 0) == Parsed(Var(x), 1)
  {
    var ts := [Id(x), Op(op), Id(y)];
    NamePrimary(ts, 0);
    ExpressionOfOperand(ts, 0, Var(x), 1);
  }

  // ---------------------------------------------------------------------------
  // Operator-precedence parsing

  /** Nothing binds at the end of input. */
  lemma EndHasNoPrec(ts: seq<Token>, i: nat)
    requires i >= |ts|
    ensures Prec(At(ts, i).text) == -1
  {
    assert At(ts, i).text == "";
    assert "" !in V1Precedences;
  }

  /** A name in operand position is a variable reference tagged with the next token. */
  lemma NamePrimary(ts: seq<Token>, i: nat)
    requires i < |ts| && ts[i].kind == TokIdentifier
    ensures ParsePrimary(ts, i) == Parsed(VarE(At(ts, i + 1).tag, ts[i].text), i + 1)
  {
  }

  /** An expression that starts with an operand is that operand followed by the
      operator loop at the lowest level. */
  lemma ExpressionOfOperand(ts: seq<Token>, pos: nat, e: Expr, p: nat)
    requires pos < |ts| && ts[pos].text != "{" && ts[pos].kind != TokReturn
    requires ParsePrimary(ts, pos) == Parsed(e, p)
    ensures p <= |ts| && ParseExpression(ts, pos) == ParseBinOpRHS(ts, p, 0, e, "")
  {
  }

  /** `return` is followed by an expression, whose failure is the return's failure. */
  lemma ReturnStep(ts: seq<Token>, pos: nat)
    requires pos + 1 <= |ts| && pos < |ts| && ts[pos].kind == TokReturn && ts[pos].text != "{"
    ensures var v := ParseExpression(ts, pos + 1);
      ParseExpression(ts, pos) == if v.Failed? then v else Parsed(ReturnE(At(ts, v.pos).tag, v.v), v.pos)
  {
  }

  /** One operator step whose right operand nothing after it takes away: the operator
      node is built and the loop goes on after the operand. */
  lemma OperatorStep(ts: seq<Token>, pos: nat, exprPrec: int, lhs: Expr, why: string, rhs: Expr)
    requires pos + 1 < |ts| && ts[pos].text != "("
    requires ParsePrimary(ts, pos + 1) == Parsed(rhs, pos + 2)
    requires 0 <= exprPrec <= Prec(ts[pos].text) && Prec(At(ts, pos + 2).text) <= Prec(ts[pos].text)
    ensures ParseBinOpRHS(ts, pos, exprPrec, lhs, why) ==
      ParseBinOpRHS(ts, pos + 2, exprPrec, BinaryE(At(ts, pos + 2).tag, ts[pos].text, lhs, rhs), why)
  {
  }

  /** A '(' in operator position is a call; the loop goes on after it, with a null
      left operand and the call's message when the call failed. */
  lemma CallStep(ts: seq<Token>, pos: nat, exprPrec: int, lhs: Expr, why: string)
    requires pos < |ts| && ts[pos].text == "(" && 0 <= exprPrec <= 100
    ensures var c := ParseCall(ts, pos, lhs);
      ParseBinOpRHS(ts, pos, exprPrec, lhs, why) ==
        if c.Failed? then ParseBinOpRHS(ts, c.pos, exprPrec, Null, c.msg)
        else ParseBinOpRHS(ts, c.pos, exprPrec, c.v, why)
  {
    assert Prec("(") == 100;
  }

  /** Operators of one level group to the left: `x o1 y o2 z` is `(x o1 y) o2 z`. */
  lemma SameLevelGroupsLeft(x: string, o1: string, y: string, o2: string, z: string)
    requires x != "{" && Prec(o1) > 0 && Prec(o1) == Prec(o2) && o1 != "(" && o2 != "("
    ensures ParseExpression([Id(x), Op(o1), Id(y), Op(o2), Id(z)], 0) ==
      Parsed(BinaryE(NoTag, o2, BinaryE(NoTag, o1, Var(x), Var(y)), Var(z)), 5)
  {
    var ts := [Id(x), Op(o1), Id(y), Op(o2), Id(z)];
    var b1 := BinaryE(NoTag, o1, Var(x), Var(y));
    EndHasNoPrec(ts, 5);
    NamePrimary(ts, 0);
    NamePrimary(ts, 2);
    NamePrimary(ts, 4);
    ExpressionOfOperand(ts, 0, Var(x), 1);
    OperatorStep(ts, 1, 0, Var(x), "", Var(y));
    OperatorStep(ts, 3, 0, b1, "", Var(z));
  }

  /** A tighter operator on the right takes the middle operand: `x o1 y o2 z` is
      `x o1 (y o2 z)` when `o2` binds more tightly. */
  lemma TighterGroupsRight(x: string, o1: string, y: string, o2: string, z: string)
    requires x != "{" && 0 < Prec(o1) < Prec(o2) && o1 != "(" && o2 != "("
    ensures ParseExpression([Id(x), Op(o1), Id(y), Op(o2), Id(z)], 0) ==
      Parsed(BinaryE(NoTag, o1, Var(x), BinaryE(NoTag, o2, Var(y), Var(z))), 5)
  {
    var ts := [Id(x), Op(o1), Id(y), Op(o2), Id(z)];
    var b2 := BinaryE(NoTag, o2, Var(y), Var(z));
    EndHasNoPrec(ts, 5);
    NamePrimary(ts, 0);
    NamePrimary(ts, 2);
    NamePrimary(ts, 4);
    ExpressionOfOperand(ts, 0, Var(x), 1);
    OperatorStep(ts, 3, Prec(o1) + 1, Var(y), "", Var(z));
    assert ParseBinOpRHS(ts, 3, Prec(o1) + 1, Var(y), "") == Parsed(b2, 5);
  }

  /** A call binds like an operator: `f(x) + y` is a call then an addition. */
  lemma CallThenOperator(f: string, x: string, op: string, y: string)
    requires f != "{" && x != "{" && x != ")" && 0 < Prec(op) && op != "("
    ensures ParseExpression([Id(f), Op("("), Id(x), Op(")"), Op(op), Id(y)], 0) ==
      Parsed(BinaryE(NoTag, op, CallE(NoTag, Var(f), [Var(x)]), Var(y)), 6)
  {
    var ts := [Id(f), Op("("), Id(x), Op(")"), Op(op), Id(y)];
    var call := CallE(NoTag, Var(f), [Var(x)]);
    assert Prec(")") == -1 by {
      assert ")" !in V1Precedences;
    }
    EndHasNoPrec(ts, 6);
    NamePrimary(ts, 0);
    NamePrimary(ts, 2);
    NamePrimary(ts, 5);
    ExpressionOfOperand(ts, 0, Var(f), 1);
    ExpressionOfOperand(ts, 2, Var(x), 3);
    assert ParseExpression(ts, 2) == Parsed(Var(x), 3);
    assert CallArgs(ts, 2) == Parsed([Var(x)], 3);
    assert ParseCall(ts, 1, Var(f)) == Parsed(call, 4);
    CallStep(ts, 1, 0, Var(f), "");
    OperatorStep(ts, 4, 0, call, "", Var(y));
  }

  /** A token that cannot start an expression is reported and consumed. */
  lemma UnknownPrimaryConsumed(ts: seq<Token>, pos: nat)
    requires pos < |ts|
    requires ts[pos].kind !in {TokExtern, TokIdentifier, TokTrue, TokFalse, TokInt, TokFloat}
    requires ts[pos].text != "("
    ensures ParsePrimary(ts, pos) ==
      Failed("Unknown token '" + ts[pos].text + "' when expecting an expression.", pos + 1)
  {
  }

  /** There is no bare `return`: in `return }` the '}' is read as the value, which
      fails past the '}'. */
  lemma BareReturnRejected(t: Token)
    requires t.kind !in {TokExtern, TokIdentifier, TokTrue, TokFalse, TokInt, TokFloat, TokReturn}
    requires t.text != "(" && t.text != "{"
    ensures ParseExpression([Kw(TokReturn, "return"), t], 0) ==
      Failed("Unknown token '" + t.text + "' when expecting an expression.", 2)
  {
    var ts := [Kw(TokReturn, "return"), t];
    var msg := "Unknown token '" + t.text + "' when expecting an expression.";
    UnknownPrimaryConsumed(ts, 1);
    assert ParsePrimary(ts, 1) == Failed(msg, 2);
    assert ParseExpression(ts, 1) == Failed(msg, 2);
    ReturnStep(ts, 0);
  }

  /** After a call that fails to parse, the operator loop goes on with a null left
      operand: in `f({} + 1)` the argument list fails on '+', and the rest, `+ 1`,
      becomes an addition whose left operand is null. The parse succeeds and leaves the
      ')' unread. */
  lemma FailedCallLeavesNullOperand()
    ensures var ts := [Id("f"), Op("("), Op("{"), Op("}"), Op("+"), Token(TokInt, "1", "1", NoTag), Op(")")];
      ParseExpression(ts, 0) == Parsed(BinaryE(NoTag, "+", Null, IntE(NoTag, 1)), 6)
  {
    var ts := [Id("f"), Op("("), Op("{"), Op("}"), Op("+"), Token(TokInt, "1", "1", NoTag), Op(")")];
    assert ts[5].IntVal() == 1 by {
      assert DigitRun("1") == 1;
      assert "1"[..1] == "1";
    }
    assert ParsePrimary(ts, 5) == Parsed(IntE(NoTag, 1), 6);
    FailedCallThenOperator(ts, IntE(NoTag, 1));
  }

  /** The shape `f ( { } + operand )`, whatever the tokens carry besides their text. */
  lemma FailedCallThenOperator(ts: seq<Token>, one: Expr)
    requires |ts| == 7 && ts[0].kind == TokIdentifier && ts[0].text != "{"
    requires ts[1].text == "(" && ts[2].text == "{" && ts[3].text == "}" && ts[4].text == "+" && ts[6].text == ")"
    requires ParsePrimary(ts, 5) == Parsed(one, 6)
    ensures ParseExpression(ts, 0) == Parsed(BinaryE(ts[6].tag, "+", Null, one), 6)
  {
    var msg := "Expected ')' or ',' in parameter list.";
    var f := VarE(ts[1].tag, ts[0].text);
    assert Prec(")") == -1 by {
      assert ")" !in V1Precedences;
    }
    assert Prec("+") == 50;
    NamePrimary(ts, 0);
    ExpressionOfOperand(ts, 0, f, 1);
    EmptyBlock(ts, 2);
    ArgsStopAt(ts, 2, BlockE(ts[4].tag, []), 4);
    CallFails(ts, 1, f);
    CallStep(ts, 1, 0, f, "");
    OperatorStep(ts, 4, 0, Null, msg, one);
  }

  /** `{}`: an empty block, tagged with the token after the '}'. */
  lemma EmptyBlock(ts: seq<Token>, pos: nat)
    requires pos + 1 < |ts| && ts[pos + 1].text == "}"
    ensures ParseBlock(ts, pos) == Parsed(BlockE(At(ts, pos + 2).tag, []), pos + 2)
  {
  }

  /** An argument followed by neither ')' nor ',' fails the argument list there. */
  lemma ArgsStopAt(ts: seq<Token>, pos: nat, a: Expr, p: nat)
    requires pos <= |ts| && ParseExpression(ts, pos) == Parsed(a, p)
    requires At(ts, p).text != ")" && At(ts, p).text != ","
    ensures CallArgs(ts, pos) == Failed("Expected ')' or ',' in parameter list.", p)
  {
  }

  /** A call whose argument list fails fails with it. */
  lemma CallFails(ts: seq<Token>, pos: nat, callee: Expr)
    requires pos + 1 < |ts| && ts[pos + 1].text != ")" && CallArgs(ts, pos + 1).Failed?
    ensures ParseCall(ts, pos, callee) == Failed(CallArgs(ts, pos + 1).msg, CallArgs(ts, pos + 1).pos)
  {
  }

  /** A failed call with nothing after it is a failure with the call's message. */
  lemma FailedCallAtEndFails(ts: seq<Token>, pos: nat, lhs: Expr, why: string)
    requires pos < |ts| && ts[pos].text == "(" && ParseCall(ts, pos, lhs).Failed?
    requires Prec(At(ts, ParseCall(ts, pos, lhs).pos).text) < 0
    ensures ParseBinOpRHS(ts, pos, 0, lhs, why) == Failed(ParseCall(ts, pos, lhs).msg, ParseCall(ts, pos, lhs).pos)
  {
  }

  // ---------------------------------------------------------------------------
  // Types and prototypes

  /** A prototype needs '->' after its argument list. */
  lemma ArrowRequired(t: Token)
    requires t.text != "->"
    ensures ParsePrototype([Op("("), Op(")"), t], 0) ==
      Failed("Invalid prototype : was expecting '->', not '" + t.text + "'.", 2)
  {
  }

  /** When '{' follows the arrow the return type is void and the '{' stays unread. */
  lemma VoidBeforeBrace()
    ensures ParsePrototype([Op("("), Op(")"), Op("->"), Op("{")], 0) == Parsed(FuncTy([], Base(VoidK)), 3)
  {
  }

  /** A named argument and a return type. */
  lemma PrototypeWithArgument(x: string)
    requires x != ")"
    ensures ParsePrototype([Op("("), Id(x), Op(":"), Id("int"), Op(")"), Op("->"), Id("float")], 0) ==
      Parsed(FuncTy([FuncArg(x, Base(IntK))], Base(FloatK)), 7)
  {
    var ts := [Op("("), Id(x), Op(":"), Id("int"), Op(")"), Op("->"), Id("float")];
    assert ParseType(ts, 3) == Parsed(Base(IntK), 4);
    assert ParseFuncArg(ts, 1) == Parsed(FuncArg(x, Base(IntK)), 4);
    assert ProtoArgs(ts, 1) == Parsed([FuncArg(x, Base(IntK))], 4);
    assert ParseType(ts, 6) == Parsed(Base(FloatK), 7);
  }

  /** The base type a type name denotes. */
  function NamedBase(name: string): BaseKind {
    match name
    case "void" => VoidK
    case "bool" => BoolK
    case "int" => IntK
    case _ => FloatK
  }

  /** Only void, bool, int, float and prototypes are types. */
  lemma OnlyBaseTypesAndPrototypes(ts: seq<Token>, pos: nat)
    requires pos <= |ts| && ParseType(ts, pos).Parsed?
    ensures At(ts, pos).text in {"void", "bool", "int", "float", "("}
    ensures ParseType(ts, pos).v.Base? ==> ParseType(ts, pos).v.kind == NamedBase(At(ts, pos).text)
  {
  }

  /** A type that fails to parse after `extern s :` is reported and dropped: the extern
      is kept without a type, at the token where the type failed. */
  lemma ExternBadTypeSwallowed(s: string, t: Token)
    requires t.text !in {"void", "bool", "int", "float", "("}
    ensures ParseExtern([Kw(TokExtern, "extern"), Id(s), Op(":"), t], 0) == Parsed(ExternE(t.tag, None, s), 3)
  {
    var ts := [Kw(TokExtern, "extern"), Id(s), Op(":"), t];
    assert ParseType(ts, 3) == Failed("Invalid type definiton, starting by '" + t.text + "'.", 3);
  }

  // ---------------------------------------------------------------------------
  // Definitions

  /** `let name :` starts a typed definition. */
  lemma LetTyped(ts: seq<Token>, pos: nat)
    requires pos + 2 < |ts| && ts[pos + 1].kind == TokIdentifier && ts[pos + 2].text == ":"
    ensures ParseDefinition(ts, pos) == TypedDefinition(ts, pos + 3, ts[pos].tag, ts[pos + 1].text)
  {
  }

  /** The value of a typed definition, once its type and '=' are read. */
  lemma TypedValue(ts: seq<Token>, pos: nat, tag: FTag, name: string, ty: Ty, q: nat, val: Expr, q2: nat)
    requires pos <= |ts| && ParseType(ts, pos) == Parsed(ty, q) && At(ts, q).text == "="
    requires q < |ts| && ParseExpression(ts, q + 1) == Parsed(val, q2)
    ensures val.ExternE? && val.ety.None? ==>
      TypedDefinition(ts, pos, tag, name) == Parsed(Def(tag, Some(ty), name, val.(ety := Some(ty))), q2)
    ensures val.ExternE? && val.ety.Some? ==>
      TypedDefinition(ts, pos, tag, name) == Failed(RedundantExternType, q2)
  {
  }

  /** An extern alone is an expression: nothing after it binds. */
  lemma ExternExpression(ts: seq<Token>, pos: nat, e: Expr, p: nat)
    requires pos < |ts| && ts[pos].kind == TokExtern && ts[pos].text != "{"
    requires ParseExtern(ts, pos) == Parsed(e, p) && p >= |ts|
    ensures ParseExpression(ts, pos) == Parsed(e, p)
  {
    assert ParsePrimary(ts, pos) == Parsed(e, p);
    EndHasNoPrec(ts, p);
  }

  /** `let x : int = extern s`: the extern receives the declared type. */
  lemma ExternTakesDeclaredType(x: string, s: string)
    ensures ParseDefinition([Kw(TokLet, "let"), Id(x), Op(":"), Id("int"), Op("="), Kw(TokExtern, "extern"), Id(s)], 0) ==
      Parsed(Def(NoTag, Some(Base(IntK)), x, ExternE(NoTag, Some(Base(IntK)), s)), 7)
  {
    var ts := [Kw(TokLet, "let"), Id(x), Op(":"), Id("int"), Op("="), Kw(TokExtern, "extern"), Id(s)];
    TypedExternShape(ts);
  }

  /** The shape `let x : int = extern s`, whatever the tokens carry besides their
      kind and text. */
  lemma TypedExternShape(ts: seq<Token>)
    requires |ts| == 7 && ts[1].kind == TokIdentifier && ts[2].text == ":" && ts[3].text == "int"
    requires ts[4].text == "=" && ts[5].kind == TokExtern && ts[5].text != "{" && ts[6].kind == TokIdentifier
    ensures ParseDefinition(ts, 0) ==
      Parsed(Def(ts[0].tag, Some(Base(IntK)), ts[1].text, ExternE(ts[6].tag, Some(Base(IntK)), ts[6].text)), 7)
  {
    var ex := ExternE(ts[6].tag, None, ts[6].text);
    assert ParseExtern(ts, 5) == Parsed(ex, 7);
    ExternExpression(ts, 5, ex, 7);
    assert ParseType(ts, 3) == Parsed(Base(IntK), 4);
    TypedValue(ts, 3, ts[0].tag, ts[1].text, Base(IntK), 4, ex, 7);
    LetTyped(ts, 0);
  }

  /** `let x : int = extern s : int` is an error: the extern already has a type. */
  lemma RedundantExternTypeRejected(x: string, s: string)
    ensures ParseDefinition([Kw(TokLet, "let"), Id(x), Op(":"), Id("int"), Op("="), Kw(TokExtern, "extern"), Id(s),
                             Op(":"), Id("int")], 0) == Failed(RedundantExternType, 9)
  {
    var ts := [Kw(TokLet, "let"), Id(x), Op(":"), Id("int"), Op("="), Kw(TokExtern, "extern"), Id(s), Op(":"), Id("int")];
    RedundantExternShape(ts);
  }

  /** The shape `let x : int = extern s : int`. */
  lemma RedundantExternShape(ts: seq<Token>)
    requires |ts| == 9 && ts[1].kind == TokIdentifier && ts[2].text == ":" && ts[3].text == "int"
    requires ts[4].text == "=" && ts[5].kind == TokExtern && ts[5].text != "{" && ts[6].kind == TokIdentifier
    requires ts[7].text == ":" && ts[8].text == "int"
    ensures ParseDefinition(ts, 0) == Failed(RedundantExternType, 9)
  {
    var ex := ExternE(ts[8].tag, Some(Base(IntK)), ts[6].text);
    assert ParseType(ts, 8) == Parsed(Base(IntK), 9);
    assert ParseExtern(ts, 5) == Parsed(ex, 9);
    ExternExpression(ts, 5, ex, 9);
    assert ParseType(ts, 3) == Parsed(Base(IntK), 4);
    TypedValue(ts, 3, ts[0].tag, ts[1].text, Base(IntK), 4, ex, 9);
    LetTyped(ts, 0);
  }

  /** `let x = (1)` is rejected: after `let x =` a '(' starts a prototype, whose first
      argument must be a name. */
  lemma ParenthesisedValueRejected(x: string)
    ensures ParseDefinition([Kw(TokLet, "let"), Id(x), Op("="), Op("("), Token(TokInt, "1", "1", NoTag), Op(")")], 0) ==
      Failed("Expected identifier for argument name.", 4)
  {
    var ts := [Kw(TokLet, "let"), Id(x), Op("="), Op("("), Token(TokInt, "1", "1", NoTag), Op(")")];
    var msg := "Expected identifier for argument name.";
    assert ParseFuncArg(ts, 4) == Failed(msg, 4);
    assert ProtoArgs(ts, 4) == Failed(msg, 4);
    assert ParsePrototype(ts, 3) == Failed(msg, 4);
    assert FunctionDefinition(ts, 3, NoTag, x) == Failed(msg, 4);
  }

  /** A function definition: the token after the prototype is taken as the block's
      '{' whatever it is, so `let f = () -> int return }` defines a function with an
      empty body. */
  lemma BlockOpenerNotChecked(f: string, t: Token)
    ensures ParseDefinition([Kw(TokLet, "let"), Id(f), Op("="), Op("("), Op(")"), Op("->"), Id("int"), t, Op("}")], 0) ==
      Parsed(Def(NoTag, Some(FuncTy([], Base(IntK))), f, FuncE(NoTag, [], Base(IntK), BlockE(NoTag, []))), 9)
  {
    var ts := [Kw(TokLet, "let"), Id(f), Op("="), Op("("), Op(")"), Op("->"), Id("int"), t, Op("}")];
    BlockOpenerShape(ts);
  }

  /** The shape `let f = ( ) -> int <any token> }`. */
  lemma BlockOpenerShape(ts: seq<Token>)
    requires |ts| == 9 && ts[1].kind == TokIdentifier && ts[2].text == "=" && ts[3].text == "("
    requires ts[4].text == ")" && ts[5].text == "->" && ts[6].text == "int" && ts[8].text == "}"
    ensures ParseDefinition(ts, 0) ==
      Parsed(Def(ts[0].tag, Some(FuncTy([], Base(IntK))), ts[1].text,
                 FuncE(ts[0].tag, [], Base(IntK), BlockE(ts[8].tag, []))), 9)
  {
    assert ParseType(ts, 6) == Parsed(Base(IntK), 7);
    NoArgPrototype(ts, 3, Base(IntK), 7);
    EmptyBlock(ts, 7);
    FunctionBody(ts, 3, ts[0].tag, ts[1].text, FuncTy([], Base(IntK)), 7, BlockE(ts[8].tag, []), 9);
    LetFunction(ts, 0);
  }

  /** `( ) -> type`: a prototype without arguments. */
  lemma NoArgPrototype(ts: seq<Token>, pos: nat, ret: Ty, q: nat)
    requires pos + 3 < |ts| && ts[pos + 1].text == ")" && ts[pos + 2].text == "->" && ts[pos + 3].text != "{"
    requires ParseType(ts, pos + 3) == Parsed(ret, q)
    ensures ParsePrototype(ts, pos) == Parsed(FuncTy([], ret), q)
  {
  }

  /** `let name = (` starts a function definition. */
  lemma LetFunction(ts: seq<Token>, pos: nat)
    requires pos + 3 < |ts| && ts[pos + 1].kind == TokIdentifier && ts[pos + 2].text == "=" && ts[pos + 3].text == "("
    ensures ParseDefinition(ts, pos) == FunctionDefinition(ts, pos + 3, ts[pos].tag, ts[pos + 1].text)
  {
  }

  /** A function definition is its prototype followed by its body. */
  lemma FunctionBody(ts: seq<Token>, pos: nat, tag: FTag, name: string, fty: Ty, q: nat, code: Expr, q2: nat)
    requires pos <= |ts| && ParsePrototype(ts, pos) == Parsed(fty, q) && q <= |ts|
    requires ParseBlock(ts, q) == Parsed(code, q2)
    ensures fty.FuncTy?
    ensures FunctionDefinition(ts, pos, tag, name) == Parsed(Def(tag, Some(fty), name, FuncE(tag, fty.args, fty.ret, code)), q2)
  {
  }

  /** Whatever the form, a function definition's declared type is the function
      literal's own signature. */
  lemma FunctionDefinitionTyped(ts: seq<Token>, pos: nat)
    requires pos <= |ts| && ParseDefinition(ts, pos).Parsed?
    requires At(ts, Next(ts, Next(ts, pos))).text == "=" && At(ts, Next(ts, Next(ts, Next(ts, pos)))).text == "("
    ensures var d := ParseDefinition(ts, pos).v;
      d.val.FuncE? && d.ty == Some(FuncTy(d.val.params, d.val.ret)) && d.val.code.BlockE?
  {
  }

  // ---------------------------------------------------------------------------
  // Imports

  /** `import a.b` imports path [a, b] under the alias b. */
  lemma ImportDefaultAlias(a: string, b: string)
    ensures ParseImport([Kw(TokImport, "import"), Id(a), Op("."), Id(b)], 0) == Parsed(Import(NoTag, [a, b], b), 4)
  {
    var ts := [Kw(TokImport, "import"), Id(a), Op("."), Id(b)];
    assert ImportPath(ts, 3) == ([b], 4);
    assert [a] + [b] == [a, b];
    assert ImportPath(ts, 1) == ([a, b], 4);
  }

  /** `import a as c` imports path [a] under the alias c. */
  lemma ImportExplicitAlias(a: string, c: string)
    ensures ParseImport([Kw(TokImport, "import"), Id(a), Kw(TokAs, "as"), Id(c)], 0) == Parsed(Import(NoTag, [a], c), 4)
  {
    var ts := [Kw(TokImport, "import"), Id(a), Kw(TokAs, "as"), Id(c)];
    assert ImportPath(ts, 1) == ([a], 2);
  }

  /** `import` must be followed by a name, and `as` by a name. */
  lemma ImportErrors(a: string, t: Token)
    requires t.kind != TokIdentifier
    ensures ParseImport([Kw(TokImport, "import"), t], 0) == Failed("Expected package identifier after 'import'.", 1)
    ensures ParseImport([Kw(TokImport, "import"), Id(a), Kw(TokAs, "as"), t], 0) ==
      Failed("Expected identifier after 'as'.", 3)
  {
    var ts := [Kw(TokImport, "import"), Id(a), Kw(TokAs, "as"), t];
    assert ImportPath(ts, 1) == ([a], 2);
  }
}

=== FILE: v1_printer.dfy ===
/** The debugging printer of the first pipeline (src-v1/prettyprint.cpp). It shares
    the shapes and fixed texts of the main printer for literals, operators, calls,
    blocks, returns, function literals and externs; types print in their own notation.
    Printing a null child would crash `prettyprint`; here the printer answers None. */
module V1Printer {
  import opened Wrappers
  import opened Text
  import opened V1Lexer
  import opened V1Ast
  import P = Printer

  // ---------------------------------------------------------------------------
  // The fixed texts only this printer writes

  const VoidText := P.Fixed("t_void")
  const IntText := P.Fixed("t_int")
  const FloatText := P.Fixed("t_float")
  const UnknownBase := P.Fixed("t_??")
  const ArgOpen := P.Fixed("[")
  const ArgClose := P.Fixed("] ")
  const FuncTyOpen := P.Fixed("func(")
  const Arrow := P.Fixed(" -> ")
  const DefOpen := P.Fixed(" def:")
  const DefAs := P.Fixed(" as:")
  const DefVal := P.Fixed(" val:")

  // ---------------------------------------------------------------------------
  // The printer

  /** `BaseTypeAST::prettyprint`: bool has no branch of its own and prints "t_??". */
  function BaseText(k: BaseKind): string {
    match k
    case VoidK => VoidText
    case IntK => IntText
    case FloatK => FloatText
    case BoolK => UnknownBase
  }

  /** The printed form of a type: base types by name, a function type as "func(",
      each argument as "[name as T] ", then " -> ", the return type and ")". */
  function TyText(t: Ty): (r: string)
    ensures t.Base? ==> StartsWith(r, "t_")
    ensures t.FuncTy? ==> StartsWith(r, "func(") && EndsWith(r, ")")
    decreases t, 1
  {
    match t
    case Base(k) => BaseText(k)
    case FuncTy(args, ret) => FuncTyOpen + P.Concat(ArgTexts(t)) + Arrow + TyText(ret) + P.Close
  }

  /** `FuncArgAST::prettyprint` for every argument of a function type. */
  function ArgTexts(t: Ty): (r: seq<string>)
    requires t.FuncTy?
    ensures |r| == |t.args|
    ensures forall i :: 0 <= i < |t.args| ==> r[i] == ArgOpen + t.args[i].name + P.AsSep + TyText(t.args[i].ty) + ArgClose
    decreases t, 0
  {
    seq(|t.args|, i requires 0 <= i < |t.args| => ArgOpen + t.args[i].name + P.AsSep + TyText(t.args[i].ty) + ArgClose)
  }

  /** Whether printing follows a null pointer: every child of every node is printed. */
  predicate PrintsNull(e: Expr)
    decreases e
  {
    match e
    case Null => true
    case BinaryE(_, _, l, r) => PrintsNull(l) || PrintsNull(r)
    case CallE(_, callee, args) => PrintsNull(callee) || exists i :: 0 <= i < |args| && PrintsNull(args[i])
    case BlockE(_, body) => exists i :: 0 <= i < |body| && PrintsNull(body[i])
    case ReturnE(_, v) => PrintsNull(v)
    case FuncE(_, _, _, code) => PrintsNull(code)
    case _ => false
  }

  /** The printed form of `e`, None where `prettyprint` dereferences a null child. */
  function Show(e: Expr): (r: Option<string>)
    ensures r.Some? <==> !PrintsNull(e)
    decreases e, 1
  {
    match e
    case Null => None
    case BoolE(_, b) => Some(if b then P.TrueText else P.FalseText)
    case IntE(_, n) => Some(P.IntTag + IntToStr(n))
    case FloatE(_, text) => Some(P.FloatTag + text)
    case VarE(_, name) => Some(P.VarTag + name)
    case BinaryE(_, op, l, rhs) =>
      (match (Show(l), Show(rhs))
       case (Some(a), Some(b)) => Some(P.SpOpen + a + (P.Close + op + P.Open) + b + P.CloseSp)
       case _ => None)
    case CallE(_, callee, args) =>
      (match (Show(callee), Shown(e))
       case (Some(c), Some(xs)) => Some(P.CallOpen + c + P.CallMid + Join(xs, P.Comma) + P.CallClose)
       case _ => None)
    case BlockE(_, body) =>
      (match Shown(e)
       case Some(xs) => Some(P.BlockOpen + P.Concat(Lines(xs)) + P.BlockClose)
       case None => None)
    case ReturnE(_, v) => P.Wrap(P.ReturnOpen, Show(v), P.Close)
    case FuncE(_, params, ret, code) => P.Wrap(P.FuncOpen + TyText(FuncTy(params, ret)) + P.FuncSep, Show(code), [])
    case ExternE(_, ety, sym) =>
      Some(P.ExternOpen + sym + P.AsSep + (if ety.None? then P.Unresolved else TyText(ety.value)) + P.ExternClose)
  }

  /** The children a call or a block prints in a row: the arguments or the items. */
  function Row(e: Expr): seq<Expr>
    requires e.CallE? || e.BlockE?
  {
    if e.CallE? then e.args else e.body
  }

  /** The printed arguments of a call or items of a block, when every one prints. */
  function Shown(e: Expr): (r: Option<seq<string>>)
    requires e.CallE? || e.BlockE?
    ensures r.Some? <==> forall i :: 0 <= i < |Row(e)| ==> !PrintsNull(Row(e)[i])
    ensures r.Some? ==> |r.value| == |Row(e)|
    ensures r.Some? ==> forall i :: 0 <= i < |Row(e)| ==> r.value[i] == Show(Row(e)[i]).value
    decreases e, 0
  {
    var xs := Row(e);
    var shown := seq(|xs|, i requires 0 <= i < |xs| => Show(xs[i]));
    assert forall i :: 0 <= i < |xs| ==> (shown[i].Some? <==> !PrintsNull(xs[i]));
    P.AllSome(shown)
  }

  /** Each item of a block on a new line, indented by four spaces. */
  function Lines(xs: seq<string>): (r: seq<string>)
    ensures |r| == |xs| && forall i :: 0 <= i < |xs| ==> r[i] == P.LineStart + xs[i]
  {
    seq(|xs|, i requires 0 <= i < |xs| => P.LineStart + xs[i])
  }

  /** `DefAST::prettyprint`: " def:" name " as:" type (or "[not resolved]") " val:"
      value. */
  function DefText(d: Def): (r: Option<string>)
    ensures r.Some? <==> !PrintsNull(d.val)
  {
    P.Wrap(DefOpen + d.name + DefAs + (if d.ty.None? then P.Unresolved else TyText(d.ty.value)) + DefVal, Show(d.val), [])
  }

  // ---------------------------------------------------------------------------
  // Parentheses in the output

  /** Every name a type prints is free of parentheses. */
  predicate PlainTy(t: Ty)
    decreases t
  {
    match t
    case Base(_) => true
    case FuncTy(args, ret) =>
      PlainTy(ret) && forall i :: 0 <= i < |args| ==> P.NoParen(args[i].name) && PlainTy(args[i].ty)
  }

  /** Every name, operator, literal text and type the printer copies from `e` is free
      of parentheses. */
  predicate Plain(e: Expr)
    decreases e
  {
    match e
    case FloatE(_, text) => P.NoParen(text)
    case VarE(_, name) => P.NoParen(name)
    case BinaryE(_, op, l, r) => P.NoParen(op) && Plain(l) && Plain(r)
    case CallE(_, callee, args) => Plain(callee) && forall i :: 0 <= i < |args| ==> Plain(args[i])
    case BlockE(_, body) => forall i :: 0 <= i < |body| ==> Plain(body[i])
    case ReturnE(_, v) => Plain(v)
    case FuncE(_, params, ret, code) => PlainTy(FuncTy(params, ret)) && Plain(code)
    case ExternE(_, ety, sym) => P.NoParen(sym) && (ety.Some? ==> PlainTy(ety.value))
    case _ => true
  }

  // The balance of each fixed text, one text per lemma.

  lemma VoidTextBal()
    ensures P.Bal(VoidText) == 0
  {
    P.NoParenBal(VoidText);
  }

  lemma IntTextBal()
    ensures P.Bal(IntText) == 0
  {
    P.NoParenBal(IntText);
  }

  lemma FloatTextBal()
    ensures P.Bal(FloatText) == 0
  {
    P.NoParenBal(FloatText);
  }

  lemma UnknownBaseBal()
    ensures P.Bal(UnknownBase) == 0
  {
    P.NoParenBal(UnknownBase);
  }

  lemma ArgOpenBal()
    ensures P.Bal(ArgOpen) == 0
  {
    P.NoParenBal(ArgOpen);
  }

  lemma ArgCloseBal()
    ensures P.Bal(ArgClose) == 0
  {
    P.NoParenBal(ArgClose);
  }

  lemma FuncTyOpenBal()
    ensures P.Bal(FuncTyOpen) == 1
  {
  }

  lemma ArrowBal()
    ensures P.Bal(Arrow) == 0
  {
    P.NoParenBal(Arrow);
  }

  lemma DefOpenBal()
    ensures P.Bal(DefOpen) == 0
  {
    P.NoParenBal(DefOpen);
  }

  lemma DefAsBal()
    ensures P.Bal(DefAs) == 0
  {
    P.NoParenBal(DefAs);
  }

  lemma DefValBal()
    ensures P.Bal(DefVal) == 0
  {
    P.NoParenBal(DefVal);
  }

  lemma BaseTextBal(k: BaseKind)
    ensures P.Bal(BaseText(k)) == 0
  {
    match k
    case VoidK => VoidTextBal();
    case IntK => IntTextBal();
    case FloatK => FloatTextBal();
    case BoolK => UnknownBaseBal();
  }

  /** Sums of zeros are zero. */
  lemma {:induction false} SumZero(xs: seq<int>)
    requires forall i :: 0 <= i < |xs| ==> xs[i] == 0
    ensures P.Sum(xs) == 0
    decreases |xs|
  {
    if |xs| > 0 {
      SumZero(xs[1..]);
    }
  }

  /** A type's printed form balances its parentheses. */
  lemma {:induction false} TyTextBal(t: Ty)
    requires PlainTy(t)
    ensures P.Bal(TyText(t)) == 0
    decreases t, 1
  {
    match t
    case Base(k) => BaseTextBal(k);
    case FuncTy(args, ret) =>
      var xs := ArgTexts(t);
      forall i | 0 <= i < |args| ensures P.Bal(xs[i]) == 0 {
        ArgTextBal(t, i);
      }
      P.BalConcat(xs);
      SumZero(P.Bals(xs));
      TyTextBal(ret);
      FuncTyOpenBal();
      ArrowBal();
      P.CloseBal();
      P.Bal5(FuncTyOpen, P.Concat(xs), Arrow, TyText(ret), P.Close);
  }

  lemma {:induction false} ArgTextBal(t: Ty, i: nat)
    requires t.FuncTy? && PlainTy(t) && i < |t.args|
    ensures P.Bal(ArgTexts(t)[i]) == 0
    decreases t, 0
  {
    var a := t.args[i];
    TyTextBal(a.ty);
    ArgOpenBal();
    ArgCloseBal();
    P.AsSepBal();
    P.NoParenBal(a.name);
    P.Bal5(ArgOpen, a.name, P.AsSep, TyText(a.ty), ArgClose);
  }

  /** Every printable tree with plain names prints with balanced parentheses. */
  lemma {:induction false} ShowBal(e: Expr)
    requires Plain(e) && !PrintsNull(e)
    ensures P.Bal(Show(e).value) == 0
    decreases e, 1
  {
    match e
    case BinaryE(_, _, _, _) => BinaryBal(e);
    case CallE(_, _, _) => CallBal(e);
    case BlockE(_, _) => BlockBal(e);
    case ReturnE(_, _) => ReturnBal(e);
    case FuncE(_, _, _, _) => FuncBal(e);
    case _ => LeafBal(e);
  }

  /** Nodes without children to print. */
  lemma LeafBal(e: Expr)
    requires Plain(e) && !PrintsNull(e)
    requires !e.BinaryE? && !e.CallE? && !e.BlockE? && !e.ReturnE? && !e.FuncE?
    ensures P.Bal(Show(e).value) == 0
  {
    match e
    case BoolE(_, _) =>
      P.TrueTextBal();
      P.FalseTextBal();
    case IntE(_, n) =>
      P.IntToStrPlain(n);
      P.IntTagBal();
      P.BalCat(P.IntTag, IntToStr(n));
    case FloatE(_, text) =>
      P.FloatTagBal();
      P.NoParenBal(text);
      P.BalCat(P.FloatTag, text);
    case VarE(_, name) =>
      P.VarTagBal();
      P.NoParenBal(name);
      P.BalCat(P.VarTag, name);
    case ExternE(_, _, _) => ExternBal(e);
  }

  lemma ExternBal(e: Expr)
    requires e.ExternE? && Plain(e)
    ensures P.Bal(Show(e).value) == 0
  {
    var ty := if e.ety.None? then P.Unresolved else TyText(e.ety.value);
    assert Show(e) == Some(P.ExternOpen + e.sym + P.AsSep + ty + P.ExternClose);
    if e.ety.None? { P.UnresolvedBal(); } else { TyTextBal(e.ety.value); }
    ExternTextBal(e.sym, ty);
  }

  lemma ExternTextBal(sym: string, ty: string)
    requires P.NoParen(sym) && P.Bal(ty) == 0
    ensures P.Bal(P.ExternOpen + sym + P.AsSep + ty + P.ExternClose) == 0
  {
    P.ExternOpenBal();
    P.AsSepBal();
    P.ExternCloseBal();
    P.NoParenBal(sym);
    P.Bal5(P.ExternOpen, sym, P.AsSep, ty, P.ExternClose);
  }

  lemma {:induction false} ReturnBal(e: Expr)
    requires e.ReturnE? && Plain(e) && !PrintsNull(e)
    ensures P.Bal(Show(e).value) == 0
    decreases e, 0
  {
    ShowBal(e.val);
    P.ReturnOpenBal();
    P.CloseBal();
    P.Bal3(P.ReturnOpen, Show(e.val).value, P.Close);
  }

  lemma {:induction false} FuncBal(e: Expr)
    requires e.FuncE? && Plain(e) && !PrintsNull(e)
    ensures P.Bal(Show(e).value) == 0
    decreases e, 0
  {
    var ft := FuncTy(e.params, e.ret);
    ShowBal(e.code);
    TyTextBal(ft);
    P.FuncOpenBal();
    P.FuncSepBal();
    P.EmptyBal();
    P.Bal3(P.FuncOpen, TyText(ft), P.FuncSep);
    P.Bal3(P.FuncOpen + TyText(ft) + P.FuncSep, Show(e.code).value, []);
  }

  lemma {:induction false} BinaryBal(e: Expr)
    requires e.BinaryE? && Plain(e) && !PrintsNull(e)
    ensures P.Bal(Show(e).value) == 0
    decreases e, 0
  {
    ShowBal(e.lhs);
    ShowBal(e.rhs);
    P.NoParenBal(e.op);
    P.OpenBal();
    P.CloseBal();
    P.CloseSpBal();
    P.SpOpenBal();
    P.Bal3(P.Close, e.op, P.Open);
    P.Bal5(P.SpOpen, Show(e.lhs).value, P.Close + e.op + P.Open, Show(e.rhs).value, P.CloseSp);
  }

  lemma {:induction false} CallBal(e: Expr)
    requires e.CallE? && Plain(e) && !PrintsNull(e)
    ensures P.Bal(Show(e).value) == 0
    decreases e, 0
  {
    ShowBal(e.callee);
    var xs := Shown(e).value;
    forall i | 0 <= i < |e.args| ensures P.Bal(xs[i]) == 0 {
      ShowBal(e.args[i]);
    }
    P.CommaBal();
    P.BalJoin(xs, P.Comma);
    SumZero(P.Bals(xs));
    P.CallOpenBal();
    P.CallMidBal();
    P.CallCloseBal();
    P.Bal5(P.CallOpen, Show(e.callee).value, P.CallMid, Join(xs, P.Comma), P.CallClose);
  }

  lemma {:induction false} BlockBal(e: Expr)
    requires e.BlockE? && Plain(e) && !PrintsNull(e)
    ensures P.Bal(Show(e).value) == 0
    decreases e, 0
  {
    var xs := Shown(e).value;
    var ls := Lines(xs);
    P.LineStartBal();
    forall i | 0 <= i < |e.body| ensures P.Bal(ls[i]) == 0 {
      ShowBal(e.body[i]);
      P.BalCat(P.LineStart, xs[i]);
    }
    P.BalConcat(ls);
    SumZero(P.Bals(ls));
    P.BlockOpenBal();
    P.BlockCloseBal();
    P.Bal3(P.BlockOpen, P.Concat(ls), P.BlockClose);
  }

  /** A definition line balances its parentheses too. */
  lemma DefTextBal(d: Def)
    requires P.NoParen(d.name) && (d.ty.Some? ==> PlainTy(d.ty.value)) && Plain(d.val) && !PrintsNull(d.val)
    ensures P.Bal(DefText(d).value) == 0
  {
    var ty := if d.ty.None? then P.Unresolved else TyText(d.ty.value);
    if d.ty.None? { P.UnresolvedBal(); } else { TyTextBal(d.ty.value); }
    ShowBal(d.val);
    DefOpenBal();
    DefAsBal();
    DefValBal();
    P.EmptyBal();
    P.NoParenBal(d.name);
    P.Bal5(DefOpen, d.name, DefAs, ty, DefVal);
    P.Bal3(DefOpen + d.name + DefAs + ty + DefVal, Show(d.val).value, []);
  }

  // ---------------------------------------------------------------------------
  // Quirks

  /** The base type printer has no branch for bool: bool and an unknown kind read the
      same, and only bool reads "t_??". */
  lemma BoolPrintsUnknown(k: BaseKind)
    ensures TyText(Base(k)) == UnknownBase <==> k == BoolK
  {
  }

  /** There is no guard for a null argument: a call with one does not print at all. */
  lemma NullArgumentNotPrinted(tag: FTag, callee: Expr, args: seq<Expr>, i: nat)
    requires i < |args| && args[i] == Null
    ensures Show(CallE(tag, callee, args)).None?
  {
    assert PrintsNull(args[i]);
  }

  /** The tree left by a failed call in operator position, `(null) + 1`, does not
      print: its left operand is null. */
  lemma NullOperandNotPrinted(tag: FTag, op: string, rhs: Expr)
    ensures Show(BinaryE(tag, op, Null, rhs)).None?
  {
  }
}

=== FILE: wrappers.dfy ===
/** The optional value used wherever the front end keeps a pointer that may be null. */
module Wrappers {

  /** `None` stands for a null pointer, `Some(v)` for a pointer to `v`. */
  datatype Option<+T> = None | Some(value: T) {

    predicate IsFailure() {
      None?
    }

    function PropagateFailure<U>(): Option<U>
      requires None?
    {
      None
    }

    function Extract(): T
      requires Some?
    {
      value
    }

    function GetOr(default: T): T {
      match this
      case Some(v) => v
      case None => default
    }
  }
}
